=== FILE: README.md ===
# JKSN codec model

JKSN is a compact binary serialisation of JSON-like values. Each value starts with a control byte:

- The high nibble names the family: specials, integers, floats, UTF-16LE text, UTF-8 text, blobs, table refreshers, arrays, objects, transposed arrays, deltas, lengthless arrays and pragmas.
- The low nibble holds a small count or selects a wider integer field: one, two or four bytes, or a big-endian base-128 varint.

Every encoder works in three steps:

1. It builds a proxy tree with one node per value.
2. An optimisation pass walks the tree and threads three pieces of state: the last integer written, a 256-slot text table and a blob table.
   - An integer closer to the last one than to zero becomes a delta (family 0xb0) when that is shorter.
   - A payload already in its DJB-hash slot becomes a one-byte back-reference (0x3c for text, 0x5c for blobs).
3. The tree is serialised, optionally after the stream header `jk!`.

The decoder keeps the same three pieces of state while it reads.

The project models three ports.

- **Python** (python/jksn.py) is the reference. Its model covers:
  - the encoder's first pass (`Encoder`) and the optimisation pass (`Optimizer`);
  - proxy serialisation and sizes (`Proxy`);
  - the integer field codecs (`IntCodec`) and the DJB hash (`Djb`);
  - the decoder (`Decoder`).
- **JavaScript** (javascript/jksn.js): `JsEncoder` and `JsDecoder`.
- **Ruby** (ruby/lib/jksn/types.rb, encoder.rb, decoder.rb): `RubyEncoder` and `RubyDecoder`.

All three ports share the value and proxy datatypes. `Optimizer.Rules` selects which port's optimisation pass runs.

The decoders of the JavaScript and Ruby ports, and the Python rules, take a `corrected` switch:

- switched off, the model follows the code as written;
- switched on, it follows the behaviour the rest of the format evidently intends.

Each divergence is listed under "## Findings" with both halves proved.

Some host-library services are parameters of type `Values.Library`, not part of the model: text transcoding, JSON literal parsing, and the conversion of a large JavaScript integer to binary64. `Values.Faithful` states the one assumption the round-trip lemmas make: decoding inverts encoding, and UTF-16 output is a whole number of code units. Floats are opaque bit strings with their classification (NaN, the infinities, binary64).

The main results are these:

- **Round trip.** `ValueRoundTrip.ValueRoundTrip` and `ValueRoundTrip.StreamRoundTrip` prove the whole-value round trip under the corrected rules. Every value the Python encoder accepts comes back equivalent, provided its dicts have hashable keys that are distinct as Python compares them (`True` is the key `1`) and no value is the unspecified marker.
  - The value is encoded by the first pass and by the optimisation pass under the corrected rules, then decoded by the corrected decoder.
  - Decoding consumes exactly the bytes of the value, and both sides' tables stay in agreement (`RoundTrip.Agree`).
  - Equivalence is up to the order of dict keys and up to Python key identity, because a transposed array rebuilds its rows column by column under the first key object of each column.
- **Optimisation pass.** The pass never lengthens a tree, at any depth.
- **JavaScript encoder.** With a count of its own per array, as evidently intended, it throws exactly on the integers its varint path refuses and on an object whose `length` is defined, which it takes for an array. As written, every array shares one undeclared `objlen`, so an array whose last nested array has a different length throws as well (`JsObjlen`). It has one number type: a whole double is written as the integer it equals, and -0 as 0.
- **Ruby encoder.** Apart from its circular-reference check (left out below), building the tree raises exactly on oversized members when no array is transposable, and on the values both ports handle it is the Python tree. Joining the serialised parts can raise as well: a text header byte outside ASCII next to a non-ASCII UTF-8 payload is an encoding clash (`RubyEncoder.TextDumpRaisesIff`).
- **JavaScript decoder.** Its integers are binary64 numbers: they agree with Python's within 2^53 of zero and are rounded beyond.

## Model

| member | source | states |
|---|---|---|
| Values.Lookup | javascript/jksn.js:537-543 | reading an own property: undefined exactly when no pair has the key; otherwise a value stored under it, the only one when keys are distinct |
| Values.Put | javascript/jksn.js:493-514 | `result[key] = value`: an existing property keeps its position and takes the value, a new one is appended, and every other property is unchanged; a `__proto__` key adds and changes nothing |
| Values.PutKeys | javascript/jksn.js:493-514 | after the assignment the property names are the old names plus the key, unless the key is `__proto__`, which leaves them as they were |
| Values.PutDistinct | javascript/jksn.js:493-514 | assignment keeps the property names distinct |
| Values.PutLookup | javascript/jksn.js:493-514 | after the assignment, reading the key yields the value assigned; reading `__proto__` still finds no own property |
| Values.PyKey | python/jksn.py:523-531 | Python's dict key identity: a boolean is the same key as the integer 0 or 1, every other key is itself |
| Values.PyLookup | python/jksn.py:523-531 | `d.get(k)` is absent exactly when no key of `d` is Python-equal to `k`; otherwise it is the value of such a key, the only one when keys are distinct |
| Values.PyPut | python/jksn.py:523-531 | `d[k] = v`: an entry under a Python-equal key keeps its key object and position and takes `v`, otherwise the pair is appended; nothing else changes |
| Values.PyPutKeys | python/jksn.py:523-531 | after `d[k] = v` the Python keys are the old ones plus that of `k` |
| Values.PyPutDistinct | python/jksn.py:523-531 | assignment keeps the Python keys distinct |
| Values.PyPutLookup | python/jksn.py:523-531 | after `d[k] = v`, `d.get(k)` yields `v` |
| Values.BoolUpdatesInt | python/jksn.py:523-531 | assigning `True` to `{1: a}` gives `{1: b}` and `d.get(True)` finds `a`; the same for `False` and `0` |
| IntCodec.Varint | python/jksn.py:367-374 | a varint is non-empty; every byte but the last has its high bit set, and the last does not |
| IntCodec.EncodeInt | python/jksn.py:360-378 | a fixed field has exactly its width; a varint ends with a byte below 0x80 |
| IntCodec.EncodeVarint | python/jksn.py:367-374 | the shift-and-reverse loop computes the closed-form varint |
| IntCodec.DecodeInt | python/jksn.py:661-676 | a fixed field succeeds exactly when enough bytes remain, is below 256^width, and consumes exactly its width; failures are end-of-stream |
| IntCodec.UnsignedToSigned | python/jksn.py:679-680 | the result lies in the signed range and is congruent to the input modulo 2^bits |
| IntCodec.TwosComplement | python/jksn.py:679-680 | the reinterpretation subtracts 2^bits exactly when the sign bit is set |
| IntCodec.UnsignedBigEndian | python/jksn.py:661-676 | reading a big-endian field gives back the number modulo its range |
| IntCodec.VarintRoundTrip | python/jksn.py:661-676 | decoding an encoded varint yields the number and leaves exactly the following bytes |
| IntCodec.ReadVarintFrom | python/jksn.py:661-676 | the varint loop consumes at least one byte, never lowers the accumulated value, and fails only at end-of-stream; its value is stated by IntCodec.VarintRoundTrip |
| IntCodec.FixedRoundTrip | python/jksn.py:661-676 | decoding an encoded fixed field yields the number modulo 256^width and leaves the following bytes |
| IntCodec.SignedRoundTrip | python/jksn.py:679-680 | a number in the signed range of a field survives masking followed by signed reinterpretation |
| Djb.HashIsPolynomial | python/jksn.py:683-693 | the folded eight-bit hash equals iv·33^n + Σ b_i·33^(n-1-i) modulo 256 |
| Djb.HashIncremental | python/jksn.py:683-693 | hashing a concatenation resumes from the hash of the first part (the `iv` argument) |
| Djb.ToInt32 | javascript/jksn.js:639-648 | ToInt32 lands in the 32-bit signed range and keeps the low byte |
| Djb.JsHashLowByte | javascript/jksn.js:639-648 | while every partial sum stays within 2^53 of zero, so that binary64 addition is exact, the JavaScript hash agrees with the eight-bit hash in its low byte |
| Djb.JsHashLowByteOf | javascript/jksn.js:639-648 | for a payload of at most 0x3fffff bytes the sums are never rounded, and the low byte of the JavaScript hash is the eight-bit hash |
| Djb.HashFrom | python/jksn.py:683-693 | the eight-bit hash folded from `iv`; its closed form is Djb.HashIsPolynomial and its resumption Djb.HashIncremental |
| Djb.Hash | python/jksn.py:683-693 | `_djb_hash` from the initial value 0; stated by Djb.HashIsPolynomial |
| Djb.JsHashFrom | javascript/jksn.js:639-648 | `result += (result << 5) + x`, the shift on the 32-bit value and the sum rounded to binary64; stated by Djb.JsHashLowByte |
| Djb.JsHash | javascript/jksn.js:639-648 | `DJBHash` from 0; stated by Djb.JsHashLowByteOf |
| Proxy.Leaf | python/jksn.py:98-102 | a leaf serialises to its control byte, header data and payload, and its payload length is its byte count |
| Proxy.Branch | python/jksn.py:98-102 | a container serialises to its control byte, header data and the serialisation of its children in order |
| Proxy.SerializeAllAppend | python/jksn.py:98-102 | serialising a run of siblings is serialising each part in turn |
| Proxy.SizeIsLength | python/jksn.py:104-108 | `__len__` at any depth ≤ 0 is the length of the serialised tree |
| Proxy.SizeAllIsLength | python/jksn.py:104-108 | the same for a run of siblings |
| Proxy.SizeAtDepthOne | python/jksn.py:104-108 | at depth 1 only the node's own bytes are counted |
| Proxy.Serialize | python/jksn.py:98-102 | the bytes of a node, its own then its children's in order; stated by Proxy.Leaf, Proxy.Branch and Proxy.SerializeAllAppend |
| Proxy.Size | python/jksn.py:104-108 | `__len__(depth)`; stated by Proxy.SizeIsLength and Proxy.SizeAtDepthOne |
| Proxy.Dumps | python/jksn.py:127-140 | the stream is `jk!` and then the tree when the header is requested, otherwise the tree; its length is the tree's size plus the header |
| Encoder.LengthHeader | python/jksn.py:242-252 | counts up to the inline limit sit in the low nibble with no extra bytes; larger counts use the 0x?d..0x?f tiers of the same family |
| Encoder.WideInt | python/jksn.py:205-217 | the one-byte tier is chosen exactly for -128..127; the varint tiers carry the sign in the control byte |
| Encoder.DumpInt | python/jksn.py:205-217 | family 1; control ≤ 0x1a exactly for 0..10, which are inline with no data |
| Encoder.DumpFloat | python/jksn.py:219-225 | family 2; control 0x2c exactly for a binary64, whose eight bytes are the data |
| Encoder.DumpStr | python/jksn.py:227-240 | UTF-16LE (family 3) exactly when it is strictly shorter than UTF-8, otherwise UTF-8 (family 4); the payload is that encoding |
| Encoder.DumpBytes | python/jksn.py:242-252 | family 5 whose payload is the blob; the length is inline exactly when it is at most 0xb |
| Encoder.DedupInto | ruby/lib/jksn/types.rb:249 | appending unseen elements keeps the prefix, keeps distinctness, and yields exactly the union |
| Encoder.Dedup | ruby/lib/jksn/types.rb:249 | a Ruby `Set` (and the JavaScript `columns_set`, whose keys are all strings) holds distinct elements, exactly those of the input; `true` and `1` stay apart |
| Encoder.PyDedupInto | python/jksn.py:279-294 | appending the elements whose Python key is unseen keeps the prefix and Python-distinctness, adds exactly the new Python keys, and admits every first occurrence |
| Encoder.PyDedup | python/jksn.py:279-294 | `OrderedDict.fromkeys` holds one element per Python key of the input, the first object seen with it |
| Encoder.PyDedupIntoCoherent | python/jksn.py:279-294 | where no boolean sits beside the equal integer, Python's deduplication is the structural one |
| Encoder.BoolIntOneColumn | python/jksn.py:279-294 | the rows `{1: a}` and `{True: b}` make the single column `1` |
| Encoder.RowKeysAreColumns | python/jksn.py:279-294 | a value is among the row keys exactly when some dict row has it as a key |
| Encoder.ColumnsAreKeys | python/jksn.py:279-294 | the columns are Python-distinct keys of the rows, and every key of every row is Python-equal to a column |
| Encoder.ColumnsCoherent | python/jksn.py:279-294 | without a boolean beside the equal integer, the columns are the structurally distinct row keys |
| Encoder.Cell | python/jksn.py:279-294 | `row.get(column, unspecified)`: the value stored under the column's Python key when the row has it, otherwise the unspecified marker |
| Encoder.SwapAvailable | python/jksn.py:256-264 | `test_swap_availability`: every row a dict and some row non-empty; its use is stated by Encoder.DumpList |
| Encoder.Columns | python/jksn.py:279-294 | the columns in first-seen order; stated by Encoder.ColumnsAreKeys and Encoder.ColumnsCoherent |
| Encoder.ColumnValues | python/jksn.py:279-294 | one cell per row, each `row.get(column, unspecified)` as Encoder.Cell gives it |
| Encoder.DumpItems | python/jksn.py:275-276 | `map(self._dump_value, obj)`: one measured node per element, in order, each with that element as its origin |
| Encoder.DumpValue | python/jksn.py:156-194 | each value yields a node whose origin is the value and whose payloads are measured in bytes |
| Encoder.Straight | python/jksn.py:265-277 | an array node of family 8 with one child per element |
| Encoder.Swapped | python/jksn.py:279-294 | a node of family 0xa (never 0xa0) with two children per column |
| Encoder.DumpList | python/jksn.py:254-301 | the straight layout, or the transposed one only when the rows allow it and it is strictly smaller at three levels |
| Encoder.DumpDict | python/jksn.py:303-317 | a node of family 9 with a key child and a value child per pair |
| Encoder.StraightLayout | python/jksn.py:265-277 | the straight array is its count's length header followed by every element dumped, in order |
| Encoder.SwappedLayout | python/jksn.py:279-294 | the transposed array is the column count's length header followed, per column in first-seen order, by its name dumped and the list of its cells dumped |
| Encoder.ColumnLayout | python/jksn.py:279-294 | column `j` contributes its name dumped and the list of `row.get(column, unspecified)` over the rows dumped |
| Encoder.DictLayout | python/jksn.py:303-317 | a dict is its count's length header followed by each key and then its value dumped, in the dict's order |
| Optimizer.SlotKey | python/jksn.py:342-353 | the slot is the eight-bit DJB hash; JavaScript keeps the unreduced hash, whose low byte is that hash for payloads of at most 0x3fffff bytes |
| Optimizer.DeltaHeader | python/jksn.py:325-338 | family 0xb; inline with no data exactly for -5..5 |
| Optimizer.OptimizeInt | python/jksn.py:321-341 | the node is kept, or becomes a delta with strictly shorter data; Python and JavaScript remember the integer; Ruby changes nothing |
| Optimizer.OptimizeText | python/jksn.py:342-347 | a replaced text becomes a 0x3c reference to the slot holding the same bytes; a kept text longer than one byte is stored, and a one-byte text leaves the state alone |
| Optimizer.OptimizeBlob | python/jksn.py:348-353 | the same for blobs, with 0x5c and the blob table |
| Optimizer.Optimize | python/jksn.py:319-357 | the pass keeps each node's origin and number of children |
| Optimizer.OptimizeAll | python/jksn.py:354-356 | children are optimised in order, one node out per node in |
| TraceSteps.OptimizeContainer | python/jksn.py:354-356 | a node of any family but integers, text and blobs keeps its own bytes and has its children optimised as a run |
| TraceSteps.OptimizeAllCons | python/jksn.py:354-356 | a run of children is optimised in order: the first from the incoming tables, the rest from the tables it leaves |
| Optimizer.OptimizeNeverLengthens | python/jksn.py:339-340 | the optimised tree is never larger than the original at any depth |
| Optimizer.OptimizeAllNeverLengthens | python/jksn.py:354-356 | the same for a run of siblings |
| Optimizer.OptimizeKeepsSlotsInRange | python/jksn.py:342-353 | the eight-bit ports only fill slots 0..255 |
| Optimizer.OptimizeAllKeepsSlotsInRange | python/jksn.py:354-356 | the same for a run of siblings |
| Optimizer.InlineIntegerKept | python/jksn.py:339-340 | an inline integer 0..10 is never rewritten |
| Optimizer.RubyNeverRemembers | ruby/lib/jksn/encoder.rb:114-137 | Ruby sets the last integer only when one is already set, so from a fresh encoder it never does and no integer becomes a delta |
| Optimizer.RubyAllNeverRemember | ruby/lib/jksn/encoder.rb:114-137 | the same for a run of siblings |
| Decoder.ReadCount | python/jksn.py:479-493 | an inline count consumes nothing; a wider count consumes its field; failures are end-of-stream |
| Decoder.ReadBytesSplits | python/jksn.py:718-727 | reading the length of a prefix gives back exactly that prefix and leaves what follows it |
| Decoder.ReadBytes | python/jksn.py:718-727 | a read succeeds exactly when `n` bytes remain, and then splits the stream into those bytes and the rest; otherwise it is end-of-stream |
| Decoder.LoadStr | python/jksn.py:636-644 | reads exactly `n` bytes and stores the decoded text or blob at the hash of the raw bytes; fails exactly on a short stream or undecodable text |
| Decoder.ReadWide | python/jksn.py:424-437 | a wider integer tier consumes only its field; failures are end-of-stream |
| Decoder.LoadInt | python/jksn.py:424-437 | controls up to 0x1a are the inline value; wider ones read their tier; the integer becomes the last integer |
| Decoder.LoadFloat | python/jksn.py:439-451 | fails exactly on the unassigned controls and on short fields; a binary64 takes eight bytes |
| Decoder.LoadString | python/jksn.py:453-493 | 0x3c and 0x5c fetch their slot; the other controls read a counted payload; the last integer is untouched |
| Decoder.ReadDelta | python/jksn.py:545-564 | 0xb0..0xb5 are 0..5; 0xb6..0xba are -5..-1; wider deltas read their tier |
| Decoder.LoadDelta | python/jksn.py:545-564 | succeeds exactly when a last integer exists and the delta reads; without a last integer it reports the missing base |
| Decoder.LoadValue | python/jksn.py:406-634 | one value consumes at least its control byte and leaves a suffix; an empty stream is end-of-stream |
| Decoder.LoadSpecial | python/jksn.py:411-422 | 0x00 and 0x01 are null, 0x02 and 0x03 the booleans, and 0x04..0x0e are refused |
| Decoder.LoadRefresher | python/jksn.py:495-511 | 0x70 empties both tables and goes on with the next value |
| Decoder.LoadArray | python/jksn.py:513-521 | an array is read as a sequence |
| Decoder.LoadObject | python/jksn.py:523-531 | an object is read as a dict with distinct keys |
| Decoder.LoadSwapped | python/jksn.py:533-543 | 0xa0 is the unspecified marker and consumes nothing else |
| Decoder.LoadLengthless | python/jksn.py:566-574 | only 0xc8 opens a lengthless array; other controls of the family are refused |
| Decoder.LoadPragma | python/jksn.py:575-633 | 0xf6, 0xf7 and 0xfe are refused |
| Decoder.LoadMany | python/jksn.py:513-521 | `n` values are read, one after another |
| Decoder.LoadPairs | python/jksn.py:523-531 | reading `n` pairs into a dict keeps its keys distinct |
| Decoder.LoadColumns | python/jksn.py:646-658 | the columns of a transposed array consume a suffix |
| Decoder.Pivot | python/jksn.py:646-658 | the pivot has as many rows as the longer of the rows read so far and the column's values |
| Decoder.AddColumnFrom | python/jksn.py:646-658 | the `enumerate` loop from any index adds exactly the values from that index on, opening rows as needed |
| Decoder.AddColumnIsPivot | python/jksn.py:646-658 | the row loop computes the closed-form pivot |
| Decoder.AddColumn | python/jksn.py:653-657 | the `enumerate` loop over one column; stated in closed form by Decoder.AddColumnIsPivot |
| Decoder.BuildDicts | python/jksn.py:646-658 | every row becomes a dict with distinct keys, or the build fails on an unhashable key |
| Decoder.BuildDict | python/jksn.py:646-658 | `dict(pairs)` has distinct keys, or fails on an unhashable key |
| Decoder.LoadUntilUnspecified | python/jksn.py:566-574 | the lengthless body consumes a suffix |
| Decoder.Loads | python/jksn.py:390-404 | a leading `jk!` is skipped exactly when the header is expected and present; otherwise the value is read from the start (what a dumped stream reads back as is ValueRoundTrip.StreamRoundTrip) |
| Decoder.HeaderOptional | python/jksn.py:394-404 | the header is optional: a stream not itself starting with `jk!` reads the same behind a `jk!` as bare, and, bare, the same whether or not the header is expected |
| Runs.RunSplit | python/jksn.py:513-521 | reading `k + n` values is reading `k` and then `n` more from where, and with the tables, the first `k` left off |
| Runs.RunNth | python/jksn.py:513-521 | value `i` of a run is the value read where the first `i` stopped, with the tables they left |
| Runs.RunUnique | python/jksn.py:513-521 | any reader that steps like a run of values is that run |
| Runs.FoldPairsIsRun | python/jksn.py:523-531 | entering `n` pairs as they are read succeeds exactly when `2n` values read and their list folds, and gives the same result, stopping where the run stops |
| Runs.FoldUnique | python/jksn.py:523-531 | any reader that folds pairs step by step, from accumulators the insertion keeps valid, is the pair fold |
| Runs.UntilIsRun | python/jksn.py:566-574 | when a run of `k + 1` values ends at its first unspecified marker, the cut run yields the `k` values before it |
| Runs.UntilEndsAtMarker | python/jksn.py:566-574 | conversely, a successful cut run is the run of its values followed by the marker, with no marker among them |
| Runs.UntilUnique | python/jksn.py:566-574 | any reader that steps like a cut run is that cut run |
| DecodeContents.LoadManyIsRun | python/jksn.py:513-521 | `LoadMany` is the run of the value reader: `n` values, each read where the previous stopped |
| DecodeContents.LoadPairsIsFold | python/jksn.py:523-531 | `LoadPairs` is the pair fold of the value reader with `d[k] = v` |
| DecodeContents.LoadColumnsIsFold | python/jksn.py:646-658 | `LoadColumns` is the pair fold of the value reader with the pivot |
| DecodeContents.LoadUntilIsCut | python/jksn.py:566-574 | `LoadUntilUnspecified` is the cut run of the value reader |
| DecodeContents.ArrayIsRun | python/jksn.py:513-521 | an array 0x80..0x8f is the run of as many values as its count, read after the count; a short count is end-of-stream |
| DecodeContents.ArrayItem | python/jksn.py:513-521 | item `i` of an array is the value read after the count and the `i` items before it |
| DecodeContents.RefresherSkips | python/jksn.py:499-510 | a refresher 0x71..0x7f reads its count of values and one more, and yields only the last, where and with the tables the run leaves them |
| DecodeContents.PragmaSkipsOne | python/jksn.py:631-633 | the pragma 0xff reads two values and yields the second |
| DecodeContents.DictFoldIsBuildDict | python/jksn.py:523-531 | entering a list two values at a time is `dict` over its pairs |
| DecodeContents.ObjectIsDict | python/jksn.py:523-531 | an object 0x90..0x9f is `dict` over the pairs of twice its count of values: it fails exactly on an unhashable key, and a repeated key keeps its first position and last value |
| DecodeContents.SwappedIsPivots | python/jksn.py:533-543 | a transposed array 0xa1..0xaf reads twice its count of values, pivots each column into the rows in turn and makes each row a dict, failing exactly on a non-array column or an unhashable name |
| DecodeContents.LengthlessEndsAtMarker | python/jksn.py:566-574 | a lengthless array holds the values before the first unspecified marker of the run it read, and stops after the marker |
| DecodeContents.LengthlessReadsToMarker | python/jksn.py:566-574 | conversely, whenever a run of values ends at its first marker, the lengthless array holds the values before it |
| RoundTrip.FixedTierRoundTrip | python/jksn.py:424-437 | a fixed integer tier reads back any number in its signed range |
| RoundTrip.WideRoundTrip | python/jksn.py:205-217 | every wider integer tier written reads back as the number, leaving the tail |
| RoundTrip.PlainIntRoundTrip | python/jksn.py:424-437 | an integer in its own tier decodes to itself and becomes the last integer |
| RoundTrip.DeltaValue | python/jksn.py:545-564 | a delta header, read signed, yields the delta it was written from |
| RoundTrip.DeltaReads | python/jksn.py:545-564 | a delta from the last integer reads back as their sum |
| RoundTrip.DeltaRoundTrip | python/jksn.py:545-564 | a delta node decodes to the last integer plus the delta |
| RoundTrip.OptimizedInt | python/jksn.py:321-341 | the pass keeps an integer's node or replaces it by the delta from the last integer |
| RoundTrip.IntRoundTrip | python/jksn.py:321-341 | an integer, delta-encoded or not, decodes to itself, and both sides remember it |
| RoundTrip.DeltaIntRoundTrip | python/jksn.py:321-341 | a node written as a delta decodes to the integer it replaced |
| RoundTrip.ReadCountInverts | python/jksn.py:479-493 | a count header reads back as the count it was written from |
| RoundTrip.StoredTextReads | python/jksn.py:453-477 | a kept text payload reads back as the text and is stored in its slot |
| RoundTrip.TextRoundTrip | python/jksn.py:342-347 | a text decodes to itself, through its payload or a back-reference, and the tables keep agreeing |
| RoundTrip.StoredTextRoundTrip | python/jksn.py:342-347 | a text the pass keeps is written, read back and stored on both sides |
| RoundTrip.TextReferenceRoundTrip | python/jksn.py:342-347 | a text the pass replaces reads back from the decoder's slot |
| RoundTrip.StoredBlobReads | python/jksn.py:479-493 | a kept blob payload reads back as the blob and is stored in its slot |
| RoundTrip.BlobRoundTrip | python/jksn.py:348-353 | a blob decodes to itself, through its payload or a back-reference, and the tables keep agreeing |
| RoundTrip.StoredBlobRoundTrip | python/jksn.py:348-353 | a blob the pass keeps is written, read back and stored on both sides |
| RoundTrip.BlobReferenceRoundTrip | python/jksn.py:348-353 | a blob the pass replaces reads back from the decoder's slot |
| ValueRoundTrip.ScalarRoundTrip | python/jksn.py:196-225 | None, booleans, the unspecified marker and floats pass the optimisation pass unchanged and decode to themselves |
| ValueRoundTrip.ScalarUntouched | python/jksn.py:319-357 | a scalar node, having no children and no table entry, leaves the optimisation pass and the encoder's tables as they were |
| ValueRoundTrip.ScalarReads | python/jksn.py:406-634 | a scalar's bytes read back as that scalar, stop exactly before what follows, and leave the decoder's tables alone |
| ValueRoundTrip.ValueRoundTrip | python/jksn.py:156-194 | every round-trippable value decodes to an equivalent value, consumes exactly its bytes, and leaves the tables agreeing |
| ValueRoundTrip.ListRoundTrip | python/jksn.py:265-277 | a straight array decodes to an equivalent array |
| ValueRoundTrip.ItemsRoundTrip | python/jksn.py:513-521 | the elements decode one after another, each to an equivalent value |
| ValueRoundTrip.DictRoundTrip | python/jksn.py:303-317 | a dict decodes to an equivalent dict |
| ValueRoundTrip.PairsRoundTrip | python/jksn.py:523-531 | each key decodes to itself and enters the dict as a fresh key, with an equivalent value |
| ValueRoundTrip.SwappedRoundTrip | python/jksn.py:279-294 | a transposed array decodes to an array of equivalent rows |
| ValueRoundTrip.SwappedColumns | python/jksn.py:646-658 | all the columns read back and build into rows equivalent to the originals |
| ValueRoundTrip.ColumnsRoundTrip | python/jksn.py:646-658 | from any column on, each name decodes to itself and each column of values to equivalent cells |
| ValueRoundTrip.PivotEquiv | python/jksn.py:646-658 | once every column is pivoted in, each rebuilt row is equivalent to its original (missing cells are absent keys) |
| ValueRoundTrip.BuildDictKeeps | python/jksn.py:646-658 | `dict(pairs)` with distinct hashable keys keeps the pairs as they are |
| ValueRoundTrip.BuildDictsKeeps | python/jksn.py:646-658 | every row of distinct hashable keys becomes the dict of its pairs |
| ValueRoundTrip.StreamRoundTrip | python/jksn.py:58-75 | `loads(dumps(v))` from fresh state gives an equivalent value, with or without the header, and consumes the whole stream |
| Findings.OptimizedPair | python/jksn.py:321-341 | in `[1100, 1000]` the pass keeps 1100 and turns 1000 into the delta -100 |
| Findings.DeltaPairEncodes | python/jksn.py:321-341 | the pair is written as `82 1c 04 4c bd 9c` |
| Findings.UnsignedDeltaMisread | python/jksn.py:545-564 | as written, those bytes decode as `[1100, 1256]` |
| Findings.SignedDeltaReadsBack | python/jksn.py:545-564 | read signed, they decode as `[1100, 1000]` |
| Findings.ShortBlobsEncode | python/jksn.py:348-353 | as written, `[b"ab", b"\xe3", b"ab"]` is written with the third blob as a reference to slot 0xe3 |
| Findings.ShortBlobsMisread | python/jksn.py:636-644 | as written, the decoder's one-byte blob overwrote that slot, so the third item reads as `b"\xe3"` |
| Findings.ShortBlobsFixedEncode | python/jksn.py:348-353 | when every payload is stored, the third blob is written out again |
| Findings.ShortBlobsFixedRead | python/jksn.py:636-644 | the corrected bytes decode to the three blobs written |
| Findings.MixedTextEncode | python/jksn.py:342-347 | as written, U+6261 (UTF-16LE `61 62`) is written as a reference to the UTF-8 `ab` |
| Findings.MixedTextMisread | python/jksn.py:453-477 | as written, `["ab", "扡"]` decodes as `["ab", "ab"]` |
| Findings.MixedTextFixedEncode | python/jksn.py:342-347 | with family-aware slots, U+6261 is written out |
| Findings.MixedTextFixedRead | python/jksn.py:453-477 | the corrected bytes decode to the two texts |
| JsEncoder.JsVarint | javascript/jksn.js:270-291 | below 2^32 the `>>>=` varint loop is the Python varint |
| JsEncoder.JsEncodeInt | javascript/jksn.js:270-291 | fails exactly for a negative varint; the fixed widths are the Python fields |
| JsEncoder.JsEncodeVarint | javascript/jksn.js:282-289 | the loop writes the varint of the low 32 bits |
| JsEncoder.JsLengthHeader | javascript/jksn.js:82-110 | below 2^32 it is the Python length header, and it always picks the same control byte |
| JsEncoder.JsDumpNumber | javascript/jksn.js:58-81 | throws exactly on the negative integers between the two-byte and four-byte tiers; a 32-bit integer takes the Python tiers; any other integer is written as a binary64 |
| JsEncoder.JsDumpBuffer | javascript/jksn.js:111-125 | the control matches Python's exactly up to 0xff bytes; above 0xb bytes the control is always 0x5e |
| JsEncoder.DecimalRoundTrip | javascript/jksn.js:154-189 | the digits of an array index read back as the index |
| JsEncoder.ArrayIndex | javascript/jksn.js:154-189 | a key names an element exactly when it is the canonical decimal string of an index below the length |
| JsEncoder.JsRowKeysHold | javascript/jksn.js:154-189 | a value is among the row keys exactly when some row enumerates it |
| JsEncoder.JsColumnIsText | javascript/jksn.js:154-189 | every column name is a string |
| JsEncoder.JsCell | javascript/jksn.js:154-189 | a cell is never `undefined`; a missing one becomes the unspecified marker |
| JsEncoder.JsOwnKeys | javascript/jksn.js:157-158 | the names `for (column in obj[row])` enumerates: an object's own keys, an array's indices, none for an ArrayBuffer; stated by JsEncoder.JsColumnsAreKeys |
| JsEncoder.JsSwapAvailable | javascript/jksn.js:127-138 | `testSwapAvailability`: every row an object other than `null` or the unspecified marker, and some row with a key; its use is stated by JsEncoder.JsDumpArray |
| JsEncoder.JsColumns | javascript/jksn.js:154-162 | the columns; stated by JsEncoder.JsColumnsAreKeys, and as written by JsFindings.JsColumnsAsWritten |
| JsEncoder.JsColumnValues | javascript/jksn.js:172-175 | one cell per row, each JsEncoder.JsCell of the row |
| JsEncoder.JsDumpItems | javascript/jksn.js:149 | `obj.map(dumpValue)`: one measured node per element in order, each with that element as its origin, or a throw of the dump |
| JsEncoder.Throws | javascript/jksn.js:36-81 | the values the dump throws on; stated by JsEncoder.JsDumpFailsIff |
| JsEncoder.WholeDoublesAreIntegers | javascript/jksn.js:58-81 | JavaScript has one number type, so 1.0 is the integer 1 (written `11`) and -0 is 0 (written `10`); 1.5 stays a double |
| JsEncoder.JsDumpValue | javascript/jksn.js:36-57 | a successful dump yields a node whose origin is the value; it throws only on the refused varint or on an object with a defined `length`, which is taken for an array |
| JsEncoder.JsStraight | javascript/jksn.js:139-153 | an array node of family 8 with one child per element, or the varint failure |
| JsEncoder.JsSwapped | javascript/jksn.js:154-189 | a transposed node with two children per column, or the varint failure |
| JsEncoder.JsDumpArray | javascript/jksn.js:126-189 | the straight layout, or the transposed one when the rows allow it and it is smaller |
| JsEncoder.JsDumpObject | javascript/jksn.js:190-207 | an object node of family 9 with two children per property, or a throw from one of its values (a refused varint or an object with a defined `length`) |
| JsEncoder.JsDumpFailsIff | javascript/jksn.js:36-81 | the dump throws exactly when the value holds a throwing integer or an object whose `length` is not `undefined` |
| JsEncoder.JsArrayFailsIff | javascript/jksn.js:126-189 | an array dump throws exactly when an element does, at any depth: a throwing integer or an object with a defined `length` |
| JsEncoder.JsSwappedSucceeds | javascript/jksn.js:154-189 | the transposed layout of rows holding neither a throwing integer nor an object with a defined `length` succeeds |
| JsEncoder.JsStringify | javascript/jksn.js:293-307 | it throws exactly when the value holds a throwing integer or an object with a defined `length`; otherwise the output starts with `jk!` when the header is requested |
| JsEncoder.JsColumnsAreKeys | javascript/jksn.js:154-161 | a name is a column exactly when some row enumerates it |
| JsEncoder.JsStraightLayout | javascript/jksn.js:139-153 | the straight array throws exactly when an element does; otherwise it is its count's length header followed by every element dumped, in order |
| JsEncoder.JsObjectLayout | javascript/jksn.js:190-207 | an object throws exactly when a value does; otherwise it is its count's length header followed by each name as a string and its value dumped |
| JsEncoder.LengthObjectThrows | javascript/jksn.js:53-54 | `{"length": 1}` is taken for an array, whose `obj.map` a plain object lacks, so stringifying it throws instead of writing an object |
| JsEncoder.JsSwappedLayout | javascript/jksn.js:154-189 | the transposed array is the column count's header followed, per column in first-seen order, by its name and `dumpArray` of its cells |
| JsObjlen.ObjlenAfter | javascript/jksn.js:139-151 | as written, the shared count after dumping a value, or the first throw; stated by JsObjlen.ThrowsFailsAsWritten, NoArrayKeepsObjlen and StartNeverRead |
| JsObjlen.ArrayObjlen | javascript/jksn.js:139-153 | as written, an array checks its children against the shared count its last nested array left; stated by JsObjlen.LastArrayDecides and ArrayLeavesLength |
| JsObjlen.JsStringifyAsWritten | javascript/jksn.js:139-151 | as written, stringifying writes the bytes of JsEncoder.JsStringify whenever it does not throw, and throws wherever that throws |
| JsObjlen.ArrayLeavesLength | javascript/jksn.js:139-151 | an array dump that passes its check leaves the shared count at its own length |
| JsObjlen.ThrowsFailsAsWritten | javascript/jksn.js:36-81 | every value JsEncoder throws on throws as written too |
| JsObjlen.NoArrayKeepsObjlen | javascript/jksn.js:36-81 | a value holding no array leaves the shared count unchanged and throws exactly where JsEncoder throws |
| JsObjlen.StartNeverRead | javascript/jksn.js:139-151 | whether and how the dump throws does not depend on the count it starts with |
| JsObjlen.LastArrayDecides | javascript/jksn.js:139-151 | an array whose last element is an array that passes its own check throws as written when their lengths differ, and otherwise passes |
| JsObjlen.NestedArrayThrows | javascript/jksn.js:139-151 | `[[1, 2]]` is written by JsEncoder but throws as written |
| JsDecoder.SlotOf | javascript/jksn.js:405 | as written a payload is stored under the unreduced DJB hash, whose low byte is the eight-bit hash for at most 0x3fffff bytes; corrected, under the eight-bit hash |
| JsDecoder.PropertyKey | javascript/jksn.js:493-514 | a property name is a string, and a string key is itself |
| JsDecoder.JsLoadSpecial | javascript/jksn.js:320-336 | 0x00 is `undefined`, 0x01 null, 0x02 and 0x03 the booleans; 0x0f throws; the others are refused |
| Binary64.Spacing | javascript/jksn.js:608-616 | neighbouring binary64 values are 1 apart below 2^53 and never closer |
| Binary64.RoundMagnitude | javascript/jksn.js:608-616 | rounding to binary64 lands on a multiple of the spacing at most half a spacing away, and is exact up to 2^53 |
| Binary64.ToDouble | javascript/jksn.js:608-616 | an integer as a JavaScript number keeps its sign and is exact within 2^53 of zero |
| JsDecoder.JsReadVarintFrom | javascript/jksn.js:608-616 | `decodeInt` reads the same bytes as the exact varint reader and agrees with it up to 2^53 |
| JsDecoder.JsReadWide | javascript/jksn.js:337-359 | a wider integer field reads the same bytes as the Python reader, with the same value within 2^53 of zero |
| JsDecoder.JsLoadInt | javascript/jksn.js:337-359 | reads the bytes the Python reader reads, with the same integer within 2^53 of zero, and the number becomes the last integer |
| JsDecoder.JsLoadFloat | javascript/jksn.js:360-379 | fails exactly where the Python reader fails; the state is untouched |
| JsDecoder.JsLoadStr | javascript/jksn.js:380-449 | reads exactly `n` bytes and stores the result; fails exactly on a short stream or undecodable text |
| JsDecoder.JsLoadString | javascript/jksn.js:380-449 | 0x3c fetches a text slot; as written 0x5c is a twelve-byte blob, and corrected it fetches a blob slot |
| JsDecoder.JsFetch | javascript/jksn.js:383-386 | a back-reference reads one byte and yields the slot it names with the rest; an empty slot fails with that byte, and no byte is end-of-stream |
| JsDecoder.JsReadDelta | javascript/jksn.js:547-577 | a delta reads the same bytes as the Python signed reader, with the same delta within 2^53 of zero |
| JsDecoder.JsLoadDelta | javascript/jksn.js:547-577 | succeeds exactly when a last integer exists and the signed delta reads; the value is the sum rounded to binary64 and becomes the last integer |
| JsDecoder.DigestLength | javascript/jksn.js:578-606 | 0xf0..0xf4 skip 4, 16, 20, 32 and 64 bytes, the digest sizes of CRC-32, MD5, SHA-1, SHA-256 and SHA-512 |
| JsDecoder.JsLoadValue | javascript/jksn.js:315-607 | one value consumes at least its control byte; an empty stream is end-of-stream |
| JsDecoder.JsLoadRefresher | javascript/jksn.js:450-472 | as written 0x70 leaves the tables as they are; corrected, it empties them |
| JsDecoder.JsLoadArray | javascript/jksn.js:473-492 | an array is read as a sequence |
| JsDecoder.JsLoadObject | javascript/jksn.js:493-514 | an object is read with distinct property names |
| JsDecoder.JsLoadSwapped | javascript/jksn.js:515-546 | 0xa0 is `undefined`; the other controls yield an array |
| JsDecoder.JsLoadPragma | javascript/jksn.js:578-606 | a checksum control skips its digest, or fails on a short stream; 0xf8..0xfc skip nothing; controls without a case are refused |
| JsDecoder.JsLoadMany | javascript/jksn.js:473-492 | `n` values are read, one after another |
| JsDecoder.JsLoadPairs | javascript/jksn.js:493-514 | property assignment keeps the names distinct |
| JsDecoder.ColumnItems | javascript/jksn.js:537-543 | a column's values are an array's elements, a string's characters, or an object's numbered properties up to its own `length`; `null` and `undefined` throw, anything else is refused |
| JsDecoder.ArrayLike | javascript/jksn.js:537-543 | an object is read as an array exactly when it has a defined `length`, taken as a number, and row `i` is its property `i` |
| JsDecoder.ArrayLikeMimics | javascript/jksn.js:537-543 | an object carrying an array's length and its elements under "0", "1", ... is read as that array |
| JsDecoder.ArrayLikeSeven | javascript/jksn.js:537-543 | `{"length": 1, "0": 7}` is the column `[7]` |
| JsDecoder.JsAddColumn | javascript/jksn.js:539-543 | the row loop yields as many rows as the longer of the rows and the column; rows before the start index are left alone |
| JsDecoder.JsAddColumnRow | javascript/jksn.js:539-543 | every row from the start index on is the old row, or a new empty object past the old rows, with `column_name` set to the column's value at that index unless the value is `undefined` or the name is `__proto__` |
| JsDecoder.ProtoColumnAddsNothing | javascript/jksn.js:539-543 | a column named `__proto__` sets no property: every row keeps its properties, and a row it opens stays empty |
| JsDecoder.JsLoadColumns | javascript/jksn.js:533-545 | the column loop reads a name and a column per turn; stated by JsDecodeContents.JsLoadColumnsIsFold |
| JsDecoder.JsSetCell | javascript/jksn.js:542-543 | `result[row][column_name] = value` unless the value is `undefined`; stated by JsDecoder.JsAddColumnRow |
| JsDecoder.Objects | javascript/jksn.js:540-541 | one object per row, in order |
| JsDecoder.JsParse | javascript/jksn.js:624-635 | as written, fewer than three bytes throw; a leading `jk!` is skipped; otherwise one value is read from the start (what a stringified stream parses back as is JsRoundTrip.JsParseDumps and JsStreamIntRoundTrip) |
| JsDecoder.JsHeaderOptional | javascript/jksn.js:624-628 | the header is optional: a buffer not itself starting with `jk!` parses the same behind a `jk!` as bare, once it is long enough to be viewed as written |
| JsDecodeContents.JsLoadManyIsRun | javascript/jksn.js:473-492 | `n` values, each read where the previous stopped, are the run of the value reader |
| JsDecodeContents.JsLoadPairsIsFold | javascript/jksn.js:493-514 | reading the properties is the pair fold of the value reader with property assignment |
| JsDecodeContents.JsLoadColumnsIsFold | javascript/jksn.js:515-546 | reading the columns is the pair fold of the value reader with the spreading of a column over the rows |
| JsDecodeContents.JsArrayIsRun | javascript/jksn.js:473-492 | an array 0x80..0x8f is the run of as many values as its count, read after the count; a short count is end-of-stream |
| JsDecodeContents.JsArrayItem | javascript/jksn.js:473-492 | item `i` of an array is the value read after the count and the `i` items before it |
| JsDecodeContents.JsRefresherSkips | javascript/jksn.js:457-471 | a refresher 0x71..0x7f reads its count of values and one more, and yields only the last |
| JsDecodeContents.JsPragmaSkipsOne | javascript/jksn.js:599-601 | the pragma 0xff reads two values and yields the second |
| JsDecodeContents.PutAllKeeps | javascript/jksn.js:493-514 | after the assignments the names are distinct and the earlier properties stay in place |
| JsDecodeContents.PropertyFoldIsPutAll | javascript/jksn.js:493-514 | entering a list two values at a time is assigning its pairs in order |
| JsDecodeContents.JsObjectIsPutAll | javascript/jksn.js:493-514 | an object 0x90..0x9f is the assignment of the pairs of twice its count of values: nothing is refused, a repeated name keeps its first position and last value, and a `__proto__` name adds nothing |
| JsDecodeContents.ProtoPropertyDropped | javascript/jksn.js:493-514 | an object whose only property is `__proto__` reads as the empty object |
| JsDecodeContents.JsSwappedIsColumns | javascript/jksn.js:515-546 | a transposed array 0xa1..0xaf reads twice its count of values and spreads each column over the rows in turn; it fails exactly where a column's items cannot be read |
| JsRoundTrip.DumpIntReadsInJs | javascript/jksn.js:337-359 | every integer written in the Python tiers reads in JavaScript as one number, consuming exactly its bytes; within 2^53 of zero it is the integer written |
| JsRoundTrip.JsDeltaAgrees | javascript/jksn.js:547-577 | within 2^53 of zero a delta integer reads in JavaScript exactly as in Python |
| JsRoundTrip.PastTwoTo53ReadsRounded | javascript/jksn.js:608-616 | Python reads back the 2^53 + 1 its encoder writes, and JavaScript reads 2^53 |
| JsRoundTrip.JsStringifyInt | javascript/jksn.js:293-307 | a 32-bit integer is stringified as its Python node |
| JsRoundTrip.JsParseDumps | javascript/jksn.js:624-635 | a stream that does not begin like the header is read from its first byte, and one behind the header from its fourth |
| JsRoundTrip.JsStreamIntRoundTrip | javascript/jksn.js:293-307 | parsing what the encoder stringifies gives back every 32-bit integer it writes |
| JsRoundTrip.JsIntRoundTrip | javascript/jksn.js:58-81 | every 32-bit integer the JavaScript encoder writes without throwing reads back |
| JsRoundTrip.DumpStrReadsInJs | javascript/jksn.js:380-428 | a text payload reads back as the text and is stored in its slot |
| JsRoundTrip.Utf16ReadsInJs | javascript/jksn.js:380-407 | the UTF-16 header counts code units, then the payload follows |
| JsRoundTrip.Utf8ReadsInJs | javascript/jksn.js:408-428 | the UTF-8 header counts bytes, then the payload follows |
| JsRoundTrip.DumpBytesReadsInJs | javascript/jksn.js:429-449 | every blob written with the Python header tiers reads back in JavaScript |
| JsRoundTrip.ShortBufferIsDumpBytes | javascript/jksn.js:111-125 | up to 0xff bytes the JavaScript blob node is the Python one |
| JsRoundTrip.JsBlobRoundTrip | javascript/jksn.js:429-449 | a blob of up to 0xff bytes written by the JavaScript encoder reads back |
| JsRoundTrip.JsLongBlobMisread | javascript/jksn.js:116-119 | a blob of 0x100..0xffff bytes goes out as 0x5e with two length bytes and is read back with a one-byte length |
| JsFindings.AbTwiceEncodes | javascript/jksn.js:245-254 | `["ab", "ab"]` is written `82 42 61 62 3c e3` |
| JsFindings.AbTwiceMissesAsWritten | javascript/jksn.js:383-405 | as written, parsing it fails with slot 0xe3 missing |
| JsFindings.AbTwiceReadsCorrected | javascript/jksn.js:383-405 | with reduced slots, it parses as `["ab", "ab"]` |
| JsFindings.TextReferenceMisses | javascript/jksn.js:383-405 | for every text whose unreduced hash is not its own low byte, as written the back-reference to it misses |
| JsFindings.TextReferenceFinds | javascript/jksn.js:383-405 | corrected, the back-reference to any text finds it |
| JsFindings.AbBlobsEncode | javascript/jksn.js:255-264 | `[b"ab", b"ab"]` is written `82 52 61 62 5c e3` |
| JsFindings.BlobReferenceOverruns | javascript/jksn.js:429-449 | as written, for every blob up to 0xff bytes, the reference after it is read as a twelve-byte blob and runs out when fewer than eleven bytes follow |
| JsFindings.BlobReferenceFinds | javascript/jksn.js:429-449 | corrected, the reference finds the blob |
| JsFindings.AbBlobsTruncatedAsWritten | javascript/jksn.js:429-449 | as written, `82 52 61 62 5c e3` runs out of bytes |
| JsFindings.AbBlobsReadCorrected | javascript/jksn.js:429-449 | corrected, it parses as `[b"ab", b"ab"]` |
| JsFindings.RefresherKeeps | javascript/jksn.js:453-456 | as written, a back-reference after 0x70 still finds what the table held |
| JsFindings.RefresherEmpties | javascript/jksn.js:453-456 | corrected, a back-reference after 0x70 finds nothing |
| JsFindings.RefreshKeptAsWritten | javascript/jksn.js:453-456 | as written, `82 41 61 70 3c 61` parses as `["a", "a"]` |
| JsFindings.RefreshEmptiedCorrected | javascript/jksn.js:453-456 | corrected, it fails with slot 0x61 missing |
| JsFindings.OneByteRejectedAsWritten | javascript/jksn.js:626-628 | a scalar written without the header is one byte, which the parser as written refuses |
| JsFindings.OneByteReadsCorrected | javascript/jksn.js:626-628 | corrected, it reads back as the value |
| JsFindings.MidNegativeThrows | javascript/jksn.js:76-77 | stringifying -40000 throws |
| JsFindings.Uninherited | javascript/jksn.js:154-161 | the keys without the names every plain object inherits |
| JsFindings.JsColumnsAsWritten | javascript/jksn.js:154-161 | as written, the columns are the distinct enumerated names less those `columns_set` already answers through inheritance |
| JsFindings.JsSwappedAsWritten | javascript/jksn.js:154-189 | as written, the transposed layout counts and carries only those columns |
| JsFindings.JsDumpArrayAsWritten | javascript/jksn.js:126-153 | as written, the array is the straight layout, or the transposed one when the rows allow it and it is strictly smaller |
| JsFindings.ConstructorColumnLost | javascript/jksn.js:154-161 | as written, `[{"constructor": 1}, {"constructor": 2}]` is written as the single byte `a0` |
| JsFindings.BareSwappedReadsUndefined | javascript/jksn.js:515-519 | `a0` reads back as `undefined` |
| JsFindings.ConstructorColumnKept | javascript/jksn.js:154-189 | corrected, the column `constructor` is kept with both cells |
| RubyEncoder.FirstByte | ruby/lib/jksn/types.rb:59-72 | a two- or four-byte field indexed with `[0]` keeps only the first byte of the Python field |
| RubyEncoder.RubyHeader | ruby/lib/jksn/types.rb:152-164 | succeeds exactly up to 0xffff; up to 0xff it is the Python header; beyond 0xffff the varint path raises |
| RubyEncoder.RubyDumpInt | ruby/lib/jksn/types.rb:38-57 | succeeds exactly below 0x2000_0000 in magnitude; one-byte values match Python; 0x1c is chosen for -0x7fff..-0x81 and 0x80..0x8000 and keeps one byte; 0x1b keeps one byte of four |
| RubyEncoder.RubyDumpFloat | ruby/lib/jksn/types.rb:118-130 | NaN and the infinities are as in Python; a binary64 keeps one of its eight bytes |
| RubyEncoder.RubyDumpText | ruby/lib/jksn/types.rb:166-181 | always UTF-8 with a header counting characters; it is the Python node when every character is one byte and there are at most 0xff of them |
| RubyEncoder.RubyDumpBlob | ruby/lib/jksn/types.rb:152-164 | the Python node up to 0xff bytes; 0x5d with one length byte up to 0xffff; raises beyond |
| RubyEncoder.Flatten | ruby/lib/jksn/types.rb:249 | no array survives; every non-array key is kept; without array keys nothing changes |
| RubyEncoder.RubyColumns | ruby/lib/jksn/types.rb:249 | the columns are distinct and are exactly the flattened row keys |
| RubyEncoder.RubyColumnsArePythons | ruby/lib/jksn/types.rb:249 | without array-valued keys, Ruby's columns are Python's |
| RubyEncoder.RubyDumpValue | ruby/lib/jksn/encoder.rb:106-108 | a node whose origin is the value, or one of the two raises |
| RubyEncoder.RubyStraight | ruby/lib/jksn/types.rb:229-245 | an array node with one child per element, or a raise |
| RubyEncoder.RubySwapped | ruby/lib/jksn/types.rb:247-266 | a transposed node with two children per row; otherwise it raises |
| RubyEncoder.RubyDumpArray | ruby/lib/jksn/types.rb:211-218 | success requires the straight layout to succeed and, when the rows are transposable, as many columns as rows |
| RubyEncoder.RubyDumpHash | ruby/lib/jksn/types.rb:184-206 | a hash node with a key and a value child per pair, or a raise |
| RubyEncoder.RubyDumps | ruby/lib/jksn/encoder.rb:68-72 | fails as the dump does; otherwise raises exactly when `join` meets a header byte outside ASCII beside a non-ASCII UTF-8 payload, else writes `jk!` if asked and then the optimised tree |
| RubyEncoder.RubyDumpsBinary | ruby/lib/jksn/encoder.rb:97-100 | joined as bytes, the dump succeeds exactly when the tree is built and writes the optimised tree; it is the stream as written whenever that does not raise |
| RubyEncoder.TextHeaderHigh | ruby/lib/jksn/types.rb:166-181 | a text header leaves ASCII exactly for 0x80..0xff characters and for 0x8000 or more |
| RubyEncoder.TextHeaderKept | ruby/lib/jksn/types.rb:166-181 | a text length keeps no header byte inline, its one byte up to 0xff, and the high byte of two beyond |
| RubyEncoder.TextDumpRaisesIff | ruby/lib/jksn/encoder.rb:68-72 | a text on its own raises exactly when its header and its UTF-8 payload both leave ASCII |
| RubyEncoder.RubyCell | ruby/lib/jksn/types.rb:262 | `row.fetch(column, UnspecifiedValue)`: the value under the column compared by `eql?`, otherwise the unspecified marker |
| RubyEncoder.RubyCellIsStructural | ruby/lib/jksn/types.rb:262 | Ruby finds nothing under `true` in `{1 => a}`, where Python's `row.get(True)` finds `a` |
| RubyEncoder.RubyStraightLayout | ruby/lib/jksn/types.rb:229-245 | a straight array that is written is its count's header followed by every element dumped, in order |
| RubyEncoder.RubyHashLayout | ruby/lib/jksn/types.rb:184-206 | a hash that is written is its count's header followed by each key and its value dumped, in order |
| RubyEncoder.RubySwappedLayout | ruby/lib/jksn/types.rb:247-266 | a transposed array that is written is a header counting the rows followed, per column in first-seen order, by its name and the array of its cells dumped |
| RubyEncoder.OversizeFails | ruby/lib/jksn/types.rb:75-90 | a value holding anything beyond the last writable tier raises |
| RubyEncoder.PlainSucceeds | ruby/lib/jksn/types.rb:211-245 | a value with no oversized member and no transposable array is dumped |
| RubyEncoder.Oversize | ruby/lib/jksn/types.rb:59-90 | the values whose header or integer reaches the bignum path, which raises; stated by RubyEncoder.OversizeFails |
| RubyEncoder.Transposable | ruby/lib/jksn/types.rb:220-227 | some array passes `__jksn_can_swap?`; stated by RubyEncoder.PlainSucceeds |
| RubyEncoder.RubyDumpItems | ruby/lib/jksn/types.rb:229-245 | one node per element in order, each with that element as its origin, or the first raise: the missing bignum argument or a child-count mismatch |
| RubyEncoder.StraightOnly | ruby/lib/jksn/types.rb:211-218 | an array whose rows cannot be transposed takes the straight layout |
| RubyEncoder.AgreesWithPython | ruby/lib/jksn/encoder.rb:106-108 | on the values both ports write alike, the Ruby tree is the Python tree |
| RubyEncoder.TextSizeCountsCharacters | ruby/lib/jksn/encoder.rb:74-78 | `length(0)` of a text falls short of the bytes written by the UTF-8 bytes beyond one per character |
| RubyDecoder.RubyRead | ruby/lib/jksn/decoder.rb:230-237 | a read is the Python read, except that a read of nothing raises as written |
| RubyDecoder.RubyLoadStr | ruby/lib/jksn/decoder.rb:206-216 | `load_str` is the Python `_load_str`, except that a read of nothing raises as written and that "utf-8le", which names no Ruby encoding, raises once its bytes are read |
| RubyDecoder.RubyLoadValue | ruby/lib/jksn/decoder.rb:65-179 | containers, deltas, refreshers and pragmas raise NotImplementedError; families 6, 0xc, 0xd and 0xe are refused; an empty stream is end-of-stream |
| RubyDecoder.Skipped | ruby/lib/jksn/decoder.rb:65-179 | the controls no `when` branch matches, which the loop passes over; stated by RubyFindings.RubyDispatch |
| RubyDecoder.RubyLoadSpecial | ruby/lib/jksn/decoder.rb:70-82 | null and the booleans are read as in Python; 0x0f parses the next value when it is a string, text or a binary blob decodable as UTF-8, and refuses anything else |
| RubyDecoder.JsonSource | ruby/lib/jksn/decoder.rb:78-81 | the text `JSON.parse` reads: a string as it is, a blob's bytes as UTF-8; anything else is not a `String` |
| RubyDecoder.RubyLoadString | ruby/lib/jksn/decoder.rb:115-161 | 0x3c is read as in Python; as written 0x5c fetches a text slot, and corrected it is read as in Python |
| RubyDecoder.RubyLoadCounted | ruby/lib/jksn/decoder.rb:115-161 | a short count field is end-of-stream |
| RubyDecoder.CorrectedStringsAgree | ruby/lib/jksn/decoder.rb:115-161 | corrected, every string control reads as in the Python decoder |
| RubyDecoder.AsWrittenStringsAgree | ruby/lib/jksn/decoder.rb:115-161 | as written, a counted string reads as in Python unless its length is zero (raises) or it is UTF-8: its length is doubled and, once that many bytes are read, "utf-8le" raises |
| RubyDecoder.RubyLoadBody | ruby/lib/jksn/decoder.rb:55-62 | the value read from a fresh decoder, whatever follows it |
| RubyDecoder.RubyLoads | ruby/lib/jksn/decoder.rb:55-62 | as written an empty stream raises and the header compared is `!jk`; otherwise the value is read from the start |
| RubyDecoder.HeaderRefused | ruby/lib/jksn/decoder.rb:57 | as written a stream starting with `jk!` is refused at its first byte |
| RubyDecoder.HeaderStripped | ruby/lib/jksn/decoder.rb:57 | corrected, `jk!` is stripped and the value after it is read |
| RubyFindings.RubyDispatch | ruby/lib/jksn/decoder.rb:65-179 | a skipped control reads as the value after it; any other control is read by its family's reader, as in Python for the specials, integers, floats and counted strings |
| RubyFindings.DumpIntReadsInRuby | ruby/lib/jksn/decoder.rb:83-98 | every integer in the Python tiers reads back in Ruby and becomes the last integer |
| RubyFindings.ShortIntFieldMisread | ruby/lib/jksn/types.rb:38-57 | a 0x1c integer written by Ruby takes a byte of what follows: it fails at the end of the stream, otherwise leaves one byte less |
| RubyFindings.LongIntFieldMisread | ruby/lib/jksn/types.rb:38-57 | a 0x1b integer written by Ruby takes three bytes of what follows |
| RubyFindings.TwoHundredBytes | ruby/lib/jksn/types.rb:38-57 | Ruby writes 200 as `1c 00` |
| RubyFindings.TwoHundredTruncated | ruby/lib/jksn/decoder.rb:83-98 | `1c 00` alone is too short to read |
| RubyFindings.DumpFloatReadsInRuby | ruby/lib/jksn/decoder.rb:100-114 | NaN, the infinities and binary64 numbers as Python writes them read back in Ruby |
| RubyFindings.ShortDoubleMisread | ruby/lib/jksn/types.rb:118-130 | a binary64 written by Ruby takes seven bytes of what follows |
| RubyFindings.DumpStrReadsInRuby | ruby/lib/jksn/decoder.rb:115-143 | every text Python writes reads back with the corrections, and as written when it is non-empty UTF-16 |
| RubyFindings.Utf16Counted | ruby/lib/jksn/decoder.rb:115-132 | a non-empty UTF-16 text reads as in the Python decoder |
| RubyFindings.Utf8LengthDoubled | ruby/lib/jksn/decoder.rb:133-143 | as written an inline UTF-8 length is doubled and the bytes go to "utf-8le", which raises: no inline UTF-8 text reads |
| RubyFindings.ShortUtf8Truncated | ruby/lib/jksn/decoder.rb:133-143 | as written `42 61 62` ("ab") runs off the end |
| RubyFindings.TextLengthInCharacters | ruby/lib/jksn/types.rb:166-181 | a text with multi-byte characters is read short even when corrected |
| RubyFindings.DumpBytesReadsInRuby | ruby/lib/jksn/decoder.rb:144-161 | every blob Python writes reads back with the corrections, and as written when it is non-empty |
| RubyFindings.EmptyPayloadRefused | ruby/lib/jksn/decoder.rb:230-237 | as written the empty text and the empty blob cannot be read |
| RubyFindings.EmptyBlobTruncated | ruby/lib/jksn/decoder.rb:230-237 | Ruby writes the empty blob as `50`; as written it cannot be read; corrected, it reads back |
| RubyFindings.LongBlobMisread | ruby/lib/jksn/types.rb:152-164 | a blob of 0x100..0xffff bytes written by Ruby has its first byte taken for the low byte of its length |
| RubyFindings.EncoderStreamsRefused | ruby/lib/jksn/decoder.rb:55-62 | as written the decoder refuses every stream the Ruby encoder writes with a header |
| RubyFindings.IntStreamReadsInRuby | ruby/lib/jksn/decoder.rb:55-62 | corrected, an integer after `jk!` reads back |
| RubyFindings.UnevenColumnsRefused | ruby/lib/jksn/types.rb:247-266 | rows whose column count differs from their row count make the array dump raise |
| RubyFindings.SharedColumnRefused | ruby/lib/jksn/types.rb:247-266 | `[{"a": 1}, {"a": 2}]` cannot be dumped by Ruby |
| RubyFindings.BlobLiteralReadsInRubyOnly | ruby/lib/jksn/decoder.rb:78-81 | `0f 52 31 32` is refused by the Python decoder and read as 12 by the Ruby decoder |
| RubyFindings.AccentedTextRaises | ruby/lib/jksn/encoder.rb:68-72 | as written, dumping 128 copies of `é` raises; joined as bytes it is `4e 80` and the payload |

## Left out

- Floating point: binary64 packing and NaN/infinity tests are opaque. In JavaScript a whole double is the integer it equals and -0 is 0, as `dumpNumber` writes them; the encoder's values exclude such doubles (JsEncoder.WholeDoublesAreIntegers). `FloatBits` carries the classification and the eight bytes. Single precision (0x2d) is read, but no encoder writes it.
- Text transcoding, JSON-literal parsing (0x0f) and JavaScript's integer-to-double conversion are `Library` parameters. The model contains no Unicode codec.
- Checksums 0xf0..0xf5 and 0xf8..0xfd: the Python decoder verifies a DJB, CRC-32, MD5, SHA-1, SHA-256 or SHA-512 digest in front of the value (0xf0..0xf5) or behind it (0xf8..0xfd). The model reports `ChecksumNotModelled` for these controls, and the hashers are not modelled. The JavaScript reader only skips a digest, for 0xf0..0xf4 in front and nothing for 0xf8..0xfc, and that skipping is modelled; its table starts at CRC-32 where the Python table starts at the one-byte DJB hash.
- Circular-reference checks: the model has no object identity. The Ruby check (types.rb:26-34) also raises on acyclic values such as `[nil, nil]`, because `nil` answers `to_a` and identities are never taken off the list; the Ruby claims above hold only where that check passes.
- The file entry points `dump` and `load` (I/O), the `ordered_dict` option of the Python decoder, and host type dispatch beyond the `Value` datatype.
- The C and C++ ports are not part of this model, and neither is their test suite. Those tests give no expected bytes for deltas.
- JavaScript 0x70 assigns `self.texthash`. In Node `self` is undefined, so that line would throw there. The model treats it as the browser case, a no-op.
- Ruby host faults are assumed away:
  - `IODieWhenEOFRead.from` is undefined; the model reads as if `.new` were called.
  - `Fixnum` (encoder.rb:50) no longer exists in current Ruby; the model reads it as `Integer`.
  - `DecoderError` and `JKSNDecodeError` are undefined constants (decoder.rb:80, 124, 153 and 198); `DecodeError` is defined (decoder.rb:25). Those paths still fail, as the `NameError` does.
  - "utf-8le" is not an encoding Ruby knows, so `force_encoding` raises once the bytes are read; the model gives `HostException` there.
  - Every raising path becomes a `Failure` value; the empty read is `Truncated`.
- Ruby `__jksn_encode_bignum` is called without its argument, so every varint path raises (`MissingArgument`). The 0xa8f control of the transposed header is therefore never built.
- The Ruby 0x5c branch reads the text table, but no Ruby-written stream can exercise it. The Ruby decoder reads no containers, so no back-reference can follow a stored blob in the same stream. The branch is modelled but not listed as a finding.
- Decoder.LoadValue: its contract states only progress and the empty-stream error. What each family reads is stated by the per-family readers and by the round-trip lemmas.
- Encoder.DumpValue: its contract states only the origin and measured payloads. What each family's node holds is stated by Encoder.DumpInt, DumpFloat, DumpStr, DumpBytes and the layout lemmas Encoder.StraightLayout, SwappedLayout and DictLayout; decoding it is stated by ValueRoundTrip.ValueRoundTrip.
- JsEncoder.JsDumpValue: it assumes a count of its own per array, as evidently intended; as written the shared `objlen` (jksn.js:140) can also throw, which JsObjlen states. As for Encoder.DumpValue. Failure is characterised by JsEncoder.JsDumpFailsIff. An object with a defined `length` fails with `NotAnArray`; when that length converts to no number, JavaScript raises the `encodeInt` assertion first instead, and the model does not tell the two exceptions apart.
- RubyEncoder.RubyDumpValue: as for Encoder.DumpValue. Failure is characterised by RubyEncoder.OversizeFails and RubyEncoder.PlainSucceeds. Success is not characterised for transposable arrays. The encoding failure of `join` is stated on RubyEncoder.RubyDumps, not on the tree.
- ValueRoundTrip.ValueRoundTrip: it is stated for the corrected rules and the signed-delta decoder only. The code as written fails on the inputs under "## Findings".
- ValueRoundTrip.StreamRoundTrip: the same restriction; it is stated for the corrected rules and the signed-delta decoder only.
- Decoder.Loads: its contract is the header's case split. What a dumped stream reads back as is stated by ValueRoundTrip.StreamRoundTrip, and the header's being optional by Decoder.HeaderOptional.
- JsDecoder.JsParse: its contract is the header's case split. What a stringified stream parses back as is stated by JsRoundTrip.JsParseDumps and JsStreamIntRoundTrip, and the header's being optional by JsDecoder.JsHeaderOptional.
- RubyEncoder.RubyStraight: its contract states the family and the child count. The header and each child are stated by RubyEncoder.RubyStraightLayout.
- RubyEncoder.RubySwapped: its contract states the family, the child count and that the columns must number the rows. The header, each column's name and its cells are stated by RubyEncoder.RubySwappedLayout.
- RubyEncoder.RubyDumpHash: its contract states the family and the child count. The header and each key and value are stated by RubyEncoder.RubyHashLayout.
- Encoder.Straight: its contract states the family and the child count. The header and each child are stated by Encoder.StraightLayout.
- Encoder.Swapped: its contract states the family and the child count. The header and each column's name and cells are stated by Encoder.SwappedLayout and Encoder.ColumnLayout.
- Encoder.DumpDict: its contract states the family and the child count. The header and each key and value are stated by Encoder.DictLayout.
- Optimizer.Optimize: its contract states the origin and child count. What it does to an integer, text or blob node is stated by Optimizer.OptimizeInt, OptimizeText and OptimizeBlob, and that any other node has its children optimised in order by TraceSteps.OptimizeContainer.
- Optimizer.OptimizeAll: its contract states the count. The threading of the tables through the children is stated by TraceSteps.OptimizeAllCons.
- Decoder.LoadRefresher: its contract states 0x70. The counted refreshers 0x71..0x7f are stated by DecodeContents.RefresherSkips.
- Decoder.LoadArray: the values read are stated by DecodeContents.ArrayIsRun and DecodeContents.ArrayItem.
- Decoder.LoadObject: the pairs read are stated by DecodeContents.ObjectIsDict.
- Decoder.LoadSwapped: the rows built for 0xa1..0xaf are stated by DecodeContents.SwappedIsPivots.
- Decoder.LoadPragma: its contract states the refused controls. The pragma 0xff is stated by DecodeContents.PragmaSkipsOne; checksums are not modelled.
- Decoder.LoadMany: the values read are stated by DecodeContents.LoadManyIsRun.
- Decoder.LoadPairs: the pairs read are stated by DecodeContents.LoadPairsIsFold and DecodeContents.DictFoldIsBuildDict.
- Decoder.LoadColumns: the rows built are stated by DecodeContents.LoadColumnsIsFold.
- Decoder.LoadUntilUnspecified: the values read are stated by DecodeContents.LoadUntilIsCut, LengthlessEndsAtMarker and LengthlessReadsToMarker.
- JsEncoder.JsStraight: it assumes a count of its own per array, as evidently intended; as written the shared `objlen` (jksn.js:140) can also throw, which JsObjlen states. The header and each child are stated by JsEncoder.JsStraightLayout.
- JsEncoder.JsSwapped: it assumes a count of its own per array, as evidently intended; as written the shared `objlen` (jksn.js:140) can also throw, which JsObjlen states. The header and each column's name and cells are stated by JsEncoder.JsSwappedLayout. Its columns keep the names a plain object inherits, as the corrected behaviour; the code as written is JsFindings.JsSwappedAsWritten. Its cells are JsEncoder.JsCell's, with the inherited-member gap stated there, and its columns follow the rows' pair order rather than JavaScript's enumeration order (see JsEncoder.JsDumpObject).
- JsEncoder.JsDumpObject: it assumes a count of its own per array, as evidently intended; as written the shared `objlen` (jksn.js:140) can also throw, which JsObjlen states. The header and each name and value are stated by JsEncoder.JsObjectLayout. The properties are written in the order of the pairs, and a transposed array's columns follow the rows' pairs. JavaScript's `for (key in …)` (jksn.js:158 and 193) visits integer-like names first, in ascending order, then the others in insertion order. The values the model accepts include pair orders no JavaScript object has.
- JsEncoder.JsCell: `obj[row][column]` (jksn.js:175) also finds the members a row inherits: the `Object.prototype` names on every row, the `Array.prototype` methods on an array row, and the `ArrayBuffer.prototype` members on a buffer row. JavaScript reads a function there, which it writes as `90` and which keeps the column from being transposed, or the prototype object itself. The model reads the unspecified marker (`a0`). It has no function value, and an empty container standing in for one would not be shallower than its row, which the termination of the dump rests on.
- JsEncoder.JsSwappedLayout: its cells are JsEncoder.JsCell's, so a column named after an inherited member has the gap above.
- JsFindings.JsSwappedAsWritten: the same JsEncoder.JsCell gap. The columns as written drop the `Object.prototype` names, but an array row under a column such as `map` still reads `Array.prototype.map` in JavaScript.
- JsEncoder.JsStringify: it assumes a count of its own per array, as evidently intended; as written the shared `objlen` (jksn.js:140) can also throw, which JsObjlen states. Its contract states failure and the header. The bytes behind the header are stated for integers by JsRoundTrip.JsStringifyInt; for containers only through the layout lemmas.
- JsDecoder.JsLoadValue: as for Decoder.LoadValue; the containers are stated by the JsDecodeContents lemmas.
- JsDecoder.JsAddColumn: its contract states the row count and the untouched rows; the content of each later row is stated by JsDecoder.JsAddColumnRow.
- JsDecoder.JsLoadRefresher: its contract states 0x70. The counted refreshers are stated by JsDecodeContents.JsRefresherSkips.
- JsDecoder.JsLoadArray: the values read are stated by JsDecodeContents.JsArrayIsRun and JsArrayItem.
- JsDecoder.JsLoadObject: the properties read are stated by JsDecodeContents.JsObjectIsPutAll. They are kept in insertion order, while the JavaScript object enumerates integer-like names first, in ascending order: `92 41 62 11 41 31 12` is `b` then `1` here and `1` then `b` in JavaScript.
- JsDecoder.JsLoadSwapped: the rows built are stated by JsDecodeContents.JsSwappedIsColumns.
- JsDecoder.JsLoadMany: the values read are stated by JsDecodeContents.JsLoadManyIsRun.
- JsDecoder.JsLoadPairs: the properties read are stated by JsDecodeContents.JsLoadPairsIsFold and PropertyFoldIsPutAll. Their order is insertion order, not JavaScript's enumeration order (see JsDecoder.JsLoadObject).
- JsDecoder.ColumnItems: a string column is split per Unicode character, where JavaScript indexes UTF-16 code units, so a character outside the Basic Multilingual Plane is one row here and two in JavaScript.
- Binary64.ToDouble: the rounding is exact binary64 rounding of the magnitude; overflow beyond 2^1024 is not modelled, and lengths and fixed fields, which stay below 2^32, are not rounded.
- JsEncoder.JsDumpFailsIff: stated with a count of its own per array, as evidently intended. As written every array shares `objlen` (jksn.js:140), and an array whose last nested array has another length throws too; that is JsObjlen.JsStringifyAsWritten, and the finding under "## Findings".
- JsEncoder.JsArrayFailsIff: stated with a count of its own per array, as evidently intended. As written every array shares `objlen` (jksn.js:140), and an array whose last nested array has another length throws too; that is JsObjlen.JsStringifyAsWritten, and the finding under "## Findings".
- JsEncoder.JsSwappedSucceeds: stated with a count of its own per array, as evidently intended. As written every array shares `objlen` (jksn.js:140), and an array whose last nested array has another length throws too; that is JsObjlen.JsStringifyAsWritten, and the finding under "## Findings".
- JsEncoder.JsStraightLayout: stated with a count of its own per array, as evidently intended. As written every array shares `objlen` (jksn.js:140), and an array whose last nested array has another length throws too; that is JsObjlen.JsStringifyAsWritten, and the finding under "## Findings".
- JsEncoder.JsDumpArray: stated with a count of its own per array, as evidently intended. As written every array shares `objlen` (jksn.js:140), and an array whose last nested array has another length throws too; that is JsObjlen.JsStringifyAsWritten, and the finding under "## Findings".
- JsFindings.JsSwappedAsWritten: it isolates the column defect; its nested arrays still check a count of their own, which the shared `objlen` breaks as JsObjlen states.
- JsFindings.JsDumpArrayAsWritten: as for JsFindings.JsSwappedAsWritten, the shared `objlen` is stated separately by JsObjlen.
- Optimizer.SlotKey: the JavaScript slot's low byte is stated for payloads of at most 0x3fffff bytes. Beyond that the binary64 sums may round, which Djb.JsHashLowByte does not cover.
- JsDecoder.SlotOf: the same bound as Optimizer.SlotKey.
- Djb.JsHashLowByte: stated while every partial sum stays within 2^53 of zero; past it binary64 addition rounds and the low byte is not stated.
- Values.Put: a `__proto__` key is never an own property. Assigning an object or `null` to it replaces the prototype in JavaScript, and the values carry no prototype, so that effect is not modelled.
- Values.PyKey: floats are opaque bit strings here, so float keys are compared by their bits. Python identifies more of them: `1.0` with `1`, `0.0` with `-0.0`, and a 0x2d single with the double of equal value. Python also keeps NaN keys apart, because each `float('nan')` (jksn.py:441) is a new object. So `92 2c 00 00 00 00 00 00 00 00 11 2c 80 00 00 00 00 00 00 00 12` is `{0.0: 2}` in Python and two pairs here.

## Findings

| source | as written | input that shows it | evidently intended | confidence | as-written member | corrected member |
|---|---|---|---|---|---|---|
| python/jksn.py:550-555 | fixed-width deltas 0xbb..0xbd are read unsigned; the encoder writes them in two's complement | `[1100, 1000]`, written `82 1c 04 4c bd 9c`, decodes as `[1100, 1256]` | read the delta field signed | high, not executed | Findings.UnsignedDeltaMisread | Findings.SignedDeltaReadsBack |
| python/jksn.py:348-353 | the encoder stores only blobs longer than one byte; the decoder stores every payload | `[b"ab", b"\xe3", b"ab"]` (both hash to 0xe3) decodes as `[b"ab", b"\xe3", b"\xe3"]` | the encoder stores every payload it does not replace | high, not executed | Findings.ShortBlobsMisread | Findings.ShortBlobsFixedRead |
| python/jksn.py:342-347 | UTF-8 and UTF-16LE payloads share the text table and are compared as bytes | `["ab", "扡"]` (both payloads `61 62`) decodes as `["ab", "ab"]` | a slot matches only a payload of its own family | high, not executed | Findings.MixedTextMisread | Findings.MixedTextFixedRead |
| javascript/jksn.js:383-405 | the decoder stores text under the unreduced DJB hash and fetches by one byte | `["ab", "ab"]`, written `82 42 61 62 3c e3`, fails with slot 0xe3 missing | store under the eight-bit slot | high, not executed | JsFindings.AbTwiceMissesAsWritten | JsFindings.AbTwiceReadsCorrected |
| javascript/jksn.js:429-449 | 0x5c falls to the inline-length default and reads a twelve-byte blob | `[b"ab", b"ab"]`, written `82 52 61 62 5c e3`, runs out of bytes | 0x5c is a blob back-reference | high, not executed | JsFindings.BlobReferenceOverruns | JsFindings.BlobReferenceFinds |
| javascript/jksn.js:116-119 | a blob of 0x100..0xffff bytes is written under 0x5e, which announces one length byte, with two length bytes | a 256-byte blob, written `5e 01 00` and the blob, reads back as the one-byte blob `00` | use 0x5d for a two-byte length | high, not executed | JsRoundTrip.JsLongBlobMisread | JsRoundTrip.DumpBytesReadsInJs |
| javascript/jksn.js:453-456 | 0x70 assigns `self.texthash` instead of the decoder's own tables | `82 41 61 70 3c 61` parses as `["a", "a"]` | 0x70 empties the decoder's tables | medium, not executed | JsFindings.RefreshKeptAsWritten | JsFindings.RefreshEmptiedCorrected |
| javascript/jksn.js:626-628 | the parser views three bytes before anything else | `03` (true, written without the header) throws | a one- or two-byte stream is one value | medium, not executed | JsFindings.OneByteRejectedAsWritten | JsFindings.OneByteReadsCorrected |
| javascript/jksn.js:76-77 | `-encodeInt(obj, 0)` passes the negative number to the varint writer, which refuses it | -40000 cannot be stringified | `encodeInt(-obj, 0)`, as in the Python `_dump_int` | high, not executed | JsFindings.MidNegativeThrows | JsRoundTrip.DumpIntReadsInJs |
| javascript/jksn.js:156-161 | `columns_set` is a plain object, so every name it inherits (`constructor`, `toString`, ...) counts as already seen and never becomes a column | `[{"constructor": 1}, {"constructor": 2}]` is written as the one byte `a0`, which reads back as `undefined` | test own properties only, so every enumerated name becomes a column | high, not executed | JsFindings.ConstructorColumnLost | JsFindings.ConstructorColumnKept |
| javascript/jksn.js:139-151 | `objlen = obj.length` assigns a variable no function declares, so every array shares it, and each array checks its children against what the last array among them left | `[[1, 2]]` throws at the `result.children.length == objlen` assertion | declare `var objlen` in `encodeStraightArray`, so each array checks its own count | high, not executed | JsObjlen.NestedArrayThrows | JsEncoder.JsDumpFailsIff |
| ruby/lib/jksn/types.rb:38-57 | two- and four-byte integer fields keep only their first byte (`[0]`) | 200 is written `1c 00`, which is too short to read | write the whole packed field | high, not executed | RubyFindings.TwoHundredTruncated | RubyFindings.DumpIntReadsInRuby |
| ruby/lib/jksn/types.rb:118-130 | a binary64 keeps one of its eight bytes | any finite float takes seven bytes of what follows | write all eight bytes | high, not executed | RubyFindings.ShortDoubleMisread | RubyFindings.DumpFloatReadsInRuby |
| ruby/lib/jksn/types.rb:152-164 | a blob of 0x100..0xffff bytes keeps one byte of its two-byte length | a 256-byte blob has its first byte read as the low length byte | write both length bytes | high, not executed | RubyFindings.LongBlobMisread | RubyFindings.DumpBytesReadsInRuby |
| ruby/lib/jksn/types.rb:166-181 | the text header counts characters while the payload is UTF-8 bytes | a text with a multi-byte character is read short | count UTF-8 bytes | high, not executed | RubyFindings.TextLengthInCharacters | RubyFindings.DumpStrReadsInRuby |
| ruby/lib/jksn/decoder.rb:133-143 | a UTF-8 length is doubled and the bytes are handed to "utf-8le", an encoding Ruby does not know, so `force_encoding` raises; 0x4c is skipped | `42 61 62` ("ab") runs off the end | a UTF-8 length counts bytes | high, not executed | RubyFindings.ShortUtf8Truncated | RubyFindings.DumpStrReadsInRuby |
| ruby/lib/jksn/decoder.rb:230-237 | a read that returns the empty string raises, even when nothing was asked for | the empty blob `50` cannot be read | a read of zero bytes yields none | high, not executed | RubyFindings.EmptyPayloadRefused | RubyFindings.EmptyBlobTruncated |
| ruby/lib/jksn/decoder.rb:57 | the header compared is `!jk` | every stream the encoder writes with `jk!` is refused at 0x6a | compare against `jk!` | high, not executed | RubyFindings.EncoderStreamsRefused | RubyFindings.IntStreamReadsInRuby |
| ruby/lib/jksn/encoder.rb:68-72 | `to_s` joins the control, a binary header and the UTF-8 payload as strings; a header byte of 0x80 or more beside a payload outside ASCII is an encoding clash | `"é" * 128` raises instead of being written `4e 80` and its payload | join the parts as bytes | medium, not executed | RubyFindings.AccentedTextRaises | RubyEncoder.RubyDumpsBinary |
| ruby/lib/jksn/types.rb:247-266 | the transposed header counts rows, and the dump raises unless there are twice as many children as rows | `[{"a": 1}, {"a": 2}]` cannot be dumped | count columns, as the Python encoder does | high, not executed | RubyFindings.SharedColumnRefused | ValueRoundTrip.SwappedRoundTrip |

=== FILE: arith.dfy ===
/** Division facts the codecs need: Dafny's `/` and `%` are Euclidean, and
    every operand here is non-negative or reduced modulo a positive power of
    two, where Euclidean and two's-complement arithmetic agree. */
module Arith {

  lemma MulAtLeast(d: int, k: int)
    requires d > 0 && k >= 1
    ensures d * k >= d
    decreases k
  {
    if k > 1 {
      MulAtLeast(d, k - 1);
      assert d * k == d * (k - 1) + d;
    }
  }

  /** Quotient and remainder are unique. */
  lemma ModUnique(x: int, d: int, q: int, r: int)
    requires d > 0 && x == d * q + r && 0 <= r < d
    ensures x % d == r && x / d == q
  {
    var q0, r0 := x / d, x % d;
    assert d * q + r == d * q0 + r0;
    if q0 > q {
      ProductGap(d, q0, q);
    } else if q0 < q {
      ProductGap(d, q, q0);
    }
  }

  lemma ProductGap(d: int, a: int, b: int)
    requires d > 0 && a > b
    ensures d * a - d * b >= d
  {
    MulAtLeast(d, a - b);
    assert d * (a - b) == d * a - d * b;
  }

  /** Adding a multiple of the modulus does not change the remainder. */
  lemma ModShift(x: int, m: int, k: int)
    requires m > 0
    ensures (x + m * k) % m == x % m
  {
    var q, r := x / m, x % m;
    assert x + m * k == m * (q + k) + r;
    ModUnique(x + m * k, m, q + k, r);
  }

  /** Only the residue of a factor matters for a remainder. */
  lemma ModMulAdd(a: int, c: int, b: int, m: int)
    requires m > 0
    ensures (a * c + b) % m == ((a % m) * c + b) % m
  {
    var q := a / m;
    assert a == m * q + a % m;
    assert a * c + b == ((a % m) * c + b) + m * (q * c);
    ModShift((a % m) * c + b, m, q * c);
  }
}

=== FILE: binary64.dfy ===
/** Integers as JavaScript numbers: binary64 values, whose spacing doubles
    with every bit beyond 53, and the round-to-nearest conversion every
    arithmetic result goes through (section 4.3.1 of IEEE 754-2008). */
module Binary64 {
  import opened Arith

  /** 2^53: every integer of at most this magnitude is a binary64 value. */
  const TwoTo53: int := 0x20_0000_0000_0000

  /** The distance between neighbouring binary64 values around `m`: one below
      2^53, doubling with every further bit. */
  function Spacing(m: nat): (u: nat)
    ensures u >= 1
    ensures m < TwoTo53 ==> u == 1
    decreases m
  {
    if m < TwoTo53 then 1 else 2 * Spacing(m / 2)
  }

  /** The multiple of `u` at or below `m` plus `up` steps lies at most half
      of `u` away from `m` when `up` is chosen by the remainder. */
  lemma NearMultiple(m: nat, u: nat, q: nat, rem: nat, up: bool)
    requires u >= 1 && m == q * u + rem && rem < u
    requires up ==> 2 * rem >= u
    requires !up ==> 2 * rem <= u
    ensures var r := (if up then q + 1 else q) * u;
      r % u == 0 && 2 * (r - m) <= u && 2 * (m - r) <= u
  {
    var k := if up then q + 1 else q;
    assert k * u == q * u + (if up then u else 0);
    ModUnique(k * u, u, k, 0);
  }

  /** `m` rounded to the nearest binary64 value, a tie going to the even
      significand (roundTiesToEven, section 4.3.1 of IEEE 754-2008): a
      multiple of the spacing at `m`, at most half of it away. */
  function RoundMagnitude(m: nat): (r: nat)
    ensures r % Spacing(m) == 0
    ensures 2 * (r - m) <= Spacing(m) && 2 * (m - r) <= Spacing(m)
    ensures m <= TwoTo53 ==> r == m
  {
    var u := Spacing(m);
    var q := m / u;
    var rem := m % u;
    var up := 2 * rem > u || (2 * rem == u && q % 2 == 1);
    RoundFacts(m, u, q, rem, up);
    (if up then q + 1 else q) * u
  }

  /** What RoundMagnitude states, for the quotient and remainder it uses. */
  lemma RoundFacts(m: nat, u: nat, q: nat, rem: nat, up: bool)
    requires u == Spacing(m) && q == m / u && rem == m % u
    requires up ==> 2 * rem >= u
    requires !up ==> 2 * rem <= u
    ensures var r := (if up then q + 1 else q) * u;
      r >= 0 && r % u == 0 && 2 * (r - m) <= u && 2 * (m - r) <= u && (m <= TwoTo53 ==> r == m)
  {
    assert m == q * u + rem && rem < u;
    NearMultiple(m, u, q, rem, up);
    var k := if up then q + 1 else q;
    MulAtLeast0(u, k);
    if m <= TwoTo53 {
      if m == TwoTo53 {
        assert Spacing(m / 2) == 1;
        ModUnique(m, 2, TwoTo53 / 2, 0);
      } else {
        ModUnique(m, 1, m, 0);
      }
      assert rem == 0 && !up;
    }
  }

  /** A product of two naturals is a natural. */
  lemma MulAtLeast0(u: nat, k: nat)
    ensures u * k >= 0
  {
  }

  /** An integer as a JavaScript number: rounded to binary64, exact within
      2^53 of zero. */
  function ToDouble(n: int): (r: int)
    ensures -TwoTo53 <= n <= TwoTo53 ==> r == n
    ensures n >= 0 ==> r >= 0
    ensures n <= 0 ==> r <= 0
  {
    if n < 0 then 0 - RoundMagnitude(0 - n) else RoundMagnitude(n)
  }
}

=== FILE: decodecontents.dfy ===
/** What the container readers of the Python decoder read, stated against
    the generic runs: an array is the run of its count of values; a refresher
    0x71..0x7f and the pragma 0xff read a run and keep its last value; an
    object is the run of twice its count of values passed pairwise to
    `dict`; a transposed array is the run of its columns pivoted one after
    another; a lengthless array is the run up to the first unspecified
    marker. */
module DecodeContents {
  import opened Wrappers
  import opened Values
  import opened Decoder
  import opened Runs

  // ----- the decoder's readers as generic runs ------------------------------

  function AsGot(r: Result<Loaded, DecodeError>): (g: Result<Got<DecoderState>, DecodeError>)
    ensures g.Success? <==> r.Success?
    ensures g.Success? ==> g.value == Got(r.value.v, r.value.rest, r.value.st)
    ensures g.Failure? ==> g.error == r.error
  {
    if r.Success? then Success(Got(r.value.v, r.value.rest, r.value.st)) else Failure(r.error)
  }

  function AsMany(r: Result<LoadedMany, DecodeError>): (g: Result<GotMany<DecoderState>, DecodeError>)
    ensures g.Success? <==> r.Success?
    ensures g.Success? ==> g.value == GotMany(r.value.vs, r.value.rest, r.value.st)
    ensures g.Failure? ==> g.error == r.error
  {
    if r.Success? then Success(GotMany(r.value.vs, r.value.rest, r.value.st)) else Failure(r.error)
  }

  function PairsOf(r: Result<LoadedPairs, DecodeError>): (g: Result<Folded<DecoderState, seq<(Value, Value)>>, DecodeError>)
    ensures g.Success? <==> r.Success?
    ensures g.Success? ==> g.value == Folded(r.value.pairs, r.value.rest, r.value.st)
  {
    if r.Success? then Success(Folded(r.value.pairs, r.value.rest, r.value.st)) else Failure(r.error)
  }

  function RowsOf(r: Result<LoadedRows, DecodeError>): (g: Result<Folded<DecoderState, seq<seq<(Value, Value)>>>, DecodeError>)
    ensures g.Success? <==> r.Success?
    ensures g.Success? ==> g.value == Folded(r.value.rows, r.value.rest, r.value.st)
  {
    if r.Success? then Success(Folded(r.value.rows, r.value.rest, r.value.st)) else Failure(r.error)
  }

  /** The decoder's reader of one value. */
  function ValueReader(lib: Library, signed: bool): Reader<DecoderState, DecodeError> {
    (s, st) => AsGot(LoadValue(lib, signed, s, st))
  }

  lemma ValueReaderProgress(lib: Library, signed: bool)
    ensures Progress(ValueReader(lib, signed))
  {
    forall s: Bytes, st: DecoderState
      ensures ValueReader(lib, signed)(s, st).Success? ==> |ValueReader(lib, signed)(s, st).value.rest| < |s|
    {
    }
  }

  /** `dict` assignment as a putter: an unhashable key is refused. */
  function DictPut(): Putter<seq<(Value, Value)>, DecodeError> {
    (acc: seq<(Value, Value)>, k: Value, v: Value) => if !Hashable(k) then Failure(UnhashableKey) else Success(PyPut(acc, k, v))
  }

  /** A column of a transposed array as a putter: the name and an array of
      values are pivoted into the rows; anything else but an array is
      refused. */
  function ColumnPut(): Putter<seq<seq<(Value, Value)>>, DecodeError> {
    (rows: seq<seq<(Value, Value)>>, name: Value, values: Value) => if !values.Sequence? then Failure(SwappedNeedsArray) else Success(Pivot(rows, name, values.items))
  }

  function ManyOf(lib: Library, signed: bool, n: nat, s: Bytes, st: DecoderState): Result<GotMany<DecoderState>, DecodeError> {
    AsMany(LoadMany(lib, signed, n, s, st))
  }

  lemma ManyUnfold(lib: Library, signed: bool, n: nat, s: Bytes, st: DecoderState)
    ensures ManyOf(lib, signed, n, s, st) ==
      if n == 0 then Success(GotMany([], s, st))
      else if LoadValue(lib, signed, s, st).Failure? then Failure(LoadValue(lib, signed, s, st).error)
      else Cons(LoadValue(lib, signed, s, st).value.v, ManyOf(lib, signed, n - 1, LoadValue(lib, signed, s, st).value.rest, LoadValue(lib, signed, s, st).value.st))
  {
  }

  lemma ManySteps(lib: Library, signed: bool)
    ensures StepsLike(ValueReader(lib, signed), (n: nat, s: Bytes, st: DecoderState) => ManyOf(lib, signed, n, s, st))
  {
    forall n: nat, s: Bytes, st: DecoderState
      ensures ManyOf(lib, signed, n, s, st) ==
        if n == 0 then Success(GotMany([], s, st))
        else if LoadValue(lib, signed, s, st).Failure? then Failure(LoadValue(lib, signed, s, st).error)
        else Cons(LoadValue(lib, signed, s, st).value.v, ManyOf(lib, signed, n - 1, LoadValue(lib, signed, s, st).value.rest, LoadValue(lib, signed, s, st).value.st))
    {
      ManyUnfold(lib, signed, n, s, st);
    }
  }

  /** `LoadMany` is the run of the decoder's value reader. */
  lemma LoadManyIsRun(lib: Library, signed: bool, n: nat, s: Bytes, st: DecoderState)
    ensures AsMany(LoadMany(lib, signed, n, s, st)) == Run(ValueReader(lib, signed), n, s, st)
  {
    ManySteps(lib, signed);
    RunUnique(ValueReader(lib, signed), (n: nat, s: Bytes, st: DecoderState) => ManyOf(lib, signed, n, s, st), n, s, st);
  }

  /** `LoadPairs` from a dict with distinct keys; any other start is
      refused (the decoder never starts from one). */
  function PairsFrom(lib: Library, signed: bool, n: nat, s: Bytes, st: DecoderState, acc: seq<(Value, Value)>): Result<Folded<DecoderState, seq<(Value, Value)>>, DecodeError> {
    if PyDistinctKeys(acc) then PairsOf(LoadPairs(lib, signed, n, s, st, acc)) else Failure(UnhashableKey)
  }

  lemma PairsUnfold(lib: Library, signed: bool, n: nat, s: Bytes, st: DecoderState, acc: seq<(Value, Value)>)
    requires PyDistinctKeys(acc)
    ensures PairsFrom(lib, signed, n, s, st, acc) ==
      if n == 0 then Success(Folded(acc, s, st))
      else
        var key := LoadValue(lib, signed, s, st);
        if key.Failure? then Failure(key.error)
        else
          var value := LoadValue(lib, signed, key.value.rest, key.value.st);
          if value.Failure? then Failure(value.error)
          else if !Hashable(key.value.v) then Failure(UnhashableKey)
          else PairsFrom(lib, signed, n - 1, value.value.rest, value.value.st, PyPut(acc, key.value.v, value.value.v))
  {
    if n > 0 {
      var key := LoadValue(lib, signed, s, st);
      if key.Success? {
        var value := LoadValue(lib, signed, key.value.rest, key.value.st);
        if value.Success? && Hashable(key.value.v) {
          PyPutDistinct(acc, key.value.v, value.value.v);
        }
      }
    }
  }

  lemma PairsFold(lib: Library, signed: bool)
    ensures FoldsLike(ValueReader(lib, signed), DictPut(), (acc: seq<(Value, Value)>) => PyDistinctKeys(acc),
      (n: nat, s: Bytes, st: DecoderState, acc: seq<(Value, Value)>) => PairsFrom(lib, signed, n, s, st, acc))
    ensures Keeps(DictPut(), (acc: seq<(Value, Value)>) => PyDistinctKeys(acc))
  {
    forall n: nat, s: Bytes, st: DecoderState, acc: seq<(Value, Value)> | PyDistinctKeys(acc)
      ensures PairsFrom(lib, signed, n, s, st, acc) ==
        if n == 0 then Success(Folded(acc, s, st))
        else
          var key := LoadValue(lib, signed, s, st);
          if key.Failure? then Failure(key.error)
          else
            var value := LoadValue(lib, signed, key.value.rest, key.value.st);
            if value.Failure? then Failure(value.error)
            else if !Hashable(key.value.v) then Failure(UnhashableKey)
            else PairsFrom(lib, signed, n - 1, value.value.rest, value.value.st, PyPut(acc, key.value.v, value.value.v))
    {
      PairsUnfold(lib, signed, n, s, st, acc);
    }
    forall acc: seq<(Value, Value)>, k: Value, v: Value | PyDistinctKeys(acc) && DictPut()(acc, k, v).Success?
      ensures PyDistinctKeys(DictPut()(acc, k, v).value)
    {
      PyPutDistinct(acc, k, v);
    }
  }

  /** `LoadPairs` is the pair fold of the value reader with `dict`
      assignment. */
  lemma LoadPairsIsFold(lib: Library, signed: bool, n: nat, s: Bytes, st: DecoderState, acc: seq<(Value, Value)>)
    requires PyDistinctKeys(acc)
    ensures PairsOf(LoadPairs(lib, signed, n, s, st, acc)) == FoldPairs(ValueReader(lib, signed), DictPut(), n, s, st, acc)
  {
    PairsFold(lib, signed);
    FoldUnique(ValueReader(lib, signed), DictPut(), (acc: seq<(Value, Value)>) => PyDistinctKeys(acc),
      (n: nat, s: Bytes, st: DecoderState, acc: seq<(Value, Value)>) => PairsFrom(lib, signed, n, s, st, acc),
      n, s, st, acc);
  }

  function ColumnsFrom(lib: Library, signed: bool, n: nat, s: Bytes, st: DecoderState, rows: seq<seq<(Value, Value)>>): Result<Folded<DecoderState, seq<seq<(Value, Value)>>>, DecodeError> {
    RowsOf(LoadColumns(lib, signed, n, s, st, rows))
  }

  lemma ColumnsUnfold(lib: Library, signed: bool, n: nat, s: Bytes, st: DecoderState, rows: seq<seq<(Value, Value)>>)
    ensures ColumnsFrom(lib, signed, n, s, st, rows) ==
      if n == 0 then Success(Folded(rows, s, st))
      else
        var name := LoadValue(lib, signed, s, st);
        if name.Failure? then Failure(name.error)
        else
          var values := LoadValue(lib, signed, name.value.rest, name.value.st);
          if values.Failure? then Failure(values.error)
          else if !values.value.v.Sequence? then Failure(SwappedNeedsArray)
          else ColumnsFrom(lib, signed, n - 1, values.value.rest, values.value.st, Pivot(rows, name.value.v, values.value.v.items))
  {
    if n > 0 {
      var name := LoadValue(lib, signed, s, st);
      if name.Success? {
        var values := LoadValue(lib, signed, name.value.rest, name.value.st);
        if values.Success? && values.value.v.Sequence? {
          AddColumnIsPivot(rows, name.value.v, values.value.v.items);
        }
      }
    }
  }

  lemma ColumnsFold(lib: Library, signed: bool)
    ensures FoldsLike(ValueReader(lib, signed), ColumnPut(), (rows: seq<seq<(Value, Value)>>) => true,
      (n: nat, s: Bytes, st: DecoderState, rows: seq<seq<(Value, Value)>>) => ColumnsFrom(lib, signed, n, s, st, rows))
    ensures Keeps(ColumnPut(), (rows: seq<seq<(Value, Value)>>) => true)
  {
    forall n: nat, s: Bytes, st: DecoderState, rows: seq<seq<(Value, Value)>>
      ensures ColumnsFrom(lib, signed, n, s, st, rows) ==
        if n == 0 then Success(Folded(rows, s, st))
        else
          var name := LoadValue(lib, signed, s, st);
          if name.Failure? then Failure(name.error)
          else
            var values := LoadValue(lib, signed, name.value.rest, name.value.st);
            if values.Failure? then Failure(values.error)
            else if !values.value.v.Sequence? then Failure(SwappedNeedsArray)
            else ColumnsFrom(lib, signed, n - 1, values.value.rest, values.value.st, Pivot(rows, name.value.v, values.value.v.items))
    {
      ColumnsUnfold(lib, signed, n, s, st, rows);
    }
  }

  /** `LoadColumns` is the pair fold of the value reader with the pivot. */
  lemma LoadColumnsIsFold(lib: Library, signed: bool, n: nat, s: Bytes, st: DecoderState, rows: seq<seq<(Value, Value)>>)
    ensures RowsOf(LoadColumns(lib, signed, n, s, st, rows)) == FoldPairs(ValueReader(lib, signed), ColumnPut(), n, s, st, rows)
  {
    ColumnsFold(lib, signed);
    FoldUnique(ValueReader(lib, signed), ColumnPut(), (rows: seq<seq<(Value, Value)>>) => true,
      (n: nat, s: Bytes, st: DecoderState, rows: seq<seq<(Value, Value)>>) => ColumnsFrom(lib, signed, n, s, st, rows),
      n, s, st, rows);
  }

  lemma UntilCuts(lib: Library, signed: bool)
    ensures CutsLike(ValueReader(lib, signed), (s: Bytes, st: DecoderState, acc: seq<Value>) => AsGot(LoadUntilUnspecified(lib, signed, s, st, acc)))
  {
    var f := (s: Bytes, st: DecoderState, acc: seq<Value>) => AsGot(LoadUntilUnspecified(lib, signed, s, st, acc));
    forall s: Bytes, st: DecoderState, acc: seq<Value>
      ensures f(s, st, acc) == UntilStep(ValueReader(lib, signed), f, s, st, acc)
    {
    }
  }

  /** `LoadUntilUnspecified` is the cut run of the value reader. */
  lemma LoadUntilIsCut(lib: Library, signed: bool, s: Bytes, st: DecoderState, acc: seq<Value>)
    ensures Progress(ValueReader(lib, signed))
    ensures AsGot(LoadUntilUnspecified(lib, signed, s, st, acc)) == Until(ValueReader(lib, signed), s, st, acc)
  {
    ValueReaderProgress(lib, signed);
    UntilCuts(lib, signed);
    UntilUnique(ValueReader(lib, signed), (s: Bytes, st: DecoderState, acc: seq<Value>) => AsGot(LoadUntilUnspecified(lib, signed, s, st, acc)), s, st, acc);
  }

  // ----- what each container reads ------------------------------------------

  /** An array 0x80..0x8f holds exactly the run of as many values as its
      count says, read after the count; a count cut short is truncation. */
  lemma ArrayIsRun(lib: Library, signed: bool, c: byte, t: Bytes, st: DecoderState)
    requires c / 16 == 8
    ensures ReadCount(c, t, 0xc).Failure? ==> LoadArray(lib, signed, c, t, st) == Failure(Truncated)
    ensures ReadCount(c, t, 0xc).Success? ==>
      var n := ReadCount(c, t, 0xc).value;
      var m := Run(ValueReader(lib, signed), n.n, n.rest, st);
      (LoadArray(lib, signed, c, t, st).Success? <==> m.Success?) &&
      (m.Success? ==> LoadArray(lib, signed, c, t, st).value == Loaded(Sequence(m.value.vs), m.value.rest, m.value.st))
  {
    var n := ReadCount(c, t, 0xc);
    if n.Success? {
      LoadManyIsRun(lib, signed, n.value.n, n.value.rest, st);
    }
  }

  /** Item `i` of an array is the value read after the count and the `i`
      items before it. */
  lemma ArrayItem(lib: Library, signed: bool, c: byte, t: Bytes, st: DecoderState, i: nat)
    requires c / 16 == 8
    requires LoadArray(lib, signed, c, t, st).Success?
    requires i < |LoadArray(lib, signed, c, t, st).value.v.items|
    ensures ReadCount(c, t, 0xc).Success?
    ensures NthValue(ValueReader(lib, signed), i, ReadCount(c, t, 0xc).value.rest, st) ==
      Some(LoadArray(lib, signed, c, t, st).value.v.items[i])
  {
    ArrayIsRun(lib, signed, c, t, st);
    var n := ReadCount(c, t, 0xc).value;
    RunNth(ValueReader(lib, signed), n.n, n.rest, st, i);
  }

  /** A refresher 0x71..0x7f reads its count of values and then one more,
      and yields only that last one, where and with the tables the run
      leaves; a count cut short is truncation. */
  lemma RefresherSkips(lib: Library, signed: bool, c: byte, t: Bytes, st: DecoderState)
    requires 0x71 <= c <= 0x7f
    ensures ReadCount(c, t, 0xc).Failure? ==> LoadRefresher(lib, signed, c, t, st) == Failure(Truncated)
    ensures ReadCount(c, t, 0xc).Success? ==>
      var n := ReadCount(c, t, 0xc).value;
      var m := Run(ValueReader(lib, signed), n.n + 1, n.rest, st);
      (LoadRefresher(lib, signed, c, t, st).Success? <==> m.Success?) &&
      (m.Success? ==> LoadRefresher(lib, signed, c, t, st).value == Loaded(m.value.vs[n.n], m.value.rest, m.value.st))
  {
    var n := ReadCount(c, t, 0xc);
    if n.Success? {
      LoadManyIsRun(lib, signed, n.value.n, n.value.rest, st);
      RunOneMore(ValueReader(lib, signed), n.value.n, n.value.rest, st);
    }
  }

  /** The pragma 0xff reads two values and yields the second. */
  lemma PragmaSkipsOne(lib: Library, signed: bool, t: Bytes, st: DecoderState)
    ensures var m := Run(ValueReader(lib, signed), 2, t, st);
      (LoadPragma(lib, signed, 0xff, t, st).Success? <==> m.Success?) &&
      (m.Success? ==> LoadPragma(lib, signed, 0xff, t, st).value == Loaded(m.value.vs[1], m.value.rest, m.value.st))
  {
    var first := LoadValue(lib, signed, t, st);
    if first.Success? {
      var second := LoadValue(lib, signed, first.value.rest, first.value.st);
      assert Run(ValueReader(lib, signed), 2, t, st) == Cons(first.value.v, Run(ValueReader(lib, signed), 1, first.value.rest, first.value.st));
      assert ValueReader(lib, signed)(first.value.rest, first.value.st) == AsGot(second);
      if second.Success? {
        assert Run(ValueReader(lib, signed), 1, first.value.rest, first.value.st) == Cons(second.value.v, Run(ValueReader(lib, signed), 0, second.value.rest, second.value.st));
      }
    }
  }

  /** Entering a list two values at a time is `dict` over its pairs. */
  lemma {:induction false} DictFoldIsBuildDict(vs: seq<Value>, acc: seq<(Value, Value)>)
    requires PyDistinctKeys(acc)
    ensures FoldList(DictPut(), vs, acc) == BuildDict(Paired(vs), acc)
    decreases |vs|
  {
    if |vs| >= 2 {
      assert Paired(vs)[0] == (vs[0], vs[1]);
      assert Paired(vs)[1..] == Paired(vs[2..]);
      if Hashable(vs[0]) {
        PyPutDistinct(acc, vs[0], vs[1]);
        DictFoldIsBuildDict(vs[2..], PyPut(acc, vs[0], vs[1]));
      }
    }
  }

  /** An object 0x90..0x9f is `dict` over the pairs of the run of twice its
      count of values: it fails when a key is unhashable, and a repeated key
      keeps its first position and its last value. */
  lemma ObjectIsDict(lib: Library, signed: bool, c: byte, t: Bytes, st: DecoderState)
    requires c / 16 == 9
    ensures ReadCount(c, t, 0xc).Failure? ==> LoadObject(lib, signed, c, t, st) == Failure(Truncated)
    ensures ReadCount(c, t, 0xc).Success? ==>
      var n := ReadCount(c, t, 0xc).value;
      var m := Run(ValueReader(lib, signed), 2 * n.n, n.rest, st);
      (LoadObject(lib, signed, c, t, st).Success? <==> m.Success? && BuildDict(Paired(m.value.vs), []).Success?) &&
      (LoadObject(lib, signed, c, t, st).Success? ==>
         LoadObject(lib, signed, c, t, st).value == Loaded(Mapping(BuildDict(Paired(m.value.vs), []).value), m.value.rest, m.value.st))
  {
    var n := ReadCount(c, t, 0xc);
    if n.Success? {
      LoadPairsIsFold(lib, signed, n.value.n, n.value.rest, st, []);
      FoldPairsIsRun(ValueReader(lib, signed), DictPut(), n.value.n, n.value.rest, st, []);
      var m := Run(ValueReader(lib, signed), 2 * n.value.n, n.value.rest, st);
      if m.Success? {
        DictFoldIsBuildDict(m.value.vs, []);
      }
    }
  }

  /** A transposed array 0xa1..0xaf reads twice its count of values, pivots
      each column into the rows in turn and makes each row a dict; a column
      whose values are not an array, or an unhashable column name, fails. */
  lemma SwappedIsPivots(lib: Library, signed: bool, c: byte, t: Bytes, st: DecoderState)
    requires 0xa1 <= c <= 0xaf
    ensures ReadCount(c, t, 0xc).Failure? ==> LoadSwapped(lib, signed, c, t, st) == Failure(Truncated)
    ensures ReadCount(c, t, 0xc).Success? ==>
      var n := ReadCount(c, t, 0xc).value;
      var m := Run(ValueReader(lib, signed), 2 * n.n, n.rest, st);
      var rows := if m.Success? then FoldList(ColumnPut(), m.value.vs, []) else Success([]);
      (LoadSwapped(lib, signed, c, t, st).Success? <==> m.Success? && rows.Success? && BuildDicts(rows.value).Success?) &&
      (LoadSwapped(lib, signed, c, t, st).Success? ==>
         LoadSwapped(lib, signed, c, t, st).value == Loaded(Sequence(BuildDicts(rows.value).value), m.value.rest, m.value.st))
  {
    var n := ReadCount(c, t, 0xc);
    if n.Success? {
      LoadColumnsIsFold(lib, signed, n.value.n, n.value.rest, st, []);
      FoldPairsIsRun(ValueReader(lib, signed), ColumnPut(), n.value.n, n.value.rest, st, []);
    }
  }

  /** A lengthless array 0xc8 that is read holds the values before the first
      unspecified marker of the run it read, the marker ending the run. */
  lemma LengthlessEndsAtMarker(lib: Library, signed: bool, t: Bytes, st: DecoderState)
    requires LoadLengthless(lib, signed, 0xc8, t, st).Success?
    ensures var r := LoadLengthless(lib, signed, 0xc8, t, st).value;
      r.v.Sequence? && Unmarked(r.v.items) &&
      Run(ValueReader(lib, signed), |r.v.items| + 1, t, st) == Success(GotMany(r.v.items + [Unspecified], r.rest, r.st))
  {
    LoadUntilIsCut(lib, signed, t, st, []);
    UntilFromStart(ValueReader(lib, signed), t, st);
  }

  /** Conversely, whenever a run of `k + 1` values ends at its first
      unspecified marker, the lengthless array holds the `k` values before
      it. */
  lemma LengthlessReadsToMarker(lib: Library, signed: bool, t: Bytes, st: DecoderState, k: nat)
    requires var m := Run(ValueReader(lib, signed), k + 1, t, st);
      m.Success? && m.value.vs[k] == Unspecified && Unmarked(m.value.vs[..k])
    ensures var m := Run(ValueReader(lib, signed), k + 1, t, st).value;
      LoadLengthless(lib, signed, 0xc8, t, st) == Success(Loaded(Sequence(m.vs[..k]), m.rest, m.st))
  {
    LoadUntilIsCut(lib, signed, t, st, []);
    UntilIsRun(ValueReader(lib, signed), t, st, [], k);
    assert [] + Run(ValueReader(lib, signed), k + 1, t, st).value.vs[..k] == Run(ValueReader(lib, signed), k + 1, t, st).value.vs[..k];
  }
}

=== FILE: decoder.dfy ===
/** The Python decoder (`JKSNDecoder._load_value` and its helpers): one
    forward pass over the input that keeps the last integer read and the text
    and blob tables, every decoded payload stored at the DJB hash of its raw
    bytes.  Each function takes the remaining input and returns the value, the
    input after it and the new state. */
module Decoder {
  import opened Wrappers
  import opened Values
  import opened IntCodec
  import opened Djb
  import opened Proxy

  datatype DecoderState = DecoderState(
    lastint: Option<int>,
    text: map<byte, string>,
    blob: map<byte, Bytes>)

  const FreshDecoder := DecoderState(None, map[], map[])

  datatype Loaded = Loaded(v: Value, rest: Bytes, st: DecoderState)
  datatype LoadedMany = LoadedMany(vs: seq<Value>, rest: Bytes, st: DecoderState)
  datatype LoadedPairs = LoadedPairs(pairs: seq<(Value, Value)>, rest: Bytes, st: DecoderState)
  datatype LoadedRows = LoadedRows(rows: seq<seq<(Value, Value)>>, rest: Bytes, st: DecoderState)

  /** `rest` is what remains of `s` after a forward read. */
  predicate Suffix(rest: Bytes, s: Bytes) {
    |rest| <= |s| && s[|s| - |rest|..] == rest
  }

  lemma SuffixTrans(a: Bytes, b: Bytes, c: Bytes)
    requires Suffix(a, b) && Suffix(b, c)
    ensures Suffix(a, c)
  {
    assert c[|c| - |b|..][|b| - |a|..] == c[|c| - |a|..];
  }

  // ----- headers and payloads -----------------------------------------------

  /** The count or length a header carries: the low nibble up to `inlineMax`,
      then a one-byte (0x?e), two-byte (0x?d) or varint (0x?f) field. */
  function ReadCount(c: byte, s: Bytes, inlineMax: nat): (r: Result<Parsed, DecodeError>)
    requires inlineMax <= 0xc
    ensures r.Success? ==> Suffix(r.value.rest, s)
    ensures r.Failure? ==> r.error == Truncated
    ensures c % 16 <= inlineMax ==> r == Success(Parsed(c % 16, s))
  {
    var low := c % 16;
    if low <= inlineMax then Success(Parsed(low, s))
    else if low == 0xd then DecodeInt(s, 2)
    else if low == 0xe then DecodeInt(s, 1)
    else DecodeInt(s, 0)
  }

  /** `fp.read(n)` behind the end-of-file check: exactly `n` bytes or EOFError. */
  function ReadBytes(s: Bytes, n: nat): (r: Result<(Bytes, Bytes), DecodeError>)
    ensures r.Success? <==> n <= |s|
    ensures r.Success? ==> |r.value.0| == n && r.value.0 + r.value.1 == s
    ensures r.Failure? ==> r.error == Truncated
  {
    if |s| < n then Failure(Truncated) else Success((s[..n], s[n..]))
  }

  /** Reading the length of a prefix gives back that prefix and what follows. */
  lemma ReadBytesSplits(p: Bytes, tail: Bytes)
    ensures ReadBytes(p + tail, |p|) == Success((p, tail))
  {
    assert (p + tail)[..|p|] == p && (p + tail)[|p|..] == tail;
  }

  /** `_load_str`: read `n` bytes; decode them as text in `charset`, or keep
      them as a blob when there is none; store the result in its table at the
      hash of the raw bytes. */
  function LoadStr(lib: Library, s: Bytes, n: nat, charset: Option<Charset>, st: DecoderState): (r: Result<Loaded, DecodeError>)
    ensures r.Success? ==> n <= |s| && Suffix(r.value.rest, s) && r.value.rest == s[n..]
    ensures r.Success? ==> r.value.st.lastint == st.lastint
    ensures r.Success? && charset.None? ==>
      r.value.v == Blob(s[..n]) && r.value.st == st.(blob := st.blob[Hash(s[..n]) := s[..n]])
    ensures r.Success? && charset.Some? ==>
      r.value.v.Text? && lib.decode(charset.value, s[..n]) == Some(r.value.v.s) &&
      r.value.st == st.(text := st.text[Hash(s[..n]) := r.value.v.s])
    ensures r.Failure? <==> n > |s| || (charset.Some? && lib.decode(charset.value, s[..n]).None?)
  {
    var (buf, rest) :- ReadBytes(s, n);
    match charset
    case None => Success(Loaded(Blob(buf), rest, st.(blob := st.blob[Hash(buf) := buf])))
    case Some(cs) =>
      match lib.decode(cs, buf)
      case None => Failure(UndecodableText)
      case Some(text) => Success(Loaded(Text(text), rest, st.(text := st.text[Hash(buf) := text])))
  }

  // ----- scalar families ------------------------------------------------------

  /** The wider integer tiers shared by integers and deltas, by the low
      nibble of the control byte: a fixed field of 4 (0xb), 2 (0xc) or 1
      (0xd) bytes, or a varint magnitude, negated for 0xe.  `signed` reads the
      fixed fields as two's complement, as `_unsigned_to_signed` does. */
  function ReadWide(signed: bool, nibble: nat, t: Bytes): (r: Result<(int, Bytes), DecodeError>)
    requires 0xb <= nibble <= 0xf
    ensures r.Success? ==> Suffix(r.value.1, t)
    ensures r.Failure? ==> r.error == Truncated
  {
    if nibble >= 0xe then
      var p :- DecodeInt(t, 0);
      Success((if nibble == 0xe then 0 - p.n else p.n, p.rest))
    else
      var w := if nibble == 0xb then 4 else if nibble == 0xc then 2 else 1;
      var p :- DecodeInt(t, w);
      Success((if signed then UnsignedToSigned(p.n, 8 * w) else p.n, p.rest))
  }

  /** Integers 0x10..0x1f: the inline value or a wider tier, read signed;
      each becomes the last integer. */
  function LoadInt(c: byte, t: Bytes, st: DecoderState): (r: Result<Loaded, DecodeError>)
    requires c / 16 == 1
    ensures r.Success? ==> Suffix(r.value.rest, t)
    ensures r.Success? ==> r.value.v.Int? && r.value.st == st.(lastint := Some(r.value.v.i))
    ensures r.Failure? ==> r.error == Truncated
    ensures c <= 0x1a ==> r == Success(Loaded(Int(c % 16), t, st.(lastint := Some(c % 16))))
    ensures c > 0x1a ==> r.Success? == ReadWide(true, c % 16, t).Success?
    ensures c > 0x1a && r.Success? ==> (r.value.v.i, r.value.rest) == ReadWide(true, c % 16, t).value
  {
    var (n, rest) :- if c <= 0x1a then Success((c % 16, t)) else ReadWide(true, c % 16, t);
    Success(Loaded(Int(n), rest, st.(lastint := Some(n))))
  }

  /** Floating point 0x20..0x2f: NaN, the infinities, a binary64 (0x2c) or a
      binary32 (0x2d) field.  0x2b is refused. */
  function LoadFloat(c: byte, t: Bytes, st: DecoderState): (r: Result<Loaded, DecodeError>)
    requires c / 16 == 2
    ensures r.Success? ==> Suffix(r.value.rest, t) && r.value.st == st && r.value.v.Float?
    ensures c == 0x2c && |t| >= 8 ==> r == Success(Loaded(Float(Double(t[..8])), t[8..], st))
    ensures r.Failure? <==> c == 0x2b || (0x21 <= c <= 0x2a) || (c == 0x2c && |t| < 8) || (c == 0x2d && |t| < 4)
  {
    if c == 0x20 then Success(Loaded(Float(NaN), t, st))
    else if c == 0x2b then Failure(LongDouble)
    else if c == 0x2c then
      var (bits, rest) :- ReadBytes(t, 8);
      Success(Loaded(Float(Double(bits)), rest, st))
    else if c == 0x2d then
      var (bits, rest) :- ReadBytes(t, 4);
      Success(Loaded(Float(Single(bits)), rest, st))
    else if c == 0x2e then Success(Loaded(Float(NegInf), t, st))
    else if c == 0x2f then Success(Loaded(Float(PosInf), t, st))
    else Failure(BadControl(c))
  }

  /** Text and blobs, families 0x30 (UTF-16LE, length in code units), 0x40
      (UTF-8) and 0x50 (blobs); 0x3c and 0x5c fetch a table slot named by the
      next byte. */
  function LoadString(lib: Library, c: byte, t: Bytes, st: DecoderState): (r: Result<Loaded, DecodeError>)
    requires 3 <= c / 16 <= 5
    ensures r.Success? ==> Suffix(r.value.rest, t) && r.value.st.lastint == st.lastint
    ensures c == 0x3c && |t| >= 1 ==>
      r == (if t[0] in st.text then Success(Loaded(Text(st.text[t[0]]), t[1..], st)) else Failure(MissingHash(t[0])))
    ensures c == 0x5c && |t| >= 1 ==>
      r == (if t[0] in st.blob then Success(Loaded(Blob(st.blob[t[0]]), t[1..], st)) else Failure(MissingHash(t[0])))
  {
    if c == 0x3c || c == 0x5c then
      var (h, rest) :- ReadBytes(t, 1);
      var slot := h[0];
      if c == 0x3c then
        if slot in st.text then Success(Loaded(Text(st.text[slot]), rest, st)) else Failure(MissingHash(slot))
      else
        if slot in st.blob then Success(Loaded(Blob(st.blob[slot]), rest, st)) else Failure(MissingHash(slot))
    else if c / 16 == 3 then
      var n :- ReadCount(c, t, 0xb);
      LoadStr(lib, n.rest, 2 * n.n, Some(Utf16Le), st)
    else if c / 16 == 4 then
      var n :- ReadCount(c, t, 0xc);
      LoadStr(lib, n.rest, n.n, Some(Utf8), st)
    else
      var n :- ReadCount(c, t, 0xb);
      LoadStr(lib, n.rest, n.n, None, st)
  }

  /** The delta of a 0xb0..0xbf control: inline 0..5 and -5..-1, else a
      wider tier.  As written the fixed fields are read unsigned; `signed`
      reads them as two's complement, as the encoder writes them. */
  function ReadDelta(signed: bool, c: byte, t: Bytes): (r: Result<(int, Bytes), DecodeError>)
    requires c / 16 == 0xb
    ensures r.Success? ==> Suffix(r.value.1, t)
    ensures r.Failure? ==> r.error == Truncated
    ensures c <= 0xb5 ==> r == Success((c - 0xb0, t))
    ensures 0xb6 <= c <= 0xba ==> r == Success((c - 0xb0 - 11, t))
    ensures c > 0xba ==> r == ReadWide(signed, c % 16, t)
  {
    if c <= 0xb5 then Success((c % 16, t))
    else if c <= 0xba then Success((c % 16 - 11, t))
    else ReadWide(signed, c % 16, t)
  }

  /** A delta integer: read the delta, then add it to the last integer, which
      must exist. */
  function LoadDelta(signed: bool, c: byte, t: Bytes, st: DecoderState): (r: Result<Loaded, DecodeError>)
    requires c / 16 == 0xb
    ensures r.Success? ==> Suffix(r.value.rest, t)
    ensures r.Success? <==> st.lastint.Some? && ReadDelta(signed, c, t).Success?
    ensures r.Success? ==>
      var (delta, rest) := ReadDelta(signed, c, t).value;
      r.value == Loaded(Int(st.lastint.value + delta), rest, st.(lastint := Some(st.lastint.value + delta)))
    ensures st.lastint.None? && ReadDelta(signed, c, t).Success? ==> r == Failure(DeltaWithoutBase)
  {
    var (delta, rest) :- ReadDelta(signed, c, t);
    match st.lastint
    case None => Failure(DeltaWithoutBase)
    case Some(last) => Success(Loaded(Int(last + delta), rest, st.(lastint := Some(last + delta))))
  }

  // ----- the dispatcher -------------------------------------------------------

  /** `_load_value`: one value from the front of `s`.  Controls 0x70..0x7f and
      0xff produce no value: after their effect the loop reads the next
      control. */
  function LoadValue(lib: Library, signed: bool, s: Bytes, st: DecoderState): (r: Result<Loaded, DecodeError>)
    ensures r.Success? ==> Suffix(r.value.rest, s) && |r.value.rest| < |s|
    ensures |s| == 0 ==> r == Failure(Truncated)
    decreases |s|, 2
  {
    if |s| == 0 then Failure(Truncated)
    else
      var c := s[0];
      var t := s[1..];
      var family := c / 16;
      var r :=
        if family == 0 then LoadSpecial(lib, signed, c, t, st)
        else if family == 1 then LoadInt(c, t, st)
        else if family == 2 then LoadFloat(c, t, st)
        else if 3 <= family <= 5 then LoadString(lib, c, t, st)
        else if family == 7 then LoadRefresher(lib, signed, c, t, st)
        else if family == 8 then LoadArray(lib, signed, c, t, st)
        else if family == 9 then LoadObject(lib, signed, c, t, st)
        else if family == 0xa then LoadSwapped(lib, signed, c, t, st)
        else if family == 0xb then LoadDelta(signed, c, t, st)
        else if family == 0xc then LoadLengthless(lib, signed, c, t, st)
        else if family == 0xf then LoadPragma(lib, signed, c, t, st)
        else Failure(BadControl(c));
      assert r.Success? ==> Suffix(r.value.rest, s) by {
        if r.Success? {
          assert s[1..][|t| - |r.value.rest|..] == s[|s| - |r.value.rest|..];
        }
      }
      r
  }

  /** Special values 0x00..0x0f: 0x00 and 0x01 are null, 0x02 and 0x03 the
      booleans, 0x0f a JSON literal carried by the following text value. */
  function LoadSpecial(lib: Library, signed: bool, c: byte, t: Bytes, st: DecoderState): (r: Result<Loaded, DecodeError>)
    requires c / 16 == 0
    ensures r.Success? ==> Suffix(r.value.rest, t)
    ensures c <= 3 ==> r == Success(Loaded(if c <= 1 then Null else Bool(c == 3), t, st))
    ensures 4 <= c <= 0xe ==> r == Failure(BadControl(c))
    decreases |t| + 1, 1
  {
    if c <= 1 then Success(Loaded(Null, t, st))
    else if c <= 3 then Success(Loaded(Bool(c == 3), t, st))
    else if c == 0x0f then
      var x :- LoadValue(lib, signed, t, st);
      if !x.v.Text? then Failure(JsonNeedsText)
      else
        match lib.parseJson(x.v.s)
        case None => Failure(JsonLiteral)
        case Some(j) => Success(Loaded(j, x.rest, x.st))
    else Failure(BadControl(c))
  }

  /** Table refreshers 0x70..0x7f: 0x70 empties both tables; the others decode
      and discard a number of values, whose payloads still enter the tables.
      Either way decoding continues with the next control. */
  function LoadRefresher(lib: Library, signed: bool, c: byte, t: Bytes, st: DecoderState): (r: Result<Loaded, DecodeError>)
    requires c / 16 == 7
    ensures r.Success? ==> Suffix(r.value.rest, t)
    ensures c == 0x70 ==> r == LoadValue(lib, signed, t, st.(text := map[], blob := map[]))
    decreases |t| + 1, 1
  {
    if c == 0x70 then LoadValue(lib, signed, t, st.(text := map[], blob := map[]))
    else
      var n :- ReadCount(c, t, 0xc);
      var skipped :- LoadMany(lib, signed, n.n, n.rest, st);
      var r := LoadValue(lib, signed, skipped.rest, skipped.st);
      assert r.Success? ==> Suffix(r.value.rest, t) by {
        if r.Success? {
          SuffixTrans(r.value.rest, skipped.rest, n.rest);
          SuffixTrans(r.value.rest, n.rest, t);
        }
      }
      r
  }

  /** Arrays 0x80..0x8f: a count, then that many values. */
  function LoadArray(lib: Library, signed: bool, c: byte, t: Bytes, st: DecoderState): (r: Result<Loaded, DecodeError>)
    requires c / 16 == 8
    ensures r.Success? ==> Suffix(r.value.rest, t) && r.value.v.Sequence?
    decreases |t| + 1, 1
  {
    var n :- ReadCount(c, t, 0xc);
    var items :- LoadMany(lib, signed, n.n, n.rest, st);
    Success(Loaded(Sequence(items.vs), items.rest, items.st))
  }

  /** Objects 0x90..0x9f: a count, then that many key/value pairs entered into
      a dict one at a time. */
  function LoadObject(lib: Library, signed: bool, c: byte, t: Bytes, st: DecoderState): (r: Result<Loaded, DecodeError>)
    requires c / 16 == 9
    ensures r.Success? ==> Suffix(r.value.rest, t) && r.value.v.Mapping? && PyDistinctKeys(r.value.v.pairs)
    decreases |t| + 1, 1
  {
    var n :- ReadCount(c, t, 0xc);
    var pairs :- LoadPairs(lib, signed, n.n, n.rest, st, []);
    Success(Loaded(Mapping(pairs.pairs), pairs.rest, pairs.st))
  }

  /** 0xa0 is the unspecified marker; 0xa1..0xaf a transposed array: a column
      count, then for each column its name and the array of its values. */
  function LoadSwapped(lib: Library, signed: bool, c: byte, t: Bytes, st: DecoderState): (r: Result<Loaded, DecodeError>)
    requires c / 16 == 0xa
    ensures r.Success? ==> Suffix(r.value.rest, t)
    ensures c == 0xa0 ==> r == Success(Loaded(Unspecified, t, st))
    decreases |t| + 1, 1
  {
    if c == 0xa0 then Success(Loaded(Unspecified, t, st))
    else
      var n :- ReadCount(c, t, 0xc);
      var cols :- LoadColumns(lib, signed, n.n, n.rest, st, []);
      var rows :- BuildDicts(cols.rows);
      Success(Loaded(Sequence(rows), cols.rest, cols.st))
  }

  /** 0xc8 opens an array without a count, closed by the unspecified marker;
      the other 0xc0 controls have no case. */
  function LoadLengthless(lib: Library, signed: bool, c: byte, t: Bytes, st: DecoderState): (r: Result<Loaded, DecodeError>)
    requires c / 16 == 0xc
    ensures r.Success? ==> Suffix(r.value.rest, t)
    ensures c != 0xc8 ==> r == Failure(BadControl(c))
    decreases |t| + 1, 1
  {
    if c == 0xc8 then LoadUntilUnspecified(lib, signed, t, st, [])
    else Failure(BadControl(c))
  }

  /** 0xf0..0xff: checksums (not modelled), and the 0xff pragma whose value is
      decoded and discarded before decoding continues. */
  function LoadPragma(lib: Library, signed: bool, c: byte, t: Bytes, st: DecoderState): (r: Result<Loaded, DecodeError>)
    requires c / 16 == 0xf
    ensures r.Success? ==> Suffix(r.value.rest, t)
    ensures c == 0xf6 || c == 0xf7 || c == 0xfe ==> r == Failure(BadControl(c))
    decreases |t| + 1, 1
  {
    if c <= 0xf5 || (0xf8 <= c <= 0xfd) then Failure(ChecksumNotModelled)
    else if c == 0xff then
      var skipped :- LoadValue(lib, signed, t, st);
      LoadValue(lib, signed, skipped.rest, skipped.st)
    else Failure(BadControl(c))
  }

  // ----- sequences of values ------------------------------------------------

  /** `n` values one after another. */
  function LoadMany(lib: Library, signed: bool, n: nat, s: Bytes, st: DecoderState): (r: Result<LoadedMany, DecodeError>)
    ensures r.Success? ==> Suffix(r.value.rest, s) && |r.value.vs| == n
    decreases |s|, 3
  {
    if n == 0 then Success(LoadedMany([], s, st))
    else
      var first :- LoadValue(lib, signed, s, st);
      var more :- LoadMany(lib, signed, n - 1, first.rest, first.st);
      SuffixTrans(more.rest, first.rest, s);
      Success(LoadedMany([first.v] + more.vs, more.rest, more.st))
  }

  /** Dict construction from a stream of pairs: each key, then its value, then
      the assignment, which refuses an unhashable key and lets a repeated key
      overwrite the earlier value in place. */
  function LoadPairs(lib: Library, signed: bool, n: nat, s: Bytes, st: DecoderState, acc: seq<(Value, Value)>): (r: Result<LoadedPairs, DecodeError>)
    requires PyDistinctKeys(acc)
    ensures r.Success? ==> Suffix(r.value.rest, s) && PyDistinctKeys(r.value.pairs)
    decreases |s|, 3
  {
    if n == 0 then Success(LoadedPairs(acc, s, st))
    else
      var key :- LoadValue(lib, signed, s, st);
      var value :- LoadValue(lib, signed, key.rest, key.st);
      if !Hashable(key.v) then Failure(UnhashableKey)
      else
        PyPutDistinct(acc, key.v, value.v);
        var more :- LoadPairs(lib, signed, n - 1, value.rest, value.st, PyPut(acc, key.v, value.v));
        SuffixTrans(value.rest, key.rest, s);
        SuffixTrans(more.rest, value.rest, s);
        Success(more)
  }

  /** `_load_swapped_list`: each column is a name and an array of values; the
      value at index `i` joins row `i` unless it is the unspecified marker. */
  function LoadColumns(lib: Library, signed: bool, n: nat, s: Bytes, st: DecoderState, rows: seq<seq<(Value, Value)>>): (r: Result<LoadedRows, DecodeError>)
    ensures r.Success? ==> Suffix(r.value.rest, s)
    decreases |s|, 3
  {
    if n == 0 then Success(LoadedRows(rows, s, st))
    else
      var name :- LoadValue(lib, signed, s, st);
      var values :- LoadValue(lib, signed, name.rest, name.st);
      if !values.v.Sequence? then Failure(SwappedNeedsArray)
      else
        var more :- LoadColumns(lib, signed, n - 1, values.rest, values.st, AddColumn(rows, name.v, values.v.items, 0));
        SuffixTrans(values.rest, name.rest, s);
        SuffixTrans(more.rest, values.rest, s);
        Success(more)
  }

  /** The `enumerate` loop of the pivot from index `idx` on: a row is opened
      when the index reaches the number of rows, and a value other than the
      unspecified marker is appended to its row. */
  function AddColumn(rows: seq<seq<(Value, Value)>>, name: Value, values: seq<Value>, idx: nat): (r: seq<seq<(Value, Value)>>)
    requires idx <= |rows|
    decreases |values| - idx
  {
    if idx >= |values| then rows
    else
      var grown := if idx == |rows| then rows + [[]] else rows;
      var entry := if values[idx] != Unspecified then [(name, values[idx])] else [];
      AddColumn(grown[idx := grown[idx] + entry], name, values, idx + 1)
  }

  /** The pivot in closed form: row `i` gains the pair `(name, values[i])`
      when that value is not the unspecified marker, and there are as many
      rows as the longer of the old rows and the values. */
  function Pivot(rows: seq<seq<(Value, Value)>>, name: Value, values: seq<Value>): (r: seq<seq<(Value, Value)>>)
    ensures |r| == Max(|rows|, |values|)
  {
    seq(Max(|rows|, |values|), i requires 0 <= i => PivotRow(rows, name, values, 0, i))
  }

  /** The row `i` of the pivot once the values from `idx` on are added. */
  function PivotRow(rows: seq<seq<(Value, Value)>>, name: Value, values: seq<Value>, idx: nat, i: nat): seq<(Value, Value)> {
    (if i < |rows| then rows[i] else []) +
    (if idx <= i < |values| && values[i] != Unspecified then [(name, values[i])] else [])
  }

  /** The loop from index `idx` on adds exactly the values at `idx` and
      beyond. */
  lemma {:induction false} AddColumnFrom(rows: seq<seq<(Value, Value)>>, name: Value, values: seq<Value>, idx: nat)
    requires idx <= |rows|
    ensures |AddColumn(rows, name, values, idx)| == Max(|rows|, |values|)
    ensures forall i :: 0 <= i < Max(|rows|, |values|) ==>
      AddColumn(rows, name, values, idx)[i] == PivotRow(rows, name, values, idx, i)
    decreases |values| - idx
  {
    if idx < |values| {
      var grown := if idx == |rows| then rows + [[]] else rows;
      var entry := if values[idx] != Unspecified then [(name, values[idx])] else [];
      var next := grown[idx := grown[idx] + entry];
      AddColumnFrom(next, name, values, idx + 1);
      forall i | 0 <= i < Max(|rows|, |values|)
        ensures PivotRow(next, name, values, idx + 1, i) == PivotRow(rows, name, values, idx, i)
      {
        if i == idx {
          assert next[i] == (if i < |rows| then rows[i] else []) + entry;
        } else if i < |next| {
          assert next[i] == (if i < |rows| then rows[i] else []);
        }
      }
    }
  }

  /** The loop computes the closed form. */
  lemma AddColumnIsPivot(rows: seq<seq<(Value, Value)>>, name: Value, values: seq<Value>)
    ensures AddColumn(rows, name, values, 0) == Pivot(rows, name, values)
  {
    AddColumnFrom(rows, name, values, 0);
  }

  /** `list(map(dict, result))`: each row's pairs become a dict in order. */
  function BuildDicts(rows: seq<seq<(Value, Value)>>): (r: Result<seq<Value>, DecodeError>)
    ensures r.Success? ==> |r.value| == |rows|
    ensures r.Success? ==> forall i :: 0 <= i < |rows| ==> r.value[i].Mapping? && PyDistinctKeys(r.value[i].pairs)
    ensures r.Failure? ==> r.error == UnhashableKey
  {
    if |rows| == 0 then Success([])
    else
      var first :- BuildDict(rows[0], []);
      var more :- BuildDicts(rows[1..]);
      var r := [Mapping(first)] + more;
      assert forall i :: 1 <= i < |r| ==> r[i] == more[i - 1];
      Success(r)
  }

  /** `dict(pairs)`: assign each pair in turn. */
  function BuildDict(pairs: seq<(Value, Value)>, acc: seq<(Value, Value)>): (r: Result<seq<(Value, Value)>, DecodeError>)
    requires PyDistinctKeys(acc)
    ensures r.Success? ==> PyDistinctKeys(r.value)
    ensures r.Failure? ==> r.error == UnhashableKey
  {
    if |pairs| == 0 then Success(acc)
    else if !Hashable(pairs[0].0) then Failure(UnhashableKey)
    else
      PyPutDistinct(acc, pairs[0].0, pairs[0].1);
      BuildDict(pairs[1..], PyPut(acc, pairs[0].0, pairs[0].1))
  }

  /** The body of the lengthless array: values up to the unspecified marker. */
  function LoadUntilUnspecified(lib: Library, signed: bool, s: Bytes, st: DecoderState, acc: seq<Value>): (r: Result<Loaded, DecodeError>)
    ensures r.Success? ==> Suffix(r.value.rest, s)
    decreases |s|, 3
  {
    var item :- LoadValue(lib, signed, s, st);
    if item.v == Unspecified then Success(Loaded(Sequence(acc), item.rest, item.st))
    else
      var more :- LoadUntilUnspecified(lib, signed, item.rest, item.st, acc + [item.v]);
      SuffixTrans(more.rest, item.rest, s);
      Success(more)
  }

  // ----- the entry point ----------------------------------------------------

  /** `load`: a leading `jk!` is consumed when the header is expected and
      present, and left in place otherwise; then one value is decoded. */
  function Loads(lib: Library, signed: bool, s: Bytes, header: bool, st: DecoderState): (r: Result<Loaded, DecodeError>)
    ensures header && |s| >= 3 && s[..3] == Magic ==> r == LoadValue(lib, signed, s[3..], st)
    ensures !(header && |s| >= 3 && s[..3] == Magic) ==> r == LoadValue(lib, signed, s, st)
  {
    if header && |s| >= 3 && s[..3] == Magic then LoadValue(lib, signed, s[3..], st)
    else LoadValue(lib, signed, s, st)
  }

  /** The header is optional: a stream that does not itself start with
      `jk!` reads the same after a `jk!` as without one, and, without one,
      the same whether or not the header is expected. */
  lemma HeaderOptional(lib: Library, signed: bool, s: Bytes, st: DecoderState)
    requires !(|s| >= 3 && s[..3] == Magic)
    ensures Loads(lib, signed, Magic + s, true, st) == Loads(lib, signed, s, true, st)
    ensures Loads(lib, signed, s, true, st) == Loads(lib, signed, s, false, st)
  {
    assert (Magic + s)[..3] == Magic && (Magic + s)[3..] == s;
  }
}


=== FILE: decodesteps.dfy ===
/** Single decoding steps the round-trip proofs compose: the dispatcher's
    choice of reader for a control byte, a container header followed by its
    contents, and one iteration of each loop that reads a sequence of values. */
module DecodeSteps {
  import opened Wrappers
  import opened Values
  import opened IntCodec
  import opened Encoder
  import opened Decoder
  import opened RoundTrip

  /** The dispatcher hands each remaining family to its reader. */
  lemma DispatchOther(lib: Library, c: byte, t: Bytes, st: DecoderState)
    ensures c / 16 == 0 ==> LoadValue(lib, true, [c] + t, st) == LoadSpecial(lib, true, c, t, st)
    ensures c / 16 == 2 ==> LoadValue(lib, true, [c] + t, st) == LoadFloat(c, t, st)
    ensures c / 16 == 8 ==> LoadValue(lib, true, [c] + t, st) == LoadArray(lib, true, c, t, st)
    ensures c / 16 == 9 ==> LoadValue(lib, true, [c] + t, st) == LoadObject(lib, true, c, t, st)
    ensures c / 16 == 0xa ==> LoadValue(lib, true, [c] + t, st) == LoadSwapped(lib, true, c, t, st)
  {
    assert ([c] + t)[0] == c && ([c] + t)[1..] == t;
  }

  /** An array header whose count reads as `n`, followed by its elements. */
  lemma ArrayReads(lib: Library, c: byte, hdr: Bytes, n: nat, x: Bytes, d: DecoderState, many: LoadedMany)
    requires c / 16 == 8 && ReadCount(c, hdr + x, 0xc) == Success(Parsed(n, x))
    requires LoadMany(lib, true, n, x, d) == Success(many)
    ensures LoadValue(lib, true, [c] + (hdr + x), d) == Success(Loaded(Sequence(many.vs), many.rest, many.st))
  {
    DispatchOther(lib, c, hdr + x, d);
  }

  /** A dict header whose count reads as `n`, followed by its pairs. */
  lemma ObjectReads(lib: Library, c: byte, hdr: Bytes, n: nat, x: Bytes, d: DecoderState, loaded: LoadedPairs)
    requires c / 16 == 9 && ReadCount(c, hdr + x, 0xc) == Success(Parsed(n, x))
    requires LoadPairs(lib, true, n, x, d, []) == Success(loaded)
    ensures LoadValue(lib, true, [c] + (hdr + x), d) == Success(Loaded(Mapping(loaded.pairs), loaded.rest, loaded.st))
  {
    DispatchOther(lib, c, hdr + x, d);
  }

  /** A transposed-array header whose column count reads as `n`, followed by
      its columns. */
  lemma SwappedReads(lib: Library, c: byte, hdr: Bytes, n: nat, x: Bytes, d: DecoderState, loaded: LoadedRows, built: seq<Value>)
    requires c / 16 == 0xa && c != 0xa0 && ReadCount(c, hdr + x, 0xc) == Success(Parsed(n, x))
    requires LoadColumns(lib, true, n, x, d, []) == Success(loaded)
    requires BuildDicts(loaded.rows) == Success(built)
    ensures LoadValue(lib, true, [c] + (hdr + x), d) == Success(Loaded(Sequence(built), loaded.rest, loaded.st))
  {
    DispatchOther(lib, c, hdr + x, d);
  }

  /** The values after a first one, with that one put in front; a failure
      stays the same failure. */
  function Prepend(v: Value, r: Result<LoadedMany, DecodeError>): (p: Result<LoadedMany, DecodeError>)
    ensures p.Success? <==> r.Success?
    ensures p.Success? ==> p.value.vs == [v] + r.value.vs && p.value.rest == r.value.rest && p.value.st == r.value.st
    ensures p.Failure? ==> p == r
  {
    if r.Success? then Success(LoadedMany([v] + r.value.vs, r.value.rest, r.value.st)) else r
  }

  lemma LoadManyStep(lib: Library, n: nat, s: Bytes, d: DecoderState, first: Loaded)
    requires n > 0
    requires LoadValue(lib, true, s, d) == Success(first)
    ensures LoadMany(lib, true, n, s, d) == Prepend(first.v, LoadMany(lib, true, n - 1, first.rest, first.st))
  {
  }

  lemma LoadPairsStep(lib: Library, n: nat, s: Bytes, d: DecoderState, acc: seq<(Value, Value)>, key: Loaded, value: Loaded)
    requires n > 0 && PyDistinctKeys(acc) && Hashable(key.v)
    requires LoadValue(lib, true, s, d) == Success(key)
    requires LoadValue(lib, true, key.rest, key.st) == Success(value)
    ensures PyDistinctKeys(PyPut(acc, key.v, value.v))
    ensures LoadPairs(lib, true, n, s, d, acc) ==
      LoadPairs(lib, true, n - 1, value.rest, value.st, PyPut(acc, key.v, value.v))
  {
    PyPutDistinct(acc, key.v, value.v);
  }

  lemma LoadColumnsStep(lib: Library, n: nat, s: Bytes, d: DecoderState, acc: seq<seq<(Value, Value)>>, name: Loaded, values: Loaded)
    requires n > 0 && values.v.Sequence?
    requires LoadValue(lib, true, s, d) == Success(name)
    requires LoadValue(lib, true, name.rest, name.st) == Success(values)
    ensures LoadColumns(lib, true, n, s, d, acc) ==
      LoadColumns(lib, true, n - 1, values.rest, values.st, AddColumn(acc, name.v, values.v.items, 0))
  {
  }

}

=== FILE: djb.dfy ===
/** The DJB string hash that selects a slot of the 256-entry text and blob
    tables: `h := h + (h << 5) + b` for every payload byte.  The Python and
    Ruby ports reduce `h` to eight bits after every step; the JavaScript port
    never reduces it, and its `<<` works on 32-bit two's-complement integers. */
module Djb {
  import opened Values
  import opened Arith
  import opened Binary64

  /** The eight-bit hash, folded over `bs` from the initial value `iv`. */
  function HashFrom(iv: byte, bs: Bytes): (r: byte)
    decreases |bs|
  {
    if |bs| == 0 then iv else HashFrom((33 * iv + bs[0]) % 256, bs[1..])
  }

  /** `_djb_hash(buf)` and `String#__jksn_djbhash`. */
  function Hash(bs: Bytes): byte {
    HashFrom(0, bs)
  }

  function Pow33(k: nat): (r: nat)
    ensures r >= 1
  {
    if k == 0 then 1 else 33 * Pow33(k - 1)
  }

  /** The unreduced polynomial: byte `i` of `n` weighs `33^(n - 1 - i)`. */
  function Poly(bs: Bytes): nat
    decreases |bs|
  {
    if |bs| == 0 then 0 else bs[0] * Pow33(|bs| - 1) + Poly(bs[1..])
  }

  /** The folded hash is the polynomial of the bytes, with the initial value
      as leading coefficient, reduced modulo 256. */
  lemma {:induction false} HashIsPolynomial(iv: byte, bs: Bytes)
    ensures HashFrom(iv, bs) == (iv * Pow33(|bs|) + Poly(bs)) % 256
    decreases |bs|
  {
    if |bs| == 0 {
      ModUnique(iv, 256, 0, iv);
    } else {
      var k := |bs| - 1;
      var iv2 := (33 * iv + bs[0]) % 256;
      HashIsPolynomial(iv2, bs[1..]);
      ModMulAdd(33 * iv + bs[0], Pow33(k), Poly(bs[1..]), 256);
      assert Poly(bs) == bs[0] * Pow33(k) + Poly(bs[1..]);
      PolyStep(iv, bs[0], Pow33(k), Poly(bs[1..]));
    }
  }

  lemma PolyStep(iv: int, b: int, p: int, rest: int)
    ensures (33 * iv + b) * p + rest == iv * (33 * p) + (b * p + rest)
  {
  }

  /** Hashing a concatenation resumes from the hash of the first part: the
      `iv` argument the incremental hasher passes along. */
  lemma {:induction false} HashIncremental(iv: byte, a: Bytes, b: Bytes)
    ensures HashFrom(iv, a + b) == HashFrom(HashFrom(iv, a), b)
    decreases |a|
  {
    if |a| > 0 {
      assert (a + b)[0] == a[0];
      assert (a + b)[1..] == a[1..] + b;
      HashIncremental((33 * iv + a[0]) % 256, a[1..], b);
    } else {
      assert a + b == b;
    }
  }

  // ----- JavaScript -----------------------------------------------------------

  /** ECMAScript ToInt32: the two's-complement reading of the low 32 bits. */
  function ToInt32(x: int): (r: int)
    ensures -0x8000_0000 <= r < 0x8000_0000
    ensures r % 256 == x % 256
  {
    var m := x % 0x1_0000_0000;
    var q := x / 0x1_0000_0000;
    ModShift(m, 256, 0x100_0000 * q);
    assert x == m + 256 * (0x100_0000 * q);
    if m >= 0x8000_0000 then
      ModShift(m, 256, -0x100_0000);
      m - 0x1_0000_0000
    else m
  }

  /** `DJBHash`: `result += (result << 5) + x`.  The shift works on the
      32-bit two's-complement value of `result`, and the sum is a JavaScript
      number, so it is rounded to binary64 once it passes 2^53. */
  function JsHashFrom(h: int, bs: Bytes): int
    decreases |bs|
  {
    if |bs| == 0 then h else JsHashFrom(ToDouble(h + (ToInt32(ToInt32(h) * 32) + bs[0])), bs[1..])
  }

  /** The longest payload whose JavaScript hash is never rounded: a step
      moves the hash by less than 2^31 + 256, and this many steps from 0
      stay within 2^53. */
  const ExactHashLength: nat := 0x3f_ffff

  function JsHash(bs: Bytes): int {
    JsHashFrom(0, bs)
  }

  lemma JsStepLowByte(h: int, b: byte)
    ensures (h + ToInt32(ToInt32(h) * 32) + b) % 256 == (33 * (h % 256) + b) % 256
  {
    var t := ToInt32(ToInt32(h) * 32);
    ModMulAdd(t, 1, h + b, 256);
    ModMulAdd(ToInt32(h), 32, 0, 256);
    ModMulAdd(h, 32, 0, 256);
    assert t % 256 == (h * 32) % 256;
    ModMulAdd(h * 32, 1, h + b, 256);
    ModMulAdd(h, 33, b, 256);
  }

  /** The JavaScript hash agrees with the eight-bit hash in its low byte,
      which is the byte a back-reference carries. */
  lemma {:induction false} JsHashLowByte(h: int, bs: Bytes)
    requires -TwoTo53 + |bs| * 0x8000_0100 <= h <= TwoTo53 - |bs| * 0x8000_0100
    ensures JsHashFrom(h, bs) % 256 == HashFrom(h % 256, bs)
    decreases |bs|
  {
    if |bs| > 0 {
      var h2 := h + ToInt32(ToInt32(h) * 32) + bs[0];
      assert ToDouble(h + (ToInt32(ToInt32(h) * 32) + bs[0])) == h2;
      JsStepLowByte(h, bs[0]);
      JsHashLowByte(h2, bs[1..]);
    }
  }

  /** So for every payload of at most ExactHashLength bytes, the low byte of
      the JavaScript hash is the eight-bit hash. */
  lemma JsHashLowByteOf(bs: Bytes)
    ensures |bs| <= ExactHashLength ==> JsHash(bs) % 256 == Hash(bs)
  {
    if |bs| <= ExactHashLength {
      JsHashLowByte(0, bs);
    }
  }
}

=== FILE: encoder.dfy ===
/** The Python encoder's first pass (`_dump_value` and its helpers): one proxy
    node per value, choosing the shortest header tier for every length and
    integer, the shorter of UTF-16LE and UTF-8 for text, and the transposed
    ("row-col swapped") layout for arrays of objects when it is smaller at
    three levels of nesting. */
module Encoder {
  import opened Wrappers
  import opened Values
  import opened IntCodec
  import opened Proxy

  /** The values a Python program can hand to the encoder: there is no
      `undefined`, and a float is a binary64 of eight bytes. */
  predicate PyValue(v: Value)
    decreases v
  {
    match v
    case Absent => false
    case Float(f) => !f.Single? && (f.Double? ==> |f.bits| == 8)
    case Sequence(items) => forall i :: 0 <= i < |items| ==> PyValue(items[i])
    case Mapping(pairs) => forall i :: 0 <= i < |pairs| ==> PyValue(pairs[i].0) && PyValue(pairs[i].1)
    case _ => true
  }

  // ----- headers ------------------------------------------------------------

  /** The header of a length or count: in the low nibble up to `inlineMax`,
      then one byte (low nibble 0xe), two bytes (0xd) or a varint (0xf). */
  function LengthHeader(family: byte, n: nat, inlineMax: nat): (h: (byte, Bytes))
    requires family % 16 == 0 && inlineMax <= 0xc
    ensures h.0 / 16 == family / 16
    ensures n <= inlineMax <==> h.0 % 16 <= inlineMax
    ensures n <= inlineMax ==> h.0 % 16 == n && h.1 == []
    ensures n > inlineMax ==> 0xd <= h.0 % 16 <= 0xf
  {
    if n <= inlineMax then ((family + n) as byte, [])
    else if n <= 0xff then ((family + 0xe) as byte, EncodeInt(n, 1))
    else if n <= 0xffff then ((family + 0xd) as byte, EncodeInt(n, 2))
    else ((family + 0xf) as byte, EncodeInt(n, 0))
  }

  /** The tiers shared by integers and integer deltas beyond the inline range:
      the low nibble of the control byte and the header bytes.  One signed
      byte (0xd), two (0xc), four for the magnitudes a three-byte varint
      cannot hold (0xb), else a varint of the number (0xf) or of its negation
      (0xe). */
  function WideInt(n: int): (h: (nat, Bytes))
    ensures 0xb <= h.0 <= 0xf
    ensures h.0 == 0xd <==> -0x80 <= n <= 0x7f
    ensures h.0 == 0xf ==> n >= 0
    ensures h.0 == 0xe ==> n < 0
  {
    if -0x80 <= n <= 0x7f then (0xd, EncodeInt(n, 1))
    else if -0x8000 <= n <= 0x7fff then (0xc, EncodeInt(n, 2))
    else if -0x8000_0000 <= n <= -0x20_0000 || 0x20_0000 <= n <= 0x7fff_ffff then (0xb, EncodeInt(n, 4))
    else if n >= 0 then (0xf, EncodeInt(n, 0))
    else (0xe, EncodeInt(-n, 0))
  }

  // ----- scalars ------------------------------------------------------------

  /** `_dump_int`: 0 to 10 inline, otherwise the shortest wider tier. */
  function DumpInt(n: int): (p: Node)
    ensures p.origin == Int(n) && p.control / 16 == 1 && p.buf == [] && p.children == []
    ensures Measured(p)
    ensures 0 <= n <= 10 <==> p.control <= 0x1a
    ensures 0 <= n <= 10 ==> p.control % 16 == n && p.data == []
  {
    if 0 <= n <= 10 then Leaf(Int(n), 0x10 + n, [], [])
    else
      var (nibble, data) := WideInt(n);
      Leaf(Int(n), 0x10 + nibble, data, [])
  }

  /** `_dump_float`: NaN and the infinities have their own control bytes; a
      finite number is its eight big-endian binary64 bytes after 0x2c. */
  function DumpFloat(f: FloatBits): (p: Node)
    requires !f.Single? && (f.Double? ==> |f.bits| == 8)
    ensures p.origin == Float(f) && p.control / 16 == 2 && p.buf == [] && p.children == []
    ensures Measured(p)
    ensures f.Double? <==> p.control == 0x2c
    ensures f.Double? ==> p.data == f.bits
  {
    match f
    case NaN => Leaf(Float(f), 0x20, [], [])
    case PosInf => Leaf(Float(f), 0x2f, [], [])
    case NegInf => Leaf(Float(f), 0x2e, [], [])
    case Double(bits) => Leaf(Float(f), 0x2c, bits, [])
  }

  /** `_dump_str`: UTF-16LE (family 0x30, length in code units) when it is
      strictly shorter than UTF-8 (family 0x40, length in bytes); the inline
      limit is 0xb code units for UTF-16, 0xc bytes for UTF-8. */
  function DumpStr(lib: Library, s: string): (p: Node)
    ensures p.origin == Text(s) && p.children == [] && Measured(p)
    ensures p.control / 16 == 3 <==> |lib.encodeUtf16Le(s)| < |lib.encodeUtf8(s)|
    ensures p.control / 16 == 3 ==> p.buf == lib.encodeUtf16Le(s)
    ensures p.control / 16 != 3 ==> p.control / 16 == 4 && p.buf == lib.encodeUtf8(s)
  {
    var u16 := lib.encodeUtf16Le(s);
    var u8 := lib.encodeUtf8(s);
    if |u16| < |u8| then
      var (c, d) := LengthHeader(0x30, |u16| / 2, 0xb);
      Leaf(Text(s), c, d, u16)
    else
      var (c, d) := LengthHeader(0x40, |u8|, 0xc);
      Leaf(Text(s), c, d, u8)
  }

  /** `_dump_bytes`: the blob is the payload, its length the header. */
  function DumpBytes(b: Bytes): (p: Node)
    ensures p.origin == Blob(b) && p.control / 16 == 5 && p.buf == b && p.children == []
    ensures Measured(p)
    ensures p.control % 16 <= 0xb <==> |b| <= 0xb
  {
    var (c, d) := LengthHeader(0x50, |b|, 0xb);
    Leaf(Blob(b), c, d, b)
  }

  // ----- transposed arrays --------------------------------------------------

  /** `test_swap_availability`: every row is a dict and some row is not empty. */
  predicate SwapAvailable(rows: seq<Value>) {
    && (forall i :: 0 <= i < |rows| ==> rows[i].Mapping?)
    && (exists i :: 0 <= i < |rows| && rows[i].Mapping? && |rows[i].pairs| > 0)
  }

  /** The keys of the pairs, in order. */
  function PairKeys(pairs: seq<(Value, Value)>): (r: seq<Value>)
    ensures |r| == |pairs| && forall i :: 0 <= i < |pairs| ==> r[i] == pairs[i].0
  {
    seq(|pairs|, i requires 0 <= i < |pairs| => pairs[i].0)
  }

  /** Every key of every dict row, row by row (`column for row in obj for
      column in row`). */
  function RowKeys(rows: seq<Value>): seq<Value>
  {
    if |rows| == 0 then []
    else (if rows[0].Mapping? then PairKeys(rows[0].pairs) else []) + RowKeys(rows[1..])
  }

  /** `c` is a key of some dict row. */
  predicate IsColumn(rows: seq<Value>, c: Value) {
    exists i :: 0 <= i < |rows| && rows[i].Mapping? && c in KeysOf(rows[i].pairs)
  }

  predicate Distinct(xs: seq<Value>) {
    forall i, j :: 0 <= i < j < |xs| ==> xs[i] != xs[j]
  }

  /** Appends to `seen` the elements of `xs` it does not hold yet, in order. */
  function DedupInto(seen: seq<Value>, xs: seq<Value>): (r: seq<Value>)
    ensures Distinct(seen) ==> Distinct(r)
    ensures forall x :: x in r <==> x in seen || x in xs
    ensures |seen| <= |r| && r[..|seen|] == seen
    decreases |xs|
  {
    if |xs| == 0 then seen
    else if xs[0] in seen then DedupInto(seen, xs[1..])
    else
      var r := DedupInto(seen + [xs[0]], xs[1..]);
      assert r[..|seen|] == (seen + [xs[0]])[..|seen|] by {
        assert r[..|seen|] == r[..|seen| + 1][..|seen|];
      }
      assert forall x :: x in xs <==> x == xs[0] || x in xs[1..] by {
        assert xs == [xs[0]] + xs[1..];
      }
      r
  }

  /** Structural first-occurrence deduplication (a Ruby `Set`, whose `eql?`
      tells `true` from `1`). */
  function Dedup(xs: seq<Value>): (r: seq<Value>)
    ensures Distinct(r)
    ensures forall x :: x in r <==> x in xs
  {
    DedupInto([], xs)
  }

  lemma PyKeysSnoc(xs: seq<Value>, x: Value)
    ensures PyKeys(xs + [x]) == PyKeys(xs) + {PyKey(x)}
  {
    var ys := xs + [x];
    assert PyKey(ys[|xs|]) == PyKey(x);
    forall y | y in PyKeys(ys) ensures y in PyKeys(xs) + {PyKey(x)} {
      var i :| 0 <= i < |ys| && PyKey(ys[i]) == y;
      if i < |xs| { assert ys[i] == xs[i]; }
    }
    forall y | y in PyKeys(xs) ensures y in PyKeys(ys) {
      var i :| 0 <= i < |xs| && PyKey(xs[i]) == y;
      assert ys[i] == xs[i];
    }
  }

  lemma PyKeysCons(xs: seq<Value>)
    requires |xs| > 0
    ensures PyKeys(xs) == {PyKey(xs[0])} + PyKeys(xs[1..])
  {
    forall y | y in PyKeys(xs) ensures y in {PyKey(xs[0])} + PyKeys(xs[1..]) {
      var i :| 0 <= i < |xs| && PyKey(xs[i]) == y;
      if i > 0 { assert xs[1..][i - 1] == xs[i]; }
    }
    forall y | y in PyKeys(xs[1..]) ensures y in PyKeys(xs) {
      var i :| 0 <= i < |xs[1..]| && PyKey(xs[1..][i]) == y;
      assert xs[i + 1] == xs[1..][i];
    }
  }

  /** The first element of `xs` with its Python key, among those `seen` does
      not already hold a key for. */
  predicate FirstNew(seen: seq<Value>, xs: seq<Value>, i: int)
    requires 0 <= i < |xs|
  {
    PyKey(xs[i]) !in PyKeys(seen) && forall j :: 0 <= j < i ==> PyKey(xs[j]) != PyKey(xs[i])
  }

  /** Appends to `seen` the elements of `xs` whose Python key it does not
      hold yet, in order, so every new key enters as its first object. */
  function PyDedupInto(seen: seq<Value>, xs: seq<Value>): (r: seq<Value>)
    ensures PyDistinct(seen) ==> PyDistinct(r)
    ensures PyKeys(r) == PyKeys(seen) + PyKeys(xs)
    ensures forall x :: x in r ==> x in seen || x in xs
    ensures forall i :: 0 <= i < |xs| && FirstNew(seen, xs, i) ==> xs[i] in r
    ensures |seen| <= |r| && r[..|seen|] == seen
    decreases |xs|
  {
    if |xs| == 0 then
      assert PyKeys(xs) == {};
      seen
    else
      PyKeysCons(xs);
      assert forall x :: x in xs <==> x == xs[0] || x in xs[1..] by {
        assert xs == [xs[0]] + xs[1..];
      }
      if PyKey(xs[0]) in PyKeys(seen) then
        var r := PyDedupInto(seen, xs[1..]);
        assert forall i :: 1 <= i < |xs| && FirstNew(seen, xs, i) ==> FirstNew(seen, xs[1..], i - 1) by {
          forall i | 1 <= i < |xs| && FirstNew(seen, xs, i) ensures FirstNew(seen, xs[1..], i - 1) {
            assert xs[1..][i - 1] == xs[i];
            forall j | 0 <= j < i - 1 ensures PyKey(xs[1..][j]) != PyKey(xs[1..][i - 1]) {
              assert xs[1..][j] == xs[j + 1];
            }
          }
        }
        r
      else
        var seen1 := seen + [xs[0]];
        PyKeysSnoc(seen, xs[0]);
        var r := PyDedupInto(seen1, xs[1..]);
        assert r[..|seen|] == seen1[..|seen|] by {
          assert r[..|seen|] == r[..|seen1|][..|seen|];
        }
        assert xs[0] in r by {
          assert r[|seen|] == r[..|seen1|][|seen|];
        }
        assert PyDistinct(seen) ==> PyDistinct(seen1) by {
          if PyDistinct(seen) {
            forall i, j | 0 <= i < j < |seen1| ensures PyKey(seen1[i]) != PyKey(seen1[j]) {
              if j == |seen| {
                assert seen1[i] == seen[i];
              } else {
                assert seen1[i] == seen[i] && seen1[j] == seen[j];
              }
            }
          }
        }
        assert forall i :: 1 <= i < |xs| && FirstNew(seen, xs, i) ==> FirstNew(seen1, xs[1..], i - 1) by {
          forall i | 1 <= i < |xs| && FirstNew(seen, xs, i) ensures FirstNew(seen1, xs[1..], i - 1) {
            assert xs[1..][i - 1] == xs[i];
            assert PyKey(xs[0]) != PyKey(xs[i]);
            forall j | 0 <= j < i - 1 ensures PyKey(xs[1..][j]) != PyKey(xs[1..][i - 1]) {
              assert xs[1..][j] == xs[j + 1];
            }
          }
        }
        r
  }

  /** `OrderedDict.fromkeys(...)`: one element per Python key, the first
      object seen for it, in the order the keys are first seen. */
  function PyDedup(xs: seq<Value>): (r: seq<Value>)
    ensures PyDistinct(r)
    ensures PyKeys(r) == PyKeys(xs)
    ensures forall x :: x in r ==> x in xs
    ensures forall i :: 0 <= i < |xs| && FirstNew([], xs, i) ==> xs[i] in r
  {
    assert PyKeys([]) == {};
    PyDedupInto([], xs)
  }

  /** No two of `xs` are different objects for one Python key (no `True`
      beside `1`, no `False` beside `0`). */
  predicate Coherent(xs: seq<Value>) {
    forall a, b :: a in xs && b in xs && PyKey(a) == PyKey(b) ==> a == b
  }

  /** Where keys never mix a boolean with the equal integer, Python's and
      the structural deduplication agree. */
  lemma {:induction false} PyDedupIntoCoherent(seen: seq<Value>, xs: seq<Value>)
    requires Coherent(seen + xs)
    ensures PyDedupInto(seen, xs) == DedupInto(seen, xs)
    decreases |xs|
  {
    if |xs| > 0 {
      var all := seen + xs;
      assert xs[0] in all by { assert all[|seen|] == xs[0]; }
      assert PyKey(xs[0]) in PyKeys(seen) <==> xs[0] in seen by {
        if PyKey(xs[0]) in PyKeys(seen) {
          var i :| 0 <= i < |seen| && PyKey(seen[i]) == PyKey(xs[0]);
          assert seen[i] in all by { assert all[i] == seen[i]; }
        }
        if xs[0] in seen {
          var i :| 0 <= i < |seen| && seen[i] == xs[0];
        }
      }
      assert forall x :: x in xs[1..] ==> x in all by {
        forall x | x in xs[1..] ensures x in all {
          var i :| 0 <= i < |xs[1..]| && xs[1..][i] == x;
          assert all[|seen| + 1 + i] == x;
        }
      }
      if xs[0] in seen {
        PyDedupIntoCoherent(seen, xs[1..]);
      } else {
        assert (seen + [xs[0]]) + xs[1..] == all;
        PyDedupIntoCoherent(seen + [xs[0]], xs[1..]);
      }
    }
  }

  /** The columns of a transposed array: one per key of the rows as Python's
      dict tells keys apart, the first object seen for it, in the order the
      keys are first seen. */
  function Columns(rows: seq<Value>): seq<Value> {
    PyDedup(RowKeys(rows))
  }

  /** Two dict rows `{1: "a"}` and `{True: "b"}` make a single column `1`. */
  lemma BoolIntOneColumn(a: Value, b: Value)
    ensures Columns([Mapping([(Int(1), a)]), Mapping([(Bool(true), b)])]) == [Int(1)]
  {
    var rows := [Mapping([(Int(1), a)]), Mapping([(Bool(true), b)])];
    assert RowKeys(rows[1..][1..]) == [];
    assert RowKeys(rows[1..]) == [Bool(true)];
    assert RowKeys(rows) == [Int(1), Bool(true)];
    var xs := [Int(1), Bool(true)];
    assert PyKeys([Int(1)]) == {Int(1)} by {
      PyKeysSnoc([], Int(1));
      assert [] + [Int(1)] == [Int(1)];
    }
    assert PyDedupInto([], xs) == PyDedupInto([Int(1)], xs[1..]);
    assert PyDedupInto([Int(1)], xs[1..]) == PyDedupInto([Int(1)], xs[1..][1..]);
  }

  /** The columns are exactly the keys of the dict rows. */
  lemma {:induction false} RowKeysAreColumns(rows: seq<Value>, c: Value)
    ensures c in RowKeys(rows) <==> IsColumn(rows, c)
  {
    if |rows| > 0 {
      RowKeysAreColumns(rows[1..], c);
      var head := if rows[0].Mapping? then PairKeys(rows[0].pairs) else [];
      assert RowKeys(rows) == head + RowKeys(rows[1..]);
      assert c in head <==> rows[0].Mapping? && c in KeysOf(rows[0].pairs) by {
        if rows[0].Mapping? && c in KeysOf(rows[0].pairs) {
          var j :| 0 <= j < |rows[0].pairs| && rows[0].pairs[j].0 == c;
          assert head[j] == c;
        }
      }
      if IsColumn(rows, c) {
        var i :| 0 <= i < |rows| && rows[i].Mapping? && c in KeysOf(rows[i].pairs);
        if i > 0 {
          assert rows[1..][i - 1] == rows[i];
        }
      }
      if IsColumn(rows[1..], c) {
        var i :| 0 <= i < |rows[1..]| && rows[1..][i].Mapping? && c in KeysOf(rows[1..][i].pairs);
        assert rows[i + 1] == rows[1..][i];
      }
    }
  }

  /** The columns are distinct Python keys, each a key of some dict row,
      and every key of every row has its Python key among them. */
  lemma ColumnsAreKeys(rows: seq<Value>)
    ensures PyDistinct(Columns(rows))
    ensures forall c :: c in Columns(rows) ==> IsColumn(rows, c)
    ensures forall c :: IsColumn(rows, c) ==> PyKey(c) in PyKeys(Columns(rows))
  {
    forall c | c in Columns(rows) ensures IsColumn(rows, c) {
      RowKeysAreColumns(rows, c);
    }
    forall c | IsColumn(rows, c) ensures PyKey(c) in PyKeys(Columns(rows)) {
      RowKeysAreColumns(rows, c);
      var ks := RowKeys(rows);
      var i :| 0 <= i < |ks| && ks[i] == c;
      assert PyKey(ks[i]) in PyKeys(ks);
    }
  }

  /** Without a boolean key beside the equal integer key the columns are the
      structurally distinct keys. */
  lemma ColumnsCoherent(rows: seq<Value>)
    requires Coherent(RowKeys(rows))
    ensures Columns(rows) == Dedup(RowKeys(rows))
  {
    assert [] + RowKeys(rows) == RowKeys(rows);
    PyDedupIntoCoherent([], RowKeys(rows));
  }

  /** `row.get(column, _unspecified_value)`: the value the row holds under
      the column's Python key, or the unspecified marker. */
  function Cell(row: Value, c: Value): (r: Value)
    ensures row.Mapping? && PyKey(c) in PyKeysOf(row.pairs) ==> PyLookup(row.pairs, c) == Some(r)
    ensures !(row.Mapping? && PyKey(c) in PyKeysOf(row.pairs)) ==> r == Unspecified
  {
    if row.Mapping? then
      match PyLookup(row.pairs, c)
      case Some(x) => x
      case None => Unspecified
    else Unspecified
  }

  /** The values of one column, one per row. */
  function ColumnValues(rows: seq<Value>, c: Value): (r: seq<Value>)
    ensures |r| == |rows| && forall i :: 0 <= i < |rows| ==> r[i] == Cell(rows[i], c)
  {
    seq(|rows|, i requires 0 <= i < |rows| => Cell(rows[i], c))
  }

  /** A key of a dict is shallower than the dict, and a Python value when the
      dict is one. */
  lemma KeyFacts(row: Value, c: Value)
    requires row.Mapping? && c in KeysOf(row.pairs)
    ensures Depth(c) < Depth(row)
    ensures PyValue(row) ==> PyValue(c)
  {
    var j :| 0 <= j < |row.pairs| && row.pairs[j].0 == c;
    PairDepthBelow(row.pairs, j);
  }

  /** So is the cell a row holds for any column. */
  lemma CellFacts(row: Value, c: Value)
    requires row.Mapping?
    ensures Depth(Cell(row, c)) < Depth(row)
    ensures PyValue(row) ==> PyValue(Cell(row, c))
  {
    if PyKey(c) in PyKeysOf(row.pairs) {
      var m :| 0 <= m < |row.pairs| && PyKey(row.pairs[m].0) == PyKey(c) && row.pairs[m].1 == Cell(row, c);
      PairDepthBelow(row.pairs, m);
    }
  }

  /** A column and its values are strictly shallower than the array of rows. */
  lemma ColumnFacts(rows: seq<Value>, c: Value)
    requires SwapAvailable(rows) && IsColumn(rows, c)
    ensures Depth(c) < MaxDepth(rows)
    ensures MaxDepth(ColumnValues(rows, c)) < MaxDepth(rows)
  {
    var i :| 0 <= i < |rows| && rows[i].Mapping? && c in KeysOf(rows[i].pairs);
    KeyFacts(rows[i], c);
    var cv := ColumnValues(rows, c);
    var bound := MaxDepth(rows) - 1;
    forall k | 0 <= k < |cv| ensures Depth(cv[k]) <= bound {
      CellFacts(rows[k], c);
    }
    MaxDepthAtMost(cv, bound);
  }

  lemma ColumnPy(rows: seq<Value>, c: Value)
    requires SwapAvailable(rows) && IsColumn(rows, c) && PyValue(Sequence(rows))
    ensures PyValue(c) && PyValue(Sequence(ColumnValues(rows, c)))
  {
    var i :| 0 <= i < |rows| && rows[i].Mapping? && c in KeysOf(rows[i].pairs);
    assert PyValue(rows[i]);
    KeyFacts(rows[i], c);
    var cv := ColumnValues(rows, c);
    forall k | 0 <= k < |cv| ensures PyValue(cv[k]) {
      assert PyValue(rows[k]);
      CellFacts(rows[k], c);
    }
  }

  // ----- the value dispatcher -----------------------------------------------

  /** `_dump_value`: one node per value, its origin the value itself. */
  function DumpValue(lib: Library, v: Value): (p: Node)
    requires PyValue(v)
    ensures p.origin == v && Measured(p)
    decreases Depth(v), 3, 0
  {
    match v
    case Null => Leaf(v, 0x01, [], [])
    case Unspecified => Leaf(v, 0xa0, [], [])
    case Bool(b) => Leaf(v, if b then 0x03 else 0x02, [], [])
    case Int(n) => DumpInt(n)
    case Float(f) => DumpFloat(f)
    case Text(s) => DumpStr(lib, s)
    case Blob(b) => DumpBytes(b)
    case Sequence(items) => DumpList(lib, items)
    case Mapping(pairs) => DumpDict(lib, pairs)
  }

  /** `encode_straight_list`: a count header, then every element. */
  function Straight(lib: Library, items: seq<Value>): (p: Node)
    requires PyValue(Sequence(items))
    ensures p.origin == Sequence(items) && p.control / 16 == 8 && p.buf == []
    ensures |p.children| == |items| && Measured(p)
    decreases 1 + MaxDepth(items), 1, 0
  {
    var (c, d) := LengthHeader(0x80, |items|, 0xc);
    Branch(Sequence(items), c, d, DumpItems(lib, items))
  }

  /** Rows fit for transposing have at least one column. */
  lemma SomeColumn(rows: seq<Value>)
    requires SwapAvailable(rows)
    ensures |Columns(rows)| > 0
  {
    var i :| 0 <= i < |rows| && rows[i].Mapping? && |rows[i].pairs| > 0;
    var c := rows[i].pairs[0].0;
    assert c in KeysOf(rows[i].pairs);
    assert IsColumn(rows, c);
    ColumnsAreKeys(rows);
  }

  /** `encode_swapped_list`: a column-count header, then for every column its
      name and the array of its values. */
  function Swapped(lib: Library, rows: seq<Value>): (p: Node)
    requires PyValue(Sequence(rows)) && SwapAvailable(rows)
    ensures p.origin == Sequence(rows) && p.control / 16 == 0xa && p.control != 0xa0 && p.buf == []
    ensures |p.children| == 2 * |Columns(rows)| && Measured(p)
    decreases 1 + MaxDepth(rows), 1, 0
  {
    var cols := Columns(rows);
    SomeColumn(rows);
    var (c, d) := LengthHeader(0xa0, |cols|, 0xc);
    Branch(Sequence(rows), c, d, SwappedChildren(lib, rows, 0))
  }

  /** `_dump_list`: the straight layout, or the transposed one when the rows
      allow it and it is strictly smaller counting three levels deep. */
  function DumpList(lib: Library, items: seq<Value>): (p: Node)
    requires PyValue(Sequence(items))
    ensures p.origin == Sequence(items) && Measured(p) && p.buf == []
    ensures p.control / 16 == 8 || p.control / 16 == 0xa
    ensures p.control / 16 == 0xa ==>
      SwapAvailable(items) && p == Swapped(lib, items) &&
      Size(p, 3) < Size(Straight(lib, items), 3)
    ensures p.control / 16 == 8 ==> p == Straight(lib, items)
    decreases 1 + MaxDepth(items), 2, 0
  {
    var straight := Straight(lib, items);
    if SwapAvailable(items) then
      var swapped := Swapped(lib, items);
      if Size(swapped, 3) < Size(straight, 3) then swapped else straight
    else straight
  }

  /** `_dump_dict`: a count header, then each key followed by its value. */
  function DumpDict(lib: Library, pairs: seq<(Value, Value)>): (p: Node)
    requires PyValue(Mapping(pairs))
    ensures p.origin == Mapping(pairs) && p.control / 16 == 9 && p.buf == []
    ensures |p.children| == 2 * |pairs| && Measured(p)
    decreases 1 + MaxPairDepth(pairs), 1, 0
  {
    var (c, d) := LengthHeader(0x90, |pairs|, 0xc);
    Branch(Mapping(pairs), c, d, DumpPairs(lib, pairs))
  }

  function DumpItems(lib: Library, items: seq<Value>): (r: seq<Node>)
    requires PyValue(Sequence(items))
    ensures |r| == |items|
    ensures forall i :: 0 <= i < |r| ==> Measured(r[i]) && r[i].origin == items[i]
    decreases 1 + MaxDepth(items), 0, |items|
  {
    if |items| == 0 then []
    else
      assert PyValue(items[0]);
      [DumpValue(lib, items[0])] + DumpItems(lib, items[1..])
  }

  function DumpPairs(lib: Library, pairs: seq<(Value, Value)>): (r: seq<Node>)
    requires PyValue(Mapping(pairs))
    ensures |r| == 2 * |pairs|
    ensures forall i :: 0 <= i < |r| ==> Measured(r[i])
    decreases 1 + MaxPairDepth(pairs), 0, |pairs|
  {
    if |pairs| == 0 then []
    else
      PairDepthBelow(pairs, 0);
      assert PyValue(pairs[0].0) && PyValue(pairs[0].1);
      [DumpValue(lib, pairs[0].0), DumpValue(lib, pairs[0].1)] + DumpPairs(lib, pairs[1..])
  }

  function SwappedChildren(lib: Library, rows: seq<Value>, k: nat): (r: seq<Node>)
    requires PyValue(Sequence(rows)) && SwapAvailable(rows)
    requires k <= |Columns(rows)|
    ensures |r| == 2 * (|Columns(rows)| - k)
    ensures forall i :: 0 <= i < |r| ==> Measured(r[i])
    decreases 1 + MaxDepth(rows), 0, |Columns(rows)| - k
  {
    if k == |Columns(rows)| then []
    else
      var head := DumpColumn(lib, rows, k);
      var rest := SwappedChildren(lib, rows, k + 1);
      assert forall i :: 0 <= i < |head| ==> Measured(head[i]) by {
        forall i | 0 <= i < |head| ensures Measured(head[i]) {
          assert i == 0 || i == 1;
        }
      }
      MeasuredConcat(head, rest);
      head + rest
  }

  /** Column `k` of a transposed array: its name, then its values. */
  function DumpColumn(lib: Library, rows: seq<Value>, k: nat): (r: seq<Node>)
    requires PyValue(Sequence(rows)) && SwapAvailable(rows)
    requires k < |Columns(rows)|
    ensures |r| == 2 && Measured(r[0]) && Measured(r[1])
    decreases 1 + MaxDepth(rows), 0, 0
  {
    var c := Columns(rows)[k];
    ColumnsAreKeys(rows);
    assert c in Columns(rows);
    ColumnFacts(rows, c);
    ColumnPy(rows, c);
    [DumpValue(lib, c), DumpList(lib, ColumnValues(rows, c))]
  }

  // ----- layouts ------------------------------------------------------------

  /** Child `i` of a dumped list's straight children is element `i` dumped. */
  lemma {:induction false} ItemsLayout(lib: Library, items: seq<Value>)
    requires PyValue(Sequence(items))
    ensures forall i :: 0 <= i < |items| ==> DumpItems(lib, items)[i] == DumpValue(lib, items[i])
    decreases |items|
  {
    if |items| > 0 {
      assert PyValue(Sequence(items[1..])) by {
        forall i | 0 <= i < |items[1..]| ensures PyValue(items[1..][i]) {
          assert items[1..][i] == items[i + 1];
        }
      }
      ItemsLayout(lib, items[1..]);
      forall i | 1 <= i < |items| ensures DumpItems(lib, items)[i] == DumpValue(lib, items[i]) {
        assert items[1..][i - 1] == items[i];
      }
    }
  }

  /** The straight layout is the count's length header followed by every
      element dumped, in order. */
  lemma StraightLayout(lib: Library, items: seq<Value>)
    requires PyValue(Sequence(items))
    ensures (Straight(lib, items).control, Straight(lib, items).data) == LengthHeader(0x80, |items|, 0xc)
    ensures forall i :: 0 <= i < |items| ==> Straight(lib, items).children[i] == DumpValue(lib, items[i])
  {
    ItemsLayout(lib, items);
  }

  /** Children `2i` and `2i+1` of a dumped dict are key `i` and value `i`
      dumped. */
  lemma PairsLayout(lib: Library, pairs: seq<(Value, Value)>)
    requires PyValue(Mapping(pairs))
    ensures forall i :: 0 <= i < |pairs| ==>
      DumpPairs(lib, pairs)[2 * i] == DumpValue(lib, pairs[i].0) &&
      DumpPairs(lib, pairs)[2 * i + 1] == DumpValue(lib, pairs[i].1)
  {
    forall i | 0 <= i < |pairs|
      ensures DumpPairs(lib, pairs)[2 * i] == DumpValue(lib, pairs[i].0)
      ensures DumpPairs(lib, pairs)[2 * i + 1] == DumpValue(lib, pairs[i].1)
    {
      DumpPairAt(lib, pairs, i);
    }
  }

  lemma {:induction false} DumpPairAt(lib: Library, pairs: seq<(Value, Value)>, i: nat)
    requires PyValue(Mapping(pairs)) && i < |pairs|
    ensures DumpPairs(lib, pairs)[2 * i] == DumpValue(lib, pairs[i].0)
    ensures DumpPairs(lib, pairs)[2 * i + 1] == DumpValue(lib, pairs[i].1)
    decreases i
  {
    if i == 0 {
      DumpPairStep(lib, pairs);
      HeadTwo(DumpPairs(lib, pairs), DumpValue(lib, pairs[0].0), DumpValue(lib, pairs[0].1), DumpPairs(lib, pairs[1..]));
    } else {
      DumpPairShift(lib, pairs, i);
      DumpPairAt(lib, pairs[1..], i - 1);
    }
  }

  /** A non-empty dict's children: the first key and value, then the rest's. */
  lemma DumpPairStep(lib: Library, pairs: seq<(Value, Value)>)
    requires PyValue(Mapping(pairs)) && |pairs| > 0
    ensures PyValue(Mapping(pairs[1..]))
    ensures DumpPairs(lib, pairs) == [DumpValue(lib, pairs[0].0), DumpValue(lib, pairs[0].1)] + DumpPairs(lib, pairs[1..])
  {
    assert forall i :: 0 <= i < |pairs[1..]| ==> pairs[1..][i] == pairs[i + 1];
  }

  /** Past the first pair, a dict's children are the rest's shifted by two. */
  lemma DumpPairShift(lib: Library, pairs: seq<(Value, Value)>, i: nat)
    requires PyValue(Mapping(pairs)) && 0 < i < |pairs|
    ensures PyValue(Mapping(pairs[1..])) && pairs[1..][i - 1] == pairs[i]
    ensures DumpPairs(lib, pairs)[2 * i] == DumpPairs(lib, pairs[1..])[2 * (i - 1)]
    ensures DumpPairs(lib, pairs)[2 * i + 1] == DumpPairs(lib, pairs[1..])[2 * (i - 1) + 1]
  {
    DumpPairStep(lib, pairs);
    ShiftTwo(DumpPairs(lib, pairs), DumpValue(lib, pairs[0].0), DumpValue(lib, pairs[0].1), DumpPairs(lib, pairs[1..]), i);
    assert pairs[1..][i - 1] == pairs[i];
  }

  /** A dumped dict is the count's length header followed by each key and its
      value dumped, in the dict's order. */
  lemma DictLayout(lib: Library, pairs: seq<(Value, Value)>)
    requires PyValue(Mapping(pairs))
    ensures (DumpDict(lib, pairs).control, DumpDict(lib, pairs).data) == LengthHeader(0x90, |pairs|, 0xc)
    ensures forall i :: 0 <= i < |pairs| ==>
      DumpDict(lib, pairs).children[2 * i] == DumpValue(lib, pairs[i].0) &&
      DumpDict(lib, pairs).children[2 * i + 1] == DumpValue(lib, pairs[i].1)
  {
    PairsLayout(lib, pairs);
  }

  /** Column `j`'s pair of nodes: its name dumped and the list of its cells
      dumped. */
  lemma ColumnLayout(lib: Library, rows: seq<Value>, j: nat)
    requires PyValue(Sequence(rows)) && SwapAvailable(rows) && j < |Columns(rows)|
    ensures PyValue(Columns(rows)[j]) && PyValue(Sequence(ColumnValues(rows, Columns(rows)[j])))
    ensures DumpColumn(lib, rows, j)[0] == DumpValue(lib, Columns(rows)[j])
    ensures DumpColumn(lib, rows, j)[1] == DumpList(lib, ColumnValues(rows, Columns(rows)[j]))
  {
    ColumnsAreKeys(rows);
    assert Columns(rows)[j] in Columns(rows);
    ColumnPy(rows, Columns(rows)[j]);
  }

  /** The transposed layout is the column count's length header followed, for
      every column in first-seen order, by its name dumped and the list of its
      cells (`row.get(column, unspecified)` per row) dumped. */
  lemma SwappedLayout(lib: Library, rows: seq<Value>)
    requires PyValue(Sequence(rows)) && SwapAvailable(rows)
    ensures (Swapped(lib, rows).control, Swapped(lib, rows).data) == LengthHeader(0xa0, |Columns(rows)|, 0xc)
    ensures forall j :: 0 <= j < |Columns(rows)| ==>
      PyValue(Columns(rows)[j]) && PyValue(Sequence(ColumnValues(rows, Columns(rows)[j])))
    ensures forall j :: 0 <= j < |Columns(rows)| ==>
      Swapped(lib, rows).children[2 * j] == DumpValue(lib, Columns(rows)[j]) &&
      Swapped(lib, rows).children[2 * j + 1] == DumpList(lib, ColumnValues(rows, Columns(rows)[j]))
  {
    forall j | 0 <= j < |Columns(rows)|
      ensures PyValue(Columns(rows)[j]) && PyValue(Sequence(ColumnValues(rows, Columns(rows)[j])))
      ensures Swapped(lib, rows).children[2 * j] == DumpValue(lib, Columns(rows)[j])
      ensures Swapped(lib, rows).children[2 * j + 1] == DumpList(lib, ColumnValues(rows, Columns(rows)[j]))
    {
      SwappedChild(lib, rows, j);
    }
  }

  lemma SwappedChild(lib: Library, rows: seq<Value>, j: nat)
    requires PyValue(Sequence(rows)) && SwapAvailable(rows) && j < |Columns(rows)|
    ensures PyValue(Columns(rows)[j]) && PyValue(Sequence(ColumnValues(rows, Columns(rows)[j])))
    ensures Swapped(lib, rows).children[2 * j] == DumpValue(lib, Columns(rows)[j])
    ensures Swapped(lib, rows).children[2 * j + 1] == DumpList(lib, ColumnValues(rows, Columns(rows)[j]))
  {
    SwappedChildrenAt(lib, rows);
    ColumnPairNodes(lib, rows, j);
    ColumnPairAt(lib, rows, j);
  }

  /** A transposed node's children are the column nodes from the first on. */
  lemma SwappedChildrenAt(lib: Library, rows: seq<Value>)
    requires PyValue(Sequence(rows)) && SwapAvailable(rows)
    ensures Swapped(lib, rows).children == ChildrenAt(lib, rows, 0)
  {
  }

  /** The column's two nodes sit at `2 * j` and `2 * j + 1`. */
  lemma ColumnPairAt(lib: Library, rows: seq<Value>, j: nat)
    requires PyValue(Sequence(rows)) && SwapAvailable(rows) && j < |Columns(rows)|
    ensures 2 * j + 1 < |ChildrenAt(lib, rows, 0)| && |ColumnNodesAt(lib, rows, j)| == 2
    ensures ChildrenAt(lib, rows, 0)[2 * j] == ColumnNodesAt(lib, rows, j)[0]
    ensures ChildrenAt(lib, rows, 0)[2 * j + 1] == ColumnNodesAt(lib, rows, j)[1]
  {
    ChildrenPairs(lib, rows);
    PairsIndex(ChildrenFn(lib, rows), ColumnNodeFn(lib, rows), |Columns(rows)|, j);
  }

  // Generic bookkeeping for the transposed children: `Pairs(r, f, k, n)` says
  // that `r` is `f(k) + f(k + 1) + ... + f(n - 1)` with every `f(j)` of
  // length two.

  predicate Pairs(r: seq<Node>, f: nat -> seq<Node>, k: nat, n: nat)
    decreases n - k
  {
    if k >= n then r == []
    else |f(k)| == 2 && |r| >= 2 && r[0] == f(k)[0] && r[1] == f(k)[1] && Pairs(r[2..], f, k + 1, n)
  }

  lemma PairsCons(head: seq<Node>, rest: seq<Node>, f: nat -> seq<Node>, k: nat, n: nat)
    requires k < n && f(k) == head && |head| == 2 && Pairs(rest, f, k + 1, n)
    ensures Pairs(head + rest, f, k, n)
  {
    assert (head + rest)[2..] == rest;
  }

  lemma {:induction false} PairsUnfold(g: nat -> seq<Node>, f: nat -> seq<Node>, k: nat, n: nat)
    requires k <= n && g(n) == []
    requires forall i: nat :: k <= i < n ==> |f(i)| == 2 && g(i) == f(i) + g(i + 1)
    ensures Pairs(g(k), f, k, n)
    decreases n - k
  {
    if k < n {
      PairsUnfold(g, f, k + 1, n);
      PairsCons(f(k), g(k + 1), f, k, n);
    }
  }

  lemma {:induction false} PairAt(r: seq<Node>, f: nat -> seq<Node>, k: nat, n: nat, j: nat)
    requires Pairs(r, f, k, n) && k <= j < n
    ensures 2 * (j - k) + 1 < |r| && |f(j)| == 2
    ensures r[2 * (j - k)] == f(j)[0] && r[2 * (j - k) + 1] == f(j)[1]
    decreases j - k
  {
    if k < j {
      PairAt(r[2..], f, k + 1, n, j);
    }
  }

  /** `g(k)` is `f(k)` followed by `g(k + 1)` for every `k` below `n`, each
      `f(k)` of length two, and `g(n)` is empty. */
  predicate Unrolls(g: nat -> seq<Node>, f: nat -> seq<Node>, n: nat) {
    g(n) == [] && forall i: nat :: i < n ==> |f(i)| == 2 && g(i) == f(i) + g(i + 1)
  }

  /** Pair `j` of an unrolled sequence sits at `2 * j` and `2 * j + 1`. */
  lemma PairsIndex(g: nat -> seq<Node>, f: nat -> seq<Node>, n: nat, j: nat)
    requires Unrolls(g, f, n) && j < n
    ensures 2 * j + 1 < |g(0)| && |f(j)| == 2
    ensures g(0)[2 * j] == f(j)[0] && g(0)[2 * j + 1] == f(j)[1]
  {
    PairsUnfold(g, f, 0, n);
    PairAt(g(0), f, 0, n, j);
  }

  /** `DumpColumn`, total so that it can be passed around as a function. */
  function ColumnNodesAt(lib: Library, rows: seq<Value>, j: nat): seq<Node>
  {
    if PyValue(Sequence(rows)) && SwapAvailable(rows) && j < |Columns(rows)|
    then DumpColumn(lib, rows, j) else []
  }

  /** Column `j`'s nodes as a function of `j`. */
  function ColumnNodeFn(lib: Library, rows: seq<Value>): (f: nat -> seq<Node>)
    ensures forall j: nat :: f(j) == ColumnNodesAt(lib, rows, j)
  {
    (j: nat) => ColumnNodesAt(lib, rows, j)
  }

  /** `SwappedChildren`, total for the same reason. */
  function ChildrenAt(lib: Library, rows: seq<Value>, k: nat): seq<Node>
  {
    if PyValue(Sequence(rows)) && SwapAvailable(rows) && k <= |Columns(rows)|
    then SwappedChildren(lib, rows, k) else []
  }

  /** `ChildrenAt` as a function of the column. */
  function ChildrenFn(lib: Library, rows: seq<Value>): (g: nat -> seq<Node>)
    ensures forall k: nat :: g(k) == ChildrenAt(lib, rows, k)
  {
    (k: nat) => ChildrenAt(lib, rows, k)
  }

  lemma ChildStep(lib: Library, rows: seq<Value>, i: nat)
    requires PyValue(Sequence(rows)) && SwapAvailable(rows) && i < |Columns(rows)|
    ensures |ColumnNodesAt(lib, rows, i)| == 2
    ensures ChildrenAt(lib, rows, i) == ColumnNodesAt(lib, rows, i) + ChildrenAt(lib, rows, i + 1)
  {
  }

  lemma ChildSteps(lib: Library, rows: seq<Value>)
    requires PyValue(Sequence(rows)) && SwapAvailable(rows)
    ensures forall i: nat :: i < |Columns(rows)| ==>
      |ColumnNodesAt(lib, rows, i)| == 2 &&
      ChildrenAt(lib, rows, i) == ColumnNodesAt(lib, rows, i) + ChildrenAt(lib, rows, i + 1)
  {
    forall i: nat | i < |Columns(rows)|
      ensures |ColumnNodesAt(lib, rows, i)| == 2
      ensures ChildrenAt(lib, rows, i) == ColumnNodesAt(lib, rows, i) + ChildrenAt(lib, rows, i + 1)
    {
      ChildStep(lib, rows, i);
    }
  }

  /** The transposed children are every column's pair of nodes in turn. */
  lemma ChildrenPairs(lib: Library, rows: seq<Value>)
    requires PyValue(Sequence(rows)) && SwapAvailable(rows)
    ensures Unrolls(ChildrenFn(lib, rows), ColumnNodeFn(lib, rows), |Columns(rows)|)
  {
    ChildSteps(lib, rows);
  }

  /** Column `j`'s pair of nodes: its name dumped and the list of its cells
      dumped. */
  lemma ColumnPairNodes(lib: Library, rows: seq<Value>, j: nat)
    requires PyValue(Sequence(rows)) && SwapAvailable(rows) && j < |Columns(rows)|
    ensures PyValue(Columns(rows)[j]) && PyValue(Sequence(ColumnValues(rows, Columns(rows)[j])))
    ensures ColumnNodesAt(lib, rows, j) ==
      [DumpValue(lib, Columns(rows)[j]), DumpList(lib, ColumnValues(rows, Columns(rows)[j]))]
  {
    ColumnLayout(lib, rows, j);
  }
}

=== FILE: encodesteps.dfy ===
/** The encoder-side decomposition the round-trip proofs follow: a
    container's children are optimised one after another, each from the
    tables the previous one left, and serialised back to back. */
module EncodeSteps {
  import opened Values
  import opened Proxy
  import opened Encoder
  import opened Optimizer

  lemma OptimizeAllCons(p: Node, ps: seq<Node>, e: EncoderState)
    ensures OptimizeAll(CorrectedRules, [p] + ps, e) ==
      (var (q, e1) := Optimize(CorrectedRules, p, e);
       var (qs, e2) := OptimizeAll(CorrectedRules, ps, e1);
       ([q] + qs, e2))
  {
    assert ([p] + ps)[0] == p && ([p] + ps)[1..] == ps;
  }

  lemma SerializeAllCons(q: Node, qs: seq<Node>)
    ensures SerializeAll([q] + qs) == Serialize(q) + SerializeAll(qs)
  {
    assert ([q] + qs)[0] == q && ([q] + qs)[1..] == qs;
  }

  /** A container keeps its header and has its children optimised in order,
      so it is written as its header followed by the optimised children. */
  lemma ContainerShape(p: Node, e: EncoderState, tail: Bytes)
    requires p.control / 16 == 8 || p.control / 16 == 9 || p.control / 16 == 0xa
    requires p.buf == []
    ensures Optimize(CorrectedRules, p, e).1 == OptimizeAll(CorrectedRules, p.children, e).1
    ensures Serialize(Optimize(CorrectedRules, p, e).0) + tail ==
      [p.control] + (p.data + (SerializeAll(OptimizeAll(CorrectedRules, p.children, e).0) + tail))
  {
    var qs := OptimizeAll(CorrectedRules, p.children, e).0;
    assert Optimize(CorrectedRules, p, e).0 == p.(children := qs);
    assert Serialize(p.(children := qs)) == [p.control] + p.data + [] + SerializeAll(qs);
  }

  /** The first node and the rest, optimised in order and serialised back
      to back. */
  lemma SplitOne(p: Node, ps: seq<Node>, e: EncoderState, tail: Bytes)
    returns (q: Node, e1: EncoderState, qs: seq<Node>, e2: EncoderState)
    ensures (q, e1) == Optimize(CorrectedRules, p, e)
    ensures (qs, e2) == OptimizeAll(CorrectedRules, ps, e1)
    ensures var all := OptimizeAll(CorrectedRules, [p] + ps, e);
      all.1 == e2 && SerializeAll(all.0) + tail == Serialize(q) + (SerializeAll(qs) + tail)
  {
    OptimizeAllCons(p, ps, e);
    q, e1 := Optimize(CorrectedRules, p, e).0, Optimize(CorrectedRules, p, e).1;
    qs, e2 := OptimizeAll(CorrectedRules, ps, e1).0, OptimizeAll(CorrectedRules, ps, e1).1;
    SerializeAllCons(q, qs);
  }

  /** Two nodes and the rest, optimised in order and serialised back to back. */
  lemma SplitTwo(p1: Node, p2: Node, ps: seq<Node>, e: EncoderState, tail: Bytes)
    returns (q1: Node, e1: EncoderState, q2: Node, e2: EncoderState, qs: seq<Node>, e3: EncoderState)
    ensures (q1, e1) == Optimize(CorrectedRules, p1, e)
    ensures (q2, e2) == Optimize(CorrectedRules, p2, e1)
    ensures (qs, e3) == OptimizeAll(CorrectedRules, ps, e2)
    ensures var all := OptimizeAll(CorrectedRules, [p1] + ([p2] + ps), e);
      all.1 == e3 && SerializeAll(all.0) + tail == Serialize(q1) + (Serialize(q2) + (SerializeAll(qs) + tail))
  {
    var rest: seq<Node>;
    q1, e1, rest, e3 := SplitOne(p1, [p2] + ps, e, tail);
    q2, e2, qs, e3 := SplitOne(p2, ps, e1, tail);
  }

  /** The nodes of an array's elements: the first element's, then the rest. */
  lemma ItemNodes(lib: Library, items: seq<Value>)
    requires |items| > 0 && PyValue(Sequence(items))
    ensures PyValue(items[0]) && PyValue(Sequence(items[1..]))
    ensures DumpItems(lib, items) == [DumpValue(lib, items[0])] + DumpItems(lib, items[1..])
  {
  }

  /** The nodes of a dict's pairs: the first key's and value's, then the rest. */
  lemma PairNodes(lib: Library, pairs: seq<(Value, Value)>)
    requires |pairs| > 0 && PyValue(Mapping(pairs))
    ensures PyValue(pairs[0].0) && PyValue(pairs[0].1) && PyValue(Mapping(pairs[1..]))
    ensures DumpPairs(lib, pairs) ==
      [DumpValue(lib, pairs[0].0)] + ([DumpValue(lib, pairs[0].1)] + DumpPairs(lib, pairs[1..]))
  {
    PairsTailPy(pairs);
    var a, b, rest := DumpValue(lib, pairs[0].0), DumpValue(lib, pairs[0].1), DumpPairs(lib, pairs[1..]);
    assert DumpPairs(lib, pairs) == [a, b] + rest;
    ConsTwo(a, b, rest);
  }

  lemma ConsTwo(a: Node, b: Node, rest: seq<Node>)
    ensures [a, b] + rest == [a] + ([b] + rest)
  {
  }

  lemma PairsTailPy(pairs: seq<(Value, Value)>)
    requires |pairs| > 0 && PyValue(Mapping(pairs))
    ensures PyValue(pairs[0].0) && PyValue(pairs[0].1) && PyValue(Mapping(pairs[1..]))
  {
    assert forall i :: 0 <= i < |pairs[1..]| ==> pairs[1..][i] == pairs[i + 1];
  }

  /** The nodes of column `k` and those of the later columns. */
  lemma ColumnNodes(lib: Library, rows: seq<Value>, k: nat)
    requires PyValue(Sequence(rows)) && SwapAvailable(rows) && k < |Columns(rows)|
    ensures IsColumn(rows, Columns(rows)[k])
    ensures PyValue(Columns(rows)[k]) && PyValue(Sequence(ColumnValues(rows, Columns(rows)[k])))
    ensures SwappedChildren(lib, rows, k) ==
      [DumpValue(lib, Columns(rows)[k])] +
      ([DumpValue(lib, Sequence(ColumnValues(rows, Columns(rows)[k])))] + SwappedChildren(lib, rows, k + 1))
  {
    ColumnNodeFacts(rows, k);
    ChildrenUnfold(lib, rows, k);
    ColumnIsList(lib, rows, k);
    Regroup(SwappedChildren(lib, rows, k), DumpColumn(lib, rows, k), SwappedChildren(lib, rows, k + 1),
            DumpValue(lib, Columns(rows)[k]), DumpValue(lib, Sequence(ColumnValues(rows, Columns(rows)[k]))));
  }

  lemma Regroup<T>(all: seq<T>, pair: seq<T>, rest: seq<T>, a: T, b: T)
    requires all == pair + rest && pair == [a, b]
    ensures all == [a] + ([b] + rest)
  {
  }

  /** The children from column `k` on: column `k`, then the later ones. */
  lemma ChildrenUnfold(lib: Library, rows: seq<Value>, k: nat)
    requires PyValue(Sequence(rows)) && SwapAvailable(rows) && k < |Columns(rows)|
    ensures SwappedChildren(lib, rows, k) == DumpColumn(lib, rows, k) + SwappedChildren(lib, rows, k + 1)
  {
  }

  /** Column `k` is its name, then its values dumped as a list. */
  lemma ColumnIsList(lib: Library, rows: seq<Value>, k: nat)
    requires PyValue(Sequence(rows)) && SwapAvailable(rows) && k < |Columns(rows)|
    ensures PyValue(Columns(rows)[k]) && PyValue(Sequence(ColumnValues(rows, Columns(rows)[k])))
    ensures DumpColumn(lib, rows, k) ==
      [DumpValue(lib, Columns(rows)[k]), DumpValue(lib, Sequence(ColumnValues(rows, Columns(rows)[k])))]
  {
    ColumnNodeFacts(rows, k);
  }

  /** Column `k` is a column of the rows, and it and its values are
      Python values. */
  lemma ColumnNodeFacts(rows: seq<Value>, k: nat)
    requires PyValue(Sequence(rows)) && SwapAvailable(rows) && k < |Columns(rows)|
    ensures IsColumn(rows, Columns(rows)[k])
    ensures PyValue(Columns(rows)[k]) && PyValue(Sequence(ColumnValues(rows, Columns(rows)[k])))
  {
    var c := Columns(rows)[k];
    ColumnsAreKeys(rows);
    assert c in Columns(rows);
    ColumnPy(rows, c);
  }
}

=== FILE: findings.dfy ===
/** Three inputs on which the Python encoder and decoder, as written,
    disagree, each decoded both as written and by the corrected codec that
    the round trip is proved for.

    1. Fixed-width deltas are written in two's complement but read back
       unsigned: `[1100, 1000]` decodes as `[1100, 1256]`.
    2. The encoder neither stores nor looks up payloads of one byte, but the
       decoder stores every payload: in `[b"ab", b"\xe3", b"ab"]` the short
       blob lands in the slot of `b"ab"` (both hash to 0xe3) and the
       back-reference that follows fetches it.
    3. UTF-8 and UTF-16LE payloads share one text table and are compared as
       bytes: `"ab"` in UTF-8 and U+6261 in UTF-16LE are both `61 62`, so
       `["ab", "扡"]` decodes as `["ab", "ab"]`. */
module Findings {
  import opened Wrappers
  import opened Values
  import opened IntCodec
  import opened Djb
  import opened Proxy
  import opened Encoder
  import opened Optimizer
  import opened Decoder
  import opened RoundTrip
  import opened TraceSteps

  // ----- 1. unsigned deltas ---------------------------------------------------

  const DeltaPair: seq<Value> := [Int(1100), Int(1000)]

  /** `82 | 1c 04 4c | bd 9c`: 1000 is written as the delta -100 from 1100. */
  const DeltaPairBytes: Bytes := [0x82, 0x1c, 0x04, 0x4c, 0xbd, 0x9c]

  lemma WideNodes()
    ensures DumpInt(1100) == Leaf(Int(1100), 0x1c, [0x04, 0x4c], [])
    ensures DumpInt(1000) == Leaf(Int(1000), 0x1c, [0x03, 0xe8], [])
  {
    WideNode(1100, 0x04, 0x4c);
    WideNode(1000, 0x03, 0xe8);
  }

  /** A positive integer of 0x80..0x7fff takes the two-byte tier. */
  lemma WideNode(n: int, hi: byte, lo: byte)
    requires 0x80 <= n <= 0x7fff && hi == n / 0x100 && lo == n % 0x100
    ensures DumpInt(n) == Leaf(Int(n), 0x1c, [hi, lo], [])
  {
    assert n % Pow256(2) == n;
    assert BigEndian(n, 2) == BigEndian(n / 256, 1) + [lo];
    assert BigEndian(n / 256, 1) == BigEndian(n / 256 / 256, 0) + [hi];
    assert EncodeInt(n, 2) == [hi, lo];
    assert WideInt(n) == (0xc, [hi, lo]);
  }

  /** The nodes of the pair: 1100 and 1000 both take the two-byte tier. */
  lemma DeltaPairNodes(lib: Library)
    ensures DumpValue(lib, Sequence(DeltaPair)) ==
      Branch(Sequence(DeltaPair), 0x82, [], [Leaf(Int(1100), 0x1c, [0x04, 0x4c], []), Leaf(Int(1000), 0x1c, [0x03, 0xe8], [])])
  {
    NotSwappable(DeltaPair);
    TwoItems(lib, Int(1100), Int(1000));
    ShortList(lib, DeltaPair);
    WideNodes();
  }

  /** The first integer has no predecessor and is kept. */
  lemma FirstIntKept(rules: Rules, p: Node, e: EncoderState)
    requires rules.port == Python && e.lastint.None? && p == Leaf(Int(1100), 0x1c, [0x04, 0x4c], [])
    ensures Optimize(rules, p, e) == (p, e.(lastint := Some(1100)))
  {
  }

  /** The second is 100 below the first: the delta -100 fits one signed
      byte, which is shorter than its own two-byte field. */
  lemma SecondIntDelta(rules: Rules, p: Node, e: EncoderState)
    requires rules.port == Python && e.lastint == Some(1100) && p == Leaf(Int(1000), 0x1c, [0x03, 0xe8], [])
    ensures Optimize(rules, p, e) == (Leaf(Int(1000), 0xbd, [0x9c], []), e.(lastint := Some(1000)))
  {
    assert EncodeInt(-100, 1) == [0x9c];
    assert DeltaHeader(-100) == (0xbd, [0x9c]);
  }

  lemma OptimizePairItems(rules: Rules, a: Node, b: Node, b2: Node)
    requires rules.port == Python
    requires a == Leaf(Int(1100), 0x1c, [0x04, 0x4c], []) && b == Leaf(Int(1000), 0x1c, [0x03, 0xe8], [])
    requires b2 == Leaf(Int(1000), 0xbd, [0x9c], [])
    ensures OptimizeAll(rules, [a, b], FreshEncoder).0 == [a, b2]
  {
    var e1 := FreshEncoder.(lastint := Some(1100));
    var e2 := FreshEncoder.(lastint := Some(1000));
    FirstIntKept(rules, a, FreshEncoder);
    SecondIntDelta(rules, b, e1);
    assert OptimizeAll(rules, [], e2) == ([], e2);
    OptimizeAllCons(rules, b, [], e1);
    OptimizeAllCons(rules, a, [b], FreshEncoder);
    ListTwo(a, b);
    assert [a] + ([b2] + []) == [a, b2];
  }

  lemma SerializePair(p: Node, a: Node, b2: Node)
    requires a == Leaf(Int(1100), 0x1c, [0x04, 0x4c], []) && b2 == Leaf(Int(1000), 0xbd, [0x9c], [])
    requires p == Branch(Sequence(DeltaPair), 0x82, [], [a, b2])
    ensures Serialize(p) == DeltaPairBytes
  {
    assert SerializeAll([]) == [];
    SerializeCons(b2, []);
    SerializeCons(a, [b2]);
    ListTwo(a, b2);
  }

  /** Both the Python rules and the corrected rules write the pair this way. */
  lemma DeltaPairEncodes(lib: Library, rules: Rules)
    requires rules.port == Python
    ensures Serialize(Optimize(rules, DumpValue(lib, Sequence(DeltaPair)), FreshEncoder).0) == DeltaPairBytes
  {
    var a := Leaf(Int(1100), 0x1c, [0x04, 0x4c], []);
    var b := Leaf(Int(1000), 0x1c, [0x03, 0xe8], []);
    var b2 := Leaf(Int(1000), 0xbd, [0x9c], []);
    DeltaPairNodes(lib);
    var p := DumpValue(lib, Sequence(DeltaPair));
    var q := OptimizedPair(rules, p, a, b, b2);
    SerializePair(q, a, b2);
  }

  /** The optimiser keeps 1100 and turns 1000 into a delta of -100. */
  lemma OptimizedPair(rules: Rules, p: Node, a: Node, b: Node, b2: Node) returns (q: Node)
    requires rules.port == Python
    requires a == Leaf(Int(1100), 0x1c, [0x04, 0x4c], []) && b == Leaf(Int(1000), 0x1c, [0x03, 0xe8], [])
    requires b2 == Leaf(Int(1000), 0xbd, [0x9c], [])
    requires p == Branch(Sequence(DeltaPair), 0x82, [], [a, b])
    ensures q == Branch(Sequence(DeltaPair), 0x82, [], [a, b2])
    ensures Optimize(rules, p, FreshEncoder).0 == q
  {
    OptimizeContainer(rules, p, FreshEncoder);
    OptimizePairItems(rules, a, b, b2);
    q := Branch(Sequence(DeltaPair), 0x82, [], [a, b2]);
  }

  /** As written: the delta byte 0x9c is read as 156, not -100. */
  lemma UnsignedDeltaMisread(lib: Library)
    ensures var r := LoadValue(lib, false, DeltaPairBytes, FreshDecoder);
      r.Success? && r.value.v == Sequence([Int(1100), Int(1256)]) && r.value.rest == []
  {
    DeltaPairReads(lib, false, 1256);
  }

  /** Corrected: reading the delta signed gives the pair back. */
  lemma SignedDeltaReadsBack(lib: Library)
    ensures var r := LoadValue(lib, true, DeltaPairBytes, FreshDecoder);
      r.Success? && r.value.v == Sequence(DeltaPair) && r.value.rest == []
  {
    DeltaPairReads(lib, true, 1000);
  }

  lemma ReadsFirstInt(lib: Library, signed: bool, tail: Bytes, st: DecoderState)
    ensures LoadValue(lib, signed, [0x1c] + ([0x04, 0x4c] + tail), st) ==
      Success(Loaded(Int(1100), tail, st.(lastint := Some(1100))))
  {
    Dispatch(lib, signed, 0x1c, [0x04, 0x4c] + tail, st);
    WideNodes();
    assert Pow256(2) == 0x1_0000;
    FixedTierRoundTrip(1100, 2, tail);
  }

  /** The delta byte read as a one-byte field. */
  lemma DeltaByte()
    ensures DecodeInt([0x9c], 1) == Success(Parsed(0x9c, []))
    ensures UnsignedToSigned(0x9c, 8) == -100
  {
    assert EncodeInt(-100, 1) == [0x9c] && [0x9c] + [] == [0x9c];
    assert Pow256(1) == 0x100;
    FixedRoundTrip(-100, 1, []);
    assert Pow2(8) == 0x100 && Pow2(7) == 0x80;
  }

  lemma DeltaWide(signed: bool)
    ensures ReadDelta(signed, 0xbd, [0x9c]) == Success((if signed then -100 else 0x9c, []))
  {
    DeltaByte();
    assert ReadDelta(signed, 0xbd, [0x9c]) == ReadWide(signed, 0xd, [0x9c]);
  }

  lemma ReadsDelta(lib: Library, signed: bool, second: int, st: DecoderState)
    requires st.lastint == Some(1100) && second == if signed then 1000 else 1256
    ensures LoadValue(lib, signed, [0xbd] + [0x9c], st) == Success(Loaded(Int(second), [], st.(lastint := Some(second))))
  {
    Dispatch(lib, signed, 0xbd, [0x9c], st);
    DeltaWide(signed);
  }

  lemma PairMany(lib: Library, signed: bool, second: int)
    requires second == if signed then 1000 else 1256
    ensures LoadMany(lib, signed, 2, [0x1c] + ([0x04, 0x4c] + [0xbd, 0x9c]), FreshDecoder) ==
      Success(LoadedMany([Int(1100), Int(second)], [], FreshDecoder.(lastint := Some(second))))
  {
    var d1 := FreshDecoder.(lastint := Some(1100));
    var d2 := FreshDecoder.(lastint := Some(second));
    ReadsFirstInt(lib, signed, [0xbd, 0x9c], FreshDecoder);
    ReadsDelta(lib, signed, second, d1);
    ListTwo(0xbd as byte, 0x9c as byte);
    ReadTwo(lib, signed, [0x1c] + ([0x04, 0x4c] + [0xbd, 0x9c]), FreshDecoder,
            Loaded(Int(1100), [0xbd, 0x9c], d1), Loaded(Int(second), [], d2));
  }

  lemma DeltaPairReads(lib: Library, signed: bool, second: int)
    requires second == if signed then 1000 else 1256
    ensures var r := LoadValue(lib, signed, DeltaPairBytes, FreshDecoder);
      r.Success? && r.value.v == Sequence([Int(1100), Int(second)]) && r.value.rest == []
  {
    var t: Bytes := [0x1c, 0x04, 0x4c, 0xbd, 0x9c];
    assert [0x1c] + ([0x04, 0x4c] + [0xbd, 0x9c]) == t;
    assert [0x82] + t == DeltaPairBytes;
    PairMany(lib, signed, second);
    ShortArrayReads(lib, signed, 0x82, t, FreshDecoder,
                    LoadedMany([Int(1100), Int(second)], [], FreshDecoder.(lastint := Some(second))));
  }
  // ----- 2. payloads of one byte ----------------------------------------------

  const Ab: Bytes := [0x61, 0x62]
  const ShortBlobs: seq<Value> := [Blob(Ab), Blob([0xe3]), Blob(Ab)]

  /** `83 | 52 61 62 | 51 e3 | 5c e3`: the third blob is a back-reference to
      slot 0xe3, which the encoder believes still holds `ab`. */
  const ShortBlobBytes: Bytes := [0x83, 0x52, 0x61, 0x62, 0x51, 0xe3, 0x5c, 0xe3]

  /** `ab` and the single byte 0xe3 share a slot. */
  lemma SharedSlot()
    ensures Hash(Ab) == 0xe3 && Hash([0xe3]) == 0xe3
  {
    assert Ab[1..] == [0x62];
    assert HashFrom(0, Ab) == HashFrom(0x61, [0x62]);
    assert HashFrom(0x61, [0x62]) == HashFrom(0xe3, []);
    assert HashFrom(0, [0xe3]) == HashFrom(0xe3, []);
  }

  lemma BlobLeaves(lib: Library)
    ensures DumpValue(lib, Blob(Ab)) == Leaf(Blob(Ab), 0x52, [], Ab)
    ensures DumpValue(lib, Blob([0xe3])) == Leaf(Blob([0xe3]), 0x51, [], [0xe3])
  {
  }

  lemma ShortBlobNodes(lib: Library)
    ensures DumpValue(lib, Sequence(ShortBlobs)) ==
      Branch(Sequence(ShortBlobs), 0x83, [], [Leaf(Blob(Ab), 0x52, [], Ab), Leaf(Blob([0xe3]), 0x51, [], [0xe3]), Leaf(Blob(Ab), 0x52, [], Ab)])
  {
    NotSwappable(ShortBlobs);
    ThreeItems(lib, Blob(Ab), Blob([0xe3]), Blob(Ab));
    ShortList(lib, ShortBlobs);
    BlobLeaves(lib);
  }

  /** As written, the walk stores `ab`, skips the one-byte blob, and then
      finds `ab` still in its slot. */
  lemma ShortBlobWalk(a: Node, b: Node, r: Node)
    requires a == Leaf(Blob(Ab), 0x52, [], Ab) && b == Leaf(Blob([0xe3]), 0x51, [], [0xe3])
    requires r == Leaf(Blob(Ab), 0x5c, [0xe3], [])
    ensures OptimizeAll(PythonRules, [a, b, a], FreshEncoder).0 == [a, b, r]
  {
    SharedSlot();
    var e1 := FreshEncoder.(blob := map[0xe3 := Ab]);
    assert Optimize(PythonRules, a, FreshEncoder) == (a, e1);
    assert Optimize(PythonRules, b, e1) == (b, e1);
    assert Optimize(PythonRules, a, e1) == (r, e1);
    OptimizeThree(PythonRules, a, b, a, FreshEncoder, a, b, r, e1, e1, e1);
  }

  lemma ShortBlobsSerialize(p: Node, a: Node, b: Node, r: Node)
    requires a == Leaf(Blob(Ab), 0x52, [], Ab) && b == Leaf(Blob([0xe3]), 0x51, [], [0xe3])
    requires r == Leaf(Blob(Ab), 0x5c, [0xe3], [])
    requires p == Branch(Sequence(ShortBlobs), 0x83, [], [a, b, r])
    ensures Serialize(p) == ShortBlobBytes
  {
    SerializeThree(a, b, r);
  }

  /** As written: the Python encoder writes the three blobs this way. */
  lemma ShortBlobsEncode(lib: Library)
    ensures Serialize(Optimize(PythonRules, DumpValue(lib, Sequence(ShortBlobs)), FreshEncoder).0) == ShortBlobBytes
  {
    var a := Leaf(Blob(Ab), 0x52, [], Ab);
    var b := Leaf(Blob([0xe3]), 0x51, [], [0xe3]);
    var r := Leaf(Blob(Ab), 0x5c, [0xe3], []);
    ShortBlobNodes(lib);
    var p := DumpValue(lib, Sequence(ShortBlobs));
    ShortBlobsOptimized(p, a, b, r);
    ShortBlobsSerialize(Branch(Sequence(ShortBlobs), 0x83, [], [a, b, r]), a, b, r);
  }

  /** The array node after the walk: the third blob became the reference. */
  lemma ShortBlobsOptimized(p: Node, a: Node, b: Node, r: Node)
    requires a == Leaf(Blob(Ab), 0x52, [], Ab) && b == Leaf(Blob([0xe3]), 0x51, [], [0xe3])
    requires r == Leaf(Blob(Ab), 0x5c, [0xe3], [])
    requires p == Branch(Sequence(ShortBlobs), 0x83, [], [a, b, a])
    ensures Optimize(PythonRules, p, FreshEncoder).0 == Branch(Sequence(ShortBlobs), 0x83, [], [a, b, r])
  {
    OptimizeContainer(PythonRules, p, FreshEncoder);
    ShortBlobWalk(a, b, r);
  }

  lemma ReadsAb(lib: Library, signed: bool, t1: Bytes, st: DecoderState)
    ensures LoadValue(lib, signed, [0x52] + (Ab + t1), st) ==
      Success(Loaded(Blob(Ab), t1, st.(blob := st.blob[0xe3 := Ab])))
  {
    SharedSlot();
    ShortBlobReads(lib, signed, 0x52, Ab + t1, st);
    assert (Ab + t1)[..2] == Ab && (Ab + t1)[2..] == t1;
  }

  lemma ReadsE3(lib: Library, signed: bool, t2: Bytes, st: DecoderState)
    ensures LoadValue(lib, signed, [0x51] + ([0xe3] + t2), st) ==
      Success(Loaded(Blob([0xe3]), t2, st.(blob := st.blob[0xe3 := [0xe3]])))
  {
    SharedSlot();
    ShortBlobReads(lib, signed, 0x51, [0xe3] + t2, st);
    assert ([0xe3] + t2)[..1] == [0xe3] && ([0xe3] + t2)[1..] == t2;
  }

  lemma ShortBlobItemsRead(lib: Library, signed: bool, t: Bytes)
    requires t == ShortBlobBytes[1..]
    ensures var m := LoadMany(lib, signed, 3, t, FreshDecoder);
      m.Success? && m.value.vs == [Blob(Ab), Blob([0xe3]), Blob([0xe3])] && m.value.rest == []
  {
    var t2: Bytes := [0x5c, 0xe3];
    var t1: Bytes := [0x51] + ([0xe3] + t2);
    var d1 := FreshDecoder.(blob := FreshDecoder.blob[0xe3 := Ab]);
    var d2 := d1.(blob := d1.blob[0xe3 := [0xe3]]);
    assert t == [0x52] + (Ab + t1);
    ReadsAb(lib, signed, t1, FreshDecoder);
    ReadsE3(lib, signed, t2, d1);
    assert t2 == [0x5c] + ([0xe3] + []);
    BackReferenceReads(lib, signed, 0x5c, 0xe3, [], d2);
    ReadThree(lib, signed, t, FreshDecoder, Loaded(Blob(Ab), t1, d1), Loaded(Blob([0xe3]), t2, d2), Loaded(Blob([0xe3]), [], d2));
  }

  /** As written: decoding those bytes, the one-byte blob has overwritten
      slot 0xe3, so the third item comes back as `e3` instead of `ab`. */
  lemma ShortBlobsMisread(lib: Library, signed: bool)
    ensures var r := LoadValue(lib, signed, ShortBlobBytes, FreshDecoder);
      r.Success? && r.value.v == Sequence([Blob(Ab), Blob([0xe3]), Blob([0xe3])]) && r.value.v != Sequence(ShortBlobs)
  {
    var t := ShortBlobBytes[1..];
    ShortBlobItemsRead(lib, signed, t);
    assert 0x83 % 16 == 3 && [0x83] + t == ShortBlobBytes;
    ShortArrayReads(lib, signed, 0x83, t, FreshDecoder, LoadMany(lib, signed, 3, t, FreshDecoder).value);
    assert Sequence(ShortBlobs).items[2] != Blob([0xe3]);
  }
  /** `83 | 52 61 62 | 51 e3 | 52 61 62`: with every payload stored, the
      one-byte blob takes over slot 0xe3 on both sides and the third blob is
      written out again. */
  const ShortBlobFixedBytes: Bytes := [0x83, 0x52, 0x61, 0x62, 0x51, 0xe3, 0x52, 0x61, 0x62]

  lemma ShortBlobFixedWalk(a: Node, b: Node)
    requires a == Leaf(Blob(Ab), 0x52, [], Ab) && b == Leaf(Blob([0xe3]), 0x51, [], [0xe3])
    ensures OptimizeAll(CorrectedRules, [a, b, a], FreshEncoder).0 == [a, b, a]
  {
    SharedSlot();
    var e1 := FreshEncoder.(blob := map[0xe3 := Ab]);
    var e2 := e1.(blob := e1.blob[0xe3 := [0xe3]]);
    var e3 := e2.(blob := e2.blob[0xe3 := Ab]);
    assert Optimize(CorrectedRules, a, FreshEncoder) == (a, e1);
    assert Optimize(CorrectedRules, b, e1) == (b, e2);
    assert Optimize(CorrectedRules, a, e2) == (a, e3);
    OptimizeThree(CorrectedRules, a, b, a, FreshEncoder, a, b, a, e1, e2, e3);
  }

  /** Corrected: the encoder that stores every payload writes this. */
  lemma ShortBlobsFixedEncode(lib: Library)
    ensures Serialize(Optimize(CorrectedRules, DumpValue(lib, Sequence(ShortBlobs)), FreshEncoder).0) == ShortBlobFixedBytes
  {
    var a := Leaf(Blob(Ab), 0x52, [], Ab);
    var b := Leaf(Blob([0xe3]), 0x51, [], [0xe3]);
    ShortBlobNodes(lib);
    OptimizeContainer(CorrectedRules, DumpValue(lib, Sequence(ShortBlobs)), FreshEncoder);
    ShortBlobFixedWalk(a, b);
    ShortBlobsFixedSerialize(Branch(Sequence(ShortBlobs), 0x83, [], [a, b, a]), a, b);
  }

  lemma ShortBlobsFixedSerialize(p: Node, a: Node, b: Node)
    requires a == Leaf(Blob(Ab), 0x52, [], Ab) && b == Leaf(Blob([0xe3]), 0x51, [], [0xe3])
    requires p == Branch(Sequence(ShortBlobs), 0x83, [], [a, b, a])
    ensures Serialize(p) == ShortBlobFixedBytes
  {
    SerializeThree(a, b, a);
  }

  lemma ShortBlobFixedItemsRead(lib: Library, signed: bool, t: Bytes)
    requires t == ShortBlobFixedBytes[1..]
    ensures var m := LoadMany(lib, signed, 3, t, FreshDecoder);
      m.Success? && m.value.vs == ShortBlobs && m.value.rest == []
  {
    var t2: Bytes := [0x52] + (Ab + []);
    var t1: Bytes := [0x51] + ([0xe3] + t2);
    var d1 := FreshDecoder.(blob := FreshDecoder.blob[0xe3 := Ab]);
    var d2 := d1.(blob := d1.blob[0xe3 := [0xe3]]);
    var d3 := d2.(blob := d2.blob[0xe3 := Ab]);
    assert t == [0x52] + (Ab + t1);
    ReadsAb(lib, signed, t1, FreshDecoder);
    ReadsE3(lib, signed, t2, d1);
    ReadsAb(lib, signed, [], d2);
    ReadThree(lib, signed, t, FreshDecoder, Loaded(Blob(Ab), t1, d1), Loaded(Blob([0xe3]), t2, d2), Loaded(Blob(Ab), [], d3));
  }

  /** Corrected: those bytes decode to the three blobs written. */
  lemma ShortBlobsFixedRead(lib: Library, signed: bool)
    ensures var r := LoadValue(lib, signed, ShortBlobFixedBytes, FreshDecoder);
      r.Success? && r.value.v == Sequence(ShortBlobs) && r.value.rest == []
  {
    var t := ShortBlobFixedBytes[1..];
    ShortBlobFixedItemsRead(lib, signed, t);
    assert 0x83 % 16 == 3 && [0x83] + t == ShortBlobFixedBytes;
    ShortArrayReads(lib, signed, 0x83, t, FreshDecoder, LoadMany(lib, signed, 3, t, FreshDecoder).value);
  }
  // ----- 3. one text table for both encodings ---------------------------------

  const AbText: string := "ab"

  /** U+6261, whose UTF-16LE form is the bytes `61 62`. */
  const Han: string := "\U{6261}"

  const MixedTexts: seq<Value> := [Text(AbText), Text(Han)]

  /** `82 | 42 61 62 | 3c e3`: U+6261 is replaced by a reference to the UTF-8
      payload `ab` stored in the same slot. */
  const MixedTextBytes: Bytes := [0x82, 0x42, 0x61, 0x62, 0x3c, 0xe3]

  /** `82 | 42 61 62 | 31 61 62`: slots that remember their family keep the
      two apart. */
  const MixedTextFixedBytes: Bytes := [0x82, 0x42, 0x61, 0x62, 0x31, 0x61, 0x62]

  /** The library's transcoders behave as UTF-8 and UTF-16LE on the two texts. */
  predicate CodecOnTexts(lib: Library) {
    && lib.encodeUtf8(AbText) == Ab && lib.encodeUtf16Le(AbText) == [0x61, 0x00, 0x62, 0x00]
    && lib.encodeUtf8(Han) == [0xe6, 0x89, 0xa1] && lib.encodeUtf16Le(Han) == Ab
    && lib.decode(Utf8, Ab) == Some(AbText) && lib.decode(Utf16Le, Ab) == Some(Han)
  }

  /** `ab` is shorter in UTF-8, U+6261 in UTF-16LE; both payloads are `61 62`. */
  lemma TextLeaves(lib: Library)
    requires CodecOnTexts(lib)
    ensures DumpValue(lib, Text(AbText)) == Leaf(Text(AbText), 0x42, [], Ab)
    ensures DumpValue(lib, Text(Han)) == Leaf(Text(Han), 0x31, [], Ab)
  {
  }

  lemma MixedTextNodes(lib: Library)
    requires CodecOnTexts(lib)
    ensures DumpValue(lib, Sequence(MixedTexts)) ==
      Branch(Sequence(MixedTexts), 0x82, [], [Leaf(Text(AbText), 0x42, [], Ab), Leaf(Text(Han), 0x31, [], Ab)])
  {
    NotSwappable(MixedTexts);
    TwoItems(lib, Text(AbText), Text(Han));
    ShortList(lib, MixedTexts);
    TextLeaves(lib);
  }

  /** As written: U+6261 finds `ab`'s bytes in its slot and becomes a
      reference to it. */
  lemma MixedTextWalk(a: Node, h: Node, r: Node)
    requires a == Leaf(Text(AbText), 0x42, [], Ab) && h == Leaf(Text(Han), 0x31, [], Ab)
    requires r == Leaf(Text(Han), 0x3c, [0xe3], [])
    ensures OptimizeAll(PythonRules, [a, h], FreshEncoder).0 == [a, r]
  {
    SharedSlot();
    var e1 := FreshEncoder.(text := map[0xe3 := TextSlot(Ab, 4)]);
    assert Optimize(PythonRules, a, FreshEncoder) == (a, e1);
    assert Optimize(PythonRules, h, e1) == (r, e1);
    OptimizeTwo(PythonRules, a, h, FreshEncoder, a, r, e1, e1);
  }

  lemma MixedTextSerialize(p: Node, a: Node, h: Node)
    requires p == Branch(Sequence(MixedTexts), 0x82, [], [a, h])
    requires a == Leaf(Text(AbText), 0x42, [], Ab)
    requires h == Leaf(Text(Han), 0x3c, [0xe3], []) || h == Leaf(Text(Han), 0x31, [], Ab)
    ensures h.control == 0x3c ==> Serialize(p) == MixedTextBytes
    ensures h.control == 0x31 ==> Serialize(p) == MixedTextFixedBytes
  {
    SerializeTwo(a, h);
  }

  /** As written: the Python encoder writes the two texts this way. */
  lemma MixedTextEncode(lib: Library)
    requires CodecOnTexts(lib)
    ensures Serialize(Optimize(PythonRules, DumpValue(lib, Sequence(MixedTexts)), FreshEncoder).0) == MixedTextBytes
  {
    var a := Leaf(Text(AbText), 0x42, [], Ab);
    var h := Leaf(Text(Han), 0x31, [], Ab);
    var r := Leaf(Text(Han), 0x3c, [0xe3], []);
    MixedTextNodes(lib);
    OptimizeContainer(PythonRules, DumpValue(lib, Sequence(MixedTexts)), FreshEncoder);
    MixedTextWalk(a, h, r);
    MixedTextSerialize(Branch(Sequence(MixedTexts), 0x82, [], [a, r]), a, r);
  }

  lemma ReadsAbText(lib: Library, signed: bool, t1: Bytes, st: DecoderState)
    requires CodecOnTexts(lib)
    ensures LoadValue(lib, signed, [0x42] + (Ab + t1), st) ==
      Success(Loaded(Text(AbText), t1, st.(text := st.text[0xe3 := AbText])))
  {
    SharedSlot();
    assert (Ab + t1)[..2] == Ab && (Ab + t1)[2..] == t1;
    ShortUtf8Reads(lib, signed, 0x42, Ab + t1, st, AbText);
  }

  /** As written: the reference fetches `ab`, so the list decodes as
      `["ab", "ab"]`. */
  lemma MixedTextMisread(lib: Library, signed: bool)
    requires CodecOnTexts(lib)
    ensures var r := LoadValue(lib, signed, MixedTextBytes, FreshDecoder);
      r.Success? && r.value.v == Sequence([Text(AbText), Text(AbText)]) && r.value.v != Sequence(MixedTexts)
  {
    var t1: Bytes := [0x3c] + ([0xe3] + []);
    var t: Bytes := [0x42] + (Ab + t1);
    var d1 := FreshDecoder.(text := FreshDecoder.text[0xe3 := AbText]);
    ReadsAbText(lib, signed, t1, FreshDecoder);
    BackReferenceReads(lib, signed, 0x3c, 0xe3, [], d1);
    ReadTwo(lib, signed, t, FreshDecoder, Loaded(Text(AbText), t1, d1), Loaded(Text(AbText), [], d1));
    assert 0x82 % 16 == 2 && [0x82] + t == MixedTextBytes;
    ShortArrayReads(lib, signed, 0x82, t, FreshDecoder, LoadMany(lib, signed, 2, t, FreshDecoder).value);
    assert AbText != Han;
  }

  /** Corrected: a slot that matches only its own family leaves U+6261
      written out. */
  lemma MixedTextFixedWalk(a: Node, h: Node)
    requires a == Leaf(Text(AbText), 0x42, [], Ab) && h == Leaf(Text(Han), 0x31, [], Ab)
    ensures OptimizeAll(CorrectedRules, [a, h], FreshEncoder).0 == [a, h]
  {
    SharedSlot();
    var e1 := FreshEncoder.(text := map[0xe3 := TextSlot(Ab, 4)]);
    var e2 := e1.(text := e1.text[0xe3 := TextSlot(Ab, 3)]);
    assert Optimize(CorrectedRules, a, FreshEncoder) == (a, e1);
    assert Optimize(CorrectedRules, h, e1) == (h, e2);
    OptimizeTwo(CorrectedRules, a, h, FreshEncoder, a, h, e1, e2);
  }

  lemma MixedTextFixedEncode(lib: Library)
    requires CodecOnTexts(lib)
    ensures Serialize(Optimize(CorrectedRules, DumpValue(lib, Sequence(MixedTexts)), FreshEncoder).0) == MixedTextFixedBytes
  {
    var a := Leaf(Text(AbText), 0x42, [], Ab);
    var h := Leaf(Text(Han), 0x31, [], Ab);
    MixedTextNodes(lib);
    OptimizeContainer(CorrectedRules, DumpValue(lib, Sequence(MixedTexts)), FreshEncoder);
    MixedTextFixedWalk(a, h);
    MixedTextSerialize(Branch(Sequence(MixedTexts), 0x82, [], [a, h]), a, h);
  }

  /** Corrected: those bytes decode to the two texts written. */
  lemma MixedTextFixedRead(lib: Library, signed: bool)
    requires CodecOnTexts(lib)
    ensures var r := LoadValue(lib, signed, MixedTextFixedBytes, FreshDecoder);
      r.Success? && r.value.v == Sequence(MixedTexts) && r.value.rest == []
  {
    var t1: Bytes := [0x31] + (Ab + []);
    var t: Bytes := [0x42] + (Ab + t1);
    var d1 := FreshDecoder.(text := FreshDecoder.text[0xe3 := AbText]);
    var d2 := d1.(text := d1.text[0xe3 := Han]);
    ReadsAbText(lib, signed, t1, FreshDecoder);
    SharedSlot();
    assert (Ab + [])[..2] == Ab && (Ab + [])[2..] == [];
    ShortUtf16Reads(lib, signed, 0x31, Ab + [], d1, Han);
    ReadTwo(lib, signed, t, FreshDecoder, Loaded(Text(AbText), t1, d1), Loaded(Text(Han), [], d2));
    assert 0x82 % 16 == 2 && [0x82] + t == MixedTextFixedBytes;
    ShortArrayReads(lib, signed, 0x82, t, FreshDecoder, LoadMany(lib, signed, 2, t, FreshDecoder).value);
  }
}

=== FILE: intcodec.dfy ===
/** Integer payload codecs shared by every control family: big-endian
    fixed-width integers of 1, 2 or 4 bytes, the variable-length integer
    (seven bits per byte, most significant group first, high bit set on every
    byte but the last), and the two's-complement reinterpretation the
    decoders apply to fixed-width integers. */
module IntCodec {
  import opened Wrappers
  import opened Values
  import opened Arith

  /** A decoded number and the input that follows it. */
  datatype Parsed = Parsed(n: nat, rest: Bytes)

  function Pow256(w: nat): (r: nat)
    ensures r >= 1 && r == Pow2(8 * w)
  {
    if w == 0 then 1
    else
      Pow2Split(8 * (w - 1), 8);
      256 * Pow256(w - 1)
  }

  function Pow128(k: nat): (r: nat)
    ensures r >= 1
  {
    if k == 0 then 1 else 128 * Pow128(k - 1)
  }

  function Pow2(k: nat): (r: nat)
    ensures r >= 1
  {
    if k == 0 then 1 else 2 * Pow2(k - 1)
  }

  /** The widths a fixed-size integer field may have. */
  predicate FixedWidth(w: nat) {
    w == 1 || w == 2 || w == 4
  }

  /** The `w` low-order bytes of `x`, most significant first. */
  function BigEndian(x: nat, w: nat): (r: Bytes)
    ensures |r| == w
  {
    if w == 0 then [] else BigEndian(x / 256, w - 1) + [x % 256]
  }

  /** The unsigned big-endian number a byte string spells. */
  function Unsigned(bs: Bytes): (r: nat)
    ensures r < Pow256(|bs|)
  {
    if |bs| == 0 then 0 else Unsigned(bs[..|bs| - 1]) * 256 + bs[|bs| - 1]
  }

  /** The continuation groups of a varint: every byte has its high bit set. */
  function Groups(m: nat): (r: Bytes)
    ensures forall i :: 0 <= i < |r| ==> r[i] >= 128
  {
    if m == 0 then [] else Groups(m / 128) + [m % 128 + 128]
  }

  /** The variable-length encoding of a non-negative integer. */
  function Varint(n: nat): (r: Bytes)
    ensures |r| >= 1 && r[|r| - 1] < 128
    ensures forall i :: 0 <= i < |r| - 1 ==> r[i] >= 128
  {
    Groups(n / 128) + [n % 128]
  }

  /** `_encode_int`: `n & 0xff`, `>H` of `n & 0xffff`, `>L` of
      `n & 0xffffffff`, or the varint of a non-negative `n` (size 0). */
  function EncodeInt(n: int, size: nat): (r: Bytes)
    requires FixedWidth(size) || size == 0
    requires size == 0 ==> n >= 0
    ensures FixedWidth(size) ==> |r| == size
    ensures size == 0 ==> |r| >= 1 && r[|r| - 1] < 128
  {
    if size == 0 then Varint(n) else BigEndian(n % Pow256(size), size)
  }

  /** The Python varint loop: emit the low seven bits, then prepend each
      further group with the continuation bit set. */
  method EncodeVarint(n: nat) returns (r: Bytes)
    ensures r == EncodeInt(n, 0)
  {
    r := [n % 128];
    var m: nat := n / 128;
    while m != 0
      invariant Groups(m) + r == Varint(n)
      decreases m
    {
      assert Groups(m) == Groups(m / 128) + [m % 128 + 128];
      r := [m % 128 + 128] + r;
      m := m / 128;
    }
  }

  /** Reads varint bytes, accumulating seven bits per byte, until a byte
      below 0x80 ends the number. */
  function ReadVarintFrom(s: Bytes, acc: nat): (r: Result<Parsed, DecodeError>)
    ensures r.Success? ==> |r.value.rest| < |s|
    ensures r.Success? ==> r.value.n >= acc
    ensures r.Failure? ==> r.error == Truncated
  {
    if |s| == 0 then Failure(Truncated)
    else if s[0] < 128 then Success(Parsed(acc * 128 + s[0], s[1..]))
    else ReadVarintFrom(s[1..], acc * 128 + (s[0] - 128))
  }

  /** Where a varint ends does not depend on what was accumulated. */
  lemma {:induction false} VarintEndsAlike(s: Bytes, a: nat, b: nat)
    ensures ReadVarintFrom(s, a).Success? == ReadVarintFrom(s, b).Success?
    ensures ReadVarintFrom(s, a).Success? ==> ReadVarintFrom(s, a).value.rest == ReadVarintFrom(s, b).value.rest
    decreases |s|
  {
    if |s| > 0 && s[0] >= 128 {
      VarintEndsAlike(s[1..], a * 128 + (s[0] - 128), b * 128 + (s[0] - 128));
    }
  }

  /** The varint reader only ever drops bytes from the front. */
  lemma {:induction false} VarintLeavesSuffix(s: Bytes, acc: nat)
    ensures ReadVarintFrom(s, acc).Success? ==>
      s[|s| - |ReadVarintFrom(s, acc).value.rest|..] == ReadVarintFrom(s, acc).value.rest
    decreases |s|
  {
    if |s| > 0 && s[0] >= 128 {
      VarintLeavesSuffix(s[1..], acc * 128 + (s[0] - 128));
    }
  }

  /** `_decode_int`: a fixed-width big-endian unsigned integer, or a varint
      for size 0; a short input is a truncation error. */
  function DecodeInt(s: Bytes, size: nat): (r: Result<Parsed, DecodeError>)
    requires FixedWidth(size) || size == 0
    ensures r.Success? ==> |r.value.rest| < |s| && s[|s| - |r.value.rest|..] == r.value.rest
    ensures r.Failure? ==> r.error == Truncated
    ensures FixedWidth(size) ==> (r.Success? <==> |s| >= size)
    ensures FixedWidth(size) && r.Success? ==> r.value.n < Pow256(size) && r.value.rest == s[size..]
  {
    if size == 0 then
      VarintLeavesSuffix(s, 0);
      ReadVarintFrom(s, 0)
    else if |s| < size then Failure(Truncated)
    else Success(Parsed(Unsigned(s[..size]), s[size..]))
  }

  /** `_unsigned_to_signed`: reinterpret a `bits`-bit unsigned value as
      two's complement. */
  function UnsignedToSigned(x: nat, bits: nat): (r: int)
    requires bits >= 1
    requires x < Pow2(bits)
    ensures -(Pow2(bits - 1) as int) <= r < Pow2(bits - 1)
    ensures r % Pow2(bits) == x
  {
    var h := Pow2(bits - 1);
    Pow2Split(bits - 1, 1);
    assert Pow2(bits) == 2 * h;
    if x < h then
      ModUnique(x, h, 0, x);
      ModUnique(x, 2 * h, 0, x);
      x - (x / h) * Pow2(bits)
    else
      ModUnique(x, h, 1, x - h);
      ModUnique(x - 2 * h, 2 * h, -1, x);
      x - (x / h) * Pow2(bits)
  }

  // ----- arithmetic helpers -------------------------------------------------

  lemma ModOfDiv(x: nat, p: nat)
    requires p >= 1
    ensures (x / 256 % p) * 256 + x % 256 == x % (256 * p)
  {
    var q, r := x / 256, x % 256;
    var a, b := q / p, q % p;
    assert x == 256 * q + r;
    assert q == p * a + b;
    assert x == (256 * p) * a + (256 * b + r);
    ModUnique(x, 256 * p, a, 256 * b + r);
  }

  lemma Pow2Split(a: nat, b: nat)
    ensures Pow2(a + b) == Pow2(a) * Pow2(b)
  {
    if b > 0 {
      Pow2Split(a, b - 1);
    }
  }

  // ----- round trips --------------------------------------------------------

  /** Reading back a big-endian field yields the value modulo its range. */
  lemma {:induction false} UnsignedBigEndian(x: nat, w: nat)
    ensures Unsigned(BigEndian(x, w)) == x % Pow256(w)
  {
    if w > 0 {
      var bs := BigEndian(x, w);
      assert bs[..|bs| - 1] == BigEndian(x / 256, w - 1);
      UnsignedBigEndian(x / 256, w - 1);
      ModOfDiv(x, Pow256(w - 1));
    }
  }

  /** Reading the continuation groups of `m` multiplies the accumulator by
      128 per group and adds `m`. */
  lemma {:induction false} ReadGroups(m: nat, tail: Bytes, acc: nat)
    ensures ReadVarintFrom(Groups(m) + tail, acc) ==
      ReadVarintFrom(tail, acc * Pow128(|Groups(m)|) + m)
  {
    if m > 0 {
      var b := m % 128 + 128;
      var p := Pow128(|Groups(m / 128)|);
      assert Groups(m) + tail == Groups(m / 128) + ([b] + tail);
      ReadGroups(m / 128, [b] + tail, acc);
      var x := acc * p + m / 128;
      assert ([b] + tail)[1..] == tail;
      assert ReadVarintFrom([b] + tail, x) == ReadVarintFrom(tail, x * 128 + (b - 128));
      AccumulateGroup(acc, p, m);
      assert Pow128(|Groups(m)|) == 128 * p;
    } else {
      assert Groups(m) + tail == tail;
    }
  }

  lemma AccumulateGroup(acc: nat, p: nat, m: nat)
    ensures (acc * p + m / 128) * 128 + m % 128 == acc * (128 * p) + m
  {
    assert (acc * p + m / 128) * 128 == acc * p * 128 + (m / 128) * 128;
    assert acc * p * 128 == acc * (128 * p);
  }

  /** A varint decodes to the number it was written from and leaves the
      following input untouched. */
  lemma VarintRoundTrip(n: nat, tail: Bytes)
    ensures DecodeInt(EncodeInt(n, 0) + tail, 0) == Success(Parsed(n, tail))
  {
    assert EncodeInt(n, 0) + tail == Groups(n / 128) + ([n % 128] + tail);
    ReadGroups(n / 128, [n % 128] + tail, 0);
    assert ([n % 128] + tail)[1..] == tail;
  }

  /** A fixed-width field decodes to the number modulo its range and leaves
      the following input untouched. */
  lemma FixedRoundTrip(n: int, size: nat, tail: Bytes)
    requires FixedWidth(size)
    ensures DecodeInt(EncodeInt(n, size) + tail, size) == Success(Parsed(n % Pow256(size), tail))
  {
    var e := EncodeInt(n, size);
    assert (e + tail)[..size] == e;
    assert (e + tail)[size..] == tail;
    UnsignedBigEndian(n % Pow256(size), size);
    ModUnique(n % Pow256(size), Pow256(size), 0, n % Pow256(size));
  }

  /** A fixed-width two's-complement field decodes to the signed number it
      was written from, for every number in the field's signed range. */
  lemma SignedRoundTrip(n: int, w: nat)
    requires FixedWidth(w)
    requires -(Pow256(w) / 2 as int) <= n < Pow256(w) / 2
    ensures UnsignedToSigned(n % Pow256(w), 8 * w) == n
  {
    var P := Pow256(w);
    var h := Pow2(8 * w - 1);
    Pow2Split(8 * w - 1, 1);
    TwosComplement(n % P, 8 * w);
    if n >= 0 {
      ModUnique(n, P, 0, n);
    } else {
      ModUnique(n, P, -1, n + P);
    }
  }

  /** The reinterpretation subtracts the range exactly when the sign bit is set. */
  lemma TwosComplement(x: nat, bits: nat)
    requires bits >= 1 && x < Pow2(bits)
    ensures UnsignedToSigned(x, bits) == if x < Pow2(bits - 1) then x else x - Pow2(bits)
  {
    var h := Pow2(bits - 1);
    Pow2Split(bits - 1, 1);
    if x < h {
      ModUnique(x, h, 0, x);
    } else {
      ModUnique(x, h, 1, x - h);
    }
  }
}

=== FILE: jsdecodecontents.dfy ===
/** What the container readers of the JavaScript decoder read, stated
    against the generic runs: an array is the run of its count of values; a
    refresher 0x71..0x7f and the pragma 0xff read a run and keep its last
    value; an object is the run of twice its count of values assigned
    pairwise as properties; a transposed array is the run of its columns
    spread over the rows one after another. */
module JsDecodeContents {
  import opened Wrappers
  import opened Values
  import opened Decoder
  import opened JsDecoder
  import opened Runs

  // ----- the decoder's readers as generic runs ------------------------------

  function JsAsGot(r: Result<JsLoaded, DecodeError>): (g: Result<Got<JsDecoderState>, DecodeError>)
    ensures g.Success? <==> r.Success?
    ensures g.Success? ==> g.value == Got(r.value.v, r.value.rest, r.value.st)
    ensures g.Failure? ==> g.error == r.error
  {
    if r.Success? then Success(Got(r.value.v, r.value.rest, r.value.st)) else Failure(r.error)
  }

  /** The decoder's reader of one value. */
  function JsValueReader(lib: Library, corrected: bool): Reader<JsDecoderState, DecodeError> {
    (s, st) => JsAsGot(JsLoadValue(lib, corrected, s, st))
  }

  /** `result[key] = value` as a putter: the key becomes a property name and
      nothing is refused. */
  function PropertyPut(lib: Library): Putter<seq<(Value, Value)>, DecodeError> {
    (acc: seq<(Value, Value)>, k: Value, v: Value) => Success(Put(acc, PropertyKey(lib, k), v))
  }

  /** A column of a transposed array as a putter: the column's items are
      spread over the rows under the column's property name; a column whose
      items cannot be read is refused. */
  function ColumnPut(lib: Library): Putter<seq<seq<(Value, Value)>>, DecodeError> {
    (rows: seq<seq<(Value, Value)>>, name: Value, values: Value) =>
      if ColumnItems(lib, values).Failure? then Failure(ColumnItems(lib, values).error)
      else Success(JsAddColumn(rows, PropertyKey(lib, name), ColumnItems(lib, values).value, 0))
  }

  // ----- plain runs ---------------------------------------------------------

  function ManyOf(lib: Library, corrected: bool, n: nat, s: Bytes, st: JsDecoderState): Result<GotMany<JsDecoderState>, DecodeError> {
    var r := JsLoadMany(lib, corrected, n, s, st);
    if r.Success? then Success(GotMany(r.value.vs, r.value.rest, r.value.st)) else Failure(r.error)
  }

  lemma ManyUnfold(lib: Library, corrected: bool, n: nat, s: Bytes, st: JsDecoderState)
    ensures ManyOf(lib, corrected, n, s, st) ==
      if n == 0 then Success(GotMany([], s, st))
      else if JsLoadValue(lib, corrected, s, st).Failure? then Failure(JsLoadValue(lib, corrected, s, st).error)
      else Cons(JsLoadValue(lib, corrected, s, st).value.v,
                ManyOf(lib, corrected, n - 1, JsLoadValue(lib, corrected, s, st).value.rest, JsLoadValue(lib, corrected, s, st).value.st))
  {
  }

  lemma ManySteps(lib: Library, corrected: bool)
    ensures StepsLike(JsValueReader(lib, corrected), (n: nat, s: Bytes, st: JsDecoderState) => ManyOf(lib, corrected, n, s, st))
  {
    forall n: nat, s: Bytes, st: JsDecoderState
      ensures ManyOf(lib, corrected, n, s, st) ==
        if n == 0 then Success(GotMany([], s, st))
        else if JsLoadValue(lib, corrected, s, st).Failure? then Failure(JsLoadValue(lib, corrected, s, st).error)
        else Cons(JsLoadValue(lib, corrected, s, st).value.v,
                  ManyOf(lib, corrected, n - 1, JsLoadValue(lib, corrected, s, st).value.rest, JsLoadValue(lib, corrected, s, st).value.st))
    {
      ManyUnfold(lib, corrected, n, s, st);
    }
  }

  /** `JsLoadMany` is the run of the decoder's value reader. */
  lemma JsLoadManyIsRun(lib: Library, corrected: bool, n: nat, s: Bytes, st: JsDecoderState)
    ensures ManyOf(lib, corrected, n, s, st) == Run(JsValueReader(lib, corrected), n, s, st)
  {
    ManySteps(lib, corrected);
    RunUnique(JsValueReader(lib, corrected), (n: nat, s: Bytes, st: JsDecoderState) => ManyOf(lib, corrected, n, s, st), n, s, st);
  }

  // ----- pair folds -----------------------------------------------------------

  /** `JsLoadPairs` from an object with distinct property names; any other
      start is refused (the decoder never starts from one). */
  function PairsFrom(lib: Library, corrected: bool, n: nat, s: Bytes, st: JsDecoderState, acc: seq<(Value, Value)>): Result<Folded<JsDecoderState, seq<(Value, Value)>>, DecodeError> {
    if !DistinctKeys(acc) then Failure(HostException)
    else
      var r := JsLoadPairs(lib, corrected, n, s, st, acc);
      if r.Success? then Success(Folded(r.value.pairs, r.value.rest, r.value.st)) else Failure(r.error)
  }

  lemma PairsUnfold(lib: Library, corrected: bool, n: nat, s: Bytes, st: JsDecoderState, acc: seq<(Value, Value)>)
    requires DistinctKeys(acc)
    ensures PairsFrom(lib, corrected, n, s, st, acc) ==
      if n == 0 then Success(Folded(acc, s, st))
      else
        var key := JsLoadValue(lib, corrected, s, st);
        if key.Failure? then Failure(key.error)
        else
          var value := JsLoadValue(lib, corrected, key.value.rest, key.value.st);
          if value.Failure? then Failure(value.error)
          else PairsFrom(lib, corrected, n - 1, value.value.rest, value.value.st, Put(acc, PropertyKey(lib, key.value.v), value.value.v))
  {
    if n > 0 {
      var key := JsLoadValue(lib, corrected, s, st);
      if key.Success? {
        var value := JsLoadValue(lib, corrected, key.value.rest, key.value.st);
        if value.Success? {
          PutDistinct(acc, PropertyKey(lib, key.value.v), value.value.v);
        }
      }
    }
  }

  lemma PairsFold(lib: Library, corrected: bool)
    ensures FoldsLike(JsValueReader(lib, corrected), PropertyPut(lib), (acc: seq<(Value, Value)>) => DistinctKeys(acc),
      (n: nat, s: Bytes, st: JsDecoderState, acc: seq<(Value, Value)>) => PairsFrom(lib, corrected, n, s, st, acc))
    ensures Keeps(PropertyPut(lib), (acc: seq<(Value, Value)>) => DistinctKeys(acc))
  {
    forall n: nat, s: Bytes, st: JsDecoderState, acc: seq<(Value, Value)> | DistinctKeys(acc)
      ensures PairsFrom(lib, corrected, n, s, st, acc) ==
        if n == 0 then Success(Folded(acc, s, st))
        else
          var key := JsLoadValue(lib, corrected, s, st);
          if key.Failure? then Failure(key.error)
          else
            var value := JsLoadValue(lib, corrected, key.value.rest, key.value.st);
            if value.Failure? then Failure(value.error)
            else PairsFrom(lib, corrected, n - 1, value.value.rest, value.value.st, Put(acc, PropertyKey(lib, key.value.v), value.value.v))
    {
      PairsUnfold(lib, corrected, n, s, st, acc);
    }
    forall acc: seq<(Value, Value)>, k: Value, v: Value | DistinctKeys(acc)
      ensures DistinctKeys(PropertyPut(lib)(acc, k, v).value)
    {
      PutDistinct(acc, PropertyKey(lib, k), v);
    }
  }

  /** `JsLoadPairs` is the pair fold of the value reader with property
      assignment. */
  lemma JsLoadPairsIsFold(lib: Library, corrected: bool, n: nat, s: Bytes, st: JsDecoderState, acc: seq<(Value, Value)>)
    requires DistinctKeys(acc)
    ensures PairsFrom(lib, corrected, n, s, st, acc) == FoldPairs(JsValueReader(lib, corrected), PropertyPut(lib), n, s, st, acc)
  {
    PairsFold(lib, corrected);
    FoldUnique(JsValueReader(lib, corrected), PropertyPut(lib), (acc: seq<(Value, Value)>) => DistinctKeys(acc),
      (n: nat, s: Bytes, st: JsDecoderState, acc: seq<(Value, Value)>) => PairsFrom(lib, corrected, n, s, st, acc),
      n, s, st, acc);
  }

  function ColumnsFrom(lib: Library, corrected: bool, n: nat, s: Bytes, st: JsDecoderState, rows: seq<seq<(Value, Value)>>): Result<Folded<JsDecoderState, seq<seq<(Value, Value)>>>, DecodeError> {
    var r := JsLoadColumns(lib, corrected, n, s, st, rows);
    if r.Success? then Success(Folded(r.value.rows, r.value.rest, r.value.st)) else Failure(r.error)
  }

  lemma ColumnsUnfold(lib: Library, corrected: bool, n: nat, s: Bytes, st: JsDecoderState, rows: seq<seq<(Value, Value)>>)
    ensures ColumnsFrom(lib, corrected, n, s, st, rows) ==
      if n == 0 then Success(Folded(rows, s, st))
      else
        var name := JsLoadValue(lib, corrected, s, st);
        if name.Failure? then Failure(name.error)
        else
          var values := JsLoadValue(lib, corrected, name.value.rest, name.value.st);
          if values.Failure? then Failure(values.error)
          else if ColumnItems(lib, values.value.v).Failure? then Failure(ColumnItems(lib, values.value.v).error)
          else ColumnsFrom(lib, corrected, n - 1, values.value.rest, values.value.st,
            JsAddColumn(rows, PropertyKey(lib, name.value.v), ColumnItems(lib, values.value.v).value, 0))
  {
  }

  lemma ColumnsFold(lib: Library, corrected: bool)
    ensures FoldsLike(JsValueReader(lib, corrected), ColumnPut(lib), (rows: seq<seq<(Value, Value)>>) => true,
      (n: nat, s: Bytes, st: JsDecoderState, rows: seq<seq<(Value, Value)>>) => ColumnsFrom(lib, corrected, n, s, st, rows))
    ensures Keeps(ColumnPut(lib), (rows: seq<seq<(Value, Value)>>) => true)
  {
    forall n: nat, s: Bytes, st: JsDecoderState, rows: seq<seq<(Value, Value)>>
      ensures ColumnsFrom(lib, corrected, n, s, st, rows) ==
        if n == 0 then Success(Folded(rows, s, st))
        else
          var name := JsLoadValue(lib, corrected, s, st);
          if name.Failure? then Failure(name.error)
          else
            var values := JsLoadValue(lib, corrected, name.value.rest, name.value.st);
            if values.Failure? then Failure(values.error)
            else if ColumnItems(lib, values.value.v).Failure? then Failure(ColumnItems(lib, values.value.v).error)
            else ColumnsFrom(lib, corrected, n - 1, values.value.rest, values.value.st,
              JsAddColumn(rows, PropertyKey(lib, name.value.v), ColumnItems(lib, values.value.v).value, 0))
    {
      ColumnsUnfold(lib, corrected, n, s, st, rows);
    }
  }

  /** `JsLoadColumns` is the pair fold of the value reader with the column
      spreading. */
  lemma JsLoadColumnsIsFold(lib: Library, corrected: bool, n: nat, s: Bytes, st: JsDecoderState, rows: seq<seq<(Value, Value)>>)
    ensures ColumnsFrom(lib, corrected, n, s, st, rows) == FoldPairs(JsValueReader(lib, corrected), ColumnPut(lib), n, s, st, rows)
  {
    ColumnsFold(lib, corrected);
    FoldUnique(JsValueReader(lib, corrected), ColumnPut(lib), (rows: seq<seq<(Value, Value)>>) => true,
      (n: nat, s: Bytes, st: JsDecoderState, rows: seq<seq<(Value, Value)>>) => ColumnsFrom(lib, corrected, n, s, st, rows),
      n, s, st, rows);
  }

  // ----- what each container reads ------------------------------------------

  /** An array 0x80..0x8f holds exactly the run of as many values as its
      count says, read after the count; a count cut short is truncation. */
  lemma JsArrayIsRun(lib: Library, corrected: bool, c: byte, t: Bytes, st: JsDecoderState)
    requires c / 16 == 8
    ensures ReadCount(c, t, 0xc).Failure? ==> JsLoadArray(lib, corrected, c, t, st) == Failure(Truncated)
    ensures ReadCount(c, t, 0xc).Success? ==>
      var n := ReadCount(c, t, 0xc).value;
      var m := Run(JsValueReader(lib, corrected), n.n, n.rest, st);
      (JsLoadArray(lib, corrected, c, t, st).Success? <==> m.Success?) &&
      (m.Success? ==> JsLoadArray(lib, corrected, c, t, st).value == JsLoaded(Sequence(m.value.vs), m.value.rest, m.value.st))
  {
    var n := ReadCount(c, t, 0xc);
    if n.Success? {
      JsLoadManyIsRun(lib, corrected, n.value.n, n.value.rest, st);
    }
  }

  /** Item `i` of an array is the value read after the count and the `i`
      items before it. */
  lemma JsArrayItem(lib: Library, corrected: bool, c: byte, t: Bytes, st: JsDecoderState, i: nat)
    requires c / 16 == 8
    requires JsLoadArray(lib, corrected, c, t, st).Success?
    requires i < |JsLoadArray(lib, corrected, c, t, st).value.v.items|
    ensures ReadCount(c, t, 0xc).Success?
    ensures NthValue(JsValueReader(lib, corrected), i, ReadCount(c, t, 0xc).value.rest, st) ==
      Some(JsLoadArray(lib, corrected, c, t, st).value.v.items[i])
  {
    JsArrayIsRun(lib, corrected, c, t, st);
    var n := ReadCount(c, t, 0xc).value;
    RunNth(JsValueReader(lib, corrected), n.n, n.rest, st, i);
  }

  /** A refresher 0x71..0x7f reads its count of values and then one more,
      and yields only that last one; a count cut short is truncation. */
  lemma JsRefresherSkips(lib: Library, corrected: bool, c: byte, t: Bytes, st: JsDecoderState)
    requires 0x71 <= c <= 0x7f
    ensures ReadCount(c, t, 0xc).Failure? ==> JsLoadRefresher(lib, corrected, c, t, st) == Failure(Truncated)
    ensures ReadCount(c, t, 0xc).Success? ==>
      var n := ReadCount(c, t, 0xc).value;
      var m := Run(JsValueReader(lib, corrected), n.n + 1, n.rest, st);
      (JsLoadRefresher(lib, corrected, c, t, st).Success? <==> m.Success?) &&
      (m.Success? ==> JsLoadRefresher(lib, corrected, c, t, st).value == JsLoaded(m.value.vs[n.n], m.value.rest, m.value.st))
  {
    var n := ReadCount(c, t, 0xc);
    if n.Success? {
      JsLoadManyIsRun(lib, corrected, n.value.n, n.value.rest, st);
      RunOneMore(JsValueReader(lib, corrected), n.value.n, n.value.rest, st);
    }
  }

  /** The pragma 0xff reads two values and yields the second. */
  lemma JsPragmaSkipsOne(lib: Library, corrected: bool, t: Bytes, st: JsDecoderState)
    ensures var m := Run(JsValueReader(lib, corrected), 2, t, st);
      (JsLoadPragma(lib, corrected, 0xff, t, st).Success? <==> m.Success?) &&
      (m.Success? ==> JsLoadPragma(lib, corrected, 0xff, t, st).value == JsLoaded(m.value.vs[1], m.value.rest, m.value.st))
  {
    var first := JsLoadValue(lib, corrected, t, st);
    if first.Success? {
      var second := JsLoadValue(lib, corrected, first.value.rest, first.value.st);
      assert Run(JsValueReader(lib, corrected), 2, t, st) == Cons(first.value.v, Run(JsValueReader(lib, corrected), 1, first.value.rest, first.value.st));
      assert JsValueReader(lib, corrected)(first.value.rest, first.value.st) == JsAsGot(second);
      if second.Success? {
        assert Run(JsValueReader(lib, corrected), 1, first.value.rest, first.value.st) == Cons(second.value.v, Run(JsValueReader(lib, corrected), 0, second.value.rest, second.value.st));
      }
    }
  }

  /** Assigning each pair in turn, its key converted to a property name. */
  function PutAll(lib: Library, pairs: seq<(Value, Value)>, acc: seq<(Value, Value)>): (r: seq<(Value, Value)>)
    decreases |pairs|
  {
    if |pairs| == 0 then acc
    else PutAll(lib, pairs[1..], Put(acc, PropertyKey(lib, pairs[0].0), pairs[0].1))
  }

  /** A pair whose key is "__proto__" adds no property to a new object: the
      object read from `{"__proto__": v}` is empty. */
  lemma ProtoPropertyDropped(lib: Library, v: Value)
    ensures PutAll(lib, [(ProtoName, v)], []) == []
  {
    assert [(ProtoName, v)][1..] == [];
  }

  /** After the assignments every property is a string with one value, the
      earlier properties kept in place: a property name already present stays
      where it was. */
  lemma {:induction false} PutAllKeeps(lib: Library, pairs: seq<(Value, Value)>, acc: seq<(Value, Value)>)
    requires DistinctKeys(acc)
    ensures DistinctKeys(PutAll(lib, pairs, acc))
    ensures |acc| <= |PutAll(lib, pairs, acc)|
    ensures forall i :: 0 <= i < |acc| ==> PutAll(lib, pairs, acc)[i].0 == acc[i].0
    decreases |pairs|
  {
    if |pairs| > 0 {
      var next := Put(acc, PropertyKey(lib, pairs[0].0), pairs[0].1);
      PutDistinct(acc, PropertyKey(lib, pairs[0].0), pairs[0].1);
      PutKeys(acc, PropertyKey(lib, pairs[0].0), pairs[0].1);
      PutAllKeeps(lib, pairs[1..], next);
    }
  }

  /** Entering a list two values at a time is assigning its pairs in
      order. */
  lemma {:induction false} PropertyFoldIsPutAll(lib: Library, vs: seq<Value>, acc: seq<(Value, Value)>)
    ensures FoldList(PropertyPut(lib), vs, acc) == Success(PutAll(lib, Paired(vs), acc))
    decreases |vs|
  {
    if |vs| >= 2 {
      assert Paired(vs)[0] == (vs[0], vs[1]);
      assert Paired(vs)[1..] == Paired(vs[2..]);
      PropertyFoldIsPutAll(lib, vs[2..], Put(acc, PropertyKey(lib, vs[0]), vs[1]));
    }
  }

  /** An object 0x90..0x9f is the property assignments of the pairs of the
      run of twice its count of values: nothing is refused, and a repeated
      property keeps its first position and its last value. */
  lemma JsObjectIsPutAll(lib: Library, corrected: bool, c: byte, t: Bytes, st: JsDecoderState)
    requires c / 16 == 9
    ensures ReadCount(c, t, 0xc).Failure? ==> JsLoadObject(lib, corrected, c, t, st) == Failure(Truncated)
    ensures ReadCount(c, t, 0xc).Success? ==>
      var n := ReadCount(c, t, 0xc).value;
      var m := Run(JsValueReader(lib, corrected), 2 * n.n, n.rest, st);
      (JsLoadObject(lib, corrected, c, t, st).Success? <==> m.Success?) &&
      (m.Success? ==>
         JsLoadObject(lib, corrected, c, t, st).value == JsLoaded(Mapping(PutAll(lib, Paired(m.value.vs), [])), m.value.rest, m.value.st))
  {
    var n := ReadCount(c, t, 0xc);
    if n.Success? {
      JsLoadPairsIsFold(lib, corrected, n.value.n, n.value.rest, st, []);
      FoldPairsIsRun(JsValueReader(lib, corrected), PropertyPut(lib), n.value.n, n.value.rest, st, []);
      var m := Run(JsValueReader(lib, corrected), 2 * n.value.n, n.value.rest, st);
      if m.Success? {
        PropertyFoldIsPutAll(lib, m.value.vs, []);
      }
    }
  }

  /** A transposed array 0xa1..0xaf reads twice its count of values and
      spreads each column over the rows in turn; a column whose items cannot
      be read fails. */
  lemma JsSwappedIsColumns(lib: Library, corrected: bool, c: byte, t: Bytes, st: JsDecoderState)
    requires 0xa1 <= c <= 0xaf
    ensures ReadCount(c, t, 0xc).Failure? ==> JsLoadSwapped(lib, corrected, c, t, st) == Failure(Truncated)
    ensures ReadCount(c, t, 0xc).Success? ==>
      var n := ReadCount(c, t, 0xc).value;
      var m := Run(JsValueReader(lib, corrected), 2 * n.n, n.rest, st);
      var rows := if m.Success? then FoldList(ColumnPut(lib), m.value.vs, []) else Success([]);
      (JsLoadSwapped(lib, corrected, c, t, st).Success? <==> m.Success? && rows.Success?) &&
      (JsLoadSwapped(lib, corrected, c, t, st).Success? ==>
         JsLoadSwapped(lib, corrected, c, t, st).value == JsLoaded(Sequence(Objects(rows.value)), m.value.rest, m.value.st))
  {
    var n := ReadCount(c, t, 0xc);
    if n.Success? {
      JsLoadColumnsIsFold(lib, corrected, n.value.n, n.value.rest, st, []);
      FoldPairsIsRun(JsValueReader(lib, corrected), ColumnPut(lib), n.value.n, n.value.rest, st, []);
    }
  }
}

=== FILE: jsdecoder.dfy ===
/** The JavaScript decoder (`loadValue` and `parseFromArrayBuffer` in
    javascript/jksn.js).  It keeps the same state as the Python decoder, but
    its tables are keyed by the unreduced DJB hash, a back-reference byte
    fetches only the slots below 256, 0x5c is an inline blob length of twelve,
    and 0x70 assigns fresh tables to a global variable instead of emptying its
    own.  `corrected` switches these three on to their evident intent: slots
    reduced to eight bits, 0x5c a blob back-reference, and 0x70 emptying the
    tables. */
module JsDecoder {
  import opened Arith
  import opened Wrappers
  import opened Values
  import opened IntCodec
  import opened Binary64
  import opened Djb
  import opened Proxy
  import opened Decoder

  /** `lastint`, `texthash` and `blobhash` of one decoder. */
  datatype JsDecoderState = JsDecoderState(
    lastint: Option<int>,
    text: map<int, string>,
    blob: map<int, Bytes>)

  const FreshJsDecoder := JsDecoderState(None, map[], map[])

  datatype JsLoaded = JsLoaded(v: Value, rest: Bytes, st: JsDecoderState)
  datatype JsLoadedMany = JsLoadedMany(vs: seq<Value>, rest: Bytes, st: JsDecoderState)
  datatype JsLoadedPairs = JsLoadedPairs(pairs: seq<(Value, Value)>, rest: Bytes, st: JsDecoderState)
  datatype JsLoadedRows = JsLoadedRows(rows: seq<seq<(Value, Value)>>, rest: Bytes, st: JsDecoderState)

  /** The table slot a decoded payload is stored in: `DJBHash(strbuf)` as
      written, its low byte when corrected. */
  function SlotOf(corrected: bool, buf: Bytes): (k: int)
    ensures corrected ==> k == Hash(buf)
    ensures !corrected ==> k == JsHash(buf)
    ensures corrected || |buf| <= ExactHashLength ==> k % 256 == Hash(buf)
  {
    JsHashLowByteOf(buf);
    if corrected then Hash(buf) else JsHash(buf)
  }

  /** The property name `result[key]` uses: a string as it is, any other
      value converted by the host. */
  function PropertyKey(lib: Library, k: Value): (r: Value)
    ensures r.Text?
    ensures k.Text? ==> r == k
  {
    if k.Text? then k else Text(lib.propertyKey(k))
  }

  // ----- scalar families ------------------------------------------------------

  /** 0x00..0x0f: `undefined`, `null` and the booleans.  0x0f reads from a
      variable `fp` that does not exist in this decoder, so it throws. */
  function JsLoadSpecial(c: byte, t: Bytes, st: JsDecoderState): (r: Result<JsLoaded, DecodeError>)
    requires c / 16 == 0
    ensures c <= 3 <==> r.Success?
    ensures r.Success? ==> r.value.rest == t && r.value.st == st
    ensures c == 0x00 ==> r.Success? && r.value.v == Absent
    ensures c == 0x01 ==> r.Success? && r.value.v == Null
    ensures c == 0x02 || c == 0x03 ==> r.Success? && r.value.v == Bool(c == 0x03)
    ensures c == 0x0f ==> r == Failure(HostException)
    ensures 4 <= c <= 0x0e ==> r == Failure(BadControl(c))
  {
    if c == 0x00 then Success(JsLoaded(Absent, t, st))
    else if c == 0x01 then Success(JsLoaded(Null, t, st))
    else if c <= 0x03 then Success(JsLoaded(Bool(c == 0x03), t, st))
    else if c == 0x0f then Failure(HostException)
    else Failure(BadControl(c))
  }

  // ----- numbers ------------------------------------------------------------

  /** `decodeInt`: seven bits per byte, accumulated in binary64, so every
      step `result*128 + (thisbyte & 0x7f)` is rounded.  It reads the same
      bytes as the exact reader and agrees with it up to 2^53. */
  function JsReadVarintFrom(s: Bytes, acc: nat): (r: Result<Parsed, DecodeError>)
    ensures r.Success? == ReadVarintFrom(s, acc).Success?
    ensures r.Success? ==> r.value.rest == ReadVarintFrom(s, acc).value.rest
    ensures ReadVarintFrom(s, acc).Success? && ReadVarintFrom(s, acc).value.n <= TwoTo53 ==>
      r == ReadVarintFrom(s, acc)
    decreases |s|
  {
    if |s| == 0 then Failure(Truncated)
    else
      var a: nat := acc * 128 + (if s[0] < 128 then s[0] else s[0] - 128);
      var d := RoundMagnitude(a);
      assert a <= TwoTo53 ==> d == a;
      VarintEndsAlike(s[1..], a, d);
      if s[0] < 128 then Success(Parsed(d, s[1..]))
      else JsReadVarintFrom(s[1..], d)
  }

  /** The wide integer fields: a varint through `decodeInt` (negated for
      0x?e), or a fixed field read signed. */
  function JsReadWide(nibble: nat, t: Bytes): (r: Result<(int, Bytes), DecodeError>)
    requires 0xb <= nibble <= 0xf
    ensures r.Success? == ReadWide(true, nibble, t).Success?
    ensures r.Success? ==> r.value.1 == ReadWide(true, nibble, t).value.1 && Suffix(r.value.1, t)
    ensures r.Success? && -TwoTo53 <= ReadWide(true, nibble, t).value.0 <= TwoTo53 ==>
      r.value.0 == ReadWide(true, nibble, t).value.0
  {
    if nibble >= 0xe then
      var p :- JsReadVarintFrom(t, 0);
      Success((if nibble == 0xe then 0 - p.n else p.n, p.rest))
    else ReadWide(true, nibble, t)
  }

  /** 0x10..0x1f: the same tiers as the Python reader, fixed fields read
      signed by `getInt8`/`getInt16`/`getInt32` and varints by `decodeInt`;
      the number becomes `lastint`. */
  function JsLoadInt(c: byte, t: Bytes, st: JsDecoderState): (r: Result<JsLoaded, DecodeError>)
    requires c / 16 == 1
    ensures r.Success? ==> Suffix(r.value.rest, t) && r.value.v.Int?
    ensures r.Success? ==> r.value.st == st.(lastint := Some(r.value.v.i))
    ensures r.Success? == LoadInt(c, t, FreshDecoder).Success?
    ensures r.Success? ==> r.value.rest == LoadInt(c, t, FreshDecoder).value.rest
    ensures r.Success? && -TwoTo53 <= LoadInt(c, t, FreshDecoder).value.v.i <= TwoTo53 ==>
      r.value.v == LoadInt(c, t, FreshDecoder).value.v
  {
    var (n, rest) :- if c <= 0x1a then Success((c % 16, t)) else JsReadWide(c % 16, t);
    Success(JsLoaded(Int(n), rest, st.(lastint := Some(n))))
  }

  /** 0x20..0x2f: read as the Python reader does; the state is untouched. */
  function JsLoadFloat(c: byte, t: Bytes, st: JsDecoderState): (r: Result<JsLoaded, DecodeError>)
    requires c / 16 == 2
    ensures r.Success? ==> Suffix(r.value.rest, t) && r.value.st == st && r.value.v.Float?
    ensures r.Failure? <==> c == 0x2b || (0x21 <= c <= 0x2a) || (c == 0x2c && |t| < 8) || (c == 0x2d && |t| < 4)
  {
    var x :- LoadFloat(c, t, FreshDecoder);
    Success(JsLoaded(x.v, x.rest, st))
  }

  /** `n` payload bytes, decoded as text in `charset` or kept as a blob, and
      stored in their table at the slot of the raw bytes. */
  function JsLoadStr(lib: Library, corrected: bool, s: Bytes, n: nat, charset: Option<Charset>, st: JsDecoderState): (r: Result<JsLoaded, DecodeError>)
    ensures r.Success? ==> n <= |s| && r.value.rest == s[n..] && r.value.st.lastint == st.lastint
    ensures r.Success? && charset.None? ==>
      r.value.v == Blob(s[..n]) && r.value.st == st.(blob := st.blob[SlotOf(corrected, s[..n]) := s[..n]])
    ensures r.Success? && charset.Some? ==>
      r.value.v.Text? && lib.decode(charset.value, s[..n]) == Some(r.value.v.s) &&
      r.value.st == st.(text := st.text[SlotOf(corrected, s[..n]) := r.value.v.s])
    ensures r.Failure? <==> n > |s| || (charset.Some? && lib.decode(charset.value, s[..n]).None?)
    ensures r.Failure? && n > |s| ==> r.error == Truncated
  {
    var (buf, rest) :- ReadBytes(s, n);
    var slot := SlotOf(corrected, buf);
    match charset
    case None => Success(JsLoaded(Blob(buf), rest, st.(blob := st.blob[slot := buf])))
    case Some(cs) =>
      match lib.decode(cs, buf)
      case None => Failure(UndecodableText)
      case Some(text) => Success(JsLoaded(Text(text), rest, st.(text := st.text[slot := text])))
  }

  /** A one-byte back-reference into `table`. */
  function JsFetch<T>(table: map<int, T>, t: Bytes): (r: Result<(T, Bytes), DecodeError>)
    ensures |t| == 0 ==> r == Failure(Truncated)
    ensures |t| >= 1 ==>
      r == if t[0] as int in table then Success((table[t[0] as int], t[1..])) else Failure(MissingHash(t[0]))
  {
    var (h, rest) :- ReadBytes(t, 1);
    var slot := h[0] as int;
    if slot in table then Success((table[slot], rest)) else Failure(MissingHash(slot))
  }

  /** 0x30..0x5f.  UTF-16LE lengths count code units; 0x3c fetches a text
      slot.  As written, 0x5c falls to the default branch of the blob family
      and is an inline length of twelve; corrected, it fetches a blob slot. */
  function JsLoadString(lib: Library, corrected: bool, c: byte, t: Bytes, st: JsDecoderState): (r: Result<JsLoaded, DecodeError>)
    requires 3 <= c / 16 <= 5
    ensures r.Success? ==> Suffix(r.value.rest, t) && r.value.st.lastint == st.lastint
    ensures c == 0x3c && |t| >= 1 ==>
      r == if t[0] as int in st.text then Success(JsLoaded(Text(st.text[t[0] as int]), t[1..], st))
        else Failure(MissingHash(t[0]))
    ensures c == 0x5c && corrected && |t| >= 1 ==>
      r == if t[0] as int in st.blob then Success(JsLoaded(Blob(st.blob[t[0] as int]), t[1..], st))
        else Failure(MissingHash(t[0]))
    ensures c == 0x5c && !corrected ==> r == JsLoadStr(lib, false, t, 12, None, st)
  {
    if c == 0x3c then
      var (text, rest) :- JsFetch(st.text, t);
      Success(JsLoaded(Text(text), rest, st))
    else if c == 0x5c && corrected then
      var (blob, rest) :- JsFetch(st.blob, t);
      Success(JsLoaded(Blob(blob), rest, st))
    else if c / 16 == 3 then
      var n :- ReadCount(c, t, 0xb);
      JsLoadStr(lib, corrected, n.rest, 2 * n.n, Some(Utf16Le), st)
    else if c / 16 == 4 then
      var n :- ReadCount(c, t, 0xc);
      JsLoadStr(lib, corrected, n.rest, n.n, Some(Utf8), st)
    else
      var n :- ReadCount(c, t, 0xc);
      JsLoadStr(lib, corrected, n.rest, n.n, None, st)
  }

  /** The delta of 0xb0..0xbf: inline, a fixed field read signed, or a
      varint through `decodeInt`. */
  function JsReadDelta(c: byte, t: Bytes): (r: Result<(int, Bytes), DecodeError>)
    requires c / 16 == 0xb
    ensures r.Success? == ReadDelta(true, c, t).Success?
    ensures r.Success? ==> r.value.1 == ReadDelta(true, c, t).value.1 && Suffix(r.value.1, t)
    ensures r.Success? && -TwoTo53 <= ReadDelta(true, c, t).value.0 <= TwoTo53 ==>
      r.value.0 == ReadDelta(true, c, t).value.0
  {
    if c <= 0xba then ReadDelta(true, c, t) else JsReadWide(c % 16, t)
  }

  /** A delta integer: `lastint += delta`, a binary64 addition, which needs a
      last integer. */
  function JsLoadDelta(c: byte, t: Bytes, st: JsDecoderState): (r: Result<JsLoaded, DecodeError>)
    requires c / 16 == 0xb
    ensures r.Success? ==> Suffix(r.value.rest, t)
    ensures r.Success? <==> st.lastint.Some? && ReadDelta(true, c, t).Success?
    ensures r.Success? ==> r.value.rest == ReadDelta(true, c, t).value.1
    ensures r.Success? ==> r.value.v.Int? && r.value.st == st.(lastint := Some(r.value.v.i))
    ensures r.Success? ==>
      var (delta, _) := JsReadDelta(c, t).value;
      r.value.v == Int(ToDouble(st.lastint.value + delta))
  {
    var (delta, rest) :- JsReadDelta(c, t);
    match st.lastint
    case None => Failure(DeltaWithoutBase)
    case Some(last) =>
      var n := ToDouble(last + delta);
      Success(JsLoaded(Int(n), rest, st.(lastint := Some(n))))
  }

  /** The bytes a checksum control 0xf0..0xf4 skips: CRC32, MD5, SHA-1,
      SHA-256, SHA-512. */
  function DigestLength(c: byte): (n: nat)
    requires 0xf0 <= c <= 0xf4
    ensures c == 0xf0 ==> n == 4    // CRC-32
    ensures c == 0xf1 ==> n == 16   // MD5
    ensures c == 0xf2 ==> n == 20   // SHA-1
    ensures c == 0xf3 ==> n == 32   // SHA-256
    ensures c == 0xf4 ==> n == 64   // SHA-512
  {
    if c == 0xf0 then 4 else if c == 0xf1 then 16 else if c == 0xf2 then 20 else if c == 0xf3 then 32 else 64
  }

  // ----- the dispatcher -------------------------------------------------------

  /** `loadValue`: one value from the front of `s`.  Controls 0x70..0x7f and
      0xf0..0xff produce no value: the loop reads the next control. */
  function JsLoadValue(lib: Library, corrected: bool, s: Bytes, st: JsDecoderState): (r: Result<JsLoaded, DecodeError>)
    ensures r.Success? ==> Suffix(r.value.rest, s) && |r.value.rest| < |s|
    ensures |s| == 0 ==> r == Failure(Truncated)
    decreases |s|, 2
  {
    if |s| == 0 then Failure(Truncated)
    else
      var c := s[0];
      var t := s[1..];
      var family := c / 16;
      var r :=
        if family == 0 then JsLoadSpecial(c, t, st)
        else if family == 1 then JsLoadInt(c, t, st)
        else if family == 2 then JsLoadFloat(c, t, st)
        else if 3 <= family <= 5 then JsLoadString(lib, corrected, c, t, st)
        else if family == 7 then JsLoadRefresher(lib, corrected, c, t, st)
        else if family == 8 then JsLoadArray(lib, corrected, c, t, st)
        else if family == 9 then JsLoadObject(lib, corrected, c, t, st)
        else if family == 0xa then JsLoadSwapped(lib, corrected, c, t, st)
        else if family == 0xb then JsLoadDelta(c, t, st)
        else if family == 0xf then JsLoadPragma(lib, corrected, c, t, st)
        else Failure(BadControl(c));
      assert r.Success? ==> Suffix(r.value.rest, s) by {
        if r.Success? {
          assert s[1..][|t| - |r.value.rest|..] == s[|s| - |r.value.rest|..];
        }
      }
      r
  }

  /** 0x70..0x7f.  0x70 assigns `self.texthash` and `self.blobhash`, which
      are not the decoder's tables, so as written nothing is emptied; the
      others decode and discard a number of values. */
  function JsLoadRefresher(lib: Library, corrected: bool, c: byte, t: Bytes, st: JsDecoderState): (r: Result<JsLoaded, DecodeError>)
    requires c / 16 == 7
    ensures r.Success? ==> Suffix(r.value.rest, t)
    ensures c == 0x70 && !corrected ==> r == JsLoadValue(lib, corrected, t, st)
    ensures c == 0x70 && corrected ==> r == JsLoadValue(lib, corrected, t, st.(text := map[], blob := map[]))
    decreases |t| + 1, 1
  {
    if c == 0x70 then
      JsLoadValue(lib, corrected, t, if corrected then st.(text := map[], blob := map[]) else st)
    else
      var n :- ReadCount(c, t, 0xc);
      var skipped :- JsLoadMany(lib, corrected, n.n, n.rest, st);
      var r := JsLoadValue(lib, corrected, skipped.rest, skipped.st);
      assert r.Success? ==> Suffix(r.value.rest, t) by {
        if r.Success? {
          SuffixTrans(r.value.rest, skipped.rest, n.rest);
          SuffixTrans(r.value.rest, n.rest, t);
        }
      }
      r
  }

  /** 0x80..0x8f: a count, then that many values. */
  function JsLoadArray(lib: Library, corrected: bool, c: byte, t: Bytes, st: JsDecoderState): (r: Result<JsLoaded, DecodeError>)
    requires c / 16 == 8
    ensures r.Success? ==> Suffix(r.value.rest, t) && r.value.v.Sequence?
    decreases |t| + 1, 1
  {
    var n :- ReadCount(c, t, 0xc);
    var items :- JsLoadMany(lib, corrected, n.n, n.rest, st);
    Success(JsLoaded(Sequence(items.vs), items.rest, items.st))
  }

  /** 0x90..0x9f: a count, then `result[key] = value` that many times. */
  function JsLoadObject(lib: Library, corrected: bool, c: byte, t: Bytes, st: JsDecoderState): (r: Result<JsLoaded, DecodeError>)
    requires c / 16 == 9
    ensures r.Success? ==> Suffix(r.value.rest, t) && r.value.v.Mapping? && DistinctKeys(r.value.v.pairs)
    decreases |t| + 1, 1
  {
    var n :- ReadCount(c, t, 0xc);
    var pairs :- JsLoadPairs(lib, corrected, n.n, n.rest, st, []);
    Success(JsLoaded(Mapping(pairs.pairs), pairs.rest, pairs.st))
  }

  /** 0xa0 is `undefined`; 0xa1..0xaf a transposed array: a column count,
      then for each column its name and its values. */
  function JsLoadSwapped(lib: Library, corrected: bool, c: byte, t: Bytes, st: JsDecoderState): (r: Result<JsLoaded, DecodeError>)
    requires c / 16 == 0xa
    ensures r.Success? ==> Suffix(r.value.rest, t)
    ensures c == 0xa0 ==> r == Success(JsLoaded(Absent, t, st))
    ensures r.Success? && c != 0xa0 ==> r.value.v.Sequence?
    decreases |t| + 1, 1
  {
    if c == 0xa0 then Success(JsLoaded(Absent, t, st))
    else
      var n :- ReadCount(c, t, 0xc);
      var cols :- JsLoadColumns(lib, corrected, n.n, n.rest, st, []);
      Success(JsLoaded(Sequence(Objects(cols.rows)), cols.rest, cols.st))
  }

  /** 0xf0..0xff.  A checksum control skips its digest unchecked (0xf0..0xf4)
      or nothing (0xf8..0xfc); 0xff decodes and discards a value; decoding
      then continues.  The other controls have no case. */
  function JsLoadPragma(lib: Library, corrected: bool, c: byte, t: Bytes, st: JsDecoderState): (r: Result<JsLoaded, DecodeError>)
    requires c / 16 == 0xf
    ensures r.Success? ==> Suffix(r.value.rest, t)
    ensures c <= 0xf4 && |t| < DigestLength(c) ==> r == Failure(Truncated)
    ensures c <= 0xf4 && |t| >= DigestLength(c) ==> r == JsLoadValue(lib, corrected, t[DigestLength(c)..], st)
    ensures 0xf8 <= c <= 0xfc ==> r == JsLoadValue(lib, corrected, t, st)
    ensures c in {0xf5, 0xf6, 0xf7, 0xfd, 0xfe} ==> r == Failure(BadControl(c))
    decreases |t| + 1, 1
  {
    if c <= 0xf4 then
      var k := DigestLength(c);
      if |t| < k then Failure(Truncated)
      else
        var r := JsLoadValue(lib, corrected, t[k..], st);
        assert r.Success? ==> Suffix(r.value.rest, t) by {
          if r.Success? {
            assert t[k..][|t[k..]| - |r.value.rest|..] == t[|t| - |r.value.rest|..];
          }
        }
        r
    else if 0xf8 <= c <= 0xfc then JsLoadValue(lib, corrected, t, st)
    else if c == 0xff then
      var skipped :- JsLoadValue(lib, corrected, t, st);
      var r := JsLoadValue(lib, corrected, skipped.rest, skipped.st);
      assert r.Success? ==> Suffix(r.value.rest, t) by {
        if r.Success? {
          SuffixTrans(r.value.rest, skipped.rest, t);
        }
      }
      r
    else Failure(BadControl(c))
  }

  // ----- sequences of values ------------------------------------------------

  /** `n` values one after another. */
  function JsLoadMany(lib: Library, corrected: bool, n: nat, s: Bytes, st: JsDecoderState): (r: Result<JsLoadedMany, DecodeError>)
    ensures r.Success? ==> Suffix(r.value.rest, s) && |r.value.vs| == n
    decreases |s|, 3
  {
    if n == 0 then Success(JsLoadedMany([], s, st))
    else
      var first :- JsLoadValue(lib, corrected, s, st);
      var more :- JsLoadMany(lib, corrected, n - 1, first.rest, first.st);
      SuffixTrans(more.rest, first.rest, s);
      Success(JsLoadedMany([first.v] + more.vs, more.rest, more.st))
  }

  /** Object construction: each key, then its value, then `result[key] =
      value`, which converts the key to a property name and overwrites an
      earlier property of that name in place. */
  function JsLoadPairs(lib: Library, corrected: bool, n: nat, s: Bytes, st: JsDecoderState, acc: seq<(Value, Value)>): (r: Result<JsLoadedPairs, DecodeError>)
    requires DistinctKeys(acc)
    ensures r.Success? ==> Suffix(r.value.rest, s) && DistinctKeys(r.value.pairs)
    decreases |s|, 3
  {
    if n == 0 then Success(JsLoadedPairs(acc, s, st))
    else
      var key :- JsLoadValue(lib, corrected, s, st);
      var value :- JsLoadValue(lib, corrected, key.rest, key.st);
      var name := PropertyKey(lib, key.v);
      PutDistinct(acc, name, value.v);
      var more :- JsLoadPairs(lib, corrected, n - 1, value.rest, value.st, Put(acc, name, value.v));
      SuffixTrans(value.rest, key.rest, s);
      SuffixTrans(more.rest, value.rest, s);
      Success(more)
  }

  /** `column_values[row]` for every row below `column_values.length`: the
      elements of an array, the characters of a string, and the properties
      "0", "1", ... of an object with its own `length`.  Reading `length` of
      `null` or `undefined` throws; a value whose `length` is undefined is
      refused. */
  function ColumnItems(lib: Library, v: Value): (r: Result<seq<Value>, DecodeError>)
    ensures v.Sequence? ==> r == Success(v.items)
    ensures v.Text? ==>
      r.Success? && |r.value| == |v.s| && forall i :: 0 <= i < |v.s| ==> r.value[i] == Text([v.s[i]])
    ensures v.Null? || v.Absent? ==> r == Failure(HostException)
    ensures v.Mapping? ==> r == ArrayLike(lib, v.pairs)
    ensures !(v.Sequence? || v.Text? || v.Null? || v.Absent? || v.Mapping?) ==> r == Failure(SwappedNeedsArray)
  {
    match v
    case Sequence(items) => Success(items)
    case Text(s) => Success(seq(|s|, i requires 0 <= i < |s| => Text([s[i]])))
    case Null => Failure(HostException)
    case Absent => Failure(HostException)
    case Mapping(pairs) => ArrayLike(lib, pairs)
    case _ => Failure(SwappedNeedsArray)
  }

  /** An object read as an array: its own `length` bounds the loop, compared
      as a number (`null` as 0, a boolean as 0 or 1, a negative integer
      admits no row), and row `i` is property `i`, undefined where missing. */
  function ArrayLike(lib: Library, pairs: seq<(Value, Value)>): (r: Result<seq<Value>, DecodeError>)
    ensures Lookup(pairs, Text("length")) in {None, Some(Absent)} ==> r == Failure(SwappedNeedsArray)
    ensures r.Success? ==> forall i :: 0 <= i < |r.value| ==> r.value[i] == Element(lib, pairs, i)
    ensures Lookup(pairs, Text("length")) == Some(Null) ==> r == Success([])
    ensures forall b: bool :: Lookup(pairs, Text("length")) == Some(Bool(b)) ==> r.Success? && |r.value| == if b then 1 else 0
    ensures forall n: int :: Lookup(pairs, Text("length")) == Some(Int(n)) ==> r.Success? && |r.value| == Clamp(n)
  {
    match Lookup(pairs, Text("length"))
    case None => Failure(SwappedNeedsArray)
    case Some(len) =>
      match len
      case Absent => Failure(SwappedNeedsArray)
      case Null => Success([])
      case Bool(b) => Success(Elements(lib, pairs, if b then 1 else 0))
      case Int(n) => Success(Elements(lib, pairs, Clamp(n)))
      case _ => Failure(LengthNotModelled)
  }

  /** The rows `0 <= row < n` for an integer `n`. */
  function Clamp(n: int): (r: nat)
    ensures n >= 0 ==> r == n
    ensures n < 0 ==> r == 0
  {
    if n > 0 then n else 0
  }

  /** Property `i` of an object, `undefined` where it has none. */
  function Element(lib: Library, pairs: seq<(Value, Value)>, i: nat): (r: Value)
    ensures Lookup(pairs, PropertyKey(lib, Int(i))).Some? ==> Some(r) == Lookup(pairs, PropertyKey(lib, Int(i)))
    ensures Lookup(pairs, PropertyKey(lib, Int(i))).None? ==> r == Absent
  {
    match Lookup(pairs, PropertyKey(lib, Int(i)))
    case Some(x) => x
    case None => Absent
  }

  function Elements(lib: Library, pairs: seq<(Value, Value)>, n: nat): (r: seq<Value>)
    ensures |r| == n && forall i :: 0 <= i < n ==> r[i] == Element(lib, pairs, i)
  {
    seq(n, i requires 0 <= i < n => Element(lib, pairs, i))
  }

  /** An object that carries an array's length and its elements under the
      keys "0", "1", ... is read as that array. */
  lemma ArrayLikeMimics(lib: Library, pairs: seq<(Value, Value)>, items: seq<Value>)
    requires Lookup(pairs, Text("length")) == Some(Int(|items|))
    requires forall i :: 0 <= i < |items| ==> Lookup(pairs, PropertyKey(lib, Int(i))) == Some(items[i])
    ensures ColumnItems(lib, Mapping(pairs)) == ColumnItems(lib, Sequence(items))
  {
    assert Clamp(|items|) == |items|;
    assert ArrayLike(lib, pairs) == Success(Elements(lib, pairs, |items|));
    var r := Elements(lib, pairs, |items|);
    forall i | 0 <= i < |items| ensures r[i] == items[i] {
      assert r[i] == Element(lib, pairs, i);
    }
    assert r == items;
  }

  /** `{"length": 1, "0": 7}` is the column `[7]`. */
  lemma ArrayLikeSeven(lib: Library)
    requires lib.propertyKey(Int(0)) == "0"
    ensures ColumnItems(lib, Mapping([(Text("length"), Int(1)), (Text("0"), Int(7))])) == Success([Int(7)])
  {
    var pairs := [(Text("length"), Int(1)), (Text("0"), Int(7))];
    assert PropertyKey(lib, Int(0)) == Text("0");
    assert Lookup(pairs, Text("length")) == Some(Int(1));
    assert Lookup(pairs, Text("0")) == Some(Int(7)) by {
      assert Lookup(pairs[1..], Text("0")) == Some(Int(7));
    }
    ArrayLikeMimics(lib, pairs, [Int(7)]);
  }

  /** The columns of a transposed array, each a name and the values of that
      column. */
  function JsLoadColumns(lib: Library, corrected: bool, n: nat, s: Bytes, st: JsDecoderState, rows: seq<seq<(Value, Value)>>): (r: Result<JsLoadedRows, DecodeError>)
    ensures r.Success? ==> Suffix(r.value.rest, s)
    decreases |s|, 3
  {
    if n == 0 then Success(JsLoadedRows(rows, s, st))
    else
      var name :- JsLoadValue(lib, corrected, s, st);
      var values :- JsLoadValue(lib, corrected, name.rest, name.st);
      var items :- ColumnItems(lib, values.v);
      var more :- JsLoadColumns(lib, corrected, n - 1, values.rest, values.st,
        JsAddColumn(rows, PropertyKey(lib, name.v), items, 0));
      SuffixTrans(values.rest, name.rest, s);
      SuffixTrans(more.rest, values.rest, s);
      Success(more)
  }

  /** The row loop from index `idx` on: `result.push({})` when the index
      reaches the number of rows, then `result[row][column_name] = value`
      unless the value is `undefined`. */
  function JsAddColumn(rows: seq<seq<(Value, Value)>>, name: Value, values: seq<Value>, idx: nat): (r: seq<seq<(Value, Value)>>)
    requires idx <= |rows|
    ensures |r| == Max(|rows|, |values|)
    ensures forall i :: 0 <= i < idx ==> r[i] == rows[i]
    decreases |values| - idx
  {
    if idx >= |values| then rows
    else
      var grown := if idx == |rows| then rows + [[]] else rows;
      JsAddColumn(grown[idx := JsSetCell(grown[idx], name, values, idx)], name, values, idx + 1)
  }

  /** One assignment of the row loop: the property `name` of the row is set
      to the value at `i` when there is one and it is not `undefined`. */
  function JsSetCell(row: seq<(Value, Value)>, name: Value, values: seq<Value>, i: nat): seq<(Value, Value)> {
    if i < |values| && values[i] != Absent then Put(row, name, values[i]) else row
  }

  /** From `idx` on, every row the loop leaves is the row in closed form. */
  lemma {:induction false} JsAddColumnRow(rows: seq<seq<(Value, Value)>>, name: Value, values: seq<Value>, idx: nat, i: nat)
    requires idx <= |rows| && idx <= i < Max(|rows|, |values|)
    ensures JsAddColumn(rows, name, values, idx)[i] == JsPivotRow(rows, name, values, i)
    decreases |values| - idx
  {
    if idx < |values| {
      var grown := if idx == |rows| then rows + [[]] else rows;
      var next := grown[idx := JsSetCell(grown[idx], name, values, idx)];
      assert JsAddColumn(rows, name, values, idx) == JsAddColumn(next, name, values, idx + 1);
      if i == idx {
        assert JsAddColumn(next, name, values, idx + 1)[idx] == next[idx];
      } else {
        JsAddColumnRow(next, name, values, idx + 1, i);
        assert i < |next| ==> next[i] == rows[i];
      }
    }
  }

  /** Row `i` after the column is spread: the row as it was (a new empty
      object past the old rows), with the property `name` set to the value at
      `i` when there is one and it is not `undefined`. */
  function JsPivotRow(rows: seq<seq<(Value, Value)>>, name: Value, values: seq<Value>, i: nat): seq<(Value, Value)> {
    JsSetCell(if i < |rows| then rows[i] else [], name, values, i)
  }

  /** A column named `__proto__` gives no row an own property of that name:
      a row without one keeps its properties, and a new row stays empty. */
  lemma ProtoColumnAddsNothing(rows: seq<seq<(Value, Value)>>, values: seq<Value>, i: nat)
    requires i < Max(|rows|, |values|)
    requires i < |rows| ==> ProtoName !in KeysOf(rows[i])
    ensures JsAddColumn(rows, ProtoName, values, 0)[i] == if i < |rows| then rows[i] else []
  {
    JsAddColumnRow(rows, ProtoName, values, 0, i);
  }

  /** The rows as objects. */
  function Objects(rows: seq<seq<(Value, Value)>>): (r: seq<Value>)
    ensures |r| == |rows| && forall i :: 0 <= i < |rows| ==> r[i] == Mapping(rows[i])
  {
    seq(|rows|, i requires 0 <= i < |rows| => Mapping(rows[i]))
  }

  // ----- the entry point ----------------------------------------------------

  /** `parseFromArrayBuffer` on a new decoder: the first three bytes are
      viewed before anything else, which throws for a shorter buffer; a
      leading `jk!` is skipped; then one value is decoded and any bytes after
      it are ignored.  The corrected reading looks for the header only in a
      buffer long enough to hold one. */
  function JsParse(lib: Library, corrected: bool, s: Bytes): (r: Result<Value, DecodeError>)
    ensures |s| < 3 && !corrected ==> r == Failure(Truncated)
    ensures |s| >= 3 && s[..3] == Magic ==>
      r == (var x :- JsLoadValue(lib, corrected, s[3..], FreshJsDecoder); Success(x.v))
    ensures (|s| >= 3 && s[..3] != Magic) || (|s| < 3 && corrected) ==>
      r == (var x :- JsLoadValue(lib, corrected, s, FreshJsDecoder); Success(x.v))
  {
    if |s| < 3 && !corrected then Failure(Truncated)
    else
      var x :- JsLoadValue(lib, corrected, if |s| >= 3 && s[..3] == Magic then s[3..] else s, FreshJsDecoder);
      Success(x.v)
  }

  /** The header is optional: a buffer that does not itself start with
      `jk!` parses the same after a `jk!` as without one, provided that, as
      written, it is long enough for the first three bytes to be viewed. */
  lemma JsHeaderOptional(lib: Library, corrected: bool, s: Bytes)
    requires !(|s| >= 3 && s[..3] == Magic)
    ensures |s| >= 3 || corrected ==> JsParse(lib, corrected, Magic + s) == JsParse(lib, corrected, s)
  {
    assert (Magic + s)[..3] == Magic && (Magic + s)[3..] == s;
  }
}


=== FILE: jsencoder.dfy ===
/** The JavaScript encoder's first pass (`dumpValue` and its helpers in
    javascript/jksn.js): the same proxy tree as the Python encoder, with the
    differences of the port.  Every JavaScript number that is not a 32-bit
    integer is written as a double; `encodeInt(n, 0)` refuses a negative
    number, so the integers between -0x1fffff and -0x8001 make the dump throw;
    an object with a defined `length` is taken for an array and throws too;
    a blob header always uses control 0x5e; and arrays of arrays, and of
    objects mixed with arrays and ArrayBuffers, may be transposed too, their
    columns being the enumerable keys of the rows. */
module JsEncoder {
  import opened Arith
  import opened Wrappers
  import opened Values
  import opened IntCodec
  import opened Proxy
  import opened Encoder
  import opened Optimizer

  /** The biased exponent of a binary64 (section 3.4 of IEEE 754-2019): the
      eleven bits after the sign. */
  function Exponent(bits: Bytes): nat
    requires |bits| == 8
  {
    (bits[0] as int % 128) * 16 + bits[1] as int / 16
  }

  /** The 52-bit fraction field of a binary64. */
  function Fraction(bits: Bytes): nat
    requires |bits| == 8
  {
    (bits[1] as int % 16) * Pow256(6) + Unsigned(bits[2..])
  }

  /** The binary64 has an integral value, either zero included: its exponent
      is at least that of 1 and no fraction bit below the binary point is
      set. */
  predicate WholeDouble(bits: Bytes)
    requires |bits| == 8
  {
    var e := Exponent(bits);
    var m := Fraction(bits);
    (e == 0 && m == 0) || (1023 <= e < 2047 && (e >= 1075 || m % Pow2(1075 - e) == 0))
  }

  /** The values a JavaScript program can hand the encoder.  Object keys are
      strings.  JavaScript has one number type: a number with an integral
      value is an `Int`, -0 among them (`(-0 | 0) === -0`, so `dumpNumber`
      writes it as the integer 0); a `Float` is NaN, an infinity, or a
      binary64 with a fraction, whose bits are neither NaN's nor an
      infinity's.  There is no single-precision float. */
  predicate JsValue(v: Value)
    decreases v
  {
    match v
    case Float(f) =>
      !f.Single? && (f.Double? ==> |f.bits| == 8 && Exponent(f.bits) < 2047 && !WholeDouble(f.bits))
    case Sequence(items) => forall i :: 0 <= i < |items| ==> JsValue(items[i])
    case Mapping(pairs) =>
      DistinctKeys(pairs) && forall i :: 0 <= i < |pairs| ==> pairs[i].0.Text? && JsValue(pairs[i].1)
    case _ => true
  }

  /** Six zero bytes spell 0. */
  lemma ZeroFraction()
    ensures Unsigned([0, 0, 0, 0, 0, 0]) == 0
  {
    var z0: Bytes, z1: Bytes, z2: Bytes, z3: Bytes := [], [0], [0, 0], [0, 0, 0];
    var z4: Bytes, z5: Bytes, z6: Bytes := [0, 0, 0, 0], [0, 0, 0, 0, 0], [0, 0, 0, 0, 0, 0];
    assert z1[..0] == z0 && z2[..1] == z1 && z3[..2] == z2;
    assert z4[..3] == z3 && z5[..4] == z4 && z6[..5] == z5;
  }

  /** `1.0` and `-0` are integers to JavaScript, so neither is a `Double`
      here, while `1.5` is. */
  lemma WholeDoublesAreIntegers()
    ensures !JsValue(Float(Double([0x3f, 0xf0, 0, 0, 0, 0, 0, 0])))
    ensures !JsValue(Float(Double([0x80, 0, 0, 0, 0, 0, 0, 0])))
    ensures JsValue(Float(Double([0x3f, 0xf8, 0, 0, 0, 0, 0, 0])))
  {
    FloatIsJsValue([0x3f, 0xf0, 0, 0, 0, 0, 0, 0]);
    FloatIsJsValue([0x80, 0, 0, 0, 0, 0, 0, 0]);
    FloatIsJsValue([0x3f, 0xf8, 0, 0, 0, 0, 0, 0]);
    OneIsWhole();
    NegativeZeroIsWhole();
    OneAndAHalfIsNot();
  }

  lemma FloatIsJsValue(bits: Bytes)
    requires |bits| == 8
    ensures JsValue(Float(Double(bits))) <==> Exponent(bits) < 2047 && !WholeDouble(bits)
  {
  }

  lemma OneIsWhole()
    ensures WholeDouble([0x3f, 0xf0, 0, 0, 0, 0, 0, 0])
  {
    ZeroFraction();
    var one: Bytes := [0x3f, 0xf0, 0, 0, 0, 0, 0, 0];
    assert one[2..] == [0, 0, 0, 0, 0, 0];
    assert Exponent(one) == 1023 && Fraction(one) == 0;
  }

  lemma NegativeZeroIsWhole()
    ensures WholeDouble([0x80, 0, 0, 0, 0, 0, 0, 0])
  {
    ZeroFraction();
    var zero: Bytes := [0x80, 0, 0, 0, 0, 0, 0, 0];
    assert zero[2..] == [0, 0, 0, 0, 0, 0];
    assert Exponent(zero) == 0 && Fraction(zero) == 0;
  }

  lemma OneAndAHalfIsNot()
    ensures !WholeDouble([0x3f, 0xf8, 0, 0, 0, 0, 0, 0]) && Exponent([0x3f, 0xf8, 0, 0, 0, 0, 0, 0]) < 2047
  {
    ZeroFraction();
    var half: Bytes := [0x3f, 0xf8, 0, 0, 0, 0, 0, 0];
    assert half[2..] == [0, 0, 0, 0, 0, 0];
    assert Pow256(6) == Pow2(48);
    assert Pow2(52) == 16 * Pow2(48);
    assert Exponent(half) == 1023 && Fraction(half) == 8 * Pow2(48);
    assert (8 * Pow2(48)) % (16 * Pow2(48)) == 8 * Pow2(48) by {
      ModUnique(8 * Pow2(48), 16 * Pow2(48), 0, 8 * Pow2(48));
    }
  }

  /** `(obj | 0) === obj`: the number survives conversion to a signed 32-bit
      integer. */
  predicate Int32(n: int) {
    -0x8000_0000 <= n <= 0x7fff_ffff
  }

  /** The integers `dumpNumber` sends to `-encodeInt(obj, 0)`: too wide for
      two bytes, too narrow for the four-byte tier, and negative. */
  predicate ThrowingInt(n: int) {
    -0x20_0000 < n < -0x8000
  }

  /** `obj.length !== undefined` for a plain object: it has an own property
      `length` whose value is not `undefined`.  `dumpValue` then takes it for
      an array, and `dumpArray` throws on it: `obj.map` is not a function of
      a plain object (and `encodeInt(objlen, 0)` throws first when the length
      is not a number). */
  predicate LengthDefined(pairs: seq<(Value, Value)>) {
    var len := Lookup(pairs, Text("length"));
    len.Some? && len.value != Absent
  }

  /** Some value of the object throws. */
  predicate PropsThrow(pairs: seq<(Value, Value)>) {
    exists i :: 0 <= i < |pairs| && Throws(pairs[i].1)
  }

  /** The value holds an integer the encoder throws on, or an object with a
      defined `length`. */
  predicate Throws(v: Value)
    decreases v
  {
    match v
    case Int(n) => ThrowingInt(n)
    case Sequence(items) => exists i :: 0 <= i < |items| && Throws(items[i])
    case Mapping(pairs) => LengthDefined(pairs) || exists i :: 0 <= i < |pairs| && Throws(pairs[i].1)
    case _ => false
  }

  /** The exceptions the dump raises. */
  predicate JsThrown(e: EncodeError) {
    e == NegativeVarint || e == NotAnArray
  }

  // ----- encodeInt ----------------------------------------------------------

  /** The varint loop of `encodeInt(n, 0)`: `n & 0x7f`, then `n >>>= 7` reads
      `n` as an unsigned 32-bit integer, so bits from 2^32 up are lost. */
  function JsVarint(n: nat): (r: Bytes)
    ensures n < 0x1_0000_0000 ==> r == Varint(n)
  {
    Varint(n % 0x1_0000_0000)
  }

  /** `encodeInt`: the fixed widths mask with `&` and `>>>`, which keep the
      low bits of any integer, so they agree with the Python `_encode_int`;
      size 0 asserts `number >= 0`. */
  function JsEncodeInt(n: int, size: nat): (r: Result<Bytes, EncodeError>)
    requires FixedWidth(size) || size == 0
    ensures r.Failure? <==> size == 0 && n < 0
    ensures r.Failure? ==> r.error == NegativeVarint
    ensures r.Success? && FixedWidth(size) ==> r.value == EncodeInt(n, size)
    ensures r.Success? && n < 0x1_0000_0000 ==> r.value == EncodeInt(n, size)
  {
    if size == 0 then
      if n < 0 then Failure(NegativeVarint) else Success(JsVarint(n))
    else Success(EncodeInt(n, size))
  }

  /** The loop itself: the first group is the low seven bits, and every
      unsigned shift continues on the low 32 bits of the number. */
  method JsEncodeVarint(n: nat) returns (r: Bytes)
    ensures r == EncodeInt(n % 0x1_0000_0000, 0)
    ensures Success(r) == JsEncodeInt(n, 0)
  {
    var u := n % 0x1_0000_0000;
    assert n % 128 == u % 128 by {
      assert n == u + 0x1_0000_0000 * (n / 0x1_0000_0000);
      assert 0x1_0000_0000 == 128 * 0x200_0000;
    }
    r := [n % 128];
    var m: nat := u / 128;
    while m != 0
      invariant Groups(m) + r == Varint(u)
      decreases m
    {
      r := [m % 128 + 128] + r;
      m := m / 128;
    }
  }

  /** A length header: as `LengthHeader`, but the varint tier goes through
      `encodeInt`, which keeps 32 bits. */
  function JsLengthHeader(family: byte, n: nat, inlineMax: nat): (h: (byte, Bytes))
    requires family % 16 == 0 && inlineMax <= 0xc
    ensures n < 0x1_0000_0000 ==> h == LengthHeader(family, n, inlineMax)
    ensures h.0 == LengthHeader(family, n, inlineMax).0
  {
    if n <= 0xffff then LengthHeader(family, n, inlineMax)
    else ((family + 0xf) as byte, JsVarint(n))
  }

  // ----- scalars ------------------------------------------------------------

  /** `dumpNumber` for a number with an integral value.  A 32-bit integer
      takes the Python tiers, except that the negative ones a varint would
      need make `encodeInt` throw; any other integer is written as a double. */
  function JsDumpNumber(lib: Library, n: int): (r: Result<Node, EncodeError>)
    ensures r.Failure? <==> ThrowingInt(n)
    ensures r.Failure? ==> r.error == NegativeVarint
    ensures r.Success? ==> r.value.origin == Int(n) && r.value.children == [] && r.value.buf == [] && Measured(r.value)
    ensures r.Success? && Int32(n) ==> r.value == DumpInt(n)
    ensures !Int32(n) ==> r.Success? && r.value.control == 0x2c && r.value.data == lib.integerAsDouble(n)
  {
    if !Int32(n) then Success(Leaf(Int(n), 0x2c, lib.integerAsDouble(n), []))
    else if 0 <= n <= 10 then Success(Leaf(Int(n), (0x10 + n) as byte, [], []))
    else if -0x80 <= n <= 0x7f then Success(Leaf(Int(n), 0x1d, EncodeInt(n, 1), []))
    else if -0x8000 <= n <= 0x7fff then Success(Leaf(Int(n), 0x1c, EncodeInt(n, 2), []))
    else if -0x8000_0000 <= n <= -0x20_0000 || 0x20_0000 <= n <= 0x7fff_ffff then
      Success(Leaf(Int(n), 0x1b, EncodeInt(n, 4), []))
    else if n >= 0 then Success(Leaf(Int(n), 0x1f, JsVarint(n), []))
    else
      // `-encodeInt(obj, 0)`: the call asserts `number >= 0` before the
      // negation is reached
      Failure(NegativeVarint)
  }

  /** `dumpBuffer`: inline up to 0xb bytes, then control 0x5e whatever the
      width of the length that follows. */
  function JsDumpBuffer(b: Bytes): (p: Node)
    ensures p.origin == Blob(b) && p.control / 16 == 5 && p.buf == b && p.children == []
    ensures Measured(p)
    ensures p.data == DumpBytes(b).data || 0x1_0000_0000 <= |b|
    ensures p.control == DumpBytes(b).control <==> |b| <= 0xff
    ensures 0xb < |b| ==> p.control == 0x5e
  {
    if |b| <= 0xb then Leaf(Blob(b), (0x50 + |b|) as byte, [], b)
    else if |b| <= 0xff then Leaf(Blob(b), 0x5e, EncodeInt(|b|, 1), b)
    else if |b| <= 0xffff then Leaf(Blob(b), 0x5e, EncodeInt(|b|, 2), b)
    else Leaf(Blob(b), 0x5e, JsVarint(|b|), b)
  }

  // ----- array indices --------------------------------------------------------

  predicate AllDigits(s: string) {
    forall k :: 0 <= k < |s| ==> '0' <= s[k] <= '9'
  }

  function Digit(d: nat): (c: char)
    requires d < 10
    ensures '0' <= c <= '9' && c as int - '0' as int == d
  {
    ('0' as int + d) as char
  }

  /** The canonical decimal string of an array index: the key `for ... in`
      enumerates for it. */
  function DecimalString(i: nat): (s: string)
    ensures |s| >= 1 && AllDigits(s)
  {
    if i < 10 then [Digit(i)] else DecimalString(i / 10) + [Digit(i % 10)]
  }

  /** The number a string of digits spells. */
  function DecimalValue(s: string): nat
    requires AllDigits(s)
  {
    if |s| == 0 then 0
    else DecimalValue(s[..|s| - 1]) * 10 + (s[|s| - 1] as int - '0' as int)
  }

  /** Reading the digits of an index gives the index back. */
  lemma {:induction false} DecimalRoundTrip(i: nat)
    ensures DecimalValue(DecimalString(i)) == i
  {
    if i >= 10 {
      var s := DecimalString(i);
      assert s[..|s| - 1] == DecimalString(i / 10);
      DecimalRoundTrip(i / 10);
    }
  }

  /** The array element a property key names, if it names one: only the
      canonical decimal strings below the length do. */
  function ArrayIndex(key: string, n: nat): (r: Option<nat>)
    ensures r.Some? ==> r.value < n && DecimalString(r.value) == key
    ensures r.None? ==> forall i :: 0 <= i < n ==> DecimalString(i) != key
  {
    if AllDigits(key) && DecimalValue(key) < n && DecimalString(DecimalValue(key)) == key then
      Some(DecimalValue(key))
    else
      assert forall i :: 0 <= i < n ==> DecimalString(i) != key by {
        forall i | 0 <= i < n && DecimalString(i) == key ensures false {
          DecimalRoundTrip(i);
        }
      }
      None
  }

  // ----- transposed arrays --------------------------------------------------

  /** The keys `for (key in row)` enumerates: an object's own keys, an array's
      indices, nothing for an ArrayBuffer. */
  function JsOwnKeys(row: Value): (r: seq<Value>)
  {
    match row
    case Mapping(pairs) => PairKeys(pairs)
    case Sequence(items) => seq(|items|, i requires 0 <= i < |items| => Text(DecimalString(i)))
    case _ => []
  }

  /** `testSwapAvailability`: every row is an object (an array, an
      ArrayBuffer or a plain object, not `null` or the unspecified marker) and
      some row has a key. */
  predicate JsSwapAvailable(rows: seq<Value>) {
    && (forall i :: 0 <= i < |rows| ==> rows[i].Sequence? || rows[i].Mapping? || rows[i].Blob?)
    && (exists i :: 0 <= i < |rows| && |JsOwnKeys(rows[i])| > 0)
  }

  /** Every key of every row, row by row. */
  function JsRowKeys(rows: seq<Value>): seq<Value>
  {
    if |rows| == 0 then [] else JsOwnKeys(rows[0]) + JsRowKeys(rows[1..])
  }

  /** `columns`: every key once, in the order first seen. */
  function JsColumns(rows: seq<Value>): seq<Value> {
    Dedup(JsRowKeys(rows))
  }

  /** The row keys are exactly the keys of the rows. */
  lemma {:induction false} JsRowKeysHold(rows: seq<Value>, c: Value)
    ensures c in JsRowKeys(rows) <==> exists i :: 0 <= i < |rows| && c in JsOwnKeys(rows[i])
  {
    if |rows| > 0 {
      JsRowKeysHold(rows[1..], c);
      assert JsRowKeys(rows) == JsOwnKeys(rows[0]) + JsRowKeys(rows[1..]);
      if exists i :: 0 <= i < |rows| && c in JsOwnKeys(rows[i]) {
        var i :| 0 <= i < |rows| && c in JsOwnKeys(rows[i]);
        if i > 0 {
          assert rows[1..][i - 1] == rows[i];
        }
      }
      if exists i :: 0 <= i < |rows[1..]| && c in JsOwnKeys(rows[1..][i]) {
        var i :| 0 <= i < |rows[1..]| && c in JsOwnKeys(rows[1..][i]);
        assert rows[i + 1] == rows[1..][i];
      }
    }
  }

  /** A name is a column exactly when some row enumerates it as a key. */
  lemma JsColumnsAreKeys(rows: seq<Value>, c: Value)
    ensures c in JsColumns(rows) <==> exists i :: 0 <= i < |rows| && c in JsOwnKeys(rows[i])
  {
    JsRowKeysHold(rows, c);
  }

  /** Every column name is a string. */
  lemma JsColumnIsText(rows: seq<Value>, c: Value)
    requires JsValue(Sequence(rows)) && c in JsColumns(rows)
    ensures c.Text?
  {
    JsRowKeysHold(rows, c);
    var i :| 0 <= i < |rows| && c in JsOwnKeys(rows[i]);
    assert JsValue(rows[i]);
  }

  /** `obj[row][column]`, with `undefined` replaced by the unspecified
      marker.  An array answers its indices and `length`, an ArrayBuffer its
      `byteLength`, an object its own keys. */
  function JsCell(row: Value, c: Value): (r: Value)
    ensures r != Absent
  {
    var found: Option<Value> :=
      match row
      case Mapping(pairs) => Lookup(pairs, c)
      case Sequence(items) =>
        if c == Text("length") then Some(Int(|items|))
        else if c.Text? then
          match ArrayIndex(c.s, |items|)
          case Some(i) => Some(items[i])
          case None => None
        else None
      case Blob(b) => if c == Text("byteLength") then Some(Int(|b|)) else None
      case _ => None;
    match found
    case Some(x) => if x == Absent then Unspecified else x
    case None => Unspecified
  }

  /** A cell is a member of its row, or a length, or the marker. */
  lemma JsCellFacts(row: Value, c: Value)
    ensures Depth(JsCell(row, c)) == 0 || Depth(JsCell(row, c)) < Depth(row)
    ensures JsValue(row) ==> JsValue(JsCell(row, c))
    ensures !Throws(row) ==> !Throws(JsCell(row, c))
  {
    match row
    case Mapping(pairs) =>
      var found := Lookup(pairs, c);
      if found.Some? {
        var i :| 0 <= i < |pairs| && pairs[i] == (c, found.value);
        PairDepthBelow(pairs, i);
        assert JsValue(row) ==> JsValue(pairs[i].1);
      }
    case Sequence(items) =>
    case _ =>
  }

  /** The values of one column, one per row. */
  function JsColumnValues(rows: seq<Value>, c: Value): (r: seq<Value>)
    ensures |r| == |rows| && forall i :: 0 <= i < |rows| ==> r[i] == JsCell(rows[i], c)
  {
    seq(|rows|, i requires 0 <= i < |rows| => JsCell(rows[i], c))
  }

  /** A column's values are shallower than the rows, JavaScript values, and
      free of throwing integers when the rows are. */
  lemma JsColumnFacts(rows: seq<Value>, c: Value)
    requires JsSwapAvailable(rows)
    ensures MaxDepth(JsColumnValues(rows, c)) < MaxDepth(rows)
    ensures JsValue(Sequence(rows)) ==> JsValue(Sequence(JsColumnValues(rows, c)))
    ensures !Throws(Sequence(rows)) ==> !Throws(Sequence(JsColumnValues(rows, c)))
  {
    JsSwapDeep(rows);
    var cv := JsColumnValues(rows, c);
    var bound := MaxDepth(rows) - 1;
    forall k | 0 <= k < |cv|
      ensures Depth(cv[k]) <= bound
      ensures JsValue(Sequence(rows)) ==> JsValue(cv[k])
      ensures !Throws(Sequence(rows)) ==> !Throws(cv[k])
    {
      JsColumnCellFacts(rows, c, k);
    }
    MaxDepthAtMost(cv, bound);
  }

  /** Rows with a key are at least one level deep. */
  lemma JsSwapDeep(rows: seq<Value>)
    requires JsSwapAvailable(rows)
    ensures MaxDepth(rows) >= 1
  {
    var j :| 0 <= j < |rows| && |JsOwnKeys(rows[j])| > 0;
    assert Depth(rows[j]) >= 1;
  }

  /** One cell of a column, against the rows it comes from. */
  lemma JsColumnCellFacts(rows: seq<Value>, c: Value, k: nat)
    requires k < |rows| && MaxDepth(rows) >= 1
    ensures Depth(JsCell(rows[k], c)) <= MaxDepth(rows) - 1
    ensures JsValue(Sequence(rows)) ==> JsValue(JsCell(rows[k], c))
    ensures !Throws(Sequence(rows)) ==> !Throws(JsCell(rows[k], c))
  {
    var row := rows[k];
    JsCellFacts(row, c);
    assert Depth(row) <= MaxDepth(rows);
    assert JsValue(Sequence(rows)) ==> JsValue(row);
    assert !Throws(Sequence(rows)) ==> !Throws(row);
  }

  // ----- the value dispatcher -----------------------------------------------

  /** `dumpValue`: one node per value, or the exception an integer raised. */
  function JsDumpValue(lib: Library, v: Value): (r: Result<Node, EncodeError>)
    requires JsValue(v)
    ensures r.Success? ==> r.value.origin == v && Measured(r.value)
    ensures r.Failure? ==> JsThrown(r.error)
    decreases Depth(v), 3, 0
  {
    match v
    case Absent => Success(Leaf(v, 0x00, [], []))
    case Null => Success(Leaf(v, 0x01, [], []))
    case Bool(b) => Success(Leaf(v, if b then 0x03 else 0x02, [], []))
    case Unspecified => Success(Leaf(v, 0xa0, [], []))
    case Int(n) => JsDumpNumber(lib, n)
    case Float(f) => Success(DumpFloat(f))
    case Text(s) => Success(DumpStr(lib, s))
    case Blob(b) => Success(JsDumpBuffer(b))
    case Sequence(items) => JsDumpArray(lib, items)
    case Mapping(pairs) => if LengthDefined(pairs) then Failure(NotAnArray) else JsDumpObject(lib, pairs)
  }

  /** `encodeStraightArray`: a count header, then every element. */
  function JsStraight(lib: Library, items: seq<Value>): (r: Result<Node, EncodeError>)
    requires JsValue(Sequence(items))
    ensures r.Success? ==>
      r.value.origin == Sequence(items) && r.value.control / 16 == 8 && r.value.buf == [] &&
      |r.value.children| == |items| && Measured(r.value)
    ensures r.Failure? ==> JsThrown(r.error)
    decreases 1 + MaxDepth(items), 1, 0
  {
    var (c, d) := JsLengthHeader(0x80, |items|, 0xc);
    var children :- JsDumpItems(lib, items);
    Success(Branch(Sequence(items), c, d, children))
  }

  /** `encodeSwappedArray`: a column-count header, then for every column its
      name and the array of its values. */
  function JsSwapped(lib: Library, rows: seq<Value>): (r: Result<Node, EncodeError>)
    requires JsValue(Sequence(rows)) && JsSwapAvailable(rows)
    ensures r.Success? ==>
      r.value.origin == Sequence(rows) && r.value.control / 16 == 0xa && r.value.control != 0xa0 &&
      r.value.buf == [] && |r.value.children| == 2 * |JsColumns(rows)| && Measured(r.value)
    ensures r.Failure? ==> JsThrown(r.error)
    decreases 1 + MaxDepth(rows), 1, 0
  {
    var cols := JsColumns(rows);
    assert |cols| > 0 by {
      var i :| 0 <= i < |rows| && |JsOwnKeys(rows[i])| > 0;
      JsRowKeysHold(rows, JsOwnKeys(rows[i])[0]);
    }
    var (c, d) := JsLengthHeader(0xa0, |cols|, 0xc);
    var children :- JsSwappedChildren(lib, rows, 0);
    Success(Branch(Sequence(rows), c, d, children))
  }

  /** `dumpArray`: the straight layout, or the transposed one when the rows
      allow it and it is strictly smaller counting three levels deep. */
  function JsDumpArray(lib: Library, items: seq<Value>): (r: Result<Node, EncodeError>)
    requires JsValue(Sequence(items))
    ensures r.Success? ==>
      r.value.origin == Sequence(items) && Measured(r.value) && r.value.buf == [] &&
      (r.value.control / 16 == 8 || r.value.control / 16 == 0xa)
    ensures r.Success? && r.value.control / 16 == 8 ==> Success(r.value) == JsStraight(lib, items)
    ensures r.Success? && r.value.control / 16 == 0xa ==>
      JsSwapAvailable(items) && Success(r.value) == JsSwapped(lib, items) &&
      JsStraight(lib, items).Success? && Size(r.value, 3) < Size(JsStraight(lib, items).value, 3)
    ensures r.Failure? ==> JsThrown(r.error)
    decreases 1 + MaxDepth(items), 2, 0
  {
    var straight :- JsStraight(lib, items);
    if JsSwapAvailable(items) then
      var swapped :- JsSwapped(lib, items);
      if Size(swapped, 3) < Size(straight, 3) then Success(swapped) else Success(straight)
    else Success(straight)
  }

  /** `dumpObject`: each key followed by its value, then the count header. */
  function JsDumpObject(lib: Library, pairs: seq<(Value, Value)>): (r: Result<Node, EncodeError>)
    requires JsValue(Mapping(pairs))
    ensures r.Success? ==>
      r.value.origin == Mapping(pairs) && r.value.control / 16 == 9 && r.value.buf == [] &&
      |r.value.children| == 2 * |pairs| && Measured(r.value)
    ensures r.Failure? ==> JsThrown(r.error)
    decreases 1 + MaxPairDepth(pairs), 1, 0
  {
    var children :- JsDumpProps(lib, pairs);
    var (c, d) := JsLengthHeader(0x90, |pairs|, 0xc);
    Success(Branch(Mapping(pairs), c, d, children))
  }

  function JsDumpItems(lib: Library, items: seq<Value>): (r: Result<seq<Node>, EncodeError>)
    requires JsValue(Sequence(items))
    ensures r.Success? ==> |r.value| == |items|
    ensures r.Success? ==> forall i :: 0 <= i < |items| ==> Measured(r.value[i]) && r.value[i].origin == items[i]
    ensures r.Failure? ==> JsThrown(r.error)
    decreases 1 + MaxDepth(items), 0, |items|
  {
    if |items| == 0 then Success([])
    else
      assert JsValue(items[0]);
      assert MaxDepth(items[1..]) <= MaxDepth(items);
      var head :- JsDumpValue(lib, items[0]);
      var tail :- JsDumpItems(lib, items[1..]);
      NodesCons(items, head, tail);
      Success([head] + tail)
  }

  /** One node per item, in order, after one node more at the front. */
  lemma NodesCons(items: seq<Value>, head: Node, tail: seq<Node>)
    requires |items| > 0 && head.origin == items[0] && Measured(head) && |tail| == |items| - 1
    requires forall i :: 0 <= i < |items[1..]| ==> Measured(tail[i]) && tail[i].origin == items[1..][i]
    ensures forall i :: 0 <= i < |items| ==> Measured(([head] + tail)[i]) && ([head] + tail)[i].origin == items[i]
  {
    forall i | 0 <= i < |items|
      ensures Measured(([head] + tail)[i]) && ([head] + tail)[i].origin == items[i]
    {
      if i > 0 {
        assert items[1..][i - 1] == items[i];
      }
    }
  }

  /** The children of an object: `dumpValue(key)`, a string, then the value. */
  function JsDumpProps(lib: Library, pairs: seq<(Value, Value)>): (r: Result<seq<Node>, EncodeError>)
    requires forall i :: 0 <= i < |pairs| ==> pairs[i].0.Text? && JsValue(pairs[i].1)
    ensures r.Success? ==> |r.value| == 2 * |pairs|
    ensures r.Success? ==> forall i :: 0 <= i < |r.value| ==> Measured(r.value[i])
    ensures r.Failure? ==> JsThrown(r.error)
    decreases 1 + MaxPairDepth(pairs), 0, |pairs|
  {
    if |pairs| == 0 then Success([])
    else
      PairDepthBelow(pairs, 0);
      var key := DumpStr(lib, pairs[0].0.s);
      var value :- JsDumpValue(lib, pairs[0].1);
      var rest :- JsDumpProps(lib, pairs[1..]);
      Success([key, value] + rest)
  }

  function JsSwappedChildren(lib: Library, rows: seq<Value>, k: nat): (r: Result<seq<Node>, EncodeError>)
    requires JsValue(Sequence(rows)) && JsSwapAvailable(rows)
    requires k <= |JsColumns(rows)|
    ensures r.Success? ==> |r.value| == 2 * (|JsColumns(rows)| - k)
    ensures r.Success? ==> forall i :: 0 <= i < |r.value| ==> Measured(r.value[i])
    ensures r.Failure? ==> JsThrown(r.error)
    ensures (forall j :: k <= j < |JsColumns(rows)| ==> JsDumpColumn(lib, rows, j).Success?) ==> r.Success?
    decreases 1 + MaxDepth(rows), 0, |JsColumns(rows)| - k
  {
    if k == |JsColumns(rows)| then Success([])
    else
      var head :- JsDumpColumn(lib, rows, k);
      var rest :- JsSwappedChildren(lib, rows, k + 1);
      MeasuredConcat(head, rest);
      Success(head + rest)
  }

  /** Column `k`: its name, then `dumpArray` of its values. */
  function JsDumpColumn(lib: Library, rows: seq<Value>, k: nat): (r: Result<seq<Node>, EncodeError>)
    requires JsValue(Sequence(rows)) && JsSwapAvailable(rows)
    requires k < |JsColumns(rows)|
    ensures r.Success? ==> |r.value| == 2 && Measured(r.value[0]) && Measured(r.value[1])
    ensures r.Failure? ==> JsThrown(r.error)
    decreases 1 + MaxDepth(rows), 0, 0
  {
    var c := JsColumns(rows)[k];
    JsColumnIsText(rows, c);
    JsColumnFacts(rows, c);
    var values :- JsDumpArray(lib, JsColumnValues(rows, c));
    Success([DumpStr(lib, c.s), values])
  }

  // ----- when the dump throws -----------------------------------------------

  /** The dump throws exactly when the value holds a throwing integer or an
      object with a defined `length`: the straight layout of every array is
      built first, so every member is dumped, and a transposed layout only
      dumps members of its rows again (or lengths, which are not negative). */
  lemma {:induction false} JsDumpFailsIff(lib: Library, v: Value)
    requires JsValue(v)
    ensures JsDumpValue(lib, v).Failure? <==> Throws(v)
    decreases Depth(v), 3, 0
  {
    match v
    case Sequence(items) => JsArrayFailsIff(lib, items);
    case Mapping(pairs) =>
      if !LengthDefined(pairs) {
        JsPropsFailIff(lib, pairs);
      }
    case _ =>
  }

  lemma {:induction false} JsArrayFailsIff(lib: Library, items: seq<Value>)
    requires JsValue(Sequence(items))
    ensures JsDumpArray(lib, items).Failure? <==> Throws(Sequence(items))
    decreases 1 + MaxDepth(items), 2, 0
  {
    JsItemsFailIff(lib, items);
    if JsSwapAvailable(items) && !Throws(Sequence(items)) {
      JsSwappedSucceeds(lib, items);
    }
  }

  lemma {:induction false} JsItemsFailIff(lib: Library, items: seq<Value>)
    requires JsValue(Sequence(items))
    ensures JsDumpItems(lib, items).Failure? <==> Throws(Sequence(items))
    decreases 1 + MaxDepth(items), 0, |items|
  {
    if |items| > 0 {
      assert JsValue(items[0]);
      JsDumpFailsIff(lib, items[0]);
      JsItemsFailIff(lib, items[1..]);
      ThrowsItemsSplit(items);
    }
  }

  /** A list throws when its head or its tail does. */
  lemma ThrowsItemsSplit(items: seq<Value>)
    requires |items| > 0
    ensures Throws(Sequence(items)) <==> Throws(items[0]) || Throws(Sequence(items[1..]))
  {
    if Throws(Sequence(items)) {
      var i :| 0 <= i < |items| && Throws(items[i]);
      if i > 0 {
        assert items[1..][i - 1] == items[i];
      }
    }
    if Throws(Sequence(items[1..])) {
      var i :| 0 <= i < |items[1..]| && Throws(items[1..][i]);
      assert items[i + 1] == items[1..][i];
    }
  }

  lemma {:induction false} JsPropsFailIff(lib: Library, pairs: seq<(Value, Value)>)
    requires forall i :: 0 <= i < |pairs| ==> pairs[i].0.Text? && JsValue(pairs[i].1)
    ensures JsDumpProps(lib, pairs).Failure? <==> PropsThrow(pairs)
    decreases 1 + MaxPairDepth(pairs), 0, |pairs|
  {
    if |pairs| > 0 {
      PairDepthBelow(pairs, 0);
      JsDumpFailsIff(lib, pairs[0].1);
      JsPropsFailIff(lib, pairs[1..]);
      ThrowsPairsSplit(pairs);
    }
  }

  /** Some value of an object throws when its first value or a later one does. */
  lemma ThrowsPairsSplit(pairs: seq<(Value, Value)>)
    requires |pairs| > 0
    ensures PropsThrow(pairs) <==> Throws(pairs[0].1) || PropsThrow(pairs[1..])
  {
    if PropsThrow(pairs) {
      var i :| 0 <= i < |pairs| && Throws(pairs[i].1);
      if i > 0 {
        assert pairs[1..][i - 1] == pairs[i];
      }
    }
    if PropsThrow(pairs[1..]) {
      var i :| 0 <= i < |pairs[1..]| && Throws(pairs[1..][i].1);
      assert pairs[i + 1] == pairs[1..][i];
    }
  }

  lemma {:induction false} JsSwappedSucceeds(lib: Library, rows: seq<Value>)
    requires JsValue(Sequence(rows)) && JsSwapAvailable(rows) && !Throws(Sequence(rows))
    ensures JsSwapped(lib, rows).Success?
    decreases 1 + MaxDepth(rows), 1, 0
  {
    JsSwappedChildrenSucceed(lib, rows, 0);
  }

  lemma {:induction false} JsSwappedChildrenSucceed(lib: Library, rows: seq<Value>, k: nat)
    requires JsValue(Sequence(rows)) && JsSwapAvailable(rows) && !Throws(Sequence(rows))
    requires k <= |JsColumns(rows)|
    ensures JsSwappedChildren(lib, rows, k).Success?
    decreases 1 + MaxDepth(rows), 0, 1
  {
    forall j | k <= j < |JsColumns(rows)|
      ensures JsDumpColumn(lib, rows, j).Success?
    {
      JsColumnSucceeds(lib, rows, j);
    }
  }

  lemma {:induction false} JsColumnSucceeds(lib: Library, rows: seq<Value>, k: nat)
    requires JsValue(Sequence(rows)) && JsSwapAvailable(rows) && !Throws(Sequence(rows))
    requires k < |JsColumns(rows)|
    ensures JsDumpColumn(lib, rows, k).Success?
    decreases 1 + MaxDepth(rows), 0, 0
  {
    var c := JsColumns(rows)[k];
    JsColumnIsText(rows, c);
    JsColumnFacts(rows, c);
    JsArrayFailsIff(lib, JsColumnValues(rows, c));
  }

  // ----- layouts ------------------------------------------------------------

  /** The children of an array's straight layout are its elements dumped, in
      order; they all dump exactly when the children do. */
  lemma {:induction false} JsItemsLayout(lib: Library, items: seq<Value>)
    requires JsValue(Sequence(items))
    ensures JsDumpItems(lib, items).Success? <==> forall i :: 0 <= i < |items| ==> JsDumpValue(lib, items[i]).Success?
    ensures JsDumpItems(lib, items).Success? ==>
      forall i :: 0 <= i < |items| ==> JsDumpItems(lib, items).value[i] == JsDumpValue(lib, items[i]).value
    decreases |items|
  {
    if |items| > 0 {
      assert JsValue(Sequence(items[1..])) by {
        forall i | 0 <= i < |items[1..]| ensures JsValue(items[1..][i]) {
          assert items[1..][i] == items[i + 1];
        }
      }
      JsItemsLayout(lib, items[1..]);
      assert forall i :: 1 <= i < |items| ==> items[1..][i - 1] == items[i];
    }
  }

  /** The straight layout is the count's length header followed by every
      element dumped, in order; it throws exactly when some element does. */
  lemma JsStraightLayout(lib: Library, items: seq<Value>)
    requires JsValue(Sequence(items))
    ensures JsStraight(lib, items).Success? <==> forall i :: 0 <= i < |items| ==> JsDumpValue(lib, items[i]).Success?
    ensures JsStraight(lib, items).Success? ==>
      (JsStraight(lib, items).value.control, JsStraight(lib, items).value.data) == JsLengthHeader(0x80, |items|, 0xc) &&
      forall i :: 0 <= i < |items| ==> JsStraight(lib, items).value.children[i] == JsDumpValue(lib, items[i]).value
  {
    JsItemsLayout(lib, items);
  }

  /** Children `2i` and `2i+1` of an object are key `i` as a string and
      value `i` dumped. */
  lemma {:induction false} JsPropAt(lib: Library, pairs: seq<(Value, Value)>, i: nat)
    requires forall i :: 0 <= i < |pairs| ==> pairs[i].0.Text? && JsValue(pairs[i].1)
    requires i < |pairs| && JsDumpProps(lib, pairs).Success?
    ensures JsDumpValue(lib, pairs[i].1).Success?
    ensures JsDumpProps(lib, pairs).value[2 * i] == DumpStr(lib, pairs[i].0.s)
    ensures JsDumpProps(lib, pairs).value[2 * i + 1] == JsDumpValue(lib, pairs[i].1).value
    decreases i
  {
    if i == 0 {
      JsPropHead(lib, pairs);
    } else {
      JsPropShift(lib, pairs, i);
      JsPropAt(lib, pairs[1..], i - 1);
    }
  }

  /** The first property gives an object's first two nodes. */
  lemma JsPropHead(lib: Library, pairs: seq<(Value, Value)>)
    requires forall i :: 0 <= i < |pairs| ==> pairs[i].0.Text? && JsValue(pairs[i].1)
    requires |pairs| > 0 && JsDumpProps(lib, pairs).Success?
    ensures JsDumpValue(lib, pairs[0].1).Success?
    ensures JsDumpProps(lib, pairs).value[0] == DumpStr(lib, pairs[0].0.s)
    ensures JsDumpProps(lib, pairs).value[1] == JsDumpValue(lib, pairs[0].1).value
  {
    JsPropStep(lib, pairs);
    HeadTwo(JsDumpProps(lib, pairs).value, DumpStr(lib, pairs[0].0.s), JsDumpValue(lib, pairs[0].1).value,
            JsDumpProps(lib, pairs[1..]).value);
  }

  /** Past the first property, an object's nodes are those of the rest
      shifted by two. */
  lemma JsPropShift(lib: Library, pairs: seq<(Value, Value)>, i: nat)
    requires forall i :: 0 <= i < |pairs| ==> pairs[i].0.Text? && JsValue(pairs[i].1)
    requires 0 < i < |pairs| && JsDumpProps(lib, pairs).Success?
    ensures forall i :: 0 <= i < |pairs[1..]| ==> pairs[1..][i].0.Text? && JsValue(pairs[1..][i].1)
    ensures JsDumpProps(lib, pairs[1..]).Success? && pairs[1..][i - 1] == pairs[i]
    ensures JsDumpProps(lib, pairs).value[2 * i] == JsDumpProps(lib, pairs[1..]).value[2 * (i - 1)]
    ensures JsDumpProps(lib, pairs).value[2 * i + 1] == JsDumpProps(lib, pairs[1..]).value[2 * (i - 1) + 1]
  {
    JsPropStep(lib, pairs);
    ShiftTwo(JsDumpProps(lib, pairs).value, DumpStr(lib, pairs[0].0.s), JsDumpValue(lib, pairs[0].1).value,
             JsDumpProps(lib, pairs[1..]).value, i);
    assert forall k :: 0 <= k < |pairs[1..]| ==> pairs[1..][k] == pairs[k + 1];
  }

  lemma JsPropStep(lib: Library, pairs: seq<(Value, Value)>)
    requires forall i :: 0 <= i < |pairs| ==> pairs[i].0.Text? && JsValue(pairs[i].1)
    requires |pairs| > 0 && JsDumpProps(lib, pairs).Success?
    ensures JsDumpValue(lib, pairs[0].1).Success? && JsDumpProps(lib, pairs[1..]).Success?
    ensures JsDumpProps(lib, pairs).value ==
      [DumpStr(lib, pairs[0].0.s), JsDumpValue(lib, pairs[0].1).value] + JsDumpProps(lib, pairs[1..]).value
  {
  }

  /** The children of an object dump exactly when every value does. */
  lemma {:induction false} JsPropsSucceed(lib: Library, pairs: seq<(Value, Value)>)
    requires forall i :: 0 <= i < |pairs| ==> pairs[i].0.Text? && JsValue(pairs[i].1)
    requires forall i :: 0 <= i < |pairs| ==> JsDumpValue(lib, pairs[i].1).Success?
    ensures JsDumpProps(lib, pairs).Success?
    decreases |pairs|
  {
    if |pairs| > 0 {
      assert forall i :: 0 <= i < |pairs[1..]| ==> pairs[1..][i] == pairs[i + 1];
      JsPropsSucceed(lib, pairs[1..]);
    }
  }

  /** An object is the count's length header followed by each key and its
      value, in the object's order; it throws exactly when some value does. */
  lemma JsObjectLayout(lib: Library, pairs: seq<(Value, Value)>)
    requires JsValue(Mapping(pairs))
    ensures JsDumpObject(lib, pairs).Success? <==> forall i :: 0 <= i < |pairs| ==> JsDumpValue(lib, pairs[i].1).Success?
    ensures JsDumpObject(lib, pairs).Success? ==>
      (JsDumpObject(lib, pairs).value.control, JsDumpObject(lib, pairs).value.data) == JsLengthHeader(0x90, |pairs|, 0xc) &&
      forall i :: 0 <= i < |pairs| ==>
        JsDumpObject(lib, pairs).value.children[2 * i] == DumpStr(lib, pairs[i].0.s) &&
        JsDumpObject(lib, pairs).value.children[2 * i + 1] == JsDumpValue(lib, pairs[i].1).value
  {
    if JsDumpObject(lib, pairs).Success? {
      forall i | 0 <= i < |pairs|
        ensures JsDumpValue(lib, pairs[i].1).Success?
        ensures JsDumpObject(lib, pairs).value.children[2 * i] == DumpStr(lib, pairs[i].0.s)
        ensures JsDumpObject(lib, pairs).value.children[2 * i + 1] == JsDumpValue(lib, pairs[i].1).value
      {
        JsPropAt(lib, pairs, i);
      }
    }
    if forall i :: 0 <= i < |pairs| ==> JsDumpValue(lib, pairs[i].1).Success? {
      JsPropsSucceed(lib, pairs);
    }
  }

  /** `JsDumpColumn`, total so that it can be passed around as a function. */
  function JsColumnNodesAt(lib: Library, rows: seq<Value>, j: nat): seq<Node>
  {
    if JsValue(Sequence(rows)) && JsSwapAvailable(rows) && j < |JsColumns(rows)| && JsDumpColumn(lib, rows, j).Success?
    then JsDumpColumn(lib, rows, j).value else []
  }

  /** Column `j`'s nodes as a function of `j`. */
  function JsColumnNodes(lib: Library, rows: seq<Value>): (f: nat -> seq<Node>)
    ensures forall j: nat :: f(j) == JsColumnNodesAt(lib, rows, j)
  {
    (j: nat) => JsColumnNodesAt(lib, rows, j)
  }

  /** `JsSwappedChildren`, total for the same reason. */
  function JsChildrenAt(lib: Library, rows: seq<Value>, k: nat): seq<Node>
  {
    if JsValue(Sequence(rows)) && JsSwapAvailable(rows) && k <= |JsColumns(rows)| && JsSwappedChildren(lib, rows, k).Success?
    then JsSwappedChildren(lib, rows, k).value else []
  }

  lemma JsChildStep(lib: Library, rows: seq<Value>, i: nat)
    requires JsValue(Sequence(rows)) && JsSwapAvailable(rows) && i < |JsColumns(rows)|
    requires JsSwappedChildren(lib, rows, i).Success?
    ensures JsDumpColumn(lib, rows, i).Success? && JsSwappedChildren(lib, rows, i + 1).Success?
    ensures |JsColumnNodesAt(lib, rows, i)| == 2
    ensures JsChildrenAt(lib, rows, i) == JsColumnNodesAt(lib, rows, i) + JsChildrenAt(lib, rows, i + 1)
  {
  }

  /** Whether the transposed children from column `k` on succeed. */
  predicate JsChildOkAt(lib: Library, rows: seq<Value>, k: nat) {
    JsValue(Sequence(rows)) && JsSwapAvailable(rows) && k <= |JsColumns(rows)| && JsSwappedChildren(lib, rows, k).Success?
  }

  /** `JsChildOkAt` as a function of the column. */
  function JsChildOk(lib: Library, rows: seq<Value>): (ok: nat -> bool)
    ensures forall k: nat :: ok(k) == JsChildOkAt(lib, rows, k)
  {
    (k: nat) => JsChildOkAt(lib, rows, k)
  }

  /** `JsChildrenAt` as a function of the column. */
  function JsChildrenFn(lib: Library, rows: seq<Value>): (g: nat -> seq<Node>)
    ensures forall k: nat :: g(k) == JsChildrenAt(lib, rows, k)
  {
    (k: nat) => JsChildrenAt(lib, rows, k)
  }

  /** When the transposed children succeed, so do those from every later
      column. */
  lemma JsChildrenSucceedFrom(lib: Library, rows: seq<Value>, i: nat)
    requires JsValue(Sequence(rows)) && JsSwapAvailable(rows) && i <= |JsColumns(rows)|
    requires JsSwappedChildren(lib, rows, 0).Success?
    ensures JsSwappedChildren(lib, rows, i).Success?
  {
    var ok := JsChildOk(lib, rows);
    forall k: nat | k < |JsColumns(rows)| && ok(k)
      ensures ok(k + 1)
    {
      JsChildStep(lib, rows, k);
    }
    ChainHolds(ok, |JsColumns(rows)|, i);
  }

  /** The transposed children are every column's pair of nodes in turn. */
  lemma JsChildrenPairs(lib: Library, rows: seq<Value>)
    requires JsValue(Sequence(rows)) && JsSwapAvailable(rows) && JsSwappedChildren(lib, rows, 0).Success?
    ensures Unrolls(JsChildrenFn(lib, rows), JsColumnNodes(lib, rows), |JsColumns(rows)|)
  {
    forall i: nat | i < |JsColumns(rows)|
      ensures |JsColumnNodesAt(lib, rows, i)| == 2
      ensures JsChildrenAt(lib, rows, i) == JsColumnNodesAt(lib, rows, i) + JsChildrenAt(lib, rows, i + 1)
    {
      JsChildrenSucceedFrom(lib, rows, i);
      JsChildStep(lib, rows, i);
    }
    JsChildrenSucceedFrom(lib, rows, |JsColumns(rows)|);
  }

  /** The transposed layout is the column count's length header followed, for
      every column in first-seen order, by its name as a string and
      `dumpArray` of its cells (`obj[row][column]` per row). */
  lemma JsSwappedLayout(lib: Library, rows: seq<Value>)
    requires JsValue(Sequence(rows)) && JsSwapAvailable(rows)
    requires JsSwapped(lib, rows).Success?
    ensures (JsSwapped(lib, rows).value.control, JsSwapped(lib, rows).value.data) == JsLengthHeader(0xa0, |JsColumns(rows)|, 0xc)
    ensures forall j :: 0 <= j < |JsColumns(rows)| ==>
      JsColumns(rows)[j].Text? && JsValue(Sequence(JsColumnValues(rows, JsColumns(rows)[j]))) &&
      JsDumpArray(lib, JsColumnValues(rows, JsColumns(rows)[j])).Success? &&
      JsSwapped(lib, rows).value.children[2 * j] == DumpStr(lib, JsColumns(rows)[j].s) &&
      JsSwapped(lib, rows).value.children[2 * j + 1] == JsDumpArray(lib, JsColumnValues(rows, JsColumns(rows)[j])).value
  {
    forall j | 0 <= j < |JsColumns(rows)|
      ensures JsColumns(rows)[j].Text? && JsValue(Sequence(JsColumnValues(rows, JsColumns(rows)[j])))
      ensures JsDumpArray(lib, JsColumnValues(rows, JsColumns(rows)[j])).Success?
      ensures JsSwapped(lib, rows).value.children[2 * j] == DumpStr(lib, JsColumns(rows)[j].s)
      ensures JsSwapped(lib, rows).value.children[2 * j + 1] == JsDumpArray(lib, JsColumnValues(rows, JsColumns(rows)[j])).value
    {
      JsSwappedChild(lib, rows, j);
    }
  }

  lemma JsSwappedChild(lib: Library, rows: seq<Value>, j: nat)
    requires JsValue(Sequence(rows)) && JsSwapAvailable(rows)
    requires JsSwapped(lib, rows).Success? && j < |JsColumns(rows)|
    ensures JsColumns(rows)[j].Text? && JsValue(Sequence(JsColumnValues(rows, JsColumns(rows)[j])))
    ensures JsDumpArray(lib, JsColumnValues(rows, JsColumns(rows)[j])).Success?
    ensures JsSwapped(lib, rows).value.children[2 * j] == DumpStr(lib, JsColumns(rows)[j].s)
    ensures JsSwapped(lib, rows).value.children[2 * j + 1] == JsDumpArray(lib, JsColumnValues(rows, JsColumns(rows)[j])).value
  {
    JsSwappedChildrenAt(lib, rows);
    JsChildrenSucceedFrom(lib, rows, j);
    JsChildStep(lib, rows, j);
    JsColumnParts(lib, rows, j);
    JsColumnPairAt(lib, rows, j);
  }

  /** A transposed node's children are the column nodes from the first on. */
  lemma JsSwappedChildrenAt(lib: Library, rows: seq<Value>)
    requires JsValue(Sequence(rows)) && JsSwapAvailable(rows) && JsSwapped(lib, rows).Success?
    ensures JsSwappedChildren(lib, rows, 0).Success?
    ensures JsSwapped(lib, rows).value.children == JsChildrenAt(lib, rows, 0)
  {
  }

  /** The column's two nodes sit at `2 * j` and `2 * j + 1`. */
  lemma JsColumnPairAt(lib: Library, rows: seq<Value>, j: nat)
    requires JsValue(Sequence(rows)) && JsSwapAvailable(rows) && j < |JsColumns(rows)|
    requires JsSwappedChildren(lib, rows, 0).Success?
    ensures 2 * j + 1 < |JsChildrenAt(lib, rows, 0)| && |JsColumnNodesAt(lib, rows, j)| == 2
    ensures JsChildrenAt(lib, rows, 0)[2 * j] == JsColumnNodesAt(lib, rows, j)[0]
    ensures JsChildrenAt(lib, rows, 0)[2 * j + 1] == JsColumnNodesAt(lib, rows, j)[1]
  {
    JsChildrenPairs(lib, rows);
    PairsIndex(JsChildrenFn(lib, rows), JsColumnNodes(lib, rows), |JsColumns(rows)|, j);
  }

  /** A column's two nodes are its name as a string and its cells dumped. */
  lemma JsColumnParts(lib: Library, rows: seq<Value>, j: nat)
    requires JsValue(Sequence(rows)) && JsSwapAvailable(rows) && j < |JsColumns(rows)|
    requires JsDumpColumn(lib, rows, j).Success?
    ensures JsColumns(rows)[j].Text? && JsValue(Sequence(JsColumnValues(rows, JsColumns(rows)[j])))
    ensures JsDumpArray(lib, JsColumnValues(rows, JsColumns(rows)[j])).Success?
    ensures JsColumnNodesAt(lib, rows, j) ==
      [DumpStr(lib, JsColumns(rows)[j].s), JsDumpArray(lib, JsColumnValues(rows, JsColumns(rows)[j])).value]
  {
    JsColumnIsText(rows, JsColumns(rows)[j]);
    JsColumnFacts(rows, JsColumns(rows)[j]);
  }

  // ----- the entry point ----------------------------------------------------

  /** `stringifyToString` on a new encoder: dump, optimise with the
      JavaScript rules from empty tables, serialise, after `jk!` unless the
      caller passed a false `header`. */
  function JsStringify(lib: Library, v: Value, header: bool): (r: Result<Bytes, EncodeError>)
    requires JsValue(v)
    ensures r.Failure? <==> Throws(v)
    ensures r.Success? ==>
      JsDumpValue(lib, v).Success? && r.value == Dumps(Optimize(JsRules, JsDumpValue(lib, v).value, FreshEncoder).0, header)
    ensures r.Success? && header ==> |r.value| >= 3 && r.value[..3] == Magic
  {
    JsDumpFailsIff(lib, v);
    var p :- JsDumpValue(lib, v);
    Success(Dumps(Optimize(JsRules, p, FreshEncoder).0, header))
  }

  /** `{"length": 1}` is taken for an array, and stringifying it throws where
      a plain object would be written. */
  lemma LengthObjectThrows(lib: Library, header: bool)
    ensures JsValue(Mapping([(Text("length"), Int(1))]))
    ensures JsStringify(lib, Mapping([(Text("length"), Int(1))]), header) == Failure(NotAnArray)
  {
    var pairs := [(Text("length"), Int(1))];
    assert Text("length") in KeysOf(pairs);
    assert LengthDefined(pairs);
  }
}

=== FILE: jsfindings.dfy ===
/** Inputs on which the JavaScript encoder and decoder, as written, disagree
    with each other or with the format, each decoded both as written and by
    the corrected decoder.

    1. The encoder keys its text table by the unreduced hash and writes its
       low byte; the decoder stores by the unreduced hash and looks up the
       byte: `["ab", "ab"]` is written `82 42 61 62 3c e3` and fails with
       slot 0xe3 missing (the hash of `ab` is 3299).
    2. The decoder reads 0x5c as a blob of twelve bytes, not as a
       back-reference: `[b"ab", b"ab"]`, written `82 52 61 62 5c e3`, runs
       out of bytes.
    3. A blob of 0x100 to 0xffff bytes is written under 0x5e with two length
       bytes, which announces one (see `JsRoundTrip.JsLongBlobMisread`).
    4. 0x70 does not empty the tables: `82 41 61 70 3c 61` decodes as
       `["a", "a"]`.
    5. A stream shorter than three bytes cannot be parsed, although the
       encoder writes one for every scalar without the header: `03` (true).
    6. An integer between -0x1fffff and -0x8001 is sent to the varint writer
       unnegated, which throws: -40000 cannot be written.
    7. The transposed layout records a column only when `columns_set[name]`
       is falsy, and a plain object already answers the names it inherits
       from `Object.prototype`: `[{"constructor": 1}, {"constructor": 2}]`
       is written `a0`, which reads back as `undefined`.
    8. Every array shares one undeclared `objlen`, so `[[1, 2]]` throws (see
       `JsObjlen.NestedArrayThrows`). */
module JsFindings {
  import opened Wrappers
  import opened Values
  import opened IntCodec
  import opened Djb
  import opened Proxy
  import opened Encoder
  import opened Optimizer
  import opened Decoder
  import opened TraceSteps
  import opened JsEncoder
  import opened JsDecoder
  import opened JsRoundTrip
  import Findings

  // ----- steps ----------------------------------------------------------------

  /** The first value's node, then the nodes of the others. */
  lemma JsItemsStep(lib: Library, items: seq<Value>)
    requires JsValue(Sequence(items)) && |items| > 0
    requires JsDumpValue(lib, items[0]).Success? && JsDumpItems(lib, items[1..]).Success?
    ensures JsDumpItems(lib, items) == Success([JsDumpValue(lib, items[0]).value] + JsDumpItems(lib, items[1..]).value)
  {
  }

  lemma JsValuePair(x: Value, y: Value)
    requires JsValue(x) && JsValue(y)
    ensures JsValue(Sequence([y])) && JsValue(Sequence([x, y]))
  {
  }

  /** Two values dump to their two nodes. */
  lemma JsTwoItems(lib: Library, x: Value, y: Value)
    requires JsValue(x) && JsValue(y)
    requires JsDumpValue(lib, x).Success? && JsDumpValue(lib, y).Success?
    ensures JsValue(Sequence([x, y]))
    ensures JsDumpItems(lib, [x, y]) == Success([JsDumpValue(lib, x).value, JsDumpValue(lib, y).value])
  {
    var hx := JsDumpValue(lib, x).value;
    var hy := JsDumpValue(lib, y).value;
    JsValuePair(x, y);
    var one: seq<Value> := [y];
    var two: seq<Value> := [x, y];
    assert one[0] == y && one[1..] == [];
    assert JsDumpItems(lib, one[1..]) == Success([]);
    JsItemsStep(lib, one);
    ListOne(hy);
    assert JsDumpItems(lib, one) == Success([hy]);
    assert two[0] == x && two[1..] == one;
    JsItemsStep(lib, two);
    ListTwo(hx, hy);
  }

  /** A pair that cannot be transposed is an array of two. */
  lemma JsPairNode(lib: Library, x: Value, y: Value)
    requires JsValue(Sequence([x, y])) && !JsSwapAvailable([x, y])
    requires JsDumpItems(lib, [x, y]).Success?
    ensures JsDumpValue(lib, Sequence([x, y])) ==
      Success(Branch(Sequence([x, y]), 0x82, [], JsDumpItems(lib, [x, y]).value))
  {
    assert JsLengthHeader(0x80, |[x, y]|, 0xc) == (0x82, []);
    assert JsStraight(lib, [x, y]) == Success(Branch(Sequence([x, y]), 0x82, [], JsDumpItems(lib, [x, y]).value));
  }

  /** One value, then the rest of a run of values. */
  lemma JsManyStep(lib: Library, corrected: bool, n: nat, s: Bytes, st: JsDecoderState, first: JsLoaded, more: JsLoadedMany)
    requires n > 0
    requires JsLoadValue(lib, corrected, s, st) == Success(first)
    requires JsLoadMany(lib, corrected, n - 1, first.rest, first.st) == Success(more)
    ensures JsLoadMany(lib, corrected, n, s, st) == Success(JsLoadedMany([first.v] + more.vs, more.rest, more.st))
  {
  }

  /** Two values read one after the other. */
  lemma JsReadTwo(lib: Library, corrected: bool, s0: Bytes, st0: JsDecoderState, x: JsLoaded, y: JsLoaded)
    requires JsLoadValue(lib, corrected, s0, st0) == Success(x)
    requires JsLoadValue(lib, corrected, x.rest, x.st) == Success(y)
    ensures JsLoadMany(lib, corrected, 2, s0, st0) == Success(JsLoadedMany([x.v, y.v], y.rest, y.st))
  {
    var none := JsLoadedMany([], y.rest, y.st);
    assert JsLoadMany(lib, corrected, 0, y.rest, y.st) == Success(none);
    JsManyStep(lib, corrected, 1, x.rest, x.st, y, none);
    ListOne(y.v);
    JsManyStep(lib, corrected, 2, s0, st0, x, JsLoadedMany([y.v], y.rest, y.st));
    ListTwo(x.v, y.v);
  }

  /** The first of two values reads, the second does not. */
  lemma JsSecondFails(lib: Library, corrected: bool, s0: Bytes, st0: JsDecoderState, x: JsLoaded, e: DecodeError)
    requires JsLoadValue(lib, corrected, s0, st0) == Success(x)
    requires JsLoadValue(lib, corrected, x.rest, x.st) == Failure(e)
    ensures JsLoadMany(lib, corrected, 2, s0, st0) == Failure(e)
  {
    assert JsLoadMany(lib, corrected, 1, x.rest, x.st) == Failure(e);
  }

  /** 0x82 reads two values, or fails with the first error among them. */
  lemma JsPairArray(lib: Library, corrected: bool, t: Bytes, st: JsDecoderState)
    ensures JsLoadMany(lib, corrected, 2, t, st).Success? ==>
      var m := JsLoadMany(lib, corrected, 2, t, st).value;
      JsLoadValue(lib, corrected, [0x82] + t, st) == Success(JsLoaded(Sequence(m.vs), m.rest, m.st))
    ensures JsLoadMany(lib, corrected, 2, t, st).Failure? ==>
      JsLoadValue(lib, corrected, [0x82] + t, st) == Failure(JsLoadMany(lib, corrected, 2, t, st).error)
  {
    JsDispatch(lib, corrected, 0x82, t, st);
  }

  /** A stream that does not start with `jk!` is one value from a new
      decoder. */
  lemma JsParseBare(lib: Library, corrected: bool, s: Bytes)
    requires |s| >= 3 && s[0] != 0x6a
    ensures JsLoadValue(lib, corrected, s, FreshJsDecoder).Success? ==>
      JsParse(lib, corrected, s) == Success(JsLoadValue(lib, corrected, s, FreshJsDecoder).value.v)
    ensures JsLoadValue(lib, corrected, s, FreshJsDecoder).Failure? ==>
      JsParse(lib, corrected, s) == Failure(JsLoadValue(lib, corrected, s, FreshJsDecoder).error)
  {
    assert s[..3][0] == s[0];
  }

  /** UTF-8 text with an inline length, stored at the slot of its bytes. */
  lemma JsShortUtf8Reads(lib: Library, corrected: bool, c: byte, t: Bytes, st: JsDecoderState, s: string)
    requires c / 16 == 4 && c % 16 <= 0xb && c % 16 <= |t|
    requires lib.decode(Utf8, t[..c % 16]) == Some(s)
    ensures JsLoadValue(lib, corrected, [c] + t, st) ==
      Success(JsLoaded(Text(s), t[c % 16..], st.(text := st.text[SlotOf(corrected, t[..c % 16]) := s])))
  {
    JsDispatch(lib, corrected, c, t, st);
  }

  /** A blob with an inline length, stored at the slot of its bytes. */
  lemma JsShortBlobReads(lib: Library, corrected: bool, c: byte, t: Bytes, st: JsDecoderState)
    requires c / 16 == 5 && c % 16 <= 0xb && c % 16 <= |t|
    ensures JsLoadValue(lib, corrected, [c] + t, st) ==
      Success(JsLoaded(Blob(t[..c % 16]), t[c % 16..], st.(blob := st.blob[SlotOf(corrected, t[..c % 16]) := t[..c % 16]])))
  {
    JsDispatch(lib, corrected, c, t, st);
    BlobFamily(lib, corrected, c, t, st, c % 16, t);
  }

  /** The hash of `ab`: 97 * 33 + 98, whose low byte is 0xe3. */
  lemma AbHashes()
    ensures JsHash(Findings.Ab) == 3299 && Hash(Findings.Ab) == 0xe3
  {
    assert ToInt32(0) == 0 && ToInt32(97 * 32) == 3104;
    assert JsHashFrom(3299, []) == 3299;
    assert JsHashFrom(97, [0x62]) == 3299;
    assert JsHashFrom(0, [0x61, 0x62]) == JsHashFrom(97, [0x62]);
    JsHashLowByte(0, Findings.Ab);
  }

  // ----- 1. unreduced text slots ----------------------------------------------

  /** What the text library must do with `ab` for the example. */
  predicate AbCodec(lib: Library) {
    && lib.encodeUtf8(Findings.AbText) == Findings.Ab
    && lib.encodeUtf16Le(Findings.AbText) == [0x61, 0x00, 0x62, 0x00]
    && lib.decode(Utf8, Findings.Ab) == Some(Findings.AbText)
  }

  const AbTwice: seq<Value> := [Text(Findings.AbText), Text(Findings.AbText)]

  /** `82 | 42 61 62 | 3c e3`: the second `ab` refers to slot 0xe3. */
  const AbTwiceBytes: Bytes := [0x82, 0x42, 0x61, 0x62, 0x3c, 0xe3]

  const AbLeaf := Leaf(Text(Findings.AbText), 0x42, [], Findings.Ab)
  const AbRef := Leaf(Text(Findings.AbText), 0x3c, [0xe3], [])

  lemma AbTwiceNode(lib: Library)
    requires AbCodec(lib)
    ensures JsDumpValue(lib, Sequence(AbTwice)) == Success(Branch(Sequence(AbTwice), 0x82, [], [AbLeaf, AbLeaf]))
  {
    var x := Text(Findings.AbText);
    assert LengthHeader(0x40, 2, 0xc) == (0x42, []);
    assert DumpStr(lib, Findings.AbText) == AbLeaf;
    JsTwoItems(lib, x, x);
    assert !JsSwapAvailable([x, x]) by {
      assert !([x, x][0].Sequence? || [x, x][0].Mapping? || [x, x][0].Blob?);
    }
    JsPairNode(lib, x, x);
  }

  /** The encoder keeps the first `ab` in slot 3299 and replaces the second
      by a back-reference carrying 3299's low byte. */
  lemma AbTwiceOptimized()
    ensures var e1 := FreshEncoder.(text := map[3299 := TextSlot(Findings.Ab, 4)]);
      OptimizeAll(JsRules, [AbLeaf, AbLeaf], FreshEncoder) == ([AbLeaf, AbRef], e1)
  {
    var e1 := FreshEncoder.(text := map[3299 := TextSlot(Findings.Ab, 4)]);
    AbHashes();
    assert SlotKey(JavaScript, Findings.Ab) == 3299;
    assert Optimize(JsRules, AbLeaf, FreshEncoder) == (AbLeaf, e1);
    assert Optimize(JsRules, AbLeaf, e1) == (AbRef, e1);
    OptimizeTwo(JsRules, AbLeaf, AbLeaf, FreshEncoder, AbLeaf, AbRef, e1, e1);
  }

  /** The JavaScript encoder writes `["ab", "ab"]` as `82 42 61 62 3c e3`. */
  lemma AbTwiceEncodes(lib: Library)
    requires AbCodec(lib)
    ensures JsStringify(lib, Sequence(AbTwice), false) == Success(AbTwiceBytes)
  {
    AbTwiceNode(lib);
    var p := Branch(Sequence(AbTwice), 0x82, [], [AbLeaf, AbLeaf]);
    OptimizeContainer(JsRules, p, FreshEncoder);
    AbTwiceOptimized();
    SerializeTwo(AbLeaf, AbRef);
    assert Serialize(AbLeaf) == [0x42, 0x61, 0x62] && Serialize(AbRef) == [0x3c, 0xe3];
    assert Serialize(p.(children := [AbLeaf, AbRef])) == AbTwiceBytes;
  }

  /** The first `ab` reads and lands in the slot the decoder computes. */
  lemma AbFirstReads(lib: Library, corrected: bool, tail: Bytes)
    requires AbCodec(lib)
    ensures JsLoadValue(lib, corrected, [0x42] + (Findings.Ab + tail), FreshJsDecoder) ==
      Success(JsLoaded(Text(Findings.AbText), tail,
        FreshJsDecoder.(text := map[SlotOf(corrected, Findings.Ab) := Findings.AbText])))
  {
    var t := Findings.Ab + tail;
    assert t[..2] == Findings.Ab && t[2..] == tail;
    JsShortUtf8Reads(lib, corrected, 0x42, t, FreshJsDecoder, Findings.AbText);
  }

  /** As written: `ab` sits in slot 3299 and slot 0xe3 is empty. */
  lemma AbTwiceMissesAsWritten(lib: Library)
    requires AbCodec(lib)
    ensures JsParse(lib, false, AbTwiceBytes) == Failure(MissingHash(0xe3))
  {
    var r: Bytes := [0x3c] + [0xe3];
    var st1 := FreshJsDecoder.(text := map[3299 := Findings.AbText]);
    AbHashes();
    AbFirstReads(lib, false, r);
    JsDispatch(lib, false, 0x3c, [0xe3], st1);
    assert JsLoadValue(lib, false, r, st1) == Failure(MissingHash(0xe3));
    var t := [0x42] + (Findings.Ab + r);
    JsSecondFails(lib, false, t, FreshJsDecoder, JsLoaded(Text(Findings.AbText), r, st1), MissingHash(0xe3));
    JsPairArray(lib, false, t, FreshJsDecoder);
    assert [0x82] + t == AbTwiceBytes;
    JsParseBare(lib, false, AbTwiceBytes);
  }

  /** Corrected: the decoder reduces the slot as the byte on the wire is
      reduced, and the pair reads back. */
  lemma AbTwiceReadsCorrected(lib: Library)
    requires AbCodec(lib)
    ensures JsParse(lib, true, AbTwiceBytes) == Success(Sequence(AbTwice))
  {
    var r: Bytes := [0x3c] + [0xe3];
    var st1 := FreshJsDecoder.(text := map[0xe3 := Findings.AbText]);
    AbHashes();
    AbFirstReads(lib, true, r);
    JsDispatch(lib, true, 0x3c, [0xe3], st1);
    var y := JsLoaded(Text(Findings.AbText), [], st1);
    assert JsLoadValue(lib, true, r, st1) == Success(y);
    var t := [0x42] + (Findings.Ab + r);
    JsReadTwo(lib, true, t, FreshJsDecoder, JsLoaded(Text(Findings.AbText), r, st1), y);
    JsPairArray(lib, true, t, FreshJsDecoder);
    assert [0x82] + t == AbTwiceBytes;
    JsParseBare(lib, true, AbTwiceBytes);
  }

  /** For every text, the JavaScript encoder's back-reference to it carries
      the low byte of its slot.  As written the decoder stored it under the
      unreduced hash, so whenever that exceeds a byte the reference misses. */
  lemma TextReferenceMisses(lib: Library, s: string, st: JsDecoderState, tail: Bytes)
    requires Faithful(lib)
    requires var buf := DumpStr(lib, s).buf; JsHash(buf) != Hash(buf) && Hash(buf) as int !in st.text
    ensures var p := DumpStr(lib, s);
      JsLoadMany(lib, false, 2, Serialize(p) + ([0x3c, Hash(p.buf)] + tail), st) == Failure(MissingHash(Hash(p.buf)))
  {
    var p := DumpStr(lib, s);
    var h := Hash(p.buf);
    var r := [0x3c] + ([h] + tail);
    assert [0x3c, h] + tail == r;
    DumpStrReadsInJs(lib, false, s, st, r);
    var st1 := st.(text := st.text[SlotOf(false, p.buf) := s]);
    JsDispatch(lib, false, 0x3c, [h] + tail, st1);
    assert ([h] + tail)[0] == h && ([h] + tail)[1..] == tail;
    JsSecondFails(lib, false, Serialize(p) + r, st, JsLoaded(Text(s), r, st1), MissingHash(h));
  }

  /** Corrected: the same back-reference finds the text, whatever the
      tables held before. */
  lemma TextReferenceFinds(lib: Library, s: string, st: JsDecoderState, tail: Bytes)
    requires Faithful(lib)
    ensures var p := DumpStr(lib, s);
      var st1 := st.(text := st.text[Hash(p.buf) as int := s]);
      JsLoadMany(lib, true, 2, Serialize(p) + ([0x3c, Hash(p.buf)] + tail), st) ==
        Success(JsLoadedMany([Text(s), Text(s)], tail, st1))
  {
    var p := DumpStr(lib, s);
    var h := Hash(p.buf);
    var r := [0x3c] + ([h] + tail);
    assert [0x3c, h] + tail == r;
    DumpStrReadsInJs(lib, true, s, st, r);
    var st1 := st.(text := st.text[h as int := s]);
    JsDispatch(lib, true, 0x3c, [h] + tail, st1);
    assert ([h] + tail)[0] == h && ([h] + tail)[1..] == tail;
    JsReadTwo(lib, true, Serialize(p) + r, st, JsLoaded(Text(s), r, st1), JsLoaded(Text(s), tail, st1));
  }

  // ----- 2. blob back-references ----------------------------------------------

  const AbBlobs: seq<Value> := [Blob(Findings.Ab), Blob(Findings.Ab)]

  /** `82 | 52 61 62 | 5c e3`: the second blob refers to slot 0xe3. */
  const AbBlobBytes: Bytes := [0x82, 0x52, 0x61, 0x62, 0x5c, 0xe3]

  const AbBlobLeaf := Leaf(Blob(Findings.Ab), 0x52, [], Findings.Ab)
  const AbBlobRef := Leaf(Blob(Findings.Ab), 0x5c, [0xe3], [])

  lemma AbBlobsNode(lib: Library)
    ensures JsDumpValue(lib, Sequence(AbBlobs)) == Success(Branch(Sequence(AbBlobs), 0x82, [], [AbBlobLeaf, AbBlobLeaf]))
  {
    var x := Blob(Findings.Ab);
    assert JsDumpBuffer(Findings.Ab) == AbBlobLeaf;
    JsTwoItems(lib, x, x);
    assert !JsSwapAvailable([x, x]) by {
      assert forall i :: 0 <= i < |[x, x]| ==> JsOwnKeys([x, x][i]) == [];
    }
    JsPairNode(lib, x, x);
  }

  lemma AbBlobsOptimized()
    ensures var e1 := FreshEncoder.(blob := map[3299 := Findings.Ab]);
      OptimizeAll(JsRules, [AbBlobLeaf, AbBlobLeaf], FreshEncoder) == ([AbBlobLeaf, AbBlobRef], e1)
  {
    var e1 := FreshEncoder.(blob := map[3299 := Findings.Ab]);
    AbHashes();
    assert SlotKey(JavaScript, Findings.Ab) == 3299;
    assert Optimize(JsRules, AbBlobLeaf, FreshEncoder) == (AbBlobLeaf, e1);
    assert Optimize(JsRules, AbBlobLeaf, e1) == (AbBlobRef, e1);
    OptimizeTwo(JsRules, AbBlobLeaf, AbBlobLeaf, FreshEncoder, AbBlobLeaf, AbBlobRef, e1, e1);
  }

  /** The JavaScript encoder writes `[b"ab", b"ab"]` as `82 52 61 62 5c e3`. */
  lemma AbBlobsEncode(lib: Library)
    ensures JsStringify(lib, Sequence(AbBlobs), false) == Success(AbBlobBytes)
  {
    AbBlobsNode(lib);
    var p := Branch(Sequence(AbBlobs), 0x82, [], [AbBlobLeaf, AbBlobLeaf]);
    OptimizeContainer(JsRules, p, FreshEncoder);
    AbBlobsOptimized();
    SerializeTwo(AbBlobLeaf, AbBlobRef);
    assert Serialize(AbBlobLeaf) == [0x52, 0x61, 0x62] && Serialize(AbBlobRef) == [0x5c, 0xe3];
    assert Serialize(p.(children := [AbBlobLeaf, AbBlobRef])) == AbBlobBytes;
  }

  /** As written, for every blob up to 0xff bytes: the back-reference the
      encoder writes after it is read as a twelve-byte blob, and fewer than
      eleven bytes after it run out. */
  lemma BlobReferenceOverruns(lib: Library, b: Bytes, st: JsDecoderState, tail: Bytes)
    requires |b| <= 0xff && |tail| < 11
    ensures JsLoadMany(lib, false, 2, Serialize(JsDumpBuffer(b)) + ([0x5c, Hash(b)] + tail), st) == Failure(Truncated)
  {
    var h := Hash(b);
    var r := [0x5c] + ([h] + tail);
    assert [0x5c, h] + tail == r;
    JsBlobRoundTrip(lib, false, b, st, r);
    var st1 := st.(blob := st.blob[SlotOf(false, b) := b]);
    JsDispatch(lib, false, 0x5c, [h] + tail, st1);
    assert JsLoadStr(lib, false, [h] + tail, 12, None, st1) == Failure(Truncated);
    JsSecondFails(lib, false, Serialize(JsDumpBuffer(b)) + r, st, JsLoaded(Blob(b), r, st1), Truncated);
  }

  /** Corrected, for every blob up to 0xff bytes: the back-reference finds
      it. */
  lemma BlobReferenceFinds(lib: Library, b: Bytes, st: JsDecoderState, tail: Bytes)
    requires |b| <= 0xff
    ensures var st1 := st.(blob := st.blob[Hash(b) as int := b]);
      JsLoadMany(lib, true, 2, Serialize(JsDumpBuffer(b)) + ([0x5c, Hash(b)] + tail), st) ==
        Success(JsLoadedMany([Blob(b), Blob(b)], tail, st1))
  {
    var h := Hash(b);
    var r := [0x5c] + ([h] + tail);
    assert [0x5c, h] + tail == r;
    JsBlobRoundTrip(lib, true, b, st, r);
    var st1 := st.(blob := st.blob[h as int := b]);
    JsDispatch(lib, true, 0x5c, [h] + tail, st1);
    assert ([h] + tail)[0] == h && ([h] + tail)[1..] == tail;
    JsReadTwo(lib, true, Serialize(JsDumpBuffer(b)) + r, st, JsLoaded(Blob(b), r, st1), JsLoaded(Blob(b), tail, st1));
  }

  lemma AbBlobBytesSplit()
    ensures AbBlobBytes == [0x82] + (Serialize(JsDumpBuffer(Findings.Ab)) + ([0x5c, Hash(Findings.Ab)] + []))
  {
    AbHashes();
    assert JsDumpBuffer(Findings.Ab) == AbBlobLeaf;
  }

  lemma AbBlobsTruncatedAsWritten(lib: Library)
    ensures JsParse(lib, false, AbBlobBytes) == Failure(Truncated)
  {
    var t := Serialize(JsDumpBuffer(Findings.Ab)) + ([0x5c, Hash(Findings.Ab)] + []);
    AbBlobBytesSplit();
    BlobReferenceOverruns(lib, Findings.Ab, FreshJsDecoder, []);
    JsPairArray(lib, false, t, FreshJsDecoder);
    JsParseBare(lib, false, AbBlobBytes);
  }

  lemma AbBlobsReadCorrected(lib: Library)
    ensures JsParse(lib, true, AbBlobBytes) == Success(Sequence(AbBlobs))
  {
    var t := Serialize(JsDumpBuffer(Findings.Ab)) + ([0x5c, Hash(Findings.Ab)] + []);
    AbBlobBytesSplit();
    BlobReferenceFinds(lib, Findings.Ab, FreshJsDecoder, []);
    JsPairArray(lib, true, t, FreshJsDecoder);
    JsParseBare(lib, true, AbBlobBytes);
  }

  // ----- 4. 0x70 ----------------------------------------------------------------

  /** As written, a back-reference after 0x70 still finds what the table
      held. */
  lemma RefresherKeeps(lib: Library, h: byte, st: JsDecoderState, tail: Bytes)
    requires h as int in st.text
    ensures JsLoadValue(lib, false, [0x70] + ([0x3c] + ([h] + tail)), st) ==
      Success(JsLoaded(Text(st.text[h as int]), tail, st))
  {
    JsDispatch(lib, false, 0x70, [0x3c] + ([h] + tail), st);
    JsDispatch(lib, false, 0x3c, [h] + tail, st);
    assert ([h] + tail)[0] == h && ([h] + tail)[1..] == tail;
  }

  /** Corrected, a back-reference after 0x70 finds nothing, whatever the
      tables held. */
  lemma RefresherEmpties(lib: Library, h: byte, st: JsDecoderState, tail: Bytes)
    ensures JsLoadValue(lib, true, [0x70] + ([0x3c] + ([h] + tail)), st) == Failure(MissingHash(h))
  {
    var empty := st.(text := map[], blob := map[]);
    JsDispatch(lib, true, 0x70, [0x3c] + ([h] + tail), st);
    JsDispatch(lib, true, 0x3c, [h] + tail, empty);
    assert ([h] + tail)[0] == h && ([h] + tail)[1..] == tail;
  }

  /** `82 | 41 61 | 70 3c 61`: `a`, then a refresh and a reference to `a`. */
  const RefreshBytes: Bytes := [0x82, 0x41, 0x61, 0x70, 0x3c, 0x61]

  predicate ACodec(lib: Library) {
    lib.decode(Utf8, [0x61]) == Some("a")
  }

  lemma RefreshFirst(lib: Library, corrected: bool, tail: Bytes)
    requires ACodec(lib)
    ensures JsLoadValue(lib, corrected, [0x41] + ([0x61] + tail), FreshJsDecoder) ==
      Success(JsLoaded(Text("a"), tail, FreshJsDecoder.(text := map[0x61 := "a"])))
  {
    var t := [0x61] + tail;
    assert t[..1] == [0x61] && t[1..] == tail;
    assert JsHash([0x61]) == 0x61 by {
      assert ToInt32(0) == 0;
    }
    assert Hash([0x61]) == 0x61;
    JsShortUtf8Reads(lib, corrected, 0x41, t, FreshJsDecoder, "a");
  }

  lemma RefreshSplit(r: Bytes)
    requires r == [0x70] + ([0x3c] + ([0x61] + []))
    ensures [0x82] + ([0x41] + ([0x61] + r)) == RefreshBytes
  {
  }

  lemma RefreshKeptAsWritten(lib: Library)
    requires ACodec(lib)
    ensures JsParse(lib, false, RefreshBytes) == Success(Sequence([Text("a"), Text("a")]))
  {
    var r: Bytes := [0x70] + ([0x3c] + ([0x61] + []));
    var st1 := FreshJsDecoder.(text := map[0x61 := "a"]);
    var t := [0x41] + ([0x61] + r);
    RefreshFirst(lib, false, r);
    RefresherKeeps(lib, 0x61, st1, []);
    JsReadTwo(lib, false, t, FreshJsDecoder, JsLoaded(Text("a"), r, st1), JsLoaded(Text("a"), [], st1));
    JsPairArray(lib, false, t, FreshJsDecoder);
    RefreshSplit(r);
    JsParseBare(lib, false, RefreshBytes);
  }

  lemma RefreshEmptiedCorrected(lib: Library)
    requires ACodec(lib)
    ensures JsParse(lib, true, RefreshBytes) == Failure(MissingHash(0x61))
  {
    var r: Bytes := [0x70] + ([0x3c] + ([0x61] + []));
    var st1 := FreshJsDecoder.(text := map[0x61 := "a"]);
    var t := [0x41] + ([0x61] + r);
    RefreshFirst(lib, true, r);
    RefresherEmpties(lib, 0x61, st1, []);
    JsSecondFails(lib, true, t, FreshJsDecoder, JsLoaded(Text("a"), r, st1), MissingHash(0x61));
    JsPairArray(lib, true, t, FreshJsDecoder);
    RefreshSplit(r);
    JsParseBare(lib, true, RefreshBytes);
  }

  // ----- 5. streams shorter than the header -------------------------------------

  /** The values the encoder writes as one byte. */
  predicate OneByte(v: Value) {
    v.Null? || v.Bool? || (v.Int? && 0 <= v.i <= 10)
  }

  lemma OneByteNode(lib: Library, v: Value)
    requires OneByte(v)
    ensures JsDumpValue(lib, v).Success?
    ensures var p := JsDumpValue(lib, v).value;
      p.children == [] && p.data == [] && p.buf == [] && p.control / 16 <= 1 &&
      Optimize(JsRules, p, FreshEncoder).0 == p
  {
  }

  /** Without the header such a value is one byte, which the decoder as
      written refuses. */
  lemma OneByteRejectedAsWritten(lib: Library, v: Value)
    requires OneByte(v)
    ensures JsStringify(lib, v, false).Success? && |JsStringify(lib, v, false).value| == 1
    ensures JsParse(lib, false, JsStringify(lib, v, false).value) == Failure(Truncated)
  {
    OneByteNode(lib, v);
    SerializeChildless(JsDumpValue(lib, v).value);
  }

  /** Corrected, it reads back. */
  lemma OneByteReadsCorrected(lib: Library, v: Value)
    requires OneByte(v)
    ensures JsStringify(lib, v, false).Success?
    ensures JsParse(lib, true, JsStringify(lib, v, false).value) == Success(v)
  {
    OneByteNode(lib, v);
    var p := JsDumpValue(lib, v).value;
    SerializeChildless(p);
    assert JsStringify(lib, v, false).value == [p.control] + [];
    JsDispatch(lib, true, p.control, [], FreshJsDecoder);
    if v.Int? {
      DumpIntReadsInJs(lib, true, v.i, FreshJsDecoder, []);
    }
  }

  // ----- 6. negative integers of the varint tier --------------------------------

  /** -40000 lies between -0x1fffff and -0x8001: stringifying it throws. */
  lemma MidNegativeThrows(lib: Library)
    ensures JsStringify(lib, Int(-40000), true) == Failure(NegativeVarint)
  {
    assert ThrowingInt(-40000);
  }

  // ----- 7. inherited column names ----------------------------------------------

  /** The names every plain object inherits from `Object.prototype`
      (ECMA-262, the properties of the Object prototype object, with the
      legacy accessors of its Annex B). */
  predicate Inherited(k: Value) {
    k.Text? && k.s in {"constructor", "hasOwnProperty", "isPrototypeOf", "propertyIsEnumerable",
      "toLocaleString", "toString", "valueOf", "__proto__", "__defineGetter__",
      "__defineSetter__", "__lookupGetter__", "__lookupSetter__"}
  }

  /** The keys, in order, without the inherited names. */
  function Uninherited(keys: seq<Value>): (r: seq<Value>)
    ensures forall k :: k in r <==> k in keys && !Inherited(k)
  {
    if |keys| == 0 then []
    else (if Inherited(keys[0]) then [] else [keys[0]]) + Uninherited(keys[1..])
  }

  /** `columns` as written: the columns the model keeps, less every name
      `columns_set` already answers. */
  function JsColumnsAsWritten(rows: seq<Value>): (r: seq<Value>)
    ensures Distinct(r)
    ensures forall c :: c in r <==> c in JsColumns(rows) && !Inherited(c)
  {
    Dedup(Uninherited(JsRowKeys(rows)))
  }

  /** The children of the transposed layout for the given columns. */
  function ColumnsChildren(lib: Library, rows: seq<Value>, cols: seq<Value>): (r: Result<seq<Node>, EncodeError>)
    requires JsValue(Sequence(rows)) && JsSwapAvailable(rows)
    requires forall c :: c in cols ==> c in JsColumns(rows)
    ensures r.Success? ==> |r.value| == 2 * |cols|
    decreases |cols|
  {
    if |cols| == 0 then Success([])
    else
      JsColumnIsText(rows, cols[0]);
      JsColumnFacts(rows, cols[0]);
      var values :- JsDumpArray(lib, JsColumnValues(rows, cols[0]));
      var rest :- ColumnsChildren(lib, rows, cols[1..]);
      Success([DumpStr(lib, cols[0].s), values] + rest)
  }

  /** `encodeSwappedArray` as written. */
  function JsSwappedAsWritten(lib: Library, rows: seq<Value>): (r: Result<Node, EncodeError>)
    requires JsValue(Sequence(rows)) && JsSwapAvailable(rows)
    ensures r.Success? ==>
      r.value.origin == Sequence(rows) && r.value.buf == [] &&
      (r.value.control, r.value.data) == JsLengthHeader(0xa0, |JsColumnsAsWritten(rows)|, 0xc) &&
      |r.value.children| == 2 * |JsColumnsAsWritten(rows)|
  {
    var cols := JsColumnsAsWritten(rows);
    var (c, d) := JsLengthHeader(0xa0, |cols|, 0xc);
    var children :- ColumnsChildren(lib, rows, cols);
    Success(Branch(Sequence(rows), c, d, children))
  }

  /** `dumpArray` as written, for the outer array: the transposed layout is
      built from the columns as written. */
  function JsDumpArrayAsWritten(lib: Library, items: seq<Value>): (r: Result<Node, EncodeError>)
    requires JsValue(Sequence(items))
    ensures r.Success? ==> JsStraight(lib, items).Success?
    ensures r.Success? && r != JsStraight(lib, items) ==>
      JsSwapAvailable(items) && r == JsSwappedAsWritten(lib, items) &&
      Size(r.value, 3) < Size(JsStraight(lib, items).value, 3)
  {
    var straight :- JsStraight(lib, items);
    if JsSwapAvailable(items) then
      var swapped :- JsSwappedAsWritten(lib, items);
      if Size(swapped, 3) < Size(straight, 3) then Success(swapped) else Success(straight)
    else Success(straight)
  }

  /** Every node counts at least one byte at every depth. */
  lemma {:induction false} SizeAllAtLeast(ps: seq<Node>, depth: int)
    ensures SizeAll(ps, depth) >= |ps|
    decreases |ps|
  {
    if |ps| > 0 {
      SizeAllAtLeast(ps[1..], depth);
    }
  }

  /** Two rows, each an object with the one key `k`. */
  function OneKeyRows(k: string, x: Value, y: Value): seq<Value> {
    [Mapping([(Text(k), x)]), Mapping([(Text(k), y)])]
  }

  /** `[{"constructor": 1}, {"constructor": 2}]`. */
  const ConstructorRows: seq<Value> := OneKeyRows("constructor", Int(1), Int(2))

  lemma DedupTwice(c: Value)
    ensures Dedup([c, c]) == [c]
  {
    var none: seq<Value> := [];
    assert [c, c][1..] == [c] && [c][1..] == [] && none + [c] == [c];
    assert DedupInto(none, [c, c]) == DedupInto([c], [c]);
  }

  lemma DedupNothing()
    ensures Dedup([]) == []
  {
  }

  lemma UninheritedTwice(c: Value)
    requires Inherited(c)
    ensures Uninherited([c, c]) == []
  {
    assert [c, c][1..] == [c] && [c][1..] == [];
    assert Uninherited([c]) == [] + Uninherited([]);
  }

  lemma OneKeyRowKeys(k: string, x: Value, y: Value)
    ensures JsRowKeys(OneKeyRows(k, x, y)) == [Text(k), Text(k)]
  {
    var rows := OneKeyRows(k, x, y);
    assert JsOwnKeys(rows[0]) == [Text(k)];
    assert JsOwnKeys(rows[1]) == [Text(k)];
    assert rows[1..][0] == rows[1] && rows[1..][1..] == [];
    assert JsRowKeys(rows[1..]) == [Text(k)] + JsRowKeys(rows[1..][1..]);
    assert JsRowKeys(rows) == [Text(k)] + JsRowKeys(rows[1..]);
  }

  lemma OneKeyRowsJs(k: string, x: Value, y: Value)
    requires k != "length" && JsValue(x) && JsValue(y) && !Throws(x) && !Throws(y)
    ensures JsValue(Sequence(OneKeyRows(k, x, y))) && JsSwapAvailable(OneKeyRows(k, x, y))
    ensures !Throws(Sequence(OneKeyRows(k, x, y)))
  {
    var rows := OneKeyRows(k, x, y);
    assert |JsOwnKeys(rows[0])| > 0;
    assert !Throws(rows[0]) && !Throws(rows[1]);
  }

  lemma OneKeyColumns(k: string, x: Value, y: Value)
    ensures JsColumns(OneKeyRows(k, x, y)) == [Text(k)]
  {
    OneKeyRowKeys(k, x, y);
    DedupTwice(Text(k));
  }

  lemma OneKeyColumnsAsWritten(k: string, x: Value, y: Value)
    requires Inherited(Text(k))
    ensures JsColumnsAsWritten(OneKeyRows(k, x, y)) == []
  {
    OneKeyRowKeys(k, x, y);
    UninheritedTwice(Text(k));
    DedupNothing();
  }

  lemma OneKeyCells(k: string, x: Value, y: Value)
    requires x != Absent && y != Absent
    ensures JsColumnValues(OneKeyRows(k, x, y), Text(k)) == [x, y]
  {
    var rows := OneKeyRows(k, x, y);
    assert JsCell(rows[0], Text(k)) == x;
    assert JsCell(rows[1], Text(k)) == y;
  }

  lemma ConstructorColumnsAsWritten()
    ensures JsColumnsAsWritten(ConstructorRows) == []
  {
    assert Inherited(Text("constructor"));
    OneKeyColumnsAsWritten("constructor", Int(1), Int(2));
  }

  lemma ConstructorRowsJs()
    ensures JsValue(Sequence(ConstructorRows)) && JsSwapAvailable(ConstructorRows)
    ensures !Throws(Sequence(ConstructorRows))
  {
    assert !ThrowingInt(1) && !ThrowingInt(2);
    OneKeyRowsJs("constructor", Int(1), Int(2));
  }

  /** Every straight layout of two or more items counts at least three bytes. */
  lemma StraightSizeAtLeast(lib: Library, items: seq<Value>)
    requires JsValue(Sequence(items)) && JsStraight(lib, items).Success? && |items| >= 2
    ensures Size(JsStraight(lib, items).value, 3) >= 3
  {
    SizeAllAtLeast(JsStraight(lib, items).value.children, 2);
  }

  lemma ConstructorStraight(lib: Library)
    ensures JsValue(Sequence(ConstructorRows)) && JsStraight(lib, ConstructorRows).Success?
    ensures Size(JsStraight(lib, ConstructorRows).value, 3) >= 3
  {
    ConstructorRowsJs();
    JsArrayFailsIff(lib, ConstructorRows);
    StraightSizeAtLeast(lib, ConstructorRows);
  }

  /** Without columns, the transposed layout as written is the bare header
      `a0`, one byte at any depth. */
  lemma NoColumnsAsWritten(lib: Library, rows: seq<Value>)
    requires JsValue(Sequence(rows)) && JsSwapAvailable(rows) && JsColumnsAsWritten(rows) == []
    ensures JsSwappedAsWritten(lib, rows) == Success(Branch(Sequence(rows), 0xa0, [], []))
    ensures Size(Branch(Sequence(rows), 0xa0, [], []), 3) == 1
  {
    assert JsLengthHeader(0xa0, 0, 0xc) == (0xa0, []);
    assert ColumnsChildren(lib, rows, []) == Success([]);
  }

  /** As written, the array is its transposed layout when that layout is
      strictly smaller. */
  lemma AsWrittenPicksSwapped(lib: Library, items: seq<Value>, swapped: Node)
    requires JsValue(Sequence(items)) && JsSwapAvailable(items) && JsStraight(lib, items).Success?
    requires JsSwappedAsWritten(lib, items) == Success(swapped)
    requires Size(swapped, 3) < Size(JsStraight(lib, items).value, 3)
    ensures JsDumpArrayAsWritten(lib, items) == Success(swapped)
  {
  }

  /** `a0` reads back as `undefined`, whichever decoder reads it. */
  lemma BareSwappedReadsUndefined(lib: Library, corrected: bool, t: Bytes, st: JsDecoderState)
    ensures JsLoadValue(lib, corrected, [0xa0] + t, st) == Success(JsLoaded(Absent, t, st))
  {
    assert ([0xa0] + t)[0] == 0xa0 && ([0xa0] + t)[1..] == t;
  }

  /** As written, no column survives, so the transposed layout is the one
      byte `a0`, smaller than the straight layout: the whole array is written
      as `a0`, which `BareSwappedReadsUndefined` reads back as `undefined`. */
  lemma ConstructorColumnLost(lib: Library)
    ensures JsValue(Sequence(ConstructorRows))
    ensures JsDumpArrayAsWritten(lib, ConstructorRows) == Success(Branch(Sequence(ConstructorRows), 0xa0, [], []))
    ensures Serialize(Branch(Sequence(ConstructorRows), 0xa0, [], [])) == [0xa0]
  {
    var rows := ConstructorRows;
    ConstructorRowsJs();
    ConstructorStraight(lib);
    ConstructorColumnsAsWritten();
    NoColumnsAsWritten(lib, rows);
    AsWrittenPicksSwapped(lib, rows, Branch(Sequence(rows), 0xa0, [], []));
    assert SerializeAll([]) == [];
  }

  /** Corrected, the column is kept: the transposed layout names
      `constructor` and carries both cells. */
  lemma ConstructorColumnKept(lib: Library)
    ensures JsValue(Sequence(ConstructorRows)) && JsSwapAvailable(ConstructorRows)
    ensures JsColumns(ConstructorRows) == [Text("constructor")]
    ensures JsSwapped(lib, ConstructorRows).Success?
    ensures |JsSwapped(lib, ConstructorRows).value.children| == 2
    ensures JsSwapped(lib, ConstructorRows).value.children[0] == DumpStr(lib, "constructor")
    ensures JsColumnValues(ConstructorRows, Text("constructor")) == [Int(1), Int(2)]
  {
    ConstructorRowsJs();
    OneKeyColumns("constructor", Int(1), Int(2));
    OneKeyCells("constructor", Int(1), Int(2));
    JsSwappedSucceeds(lib, ConstructorRows);
    JsSwappedLayout(lib, ConstructorRows);
  }
}

=== FILE: jsobjlen.dfy ===
/** The shared array count of the JavaScript encoder, as written.
    `encodeStraightArray` assigns `objlen = obj.length` to a variable no
    enclosing function declares, so all arrays share one count.  An array
    reads the count twice: once for its header, right after setting it, and
    once after its elements are dumped, to check that it still equals the
    number of children.  Every array dumped in between overwrites the count,
    and a different length fails the check.  (`dumpObject` declares its own
    `objlen` and leaves the shared count alone.)

    The header is always right, so a dump that gets through every check
    writes the bytes of `JsEncoder`, whose arrays keep their own count.  This
    module follows the shared count through a dump and records the first
    exception: the count's check, or one `JsEncoder` throws too. */
module JsObjlen {
  import opened Wrappers
  import opened Values
  import opened JsEncoder

  // ----- the count through a dump -----------------------------------------

  /** The shared count after `dumpValue(v)` runs with it at `g`, or the
      exception the dump throws first.  Numbers, strings, buffers and the
      literals leave the count alone; an object passes it through its
      values. */
  function ObjlenAfter(lib: Library, v: Value, g: int): (r: Result<int, EncodeError>)
    requires JsValue(v)
    decreases Depth(v), 3, 0
  {
    match v
    case Int(n) => if JsDumpNumber(lib, n).Failure? then Failure(JsDumpNumber(lib, n).error) else Success(g)
    case Sequence(items) => ArrayObjlen(lib, items)
    case Mapping(pairs) => if LengthDefined(pairs) then Failure(NotAnArray) else PropsObjlen(lib, pairs, g)
    case _ => Success(g)
  }

  /** `dumpArray(items)`: the straight layout sets the count to the length,
      dumps the elements and throws unless the count is still the length;
      then, when the rows allow it, the transposed layout dumps its column
      arrays one after another. */
  function ArrayObjlen(lib: Library, items: seq<Value>): (r: Result<int, EncodeError>)
    requires JsValue(Sequence(items))
    decreases 1 + MaxDepth(items), 2, 0
  {
    var g :- ItemsObjlen(lib, items, |items|);
    if g != |items| then Failure(ObjlenMismatch)
    else if JsSwapAvailable(items) then ColumnsObjlen(lib, items, 0, g)
    else Success(g)
  }

  /** `obj.map(dumpValue)`: the elements in order, each from the count the
      one before it left. */
  function ItemsObjlen(lib: Library, items: seq<Value>, g: int): (r: Result<int, EncodeError>)
    requires JsValue(Sequence(items))
    decreases 1 + MaxDepth(items), 0, |items|
  {
    if |items| == 0 then Success(g)
    else
      assert JsValue(items[0]);
      assert MaxDepth(items[1..]) <= MaxDepth(items);
      var g1 :- ObjlenAfter(lib, items[0], g);
      ItemsObjlen(lib, items[1..], g1)
  }

  /** The values of an object in order; its keys are strings. */
  function PropsObjlen(lib: Library, pairs: seq<(Value, Value)>, g: int): (r: Result<int, EncodeError>)
    requires forall i :: 0 <= i < |pairs| ==> pairs[i].0.Text? && JsValue(pairs[i].1)
    decreases 1 + MaxPairDepth(pairs), 0, |pairs|
  {
    if |pairs| == 0 then Success(g)
    else
      PairDepthBelow(pairs, 0);
      var g1 :- ObjlenAfter(lib, pairs[0].1, g);
      PropsObjlen(lib, pairs[1..], g1)
  }

  /** `encodeSwappedArray` from column `k` on: the column's name, a string,
      then `dumpArray` of its values. */
  function ColumnsObjlen(lib: Library, rows: seq<Value>, k: nat, g: int): (r: Result<int, EncodeError>)
    requires JsValue(Sequence(rows)) && JsSwapAvailable(rows)
    requires k <= |JsColumns(rows)|
    decreases 1 + MaxDepth(rows), 1, |JsColumns(rows)| - k
  {
    if k == |JsColumns(rows)| then Success(g)
    else
      var c := JsColumns(rows)[k];
      JsColumnFacts(rows, c);
      var g1 :- ArrayObjlen(lib, JsColumnValues(rows, c));
      ColumnsObjlen(lib, rows, k + 1, g1)
  }

  /** `stringifyToString` as written: the first exception of the dump, the
      count's checks included, and otherwise the bytes `JsEncoder` writes.
      The count is undefined at the first call and left over at later ones;
      the dump never reads it before an array sets it (`StartNeverRead`), so
      it starts at 0 here. */
  function JsStringifyAsWritten(lib: Library, v: Value, header: bool): (r: Result<Bytes, EncodeError>)
    requires JsValue(v)
    ensures r.Success? ==> r == JsStringify(lib, v, header)
    ensures Throws(v) ==> r.Failure?
    ensures JsStringify(lib, v, header).Failure? ==> r.Failure?
  {
    ThrowsFailsAsWritten(lib, v, 0);
    JsDumpFailsIff(lib, v);
    var left :- ObjlenAfter(lib, v, 0);
    JsStringify(lib, v, header)
  }

  // ----- what the count does ----------------------------------------------

  /** An array that gets through its checks leaves the count at its own
      length: a transposed layout ends with a column array, which has one
      value per row. */
  lemma {:induction false} ArrayLeavesLength(lib: Library, items: seq<Value>)
    requires JsValue(Sequence(items))
    ensures ArrayObjlen(lib, items).Success? ==> ArrayObjlen(lib, items).value == |items|
    decreases 1 + MaxDepth(items), 2, 0
  {
    var g := ItemsObjlen(lib, items, |items|);
    if g.Success? && g.value == |items| && JsSwapAvailable(items) {
      ColumnsLeaveLength(lib, items, 0, |items|);
    }
  }

  lemma {:induction false} ColumnsLeaveLength(lib: Library, rows: seq<Value>, k: nat, g: int)
    requires JsValue(Sequence(rows)) && JsSwapAvailable(rows)
    requires k <= |JsColumns(rows)| && g == |rows|
    ensures ColumnsObjlen(lib, rows, k, g).Success? ==> ColumnsObjlen(lib, rows, k, g).value == |rows|
    decreases 1 + MaxDepth(rows), 1, |JsColumns(rows)| - k
  {
    if k < |JsColumns(rows)| {
      var c := JsColumns(rows)[k];
      JsColumnFacts(rows, c);
      var a := ArrayObjlen(lib, JsColumnValues(rows, c));
      ArrayLeavesLength(lib, JsColumnValues(rows, c));
      if a.Success? {
        ColumnsLeaveLength(lib, rows, k + 1, a.value);
      }
    }
  }

  /** Every exception of `JsEncoder` is raised as written too: where the
      corrected dump throws, the dump as written has thrown by then. */
  lemma {:induction false} ThrowsFailsAsWritten(lib: Library, v: Value, g: int)
    requires JsValue(v)
    ensures Throws(v) ==> ObjlenAfter(lib, v, g).Failure?
    decreases Depth(v), 3, 0
  {
    match v
    case Int(n) => JsDumpFailsIff(lib, v);
    case Sequence(items) => ItemsThrowFail(lib, items, |items|);
    case Mapping(pairs) =>
      if !LengthDefined(pairs) {
        PropsThrowFail(lib, pairs, g);
      }
    case _ =>
  }

  lemma {:induction false} ItemsThrowFail(lib: Library, items: seq<Value>, g: int)
    requires JsValue(Sequence(items))
    ensures Throws(Sequence(items)) ==> ItemsObjlen(lib, items, g).Failure?
    decreases 1 + MaxDepth(items), 0, |items|
  {
    if |items| > 0 {
      assert JsValue(items[0]);
      assert MaxDepth(items[1..]) <= MaxDepth(items);
      ThrowsItemsSplit(items);
      ThrowsFailsAsWritten(lib, items[0], g);
      var head := ObjlenAfter(lib, items[0], g);
      if head.Success? {
        ItemsThrowFail(lib, items[1..], head.value);
      }
    }
  }

  lemma {:induction false} PropsThrowFail(lib: Library, pairs: seq<(Value, Value)>, g: int)
    requires forall i :: 0 <= i < |pairs| ==> pairs[i].0.Text? && JsValue(pairs[i].1)
    ensures PropsThrow(pairs) ==> PropsObjlen(lib, pairs, g).Failure?
    decreases 1 + MaxPairDepth(pairs), 0, |pairs|
  {
    if |pairs| > 0 {
      PairDepthBelow(pairs, 0);
      ThrowsPairsSplit(pairs);
      ThrowsFailsAsWritten(lib, pairs[0].1, g);
      var head := ObjlenAfter(lib, pairs[0].1, g);
      if head.Success? {
        PropsThrowFail(lib, pairs[1..], head.value);
      }
    }
  }

  /** No array, no object that passes for one: the value holds neither. */
  predicate NoArray(v: Value)
    decreases v
  {
    match v
    case Sequence(_) => false
    case Mapping(pairs) => !LengthDefined(pairs) && forall i :: 0 <= i < |pairs| ==> NoArray(pairs[i].1)
    case _ => true
  }

  /** A value without arrays leaves the count where it was, and throws
      exactly where `JsEncoder` does. */
  lemma {:induction false} NoArrayKeepsObjlen(lib: Library, v: Value, g: int)
    requires JsValue(v) && NoArray(v)
    ensures ObjlenAfter(lib, v, g) == if Throws(v) then Failure(NegativeVarint) else Success(g)
    decreases Depth(v), 3, 0
  {
    match v
    case Int(n) => JsDumpFailsIff(lib, v);
    case Mapping(pairs) => NoArrayPropsKeep(lib, pairs, g);
    case _ =>
  }

  lemma {:induction false} NoArrayPropsKeep(lib: Library, pairs: seq<(Value, Value)>, g: int)
    requires forall i :: 0 <= i < |pairs| ==> pairs[i].0.Text? && JsValue(pairs[i].1) && NoArray(pairs[i].1)
    ensures PropsObjlen(lib, pairs, g) == if PropsThrow(pairs) then Failure(NegativeVarint) else Success(g)
    decreases 1 + MaxPairDepth(pairs), 0, |pairs|
  {
    if |pairs| > 0 {
      PairDepthBelow(pairs, 0);
      ThrowsPairsSplit(pairs);
      NoArrayKeepsObjlen(lib, pairs[0].1, g);
      NoArrayPropsKeep(lib, pairs[1..], g);
    }
  }

  /** The count a dump starts from decides nothing: whether the dump throws,
      and what, is the same from any start. */
  lemma {:induction false} StartNeverRead(lib: Library, v: Value, g1: int, g2: int)
    requires JsValue(v)
    ensures ObjlenAfter(lib, v, g1).Failure? <==> ObjlenAfter(lib, v, g2).Failure?
    ensures ObjlenAfter(lib, v, g1).Failure? ==> ObjlenAfter(lib, v, g1).error == ObjlenAfter(lib, v, g2).error
    decreases Depth(v), 3, 0
  {
    match v
    case Mapping(pairs) =>
      if !LengthDefined(pairs) {
        PropsStartNeverRead(lib, pairs, g1, g2);
      }
    case _ =>
  }

  lemma {:induction false} PropsStartNeverRead(lib: Library, pairs: seq<(Value, Value)>, g1: int, g2: int)
    requires forall i :: 0 <= i < |pairs| ==> pairs[i].0.Text? && JsValue(pairs[i].1)
    ensures PropsObjlen(lib, pairs, g1).Failure? <==> PropsObjlen(lib, pairs, g2).Failure?
    ensures PropsObjlen(lib, pairs, g1).Failure? ==> PropsObjlen(lib, pairs, g1).error == PropsObjlen(lib, pairs, g2).error
    decreases 1 + MaxPairDepth(pairs), 0, |pairs|
  {
    if |pairs| > 0 {
      PairDepthBelow(pairs, 0);
      StartNeverRead(lib, pairs[0].1, g1, g2);
      var h1, h2 := ObjlenAfter(lib, pairs[0].1, g1), ObjlenAfter(lib, pairs[0].1, g2);
      if h1.Success? {
        PropsStartNeverRead(lib, pairs[1..], h1.value, h2.value);
      }
    }
  }

  /** The elements before the last leave a count, and the last starts from
      it. */
  lemma {:induction false} ItemsSnoc(lib: Library, xs: seq<Value>, x: Value, g: int)
    requires JsValue(Sequence(xs)) && JsValue(x) && JsValue(Sequence(xs + [x]))
    ensures ItemsObjlen(lib, xs + [x], g) ==
      match ItemsObjlen(lib, xs, g)
      case Failure(e) => Failure(e)
      case Success(g1) => ObjlenAfter(lib, x, g1)
    decreases |xs|
  {
    if |xs| == 0 {
      assert xs + [x] == [x] && [x][1..] == [];
    } else {
      assert (xs + [x])[0] == xs[0] && (xs + [x])[1..] == xs[1..] + [x];
      var head := ObjlenAfter(lib, xs[0], g);
      if head.Success? {
        ItemsSnoc(lib, xs[1..], x, head.value);
      }
    }
  }

  /** An array whose last element is an array that gets through its own
      checks throws when the two lengths differ: the inner array leaves the
      count at its own length, and the outer one checks against that. */
  lemma LastArrayDecides(lib: Library, items: seq<Value>, inner: seq<Value>)
    requires JsValue(Sequence(items)) && JsValue(Sequence(inner)) && JsValue(Sequence(items + [Sequence(inner)]))
    requires ItemsObjlen(lib, items, |items| + 1).Success? && ArrayObjlen(lib, inner).Success?
    ensures |inner| != |items| + 1 ==> ArrayObjlen(lib, items + [Sequence(inner)]) == Failure(ObjlenMismatch)
    ensures |inner| == |items| + 1 && !JsSwapAvailable(items + [Sequence(inner)]) ==>
      ArrayObjlen(lib, items + [Sequence(inner)]) == Success(|inner|)
  {
    ItemsSnoc(lib, items, Sequence(inner), |items| + 1);
    ArrayLeavesLength(lib, inner);
  }

  /** `[[1, 2]]`: the inner array leaves the count at 2 and the outer one
      expects 1, so stringifying throws as written; with a count of its own
      per array it is written. */
  lemma NestedArrayThrows(lib: Library, header: bool)
    ensures JsValue(Sequence([Sequence([Int(1), Int(2)])]))
    ensures JsStringify(lib, Sequence([Sequence([Int(1), Int(2)])]), header).Success?
    ensures JsStringifyAsWritten(lib, Sequence([Sequence([Int(1), Int(2)])]), header) == Failure(ObjlenMismatch)
  {
    var inner := [Int(1), Int(2)];
    var v := Sequence([Sequence(inner)]);
    OneTwoCompletes(lib);
    assert !Throws(v) by {
      assert [Sequence(inner)][0] == Sequence(inner);
    }
    assert [] + [Sequence(inner)] == [Sequence(inner)];
    LastArrayDecides(lib, [], inner);
    JsDumpFailsIff(lib, v);
  }

  /** `[1, 2]` gets through its check and leaves the count at 2. */
  lemma OneTwoCompletes(lib: Library)
    ensures JsValue(Sequence([Int(1), Int(2)])) && !Throws(Sequence([Int(1), Int(2)]))
    ensures ArrayObjlen(lib, [Int(1), Int(2)]) == Success(2)
  {
    var inner := [Int(1), Int(2)];
    assert !Throws(inner[0]) && !Throws(inner[1]);
    assert ItemsObjlen(lib, inner, 2) == Success(2) by {
      assert inner[1..][1..] == [];
    }
    assert !JsSwapAvailable(inner) by {
      assert !inner[0].Mapping? && !inner[0].Sequence? && !inner[0].Blob?;
    }
  }
}

=== FILE: jsroundtrip.dfy ===
/** What the JavaScript decoder makes of what the encoders write, value by
    value: the integer tiers, text and short blobs read back whatever the
    tables hold, and so does every blob the Python header tiers write; a blob
    of 0x100 to 0xffff bytes under the JavaScript header does not. */
module JsRoundTrip {
  import Arith
  import opened Wrappers
  import opened Values
  import opened IntCodec
  import opened Djb
  import opened Proxy
  import opened Encoder
  import opened Optimizer
  import opened Decoder
  import opened RoundTrip
  import opened JsEncoder
  import opened Binary64
  import opened JsDecoder

  /** The dispatcher hands a control byte to its family's reader. */
  lemma JsDispatch(lib: Library, corrected: bool, c: byte, t: Bytes, st: JsDecoderState)
    ensures c / 16 == 0 ==> JsLoadValue(lib, corrected, [c] + t, st) == JsLoadSpecial(c, t, st)
    ensures c / 16 == 1 ==> JsLoadValue(lib, corrected, [c] + t, st) == JsLoadInt(c, t, st)
    ensures c / 16 == 2 ==> JsLoadValue(lib, corrected, [c] + t, st) == JsLoadFloat(c, t, st)
    ensures 3 <= c / 16 <= 5 ==> JsLoadValue(lib, corrected, [c] + t, st) == JsLoadString(lib, corrected, c, t, st)
    ensures c / 16 == 7 ==> JsLoadValue(lib, corrected, [c] + t, st) == JsLoadRefresher(lib, corrected, c, t, st)
    ensures c / 16 == 8 ==> JsLoadValue(lib, corrected, [c] + t, st) == JsLoadArray(lib, corrected, c, t, st)
    ensures c / 16 == 0xb ==> JsLoadValue(lib, corrected, [c] + t, st) == JsLoadDelta(c, t, st)
  {
    assert ([c] + t)[0] == c && ([c] + t)[1..] == t;
  }

  // ----- integers -------------------------------------------------------------

  /** Every integer the Python tiers write reads in JavaScript as one number
      that becomes the last integer, consuming exactly its bytes; within 2^53
      of zero that number is the integer written. */
  lemma DumpIntReadsInJs(lib: Library, corrected: bool, n: int, st: JsDecoderState, tail: Bytes)
    ensures var r := JsLoadValue(lib, corrected, Serialize(DumpInt(n)) + tail, st);
      r.Success? && r.value.rest == tail && r.value.v.Int? && r.value.st == st.(lastint := Some(r.value.v.i))
    ensures -TwoTo53 <= n <= TwoTo53 ==>
      JsLoadValue(lib, corrected, Serialize(DumpInt(n)) + tail, st) ==
        Success(JsLoaded(Int(n), tail, st.(lastint := Some(n))))
  {
    var p := DumpInt(n);
    SerializeLeaf(p);
    var t := p.data + tail;
    assert Serialize(p) + tail == [p.control] + t;
    PlainIntRoundTrip(lib, n, FreshDecoder, tail);
    DispatchInt(lib, true, p.control, t, FreshDecoder);
    JsDispatch(lib, corrected, p.control, t, st);
  }

  /** So does every integer the JavaScript encoder writes without throwing. */
  lemma JsIntRoundTrip(lib: Library, corrected: bool, n: int, st: JsDecoderState, tail: Bytes)
    requires Int32(n) && !ThrowingInt(n)
    ensures JsDumpNumber(lib, n).Success?
    ensures JsLoadValue(lib, corrected, Serialize(JsDumpNumber(lib, n).value) + tail, st) ==
      Success(JsLoaded(Int(n), tail, st.(lastint := Some(n))))
  {
    DumpIntReadsInJs(lib, corrected, n, st, tail);
  }

  /** `parseFromArrayBuffer` after `stringifyToArrayBuffer` gives back every
      32-bit integer the encoder writes, whenever the header is written or
      the corrected reader accepts a stream shorter than one. */
  lemma JsStreamIntRoundTrip(lib: Library, corrected: bool, n: int, header: bool)
    requires Int32(n) && !ThrowingInt(n)
    requires header || corrected
    ensures JsStringify(lib, Int(n), header).Success?
    ensures JsParse(lib, corrected, JsStringify(lib, Int(n), header).value) == Success(Int(n))
  {
    var p := DumpInt(n);
    JsStringifyInt(lib, n, header);
    JsIntRoundTrip(lib, corrected, n, FreshJsDecoder, []);
    AppendEmpty(Serialize(p));
    SerializeLeaf(p);
    JsParseDumps(lib, corrected, p, header, JsLoaded(Int(n), [], FreshJsDecoder.(lastint := Some(n))));
  }

  /** A 32-bit integer is stringified as its Python node, which the pass
      keeps from a new encoder. */
  lemma JsStringifyInt(lib: Library, n: int, header: bool)
    requires Int32(n) && !ThrowingInt(n)
    ensures JsStringify(lib, Int(n), header) == Success(Dumps(DumpInt(n), header))
  {
    assert JsDumpValue(lib, Int(n)) == Success(DumpInt(n));
    assert Optimize(JsRules, DumpInt(n), FreshEncoder).0 == DumpInt(n);
  }

  /** A stream that does not begin like the header is read from its first
      byte, and one behind the header from the fourth. */
  lemma JsParseDumps(lib: Library, corrected: bool, p: Node, header: bool, x: JsLoaded)
    requires |Serialize(p)| >= 1 && Serialize(p)[0] != 0x6a
    requires header || corrected
    requires JsLoadValue(lib, corrected, Serialize(p), FreshJsDecoder) == Success(x)
    ensures JsParse(lib, corrected, Dumps(p, header)) == Success(x.v)
  {
    var s := Dumps(p, header);
    if !header && |s| >= 3 {
      assert s[..3][0] == s[0];
    }
  }

  // ----- text -----------------------------------------------------------------

  /** Within 2^53 of zero, a delta integer reads in JavaScript as in Python:
      the delta and the sum are both exact. */
  lemma JsDeltaAgrees(c: byte, t: Bytes, st: JsDecoderState, d: DecoderState)
    requires c / 16 == 0xb && st.lastint == d.lastint
    requires LoadDelta(true, c, t, d).Success?
    requires -TwoTo53 <= ReadDelta(true, c, t).value.0 <= TwoTo53
    requires -TwoTo53 <= LoadDelta(true, c, t, d).value.v.i <= TwoTo53
    ensures JsLoadDelta(c, t, st) == Success(JsLoaded(
      LoadDelta(true, c, t, d).value.v, LoadDelta(true, c, t, d).value.rest,
      st.(lastint := Some(LoadDelta(true, c, t, d).value.v.i))))
  {
  }

  /** The varint of 2^53 + 1, `90 80 80 80 80 80 80 01`, before `tail`. */
  function PastTwoTo53Bytes(tail: Bytes): Bytes {
    [0x90] + ([0x80] + ([0x80] + ([0x80] + ([0x80] + ([0x80] + ([0x80] + ([0x01] + tail)))))))
  }

  /** A zero seven-bit group appended to a varint's continuation bytes. */
  lemma GroupsShift(m: nat)
    requires m > 0
    ensures Groups(m * 128) == Groups(m) + [0x80]
  {
    assert (m * 128) / 128 == m && (m * 128) % 128 == 0;
  }

  lemma PastTwoTo53Groups()
    ensures Groups(0x4000_0000_0000) == [0x90, 0x80, 0x80, 0x80, 0x80, 0x80, 0x80]
  {
    assert Groups(0x10) == [0x90];
    GroupsShift(0x10);
    GroupsShift(0x800);
    GroupsShift(0x4_0000);
    GroupsShift(0x200_0000);
    GroupsShift(0x1_0000_0000);
    GroupsShift(0x80_0000_0000);
  }

  /** The Python encoder writes 2^53 + 1 as `1f 90 80 80 80 80 80 80 01`. */
  lemma PastTwoTo53Written(tail: Bytes)
    ensures Serialize(DumpInt(TwoTo53 + 1)) + tail == [0x1f] + PastTwoTo53Bytes(tail)
  {
    PastTwoTo53Varint();
    var p := DumpInt(TwoTo53 + 1);
    assert p.control == 0x1f && p.data == EncodeInt(TwoTo53 + 1, 0);
    SerializeLeaf(p);
    assert Serialize(p) + tail == [0x1f] + (p.data + tail);
  }

  lemma PastTwoTo53Varint()
    ensures EncodeInt(TwoTo53 + 1, 0) == [0x90, 0x80, 0x80, 0x80, 0x80, 0x80, 0x80, 0x01]
  {
    PastTwoTo53Groups();
    assert (TwoTo53 + 1) / 128 == 0x4000_0000_0000 && (TwoTo53 + 1) % 128 == 1;
  }

  /** One continuation byte of `decodeInt` while the number stays exact. */
  lemma JsVarintStep(b: byte, s: Bytes, acc: nat)
    requires b >= 128 && acc * 128 + (b - 128) <= TwoTo53
    ensures JsReadVarintFrom([b] + s, acc) == JsReadVarintFrom(s, acc * 128 + (b - 128))
  {
    assert ([b] + s)[0] == b && ([b] + s)[1..] == s;
  }

  /** 2^53 + 1 is halfway between the binary64 values 2^53 and 2^53 + 2 and
      rounds to the even one. */
  lemma PastTwoTo53Rounded()
    ensures RoundMagnitude(TwoTo53 + 1) == TwoTo53
  {
    assert Spacing((TwoTo53 + 1) / 2) == 1;
    assert Spacing(TwoTo53 + 1) == 2;
    Arith.ModUnique(TwoTo53 + 1, 2, TwoTo53 / 2, 1);
  }

  /** `decodeInt` of the varint of 2^53 + 1: the seven groups before the last
      are exact, and the last step `2^46 * 128 + 1` rounds. */
  lemma PastTwoTo53Decoded(tail: Bytes)
    ensures JsReadVarintFrom(PastTwoTo53Bytes(tail), 0) == Success(Parsed(TwoTo53, tail))
  {
    var t1: Bytes := [0x01] + tail;
    var t2 := [0x80] + t1;
    var t3 := [0x80] + t2;
    var t4 := [0x80] + t3;
    var t5 := [0x80] + t4;
    var t6 := [0x80] + t5;
    var t7 := [0x80] + t6;
    JsVarintStep(0x90, t7, 0);
    JsVarintStep(0x80, t6, 0x10);
    JsVarintStep(0x80, t5, 0x800);
    JsVarintStep(0x80, t4, 0x4_0000);
    JsVarintStep(0x80, t3, 0x200_0000);
    JsVarintStep(0x80, t2, 0x1_0000_0000);
    JsVarintStep(0x80, t1, 0x80_0000_0000);
    PastTwoTo53Rounded();
    assert t1[0] == 0x01 && t1[1..] == tail;
  }

  /** Python reads back the 2^53 + 1 its encoder writes; JavaScript reads
      2^53, because `decodeInt` accumulates in binary64. */
  lemma PastTwoTo53ReadsRounded(lib: Library, corrected: bool, st: JsDecoderState, tail: Bytes)
    ensures LoadValue(lib, true, Serialize(DumpInt(TwoTo53 + 1)) + tail, FreshDecoder) ==
      Success(Loaded(Int(TwoTo53 + 1), tail, FreshDecoder.(lastint := Some(TwoTo53 + 1))))
    ensures JsLoadValue(lib, corrected, Serialize(DumpInt(TwoTo53 + 1)) + tail, st) ==
      Success(JsLoaded(Int(TwoTo53), tail, st.(lastint := Some(TwoTo53))))
  {
    PlainIntRoundTrip(lib, TwoTo53 + 1, FreshDecoder, tail);
    PastTwoTo53Written(tail);
    PastTwoTo53Decoded(tail);
    JsDispatch(lib, corrected, 0x1f, PastTwoTo53Bytes(tail), st);
  }

  /** The Python header tiers never produce the back-reference controls. */
  lemma HeaderNotReference(family: byte, n: nat, inlineMax: nat)
    requires family % 16 == 0 && inlineMax <= 0xb
    ensures LengthHeader(family, n, inlineMax).0 % 16 != 0xc
  {
  }

  /** A count whose control is not 0x?c reads the same under both inline
      limits. */
  lemma ReadCountLimits(c: byte, t: Bytes)
    requires c % 16 != 0xc
    ensures ReadCount(c, t, 0xb) == ReadCount(c, t, 0xc)
  {
  }

  /** A text payload reads back as the text and is stored at its slot. */
  lemma DumpStrReadsInJs(lib: Library, corrected: bool, s: string, st: JsDecoderState, tail: Bytes)
    requires Faithful(lib)
    ensures var p := DumpStr(lib, s);
      JsLoadValue(lib, corrected, Serialize(p) + tail, st) ==
        Success(JsLoaded(Text(s), tail, st.(text := st.text[SlotOf(corrected, p.buf) := s])))
  {
    var p := DumpStr(lib, s);
    SerializeLeaf(p);
    var t := p.data + (p.buf + tail);
    assert Serialize(p) + tail == [p.control] + t;
    JsDispatch(lib, corrected, p.control, t, st);
    if |lib.encodeUtf16Le(s)| < |lib.encodeUtf8(s)| {
      Utf16ReadsInJs(lib, corrected, s, st, tail);
    } else {
      Utf8ReadsInJs(lib, corrected, s, st, tail);
    }
  }

  /** The UTF-16 header gives the count of code units, then the payload. */
  lemma Utf16ReadsInJs(lib: Library, corrected: bool, s: string, st: JsDecoderState, tail: Bytes)
    requires Faithful(lib) && |lib.encodeUtf16Le(s)| < |lib.encodeUtf8(s)|
    ensures var p := DumpStr(lib, s);
      JsLoadString(lib, corrected, p.control, p.data + (p.buf + tail), st) ==
        Success(JsLoaded(Text(s), tail, st.(text := st.text[SlotOf(corrected, p.buf) := s])))
  {
    var p := DumpStr(lib, s);
    var u16 := lib.encodeUtf16Le(s);
    ReadCountInverts(0x30, |u16| / 2, 0xb, p.buf + tail);
    HeaderNotReference(0x30, |u16| / 2, 0xb);
    assert 2 * (|u16| / 2) == |u16|;
    assert (p.buf + tail)[..|p.buf|] == p.buf && (p.buf + tail)[|p.buf|..] == tail;
  }

  /** The UTF-8 header gives the count of bytes, then the payload. */
  lemma Utf8ReadsInJs(lib: Library, corrected: bool, s: string, st: JsDecoderState, tail: Bytes)
    requires Faithful(lib) && |lib.encodeUtf16Le(s)| >= |lib.encodeUtf8(s)|
    ensures var p := DumpStr(lib, s);
      JsLoadString(lib, corrected, p.control, p.data + (p.buf + tail), st) ==
        Success(JsLoaded(Text(s), tail, st.(text := st.text[SlotOf(corrected, p.buf) := s])))
  {
    var p := DumpStr(lib, s);
    ReadCountInverts(0x40, |lib.encodeUtf8(s)|, 0xc, p.buf + tail);
    assert (p.buf + tail)[..|p.buf|] == p.buf && (p.buf + tail)[|p.buf|..] == tail;
  }

  // ----- blobs ----------------------------------------------------------------

  /** A blob control other than 0x5c reads its count, then that many bytes. */
  lemma BlobFamily(lib: Library, corrected: bool, c: byte, t: Bytes, st: JsDecoderState, n: nat, rest: Bytes)
    requires c / 16 == 5 && c != 0x5c
    requires ReadCount(c, t, 0xc) == Success(Parsed(n, rest))
    ensures JsLoadString(lib, corrected, c, t, st) == JsLoadStr(lib, corrected, rest, n, None, st)
  {
  }

  /** Reading `|b|` raw bytes off `b + tail` yields `b`, stored at its slot. */
  lemma RawBlobReads(lib: Library, corrected: bool, b: Bytes, tail: Bytes, st: JsDecoderState)
    ensures JsLoadStr(lib, corrected, b + tail, |b|, None, st) ==
      Success(JsLoaded(Blob(b), tail, st.(blob := st.blob[SlotOf(corrected, b) := b])))
  {
    assert (b + tail)[..|b|] == b && (b + tail)[|b|..] == tail;
  }

  /** Every blob the Python header tiers write reads back in JavaScript, the
      inline limit of 0xb keeping it clear of 0x5c. */
  lemma DumpBytesReadsInJs(lib: Library, corrected: bool, b: Bytes, st: JsDecoderState, tail: Bytes)
    ensures JsLoadValue(lib, corrected, Serialize(DumpBytes(b)) + tail, st) ==
      Success(JsLoaded(Blob(b), tail, st.(blob := st.blob[SlotOf(corrected, b) := b])))
  {
    var p := DumpBytes(b);
    SerializeLeaf(p);
    var t := p.data + (b + tail);
    assert Serialize(p) + tail == [p.control] + t;
    JsDispatch(lib, corrected, p.control, t, st);
    ReadCountInverts(0x50, |b|, 0xb, b + tail);
    HeaderNotReference(0x50, |b|, 0xb);
    ReadCountLimits(p.control, t);
    BlobFamily(lib, corrected, p.control, t, st, |b|, b + tail);
    RawBlobReads(lib, corrected, b, tail, st);
  }

  /** Up to 0xff bytes the JavaScript blob header is the Python one. */
  lemma ShortBufferIsDumpBytes(b: Bytes)
    requires |b| <= 0xff
    ensures JsDumpBuffer(b) == DumpBytes(b)
  {
  }

  /** So a blob of up to 0xff bytes reads back. */
  lemma JsBlobRoundTrip(lib: Library, corrected: bool, b: Bytes, st: JsDecoderState, tail: Bytes)
    requires |b| <= 0xff
    ensures JsLoadValue(lib, corrected, Serialize(JsDumpBuffer(b)) + tail, st) ==
      Success(JsLoaded(Blob(b), tail, st.(blob := st.blob[SlotOf(corrected, b) := b])))
  {
    ShortBufferIsDumpBytes(b);
    DumpBytesReadsInJs(lib, corrected, b, st, tail);
  }

  /** The two bytes of a length below 0x10000, high byte first. */
  lemma TwoByteLength(n: nat)
    requires n < 0x1_0000
    ensures EncodeInt(n, 2) == [n / 256, n % 256]
  {
    var h := n / 256;
    assert Pow256(2) == 256 * Pow256(1) == 0x1_0000;
    assert h < 256;
    assert BigEndian(h, 1) == [h];
    assert BigEndian(n, 2) == BigEndian(h, 1) + [n % 256];
  }

  /** A blob of 0x100 to 0xffff bytes goes out as 0x5e and two length bytes,
      but 0x5e reads one: the decoder takes the high byte for the length and
      returns that many bytes, starting with the low byte, not the blob. */
  lemma JsLongBlobMisread(lib: Library, corrected: bool, b: Bytes, st: JsDecoderState, tail: Bytes)
    requires 0x100 <= |b| <= 0xffff
    ensures var hi := |b| / 256;
      var body := [|b| % 256] + (b + tail);
      JsLoadValue(lib, corrected, Serialize(JsDumpBuffer(b)) + tail, st) ==
        Success(JsLoaded(Blob(body[..hi]), body[hi..], st.(blob := st.blob[SlotOf(corrected, body[..hi]) := body[..hi]])))
    ensures var r := JsLoadValue(lib, corrected, Serialize(JsDumpBuffer(b)) + tail, st);
      r.Success? && r.value.v != Blob(b)
  {
    var hi := |b| / 256;
    var lo := |b| % 256;
    var body := [lo] + (b + tail);
    var p := JsDumpBuffer(b);
    TwoByteLength(|b|);
    SerializeLeaf(p);
    var t := [hi] + body;
    assert Serialize(p) + tail == [0x5e] + t by {
      assert p.data == [hi, lo];
    }
    JsDispatch(lib, corrected, 0x5e, t, st);
    OneByteCount(hi, body);
    BlobFamily(lib, corrected, 0x5e, t, st, hi, body);
    LongBlobBody(b, tail);
  }

  /** 0x5e with the count byte `hi` reads `hi`. */
  lemma OneByteCount(hi: byte, body: Bytes)
    ensures ReadCount(0x5e, [hi] + body, 0xc) == Success(Parsed(hi, body))
  {
    assert Pow256(1) == 0x100;
    FixedRoundTrip(hi, 1, body);
    assert EncodeInt(hi, 1) == [hi];
  }

  /** The high byte is shorter than the blob, and what it cuts off is not it. */
  lemma LongBlobBody(b: Bytes, tail: Bytes)
    requires 0x100 <= |b| <= 0xffff
    ensures var body := [|b| % 256] + (b + tail);
      |b| / 256 <= |body| && body[..|b| / 256] != b
  {
  }
}

=== FILE: optimizer.dfy ===
/** The optimisation pass every encoder runs over its proxy tree before
    writing it: a pre-order walk that threads the last integer written and the
    text and blob tables.  An integer closer to the previous one than to zero
    becomes a delta (family 0xb0) when that shortens its header; a payload of
    more than one byte already in its table slot becomes a back-reference
    (0x3c for text, 0x5c for blobs) holding the slot number. */
module Optimizer {
  import opened Wrappers
  import opened Values
  import opened IntCodec
  import opened Djb
  import opened Proxy
  import opened Encoder

  datatype Port = Python | JavaScript | Ruby

  /** The variant of the pass.  The ports as written keep `storeShort` and
      `matchFamily` off; the corrected pass turns both on: every payload the
      pass does not replace is stored (as the decoders do), and a text slot
      matches only a payload of the same family (UTF-16LE or UTF-8). */
  datatype Rules = Rules(port: Port, storeShort: bool, matchFamily: bool)

  const PythonRules := Rules(Python, false, false)
  const JsRules := Rules(JavaScript, false, false)
  const RubyRules := Rules(Ruby, false, false)
  const CorrectedRules := Rules(Python, true, true)

  /** A text table entry: the payload bytes and the family (3 or 4) they were
      written in. */
  datatype TextSlot = TextSlot(bytes: Bytes, family: nat)

  /** `lastint`, `texthash` and `blobhash`.  An absent key is an empty slot. */
  datatype EncoderState = EncoderState(
    lastint: Option<int>,
    text: map<int, TextSlot>,
    blob: map<int, Bytes>)

  const FreshEncoder := EncoderState(None, map[], map[])

  /** The slot a payload hashes to: the eight-bit DJB hash, or for JavaScript
      the unreduced one. */
  function SlotKey(port: Port, buf: Bytes): (k: int)
    ensures port != JavaScript ==> 0 <= k < 256 && k == Hash(buf)
    ensures port != JavaScript || |buf| <= ExactHashLength ==> k % 256 == Hash(buf)
  {
    if port == JavaScript then
      JsHashLowByteOf(buf);
      JsHash(buf)
    else Hash(buf)
  }

  function Abs(x: int): nat {
    if x < 0 then -x else x
  }

  /** The delta tiers: 0..5 in 0xb0..0xb5, -5..-1 in 0xb6..0xba, then the same
      wider tiers as integers. */
  function DeltaHeader(delta: int): (h: (byte, Bytes))
    ensures h.0 / 16 == 0xb
    ensures -5 <= delta <= 5 <==> h.0 <= 0xba
    ensures -5 <= delta <= 5 ==> h.1 == []
  {
    if 0 <= delta <= 5 then ((0xb0 + delta) as byte, [])
    else if -5 <= delta <= -1 then ((0xb0 + delta + 11) as byte, [])
    else
      var (nibble, data) := WideInt(delta);
      ((0xb0 + nibble) as byte, data)
  }

  /** The integer branch.  Python and JavaScript try a delta from the last
      integer when one exists and the delta is smaller in magnitude, keep it
      only if its header is strictly shorter, and always remember this
      integer.  Ruby assigns `@lastint` only inside the branch that needs it
      to be set already, so it never rewrites and never remembers. */
  function OptimizeInt(rules: Rules, p: Node, st: EncoderState): (r: (Node, EncoderState))
    requires p.origin.Int?
    ensures r.0.origin == p.origin && r.0.buf == p.buf && r.0.bufLen == p.bufLen && r.0.children == p.children
    ensures r.0 == p || (r.0.control / 16 == 0xb && |r.0.data| < |p.data|)
    ensures r.0 != p ==>
      st.lastint.Some? && Abs(p.origin.i - st.lastint.value) < Abs(p.origin.i) &&
      (r.0.control, r.0.data) == DeltaHeader(p.origin.i - st.lastint.value)
    ensures r.1.text == st.text && r.1.blob == st.blob
    ensures rules.port != Ruby ==> r.1.lastint == Some(p.origin.i)
    ensures rules.port == Ruby ==> r == (p, st)
  {
    var n := p.origin.i;
    if rules.port == Ruby then (p, st)
    else
      var q :=
        match st.lastint
        case None => p
        case Some(last) =>
          var delta := n - last;
          if Abs(delta) < Abs(n) then
            var (c, d) := DeltaHeader(delta);
            if |d| < |p.data| then p.(control := c, data := d) else p
          else p;
      (q, st.(lastint := Some(n)))
  }

  /** The text branch (families 0x30 and 0x40). */
  function OptimizeText(rules: Rules, p: Node, st: EncoderState): (r: (Node, EncoderState))
    ensures r.0.origin == p.origin && r.0.children == p.children
    ensures r.1.lastint == st.lastint && r.1.blob == st.blob
    ensures r.0 != p ==>
      p.bufLen > 1 && r.0.control == 0x3c && r.0.data == [SlotKey(rules.port, p.buf) % 256] &&
      r.0.buf == [] && r.0.bufLen == 0 && r.1 == st
    ensures r.0 != p ==>
      var key := SlotKey(rules.port, p.buf);
      key in st.text && st.text[key].bytes == p.buf && (rules.matchFamily ==> st.text[key].family == p.control / 16)
    ensures r.0 == p && (p.bufLen > 1 || rules.storeShort) ==>
      r.1 == st.(text := st.text[SlotKey(rules.port, p.buf) := TextSlot(p.buf, p.control / 16)])
    ensures r.0 == p && p.bufLen <= 1 && !rules.storeShort ==> r.1 == st
  {
    var key := SlotKey(rules.port, p.buf);
    var family := p.control / 16;
    var stored := st.(text := st.text[key := TextSlot(p.buf, family)]);
    if p.bufLen > 1 then
      if key in st.text && st.text[key].bytes == p.buf && (!rules.matchFamily || st.text[key].family == family)
      then (p.(control := 0x3c, data := [key % 256], buf := [], bufLen := 0), st)
      else (p, stored)
    else if rules.storeShort then (p, stored)
    else (p, st)
  }

  /** The blob branch (family 0x50). */
  function OptimizeBlob(rules: Rules, p: Node, st: EncoderState): (r: (Node, EncoderState))
    ensures r.0.origin == p.origin && r.0.children == p.children
    ensures r.1.lastint == st.lastint && r.1.text == st.text
    ensures r.0 != p ==>
      p.bufLen > 1 && r.0.control == 0x5c && r.0.data == [SlotKey(rules.port, p.buf) % 256] &&
      r.0.buf == [] && r.0.bufLen == 0 && r.1 == st
    ensures r.0 != p ==>
      SlotKey(rules.port, p.buf) in st.blob && st.blob[SlotKey(rules.port, p.buf)] == p.buf
    ensures r.0 == p && (p.bufLen > 1 || rules.storeShort) ==>
      r.1 == st.(blob := st.blob[SlotKey(rules.port, p.buf) := p.buf])
    ensures r.0 == p && p.bufLen <= 1 && !rules.storeShort ==> r.1 == st
  {
    var key := SlotKey(rules.port, p.buf);
    var stored := st.(blob := st.blob[key := p.buf]);
    if p.bufLen > 1 then
      if key in st.blob && st.blob[key] == p.buf
      then (p.(control := 0x5c, data := [key % 256], buf := [], bufLen := 0), st)
      else (p, stored)
    else if rules.storeShort then (p, stored)
    else (p, st)
  }

  /** `_optimize` / `optimize`: dispatch on the family of the control byte;
      every family but integers, text and blobs recurses into its children in
      order.  Nodes the encoders build for integers always carry an integer
      origin; any other node of that family is passed through. */
  function Optimize(rules: Rules, p: Node, st: EncoderState): (r: (Node, EncoderState))
    ensures r.0.origin == p.origin && |r.0.children| == |p.children|
    decreases p, 1
  {
    var family := p.control / 16;
    if family == 1 then
      if p.origin.Int? then OptimizeInt(rules, p, st) else (p, st)
    else if family == 3 || family == 4 then OptimizeText(rules, p, st)
    else if family == 5 then OptimizeBlob(rules, p, st)
    else
      var (children, st') := OptimizeAll(rules, p.children, st);
      (p.(children := children), st')
  }

  function OptimizeAll(rules: Rules, ps: seq<Node>, st: EncoderState): (r: (seq<Node>, EncoderState))
    ensures |r.0| == |ps|
    decreases ps, 0
  {
    if |ps| == 0 then ([], st)
    else
      var (first, st1) := Optimize(rules, ps[0], st);
      var (rest, st2) := OptimizeAll(rules, ps[1..], st1);
      ([first] + rest, st2)
  }

  // ----- properties ---------------------------------------------------------

  /** The pass never makes a tree longer, counted to any depth: a delta is
      kept only when its header is shorter, and a back-reference of two bytes
      replaces a payload of more than one byte. */
  lemma {:induction false} OptimizeNeverLengthens(rules: Rules, p: Node, st: EncoderState, depth: int)
    ensures Size(Optimize(rules, p, st).0, depth) <= Size(p, depth)
    decreases p, 1
  {
    var family := p.control / 16;
    if family != 1 && family != 3 && family != 4 && family != 5 {
      var (children, st') := OptimizeAll(rules, p.children, st);
      if depth != 1 {
        OptimizeAllNeverLengthens(rules, p.children, st, depth - 1);
      }
    }
  }

  lemma {:induction false} OptimizeAllNeverLengthens(rules: Rules, ps: seq<Node>, st: EncoderState, depth: int)
    ensures SizeAll(OptimizeAll(rules, ps, st).0, depth) <= SizeAll(ps, depth)
    decreases ps, 0
  {
    if |ps| > 0 {
      var (first, st1) := Optimize(rules, ps[0], st);
      var (rest, st2) := OptimizeAll(rules, ps[1..], st1);
      OptimizeNeverLengthens(rules, ps[0], st, depth);
      OptimizeAllNeverLengthens(rules, ps[1..], st1, depth);
      assert ([first] + rest)[1..] == rest;
    }
  }

  /** The eight-bit ports only ever fill slots 0 to 255. */
  predicate SlotsInRange(st: EncoderState) {
    (forall k :: k in st.text ==> 0 <= k < 256) && (forall k :: k in st.blob ==> 0 <= k < 256)
  }

  lemma {:induction false} OptimizeKeepsSlotsInRange(rules: Rules, p: Node, st: EncoderState)
    requires rules.port != JavaScript && SlotsInRange(st)
    ensures SlotsInRange(Optimize(rules, p, st).1)
    decreases p, 1
  {
    var family := p.control / 16;
    if family != 1 && family != 3 && family != 4 && family != 5 {
      OptimizeAllKeepsSlotsInRange(rules, p.children, st);
    }
  }

  lemma {:induction false} OptimizeAllKeepsSlotsInRange(rules: Rules, ps: seq<Node>, st: EncoderState)
    requires rules.port != JavaScript && SlotsInRange(st)
    ensures SlotsInRange(OptimizeAll(rules, ps, st).1)
    decreases ps, 0
  {
    if |ps| > 0 {
      OptimizeKeepsSlotsInRange(rules, ps[0], st);
      OptimizeAllKeepsSlotsInRange(rules, ps[1..], Optimize(rules, ps[0], st).1);
    }
  }

  /** An integer written inline (0 to 10, no header bytes) is never rewritten. */
  lemma InlineIntegerKept(rules: Rules, n: int, st: EncoderState)
    requires 0 <= n <= 10
    ensures Optimize(rules, DumpInt(n), st).0 == DumpInt(n)
  {
  }

  /** Ruby never sets its last integer, so from a fresh encoder no integer is
      ever rewritten and the last integer stays unset. */
  lemma {:induction false} RubyNeverRemembers(p: Node, st: EncoderState)
    requires st.lastint.None?
    ensures Optimize(RubyRules, p, st).1.lastint.None?
    ensures p.control / 16 == 1 ==> Optimize(RubyRules, p, st).0 == p
    decreases p, 1
  {
    var family := p.control / 16;
    if family != 1 && family != 3 && family != 4 && family != 5 {
      RubyAllNeverRemember(p.children, st);
    }
  }

  lemma {:induction false} RubyAllNeverRemember(ps: seq<Node>, st: EncoderState)
    requires st.lastint.None?
    ensures OptimizeAll(RubyRules, ps, st).1.lastint.None?
    decreases ps, 0
  {
    if |ps| > 0 {
      RubyNeverRemembers(ps[0], st);
      RubyAllNeverRemember(ps[1..], Optimize(RubyRules, ps[0], st).1);
    }
  }
}

=== FILE: proxy.dfy ===
/** The proxy tree every encoder builds before writing bytes: one node per
    value, holding its control byte, its header bytes (`data`), its payload
    (`buf`) and the nodes of its members.  Serialisation is depth-first:
    control, header, payload, then every child in order. */
module Proxy {
  import opened Values

  /** `bufLen` is the payload length as the host string type counts it: the
      byte count in Python and JavaScript, but the character count for Ruby
      text, whose `length` reads `@buf.length`. */
  datatype Node = Node(
    origin: Value,
    control: byte,
    data: Bytes,
    buf: Bytes,
    bufLen: nat,
    children: seq<Node>)

  /** A node without children whose payload length is its byte count. */
  function Leaf(origin: Value, control: byte, data: Bytes, buf: Bytes): (p: Node)
    ensures Measured(p) && Serialize(p) == [control] + data + buf
  {
    var p := Node(origin, control, data, buf, |buf|, []);
    assert SerializeAll([]) == [];
    p
  }

  /** A container node: a header and children, no payload. */
  function Branch(origin: Value, control: byte, data: Bytes, children: seq<Node>): (p: Node)
    ensures p.buf == [] && p.children == children
    ensures Serialize(p) == [control] + data + SerializeAll(children)
  {
    Node(origin, control, data, [], 0, children)
  }

  /** `__len__(depth)` / `getSize(depth)` / `length(depth)`: the bytes of this
      node, plus the children measured one level shallower unless `depth` is
      1.  Depth 0 (and any depth below 1) counts the whole subtree. */
  function Size(p: Node, depth: int): nat
    decreases p
  {
    1 + |p.data| + p.bufLen + (if depth != 1 then SizeAll(p.children, depth - 1) else 0)
  }

  function SizeAll(ps: seq<Node>, depth: int): nat
    decreases ps
  {
    if |ps| == 0 then 0 else Size(ps[0], depth) + SizeAll(ps[1..], depth)
  }

  /** `__bytes__` / `toString` / `to_s`. */
  function Serialize(p: Node): Bytes
    decreases p
  {
    [p.control] + p.data + p.buf + SerializeAll(p.children)
  }

  function SerializeAll(ps: seq<Node>): Bytes
    decreases ps
  {
    if |ps| == 0 then [] else Serialize(ps[0]) + SerializeAll(ps[1..])
  }

  /** Every payload length in the tree is its byte count. */
  predicate Measured(p: Node)
    decreases p
  {
    p.bufLen == |p.buf| && forall i :: 0 <= i < |p.children| ==> Measured(p.children[i])
  }

  lemma MeasuredConcat(a: seq<Node>, b: seq<Node>)
    requires forall i :: 0 <= i < |a| ==> Measured(a[i])
    requires forall i :: 0 <= i < |b| ==> Measured(b[i])
    ensures forall i :: 0 <= i < |a + b| ==> Measured((a + b)[i])
  {
  }

  /** A node's whole-tree size is the length of its serialisation. */
  lemma {:induction false} SizeIsLength(p: Node, depth: int)
    requires Measured(p) && depth <= 0
    ensures Size(p, depth) == |Serialize(p)|
    decreases p, 1
  {
    SizeAllIsLength(p.children, depth - 1);
  }

  lemma {:induction false} SizeAllIsLength(ps: seq<Node>, depth: int)
    requires forall i :: 0 <= i < |ps| ==> Measured(ps[i])
    requires depth <= 0
    ensures SizeAll(ps, depth) == |SerializeAll(ps)|
    decreases ps, 0
  {
    if |ps| > 0 {
      SizeIsLength(ps[0], depth);
      SizeAllIsLength(ps[1..], depth);
    }
  }

  /** Serialising a run of siblings is serialising each part in turn. */
  lemma {:induction false} SerializeAllAppend(a: seq<Node>, b: seq<Node>)
    ensures SerializeAll(a + b) == SerializeAll(a) + SerializeAll(b)
    decreases |a|
  {
    if |a| == 0 {
      assert a + b == b;
    } else {
      assert (a + b)[0] == a[0];
      assert (a + b)[1..] == a[1..] + b;
      SerializeAllAppend(a[1..], b);
    }
  }

  /** At depth 1 the children are not counted: the node's own bytes only. */
  lemma SizeAtDepthOne(p: Node)
    requires Measured(p)
    ensures Size(p, 1) == |[p.control] + p.data + p.buf|
  {
  }

  /** The stream header a dump may start with: the bytes `jk!`. */
  const Magic: Bytes := [0x6a, 0x6b, 0x21]

  /** `dumps`: the serialised tree, after `jk!` when `header` is set.  Its
      length is the tree's size, plus three with the header, as the encoder
      asserts. */
  function Dumps(p: Node, header: bool): (r: Bytes)
    ensures header ==> |r| >= 3 && r[..3] == Magic && r[3..] == Serialize(p)
    ensures !header ==> r == Serialize(p)
    ensures Measured(p) ==> |r| == Size(p, 0) + (if header then 3 else 0)
  {
    assert Measured(p) ==> Size(p, 0) == |Serialize(p)| by {
      if Measured(p) {
        SizeIsLength(p, 0);
      }
    }
    if header then Magic + Serialize(p) else Serialize(p)
  }
}

=== FILE: roundtrip.dfy ===
/** Decoding what the encoder wrote gives back the value.  The encoder runs
    its first pass and the optimisation pass with the corrected rules; the
    decoder reads fixed-width deltas as signed numbers.  Both keep tables as
    they go, and `Agree` is the invariant that ties the two: the same last
    integer, and every slot the encoder may refer to holds, on the decoder's
    side, the value that slot's payload decodes to. */
module RoundTrip {
  import opened Wrappers
  import opened Values
  import opened IntCodec
  import opened Djb
  import opened Proxy
  import opened Encoder
  import opened Optimizer
  import opened Decoder

  /** The character set a text family is read with. */
  function CharsetOf(family: nat): Charset {
    if family == 3 then Utf16Le else Utf8
  }

  predicate Agree(lib: Library, e: EncoderState, d: DecoderState) {
    && e.lastint == d.lastint
    && (forall k :: k in e.text ==>
          0 <= k < 256 && k as byte in d.text &&
          lib.decode(CharsetOf(e.text[k].family), e.text[k].bytes) == Some(d.text[k as byte]))
    && (forall k :: k in e.blob ==>
          0 <= k < 256 && k as byte in d.blob && d.blob[k as byte] == e.blob[k])
  }

  lemma SerializeLeaf(p: Node)
    requires p.children == []
    ensures Serialize(p) == [p.control] + p.data + p.buf
  {
    assert SerializeAll([]) == [];
  }

  // ----- integers -------------------------------------------------------------

  /** A fixed-width tier of `w` bytes reads back a number in its signed range. */
  lemma FixedTierRoundTrip(n: int, w: nat, tail: Bytes)
    requires FixedWidth(w) && -(Pow256(w) / 2 as int) <= n < Pow256(w) / 2
    ensures ReadWide(true, if w == 4 then 0xb else if w == 2 then 0xc else 0xd, EncodeInt(n, w) + tail) ==
      Success((n, tail))
  {
    FixedRoundTrip(n, w, tail);
    SignedRoundTrip(n, w);
  }

  /** Every wider tier reads back as the number it was written from. */
  lemma WideRoundTrip(n: int, tail: Bytes)
    ensures 0xb <= WideInt(n).0 <= 0xf
    ensures ReadWide(true, WideInt(n).0, WideInt(n).1 + tail) == Success((n, tail))
  {
    if -0x80 <= n <= 0x7f {
      assert Pow256(1) == 0x100;
      FixedTierRoundTrip(n, 1, tail);
    } else if -0x8000 <= n <= 0x7fff {
      assert Pow256(2) == 0x1_0000;
      FixedTierRoundTrip(n, 2, tail);
    } else if -0x8000_0000 <= n <= -0x20_0000 || 0x20_0000 <= n <= 0x7fff_ffff {
      assert Pow256(4) == 0x1_0000_0000;
      FixedTierRoundTrip(n, 4, tail);
    } else if n >= 0 {
      VarintRoundTrip(n, tail);
    } else {
      VarintRoundTrip(-n, tail);
    }
  }

  /** The dispatcher hands a control byte of family 1 or 0xb to its reader. */
  lemma DispatchInt(lib: Library, signed: bool, c: byte, t: Bytes, st: DecoderState)
    ensures c / 16 == 1 ==> LoadValue(lib, signed, [c] + t, st) == LoadInt(c, t, st)
    ensures c / 16 == 0xb ==> LoadValue(lib, signed, [c] + t, st) == LoadDelta(signed, c, t, st)
  {
    assert ([c] + t)[0] == c && ([c] + t)[1..] == t;
  }

  /** An integer written in its own tier decodes to itself. */
  lemma PlainIntRoundTrip(lib: Library, n: int, d: DecoderState, tail: Bytes)
    ensures LoadValue(lib, true, Serialize(DumpInt(n)) + tail, d) ==
      Success(Loaded(Int(n), tail, d.(lastint := Some(n))))
  {
    var p := DumpInt(n);
    SerializeLeaf(p);
    assert Serialize(p) + tail == [p.control] + (p.data + tail);
    DispatchInt(lib, true, p.control, p.data + tail, d);
    if n < 0 || n > 10 {
      WideRoundTrip(n, tail);
    }
  }

  /** A delta header reads back as the delta it was written from. */
  lemma DeltaValue(delta: int, tail: Bytes)
    ensures ReadDelta(true, DeltaHeader(delta).0, DeltaHeader(delta).1 + tail) == Success((delta, tail))
  {
    if 0 <= delta <= 5 {
      assert DeltaHeader(delta) == ((0xb0 + delta) as byte, []);
    } else if -5 <= delta <= -1 {
      assert DeltaHeader(delta) == ((0xb0 + delta + 11) as byte, []);
    } else {
      WideDeltaValue(delta, tail);
    }
  }

  /** A delta beyond -5..5 is written as a wide integer in the low nibble. */
  lemma WideDeltaValue(delta: int, tail: Bytes)
    requires delta < -5 || delta > 5
    ensures ReadDelta(true, DeltaHeader(delta).0, DeltaHeader(delta).1 + tail) == Success((delta, tail))
  {
    WideRoundTrip(delta, tail);
    var h := DeltaHeader(delta);
    assert h == ((0xb0 + WideInt(delta).0) as byte, WideInt(delta).1);
    assert h.0 % 16 == WideInt(delta).0;
  }

  /** A delta from the last integer reads back as their sum. */
  lemma DeltaReads(delta: int, d: DecoderState, tail: Bytes)
    requires d.lastint.Some?
    ensures DeltaHeader(delta).0 / 16 == 0xb
    ensures LoadDelta(true, DeltaHeader(delta).0, DeltaHeader(delta).1 + tail, d) ==
      Success(Loaded(Int(d.lastint.value + delta), tail, d.(lastint := Some(d.lastint.value + delta))))
  {
    DeltaValue(delta, tail);
  }

  /** A delta from `last` decodes to `last + delta`. */
  lemma DeltaRoundTrip(lib: Library, delta: int, d: DecoderState, tail: Bytes)
    requires d.lastint.Some?
    ensures LoadValue(lib, true, [DeltaHeader(delta).0] + (DeltaHeader(delta).1 + tail), d) ==
      Success(Loaded(Int(d.lastint.value + delta), tail, d.(lastint := Some(d.lastint.value + delta))))
  {
    DispatchInt(lib, true, DeltaHeader(delta).0, DeltaHeader(delta).1 + tail, d);
    DeltaReads(delta, d, tail);
  }

  /** The pass keeps an integer's node or replaces it by a delta from the
      last integer, and remembers the integer. */
  lemma OptimizedInt(n: int, e: EncoderState)
    ensures Optimize(CorrectedRules, DumpInt(n), e).1 == e.(lastint := Some(n))
    ensures var q := Optimize(CorrectedRules, DumpInt(n), e).0;
      q == DumpInt(n) ||
      (e.lastint.Some? &&
       Serialize(q) == [DeltaHeader(n - e.lastint.value).0] + DeltaHeader(n - e.lastint.value).1)
  {
    var p := DumpInt(n);
    assert Optimize(CorrectedRules, p, e) == OptimizeInt(CorrectedRules, p, e);
    var q := OptimizeInt(CorrectedRules, p, e).0;
    SerializeLeaf(q);
  }

  /** An integer, delta-encoded or not, decodes to itself and becomes the
      last integer on both sides. */
  lemma IntRoundTrip(lib: Library, n: int, e: EncoderState, d: DecoderState, tail: Bytes)
    requires e.lastint == d.lastint
    ensures Optimize(CorrectedRules, DumpInt(n), e).1 == e.(lastint := Some(n))
    ensures LoadValue(lib, true, Serialize(Optimize(CorrectedRules, DumpInt(n), e).0) + tail, d) ==
      Success(Loaded(Int(n), tail, d.(lastint := Some(n))))
  {
    OptimizedInt(n, e);
    var q := Optimize(CorrectedRules, DumpInt(n), e).0;
    if q == DumpInt(n) {
      PlainIntRoundTrip(lib, n, d, tail);
    } else {
      DeltaIntRoundTrip(lib, n, n - e.lastint.value, Serialize(q), d, tail);
    }
  }

  /** A node serialised as the delta from the last integer decodes to the
      integer itself. */
  lemma DeltaIntRoundTrip(lib: Library, n: int, delta: int, bytes: Bytes, d: DecoderState, tail: Bytes)
    requires d.lastint.Some? && d.lastint.value + delta == n
    requires bytes == [DeltaHeader(delta).0] + DeltaHeader(delta).1
    ensures LoadValue(lib, true, bytes + tail, d) == Success(Loaded(Int(n), tail, d.(lastint := Some(n))))
  {
    AppendTail(bytes, [DeltaHeader(delta).0], DeltaHeader(delta).1, tail);
    DeltaRoundTrip(lib, delta, d, tail);
  }


  // ----- text and blobs -------------------------------------------------------

  /** A count header reads back as the count it was written from. */
  lemma ReadCountInverts(family: byte, n: nat, inlineMax: nat, tail: Bytes)
    requires family % 16 == 0 && inlineMax <= 0xc
    ensures ReadCount(LengthHeader(family, n, inlineMax).0, LengthHeader(family, n, inlineMax).1 + tail, inlineMax) ==
      Success(Parsed(n, tail))
  {
    if n <= inlineMax {
    } else if n <= 0xff {
      assert Pow256(1) == 0x100;
      FixedRoundTrip(n, 1, tail);
    } else if n <= 0xffff {
      assert Pow256(2) == 0x1_0000;
      FixedRoundTrip(n, 2, tail);
    } else {
      VarintRoundTrip(n, tail);
    }
  }

  /** The dispatcher hands a control byte of families 3 to 5 to the string reader. */
  lemma DispatchString(lib: Library, signed: bool, c: byte, t: Bytes, st: DecoderState)
    requires 3 <= c / 16 <= 5
    ensures LoadValue(lib, signed, [c] + t, st) == LoadString(lib, c, t, st)
  {
    assert ([c] + t)[0] == c && ([c] + t)[1..] == t;
  }

  /** Storing a payload on both sides keeps the tables in agreement. */
  lemma AgreeStoreText(lib: Library, e: EncoderState, d: DecoderState, buf: Bytes, family: nat, s: string)
    requires Agree(lib, e, d) && lib.decode(CharsetOf(family), buf) == Some(s)
    ensures Agree(lib, e.(text := e.text[Hash(buf) := TextSlot(buf, family)]), d.(text := d.text[Hash(buf) := s]))
  {
  }

  lemma AgreeStoreBlob(lib: Library, e: EncoderState, d: DecoderState, buf: Bytes)
    requires Agree(lib, e, d)
    ensures Agree(lib, e.(blob := e.blob[Hash(buf) := buf]), d.(blob := d.blob[Hash(buf) := buf]))
  {
  }

  /** A text payload the pass keeps reads back as the text and is stored. */
  lemma StoredTextReads(lib: Library, s: string, d: DecoderState, tail: Bytes)
    requires Faithful(lib)
    ensures var p := DumpStr(lib, s);
      LoadString(lib, p.control, p.data + p.buf + tail, d) ==
        Success(Loaded(Text(s), tail, d.(text := d.text[Hash(p.buf) := s])))
  {
    var p := DumpStr(lib, s);
    var u16 := lib.encodeUtf16Le(s);
    var u8 := lib.encodeUtf8(s);
    assert p.data + p.buf + tail == p.data + (p.buf + tail);
    if |u16| < |u8| {
      ReadCountInverts(0x30, |u16| / 2, 0xb, p.buf + tail);
      assert 2 * (|u16| / 2) == |u16|;
    } else {
      ReadCountInverts(0x40, |u8|, 0xc, p.buf + tail);
    }
    ReadBytesSplits(p.buf, tail);
  }

  /** A text value decodes to itself, through its payload or a back-reference,
      and the tables stay in agreement. */
  lemma TextRoundTrip(lib: Library, s: string, e: EncoderState, d: DecoderState, tail: Bytes)
    requires Faithful(lib) && Agree(lib, e, d)
    ensures var r := LoadValue(lib, true, Serialize(Optimize(CorrectedRules, DumpStr(lib, s), e).0) + tail, d);
      && r.Success? && r.value.v == Text(s) && r.value.rest == tail
      && Agree(lib, Optimize(CorrectedRules, DumpStr(lib, s), e).1, r.value.st)
  {
    var p := DumpStr(lib, s);
    assert Optimize(CorrectedRules, p, e) == OptimizeText(CorrectedRules, p, e);
    if OptimizeText(CorrectedRules, p, e).0 == p {
      StoredTextRoundTrip(lib, s, e, d, tail);
    } else {
      TextReferenceRoundTrip(lib, s, e, d, tail);
    }
  }

  /** A text the pass keeps is written out, read back and stored on both sides. */
  lemma StoredTextRoundTrip(lib: Library, s: string, e: EncoderState, d: DecoderState, tail: Bytes)
    requires Faithful(lib) && Agree(lib, e, d)
    requires OptimizeText(CorrectedRules, DumpStr(lib, s), e).0 == DumpStr(lib, s)
    ensures var (q, e2) := OptimizeText(CorrectedRules, DumpStr(lib, s), e);
      var r := LoadValue(lib, true, Serialize(q) + tail, d);
      r.Success? && r.value.v == Text(s) && r.value.rest == tail && Agree(lib, e2, r.value.st)
  {
    var p := DumpStr(lib, s);
    var e2 := OptimizeText(CorrectedRules, p, e).1;
    var d2 := d.(text := d.text[Hash(p.buf) := s]);
    assert Serialize(p) + tail == [p.control] + (p.data + p.buf + tail) by {
      SerializeLeaf(p);
    }
    assert LoadValue(lib, true, [p.control] + (p.data + p.buf + tail), d) == Success(Loaded(Text(s), tail, d2)) by {
      DispatchString(lib, true, p.control, p.data + p.buf + tail, d);
      StoredTextReads(lib, s, d, tail);
    }
    assert Agree(lib, e2, d2) by {
      AgreeStoreText(lib, e, d, p.buf, p.control / 16, s);
    }
  }

  /** A text the pass replaces by a back-reference reads back from the
      decoder's table, which holds the same text. */
  lemma TextReferenceRoundTrip(lib: Library, s: string, e: EncoderState, d: DecoderState, tail: Bytes)
    requires Faithful(lib) && Agree(lib, e, d)
    requires OptimizeText(CorrectedRules, DumpStr(lib, s), e).0 != DumpStr(lib, s)
    ensures var (q, e2) := OptimizeText(CorrectedRules, DumpStr(lib, s), e);
      var r := LoadValue(lib, true, Serialize(q) + tail, d);
      r.Success? && r.value.v == Text(s) && r.value.rest == tail && Agree(lib, e2, r.value.st)
  {
    var p := DumpStr(lib, s);
    var q := OptimizeText(CorrectedRules, p, e).0;
    var key := Hash(p.buf);
    assert Serialize(q) + tail == [0x3c] + ([key as byte] + tail) by {
      SerializeLeaf(q);
    }
    assert LoadValue(lib, true, [0x3c] + ([key as byte] + tail), d) == LoadString(lib, 0x3c, [key as byte] + tail, d) by {
      DispatchString(lib, true, 0x3c, [key as byte] + tail, d);
    }
  }

  /** A blob payload the pass keeps reads back as the blob and is stored. */
  lemma StoredBlobReads(lib: Library, b: Bytes, d: DecoderState, tail: Bytes)
    ensures var p := DumpBytes(b);
      LoadString(lib, p.control, p.data + (b + tail), d) ==
        Success(Loaded(Blob(b), tail, d.(blob := d.blob[Hash(b) := b])))
  {
    ReadCountInverts(0x50, |b|, 0xb, b + tail);
    assert (b + tail)[..|b|] == b && (b + tail)[|b|..] == tail;
  }

  /** A blob decodes to itself, through its payload or a back-reference, and
      the tables stay in agreement. */
  lemma BlobRoundTrip(lib: Library, b: Bytes, e: EncoderState, d: DecoderState, tail: Bytes)
    requires Agree(lib, e, d)
    ensures var r := LoadValue(lib, true, Serialize(Optimize(CorrectedRules, DumpBytes(b), e).0) + tail, d);
      && r.Success? && r.value.v == Blob(b) && r.value.rest == tail
      && Agree(lib, Optimize(CorrectedRules, DumpBytes(b), e).1, r.value.st)
  {
    var p := DumpBytes(b);
    assert Optimize(CorrectedRules, p, e) == OptimizeBlob(CorrectedRules, p, e);
    if OptimizeBlob(CorrectedRules, p, e).0 == p {
      StoredBlobRoundTrip(lib, b, e, d, tail);
    } else {
      BlobReferenceRoundTrip(lib, b, e, d, tail);
    }
  }

  /** A blob the pass keeps is written out, read back and stored on both sides. */
  lemma StoredBlobRoundTrip(lib: Library, b: Bytes, e: EncoderState, d: DecoderState, tail: Bytes)
    requires Agree(lib, e, d)
    requires OptimizeBlob(CorrectedRules, DumpBytes(b), e).0 == DumpBytes(b)
    ensures var (q, e2) := OptimizeBlob(CorrectedRules, DumpBytes(b), e);
      var r := LoadValue(lib, true, Serialize(q) + tail, d);
      r.Success? && r.value.v == Blob(b) && r.value.rest == tail && Agree(lib, e2, r.value.st)
  {
    var p := DumpBytes(b);
    var e2 := OptimizeBlob(CorrectedRules, p, e).1;
    var d2 := d.(blob := d.blob[Hash(b) := b]);
    assert Serialize(p) + tail == [p.control] + (p.data + (b + tail)) by {
      SerializeLeaf(p);
    }
    assert LoadValue(lib, true, [p.control] + (p.data + (b + tail)), d) == Success(Loaded(Blob(b), tail, d2)) by {
      DispatchString(lib, true, p.control, p.data + (b + tail), d);
      StoredBlobReads(lib, b, d, tail);
    }
    assert Agree(lib, e2, d2) by {
      AgreeStoreBlob(lib, e, d, b);
    }
  }

  /** A blob the pass replaces by a back-reference reads back from the
      decoder's table, which holds the same blob. */
  lemma BlobReferenceRoundTrip(lib: Library, b: Bytes, e: EncoderState, d: DecoderState, tail: Bytes)
    requires Agree(lib, e, d)
    requires OptimizeBlob(CorrectedRules, DumpBytes(b), e).0 != DumpBytes(b)
    ensures var (q, e2) := OptimizeBlob(CorrectedRules, DumpBytes(b), e);
      var r := LoadValue(lib, true, Serialize(q) + tail, d);
      r.Success? && r.value.v == Blob(b) && r.value.rest == tail && Agree(lib, e2, r.value.st)
  {
    var q := OptimizeBlob(CorrectedRules, DumpBytes(b), e).0;
    var key := Hash(b);
    assert Serialize(q) + tail == [0x5c] + ([key as byte] + tail) by {
      SerializeLeaf(q);
    }
    assert LoadValue(lib, true, [0x5c] + ([key as byte] + tail), d) == LoadString(lib, 0x5c, [key as byte] + tail, d) by {
      DispatchString(lib, true, 0x5c, [key as byte] + tail, d);
    }
  }

}

=== FILE: rubydecoder.dfy ===
/** The Ruby decoder (`JKSNDecoder#load`, `load_value`, `decode_int`,
    `load_str`, and the end-of-file guard `IODieWhenEOFRead#read`).  It reads
    null, booleans, JSON literals, integers, floats, text and blobs; every
    container, delta and pragma family raises NotImplementedError.  The
    `corrected` flag selects the behaviour the rest of the format implies
    where the code as written departs from it:
    - a UTF-8 length counts bytes (as written it is doubled, as for UTF-16),
      the charset is UTF-8, and 0x4c is an inline length of 12 (as written
      it is skipped);
    - 0x5c fetches from the blob table (as written, from the text table);
    - a zero-length read yields no bytes (as written it raises, so an empty
      text or blob cannot be read);
    - the stream header compared is `jk!` (as written, `!jk`), and an empty
      stream is merely short (as written, `nil.length` raises). */
module RubyDecoder {
  import opened Wrappers
  import opened Values
  import opened IntCodec
  import opened Djb
  import opened Proxy
  import opened Decoder

  /** `IODieWhenEOFRead#read(n)`: exactly `n` bytes, and a read that returns
      the empty string raises as well. */
  function RubyRead(corrected: bool, s: Bytes, n: nat): (r: Result<(Bytes, Bytes), DecodeError>)
    ensures n > 0 || corrected ==> r == ReadBytes(s, n)
    ensures n == 0 && !corrected ==> r == Failure(Truncated)
  {
    if n == 0 && !corrected then Failure(Truncated)
    else if |s| < n then Failure(Truncated)
    else Success((s[..n], s[n..]))
  }

  /** `load_str`: read `n` bytes, decode them when a charset is given, and
      store the result at the hash of the raw bytes, text and blobs in their
      own tables.  It is Python's `_load_str` except for the empty read and
      for "utf-8le": `force_encoding` raises ArgumentError on that name, once
      the bytes are read. */
  function RubyLoadStr(lib: Library, corrected: bool, s: Bytes, n: nat, charset: Option<Charset>, st: DecoderState): (r: Result<Loaded, DecodeError>)
    ensures charset != Some(Utf8Le) && (n > 0 || corrected) ==> r == LoadStr(lib, s, n, charset, st)
    ensures charset == Some(Utf8Le) && (n > 0 || corrected) ==>
      r == Failure(if |s| < n then Truncated else HostException)
    ensures n == 0 && !corrected ==> r == Failure(Truncated)
  {
    var (buf, rest) :- RubyRead(corrected, s, n);
    match charset
    case None => Success(Loaded(Blob(buf), rest, st.(blob := st.blob[Hash(buf) := buf])))
    case Some(Utf8Le) => Failure(HostException)
    case Some(cs) =>
      match lib.decode(cs, buf)
      case None => Failure(UndecodableText)
      case Some(text) => Success(Loaded(Text(text), rest, st.(text := st.text[Hash(buf) := text])))
  }

  /** Controls no `when` branch matches, so that the loop reads the next
      byte: 0x04..0x0e, 0x21..0x2a, and as written 0x4c. */
  predicate Skipped(corrected: bool, c: byte) {
    (0x04 <= c <= 0x0e) || (0x21 <= c <= 0x2a) || (c == 0x4c && !corrected)
  }

  /** The families `load_value` raises NotImplementedError for. */
  predicate Unimplemented(c: byte) {
    var f := c / 16;
    f == 7 || f == 8 || f == 9 || f == 0xa || f == 0xb || f == 0xf
  }

  /** `load_value`: one value off the front of `s`. */
  function RubyLoadValue(lib: Library, corrected: bool, s: Bytes, st: DecoderState): (r: Result<Loaded, DecodeError>)
    ensures r.Success? ==> Suffix(r.value.rest, s) && |r.value.rest| < |s|
    ensures |s| == 0 ==> r == Failure(Truncated)
    ensures |s| > 0 && Unimplemented(s[0]) ==> r == Failure(NotImplementedFamily(s[0]))
    ensures |s| > 0 && (s[0] / 16 == 6 || s[0] / 16 == 0xc || s[0] / 16 == 0xd || s[0] / 16 == 0xe) ==>
      r == Failure(BadControl(s[0]))
    decreases |s|, 2
  {
    if |s| == 0 then Failure(Truncated)
    else
      var c := s[0];
      var t := s[1..];
      var r :=
        if Skipped(corrected, c) then RubyLoadValue(lib, corrected, t, st)
        else if c / 16 == 0 then RubyLoadSpecial(lib, corrected, c, t, st)
        else if c / 16 == 1 then LoadInt(c, t, st)
        else if c / 16 == 2 then LoadFloat(c, t, st)
        else if 3 <= c / 16 <= 5 then RubyLoadString(lib, corrected, c, t, st)
        else if Unimplemented(c) then Failure(NotImplementedFamily(c))
        else Failure(BadControl(c));
      assert r.Success? ==> Suffix(r.value.rest, s) by {
        if r.Success? {
          assert Suffix(t, s);
          SuffixTrans(r.value.rest, t, s);
        }
      }
      r
  }

  /** 0x00..0x03 and the JSON literal 0x0f, which must be followed by a
      Ruby `String`: text, or a blob, whose binary string the JSON parser
      reads as UTF-8. */
  function RubyLoadSpecial(lib: Library, corrected: bool, c: byte, t: Bytes, st: DecoderState): (r: Result<Loaded, DecodeError>)
    requires c / 16 == 0 && !Skipped(corrected, c)
    ensures r.Success? ==> Suffix(r.value.rest, t)
    ensures c <= 3 ==> r == LoadSpecial(lib, true, c, t, st)
    ensures c == 0x0f && RubyLoadValue(lib, corrected, t, st).Success? ==>
      var x := RubyLoadValue(lib, corrected, t, st).value;
      && (!x.v.Text? && !x.v.Blob? ==> r == Failure(JsonNeedsText))
      && (x.v.Blob? && lib.decode(Utf8, x.v.bytes).None? ==> r == Failure(JsonLiteral))
      && (r.Success? ==> r.value.rest == x.rest && r.value.st == x.st && Some(r.value.v) == lib.parseJson(JsonSource(lib, x.v).value))
    decreases |t| + 1, 1
  {
    if c <= 1 then Success(Loaded(Null, t, st))
    else if c <= 3 then Success(Loaded(Bool(c == 3), t, st))
    else
      var x :- RubyLoadValue(lib, corrected, t, st);
      match JsonSource(lib, x.v)
      case Failure(e) => Failure(e)
      case Success(source) =>
        match lib.parseJson(source)
        case None => Failure(JsonLiteral)
        case Some(j) => Success(Loaded(j, x.rest, x.st))
  }

  /** The text `JSON.parse` reads: a string as it is, a binary string's bytes
      as UTF-8 (undecodable bytes are a parse error); anything else is not a
      `String`. */
  function JsonSource(lib: Library, v: Value): (r: Result<string, DecodeError>)
    ensures v.Text? ==> r == Success(v.s)
    ensures r.Success? <==> v.Text? || (v.Blob? && lib.decode(Utf8, v.bytes).Some?)
    ensures v.Blob? && r.Success? ==> Some(r.value) == lib.decode(Utf8, v.bytes)
    ensures !v.Text? && !v.Blob? ==> r == Failure(JsonNeedsText)
  {
    if v.Text? then Success(v.s)
    else if v.Blob? then
      match lib.decode(Utf8, v.bytes)
      case None => Failure(JsonLiteral)
      case Some(s) => Success(s)
    else Failure(JsonNeedsText)
  }

  /** Text and blobs.  0x3c, and as written 0x5c too, fetch a text slot;
      every other control carries a length. */
  function RubyLoadString(lib: Library, corrected: bool, c: byte, t: Bytes, st: DecoderState): (r: Result<Loaded, DecodeError>)
    requires 3 <= c / 16 <= 5 && !Skipped(corrected, c)
    ensures r.Success? ==> Suffix(r.value.rest, t) && r.value.st.lastint == st.lastint
    ensures c == 0x3c || (c == 0x5c && corrected) ==> r == LoadString(lib, c, t, st)
    ensures c == 0x5c && !corrected && |t| >= 1 ==>
      r == (if t[0] in st.text then Success(Loaded(Text(st.text[t[0]]), t[1..], st)) else Failure(MissingHash(t[0])))
  {
    if c == 0x3c || c == 0x5c then
      var (h, rest) :- ReadBytes(t, 1);
      var slot := h[0];
      if c == 0x3c || !corrected then
        if slot in st.text then Success(Loaded(Text(st.text[slot]), rest, st)) else Failure(MissingHash(slot))
      else
        if slot in st.blob then Success(Loaded(Blob(st.blob[slot]), rest, st)) else Failure(MissingHash(slot))
    else RubyLoadCounted(lib, corrected, c, t, st)
  }

  /** A string with a length: UTF-16 lengths count code units, and as
      written UTF-8 lengths are doubled the same way and the bytes handed to
      the unknown encoding "utf-8le". */
  function RubyLoadCounted(lib: Library, corrected: bool, c: byte, t: Bytes, st: DecoderState): (r: Result<Loaded, DecodeError>)
    requires 3 <= c / 16 <= 5 && c != 0x3c && c != 0x5c && !Skipped(corrected, c)
    ensures r.Success? ==> Suffix(r.value.rest, t) && r.value.st.lastint == st.lastint
    ensures ReadCount(c, t, 0xc).Failure? ==> r == Failure(Truncated)
  {
    var family := c / 16;
    var n :- ReadCount(c, t, if family == 4 then 0xc else 0xb);
    var unit := if family == 3 || (family == 4 && !corrected) then 2 else 1;
    var charset := if family == 3 then Some(Utf16Le) else if family == 4 then Some(if corrected then Utf8 else Utf8Le) else None;
    var r := RubyLoadStr(lib, corrected, n.rest, unit * n.n, charset, st);
    assert r.Success? ==> Suffix(r.value.rest, t) by {
      if r.Success? {
        SuffixTrans(r.value.rest, n.rest, t);
      }
    }
    r
  }

  /** With the corrections every string control reads as in the reference
      decoder. */
  lemma CorrectedStringsAgree(lib: Library, c: byte, t: Bytes, st: DecoderState)
    requires 3 <= c / 16 <= 5
    ensures RubyLoadString(lib, true, c, t, st) == LoadString(lib, c, t, st)
  {
    if c != 0x3c && c != 0x5c && c / 16 != 4 {
      assert ReadCount(c, t, 0xb) == ReadCount(c, t, 0xc);
    }
  }

  /** As written a counted string reads as in the reference decoder unless
      its length is zero, which raises, or it is UTF-8: its length is doubled
      and, once that many bytes are read, "utf-8le" raises. */
  lemma AsWrittenStringsAgree(lib: Library, c: byte, t: Bytes, st: DecoderState)
    requires 3 <= c / 16 <= 5 && c != 0x3c && c != 0x5c && !Skipped(false, c)
    ensures match ReadCount(c, t, 0xb)
      case Failure(e) => RubyLoadCounted(lib, false, c, t, st) == Failure(e)
      case Success(n) =>
        RubyLoadCounted(lib, false, c, t, st) ==
          if n.n == 0 then Failure(Truncated)
          else if c / 16 == 4 then Failure(if |n.rest| < 2 * n.n then Truncated else HostException)
          else LoadString(lib, c, t, st)
  {
    assert ReadCount(c, t, 0xb) == ReadCount(c, t, 0xc);
  }

  /** `!jk`, the header the code as written compares against. */
  const SwappedMagic: Bytes := [0x21, 0x6a, 0x6b]

  /** The value `load_value` reads from a fresh decoder; what follows it is
      ignored. */
  function RubyLoadBody(lib: Library, corrected: bool, s: Bytes): (r: Result<Value, DecodeError>)
    ensures r.Success? <==> RubyLoadValue(lib, corrected, s, FreshDecoder).Success?
    ensures r.Success? ==> r.value == RubyLoadValue(lib, corrected, s, FreshDecoder).value.v
    ensures |s| > 0 && (s[0] / 16 == 6 || s[0] / 16 == 0xc || s[0] / 16 == 0xd || s[0] / 16 == 0xe) ==>
      r == Failure(BadControl(s[0]))
  {
    var x :- RubyLoadValue(lib, corrected, s, FreshDecoder);
    Success(x.v)
  }

  /** `loads(s, header)`: one value, after the stream header when `header` is
      set and the header is there.  As written the header looked for is
      `!jk`, so a stream that starts with `jk!` is refused at its first byte. */
  function RubyLoads(lib: Library, corrected: bool, s: Bytes, header: bool): (r: Result<Value, DecodeError>)
    ensures header && |s| == 0 ==> r == Failure(if corrected then Truncated else HostException)
    ensures !header ==> r == RubyLoadBody(lib, corrected, s)
    ensures header && |s| > 0 && !(|s| >= 3 && s[..3] == (if corrected then Magic else SwappedMagic)) ==>
      r == RubyLoadBody(lib, corrected, s)
  {
    if header && |s| == 0 && !corrected then Failure(HostException)
    else
      var expected := if corrected then Magic else SwappedMagic;
      RubyLoadBody(lib, corrected, if header && |s| >= 3 && s[..3] == expected then s[3..] else s)
  }

  /** As written a stream that starts with the real header `jk!` is refused
      at its first byte, 0x6a, a control of no family. */
  lemma HeaderRefused(lib: Library, s: Bytes)
    requires |s| >= 3 && s[..3] == Magic
    ensures RubyLoads(lib, false, s, true) == Failure(BadControl(0x6a))
  {
    assert s[..3] != SwappedMagic by {
      assert s[0] == Magic[0];
    }
    assert s[0] == 0x6a by {
      assert s[0] == s[..3][0];
    }
  }

  /** Corrected, the header is stripped and the value after it is read. */
  lemma HeaderStripped(lib: Library, s: Bytes)
    requires |s| >= 3 && s[..3] == Magic
    ensures RubyLoads(lib, true, s, true) == RubyLoads(lib, true, s[3..], false)
  {
  }
}

=== FILE: rubyencoder.dfy ===
/** The Ruby encoder (`__jksn_dump` on Integer, Float, String, Hash and Array,
    `JKSNProxy`, `JKSNEncoder#dumps`).  Its tiers follow the Python encoder's,
    with these differences in the code as written: a two- or four-byte
    header keeps only the first byte of its packed field, every varint path
    raises, text is always UTF-8 with a header that counts characters, and a
    transposed array counts rows in its header and raises unless it has as
    many columns as rows.  Every raise becomes a `Failure`. */
module RubyEncoder {
  import opened Wrappers
  import opened Values
  import opened IntCodec
  import opened Proxy
  import opened Encoder
  import opened Optimizer

  // ----- fixed-width fields ---------------------------------------------------

  lemma FirstOfTwo(x: nat)
    requires x < 0x1_0000
    ensures BigEndian(x, 2)[0] == x / 0x100
  {
    assert BigEndian(x / 256, 1) == [x / 256 % 256];
  }

  lemma FirstOfFour(x: nat)
    requires x < 0x1_0000_0000
    ensures BigEndian(x, 4)[0] == x / 0x100_0000
  {
    var y := x / 256 / 256;
    assert y < 0x1_0000;
    FirstOfTwo(y);
    assert BigEndian(x / 256, 3)[0] == BigEndian(y, 2)[0];
    assert y / 0x100 == x / 0x100_0000;
  }

  /** `Integer#__jksn_encode(1|2|4)`: the value masked to `width` bytes and
      packed big-endian, of which `[0]` keeps only the first byte. */
  function FirstByte(n: int, width: nat): (r: Bytes)
    requires FixedWidth(width)
    ensures r == [EncodeInt(n, width)[0]]
  {
    var x := n % Pow256(width);
    if width == 1 then
      assert EncodeInt(n, 1) == BigEndian(x / 256, 0) + [x % 256];
      [x]
    else if width == 2 then
      FirstOfTwo(x);
      [x / 0x100]
    else
      assert Pow256(4) == 0x1_0000_0000;
      FirstOfFour(x);
      [x / 0x100_0000]
  }

  /** The count header of blobs, text, hashes and arrays: the count in the
      low nibble up to `inlineMax`, then 0x?e and one byte, 0x?d and the first
      byte of two, and beyond 0xffff the varint path, which raises.  (The
      transposed layout's varint control is written 0xa8f, outside 0..255,
      but the argument raises before the proxy is built.) */
  function RubyHeader(family: byte, n: nat, inlineMax: nat): (r: Result<(byte, Bytes), EncodeError>)
    requires family % 16 == 0 && inlineMax <= 0xc
    ensures r.Success? <==> n <= 0xffff
    ensures r.Failure? ==> r.error == MissingArgument
    ensures n <= 0xff ==> r == Success(LengthHeader(family, n, inlineMax))
    ensures 0xff < n <= 0xffff ==>
      r.value.0 == LengthHeader(family, n, inlineMax).0 &&
      r.value.1 == LengthHeader(family, n, inlineMax).1[..1]
  {
    if n <= inlineMax then Success(((family + n) as byte, []))
    else if n <= 0xff then
      assert EncodeInt(n, 1) == [EncodeInt(n, 1)[0]];
      Success(((family + 0xe) as byte, FirstByte(n, 1)))
    else if n <= 0xffff then Success(((family + 0xd) as byte, FirstByte(n, 2)))
    else Failure(MissingArgument)
  }

  // ----- scalars ----------------------------------------------------------------

  /** `Integer#__jksn_dump`.  0 to 10 inline; one byte to 127 and from -128;
      the two-byte tier is -32767..32768, one off from two's complement;
      magnitudes from 0x2000_0000 (and everything beyond 32 bits) take the
      varint path, which raises. */
  function RubyDumpInt(n: int): (r: Result<Node, EncodeError>)
    ensures r.Success? <==> -0x2000_0000 < n < 0x2000_0000
    ensures r.Failure? ==> r.error == MissingArgument
    ensures r.Success? ==>
      r.value.origin == Int(n) && r.value.control / 16 == 1 && r.value.buf == [] &&
      r.value.children == [] && Measured(r.value)
    ensures -0x80 <= n <= 0x7f ==> r == Success(DumpInt(n))
    ensures r.Success? && r.value.control == 0x1c <==> (0x80 <= n <= 0x8000 || -0x7fff <= n <= -0x81)
    ensures r.Success? && r.value.control == 0x1c ==> r.value.data == [EncodeInt(n, 2)[0]]
    ensures r.Success? && r.value.control == 0x1b <==> r.Success? && !(-0x7fff <= n <= 0x8000)
    ensures r.Success? && r.value.control == 0x1b ==> r.value.data == [EncodeInt(n, 4)[0]]
  {
    if 0 <= n <= 10 then Success(Leaf(Int(n), 0x10 + n, [], []))
    else if -0x80 <= n <= 0x7f then
      assert EncodeInt(n, 1) == [EncodeInt(n, 1)[0]];
      Success(Leaf(Int(n), 0x1d, FirstByte(n, 1), []))
    else if -0x7fff <= n <= 0x8000 then Success(Leaf(Int(n), 0x1c, FirstByte(n, 2), []))
    else if 0x2000_0000 <= n <= 0x7fff_ffff || -0x8000_0000 <= n <= -0x2000_0000 then Failure(MissingArgument)
    else if -0x8000_0000 <= n < 0x2000_0000 then Success(Leaf(Int(n), 0x1b, FirstByte(n, 4), []))
    else Failure(MissingArgument)
  }

  /** `Float#__jksn_dump`: NaN and the infinities as in Python; a finite
      number keeps only the first of its eight binary64 bytes
      (`pack('G')[0]`). */
  function RubyDumpFloat(f: FloatBits): (r: Node)
    requires !f.Single? && (f.Double? ==> |f.bits| == 8)
    ensures r.origin == Float(f) && r.control == DumpFloat(f).control && Measured(r)
    ensures !f.Double? ==> r == DumpFloat(f)
    ensures f.Double? ==> r.data == DumpFloat(f).data[..1] && |Serialize(r)| == |Serialize(DumpFloat(f))| - 7
  {
    match f
    case Double(bits) => Leaf(Float(f), 0x2c, bits[..1], [])
    case _ => DumpFloat(f)
  }

  /** `String#__jksn_dump_unicode`: the two candidate lengths are both
      character counts, so UTF-8 always wins; the header counts characters
      as well, while the payload is the UTF-8 bytes.  The payload length the
      proxy reports (`@buf.length`) is that character count too. */
  function RubyDumpText(lib: Library, s: string): (r: Result<Node, EncodeError>)
    ensures r.Success? <==> |s| <= 0xffff
    ensures r.Failure? ==> r.error == MissingArgument
    ensures r.Success? ==>
      r.value.origin == Text(s) && r.value.control / 16 == 4 && r.value.buf == lib.encodeUtf8(s) &&
      r.value.bufLen == |s| && r.value.children == []
    ensures |s| <= 0xc ==> r.value.control == 0x40 + |s| && r.value.data == []
    ensures |lib.encodeUtf8(s)| == |s| <= 0xff && |lib.encodeUtf16Le(s)| >= |s| ==> r == Success(DumpStr(lib, s))
  {
    var (c, d) :- RubyHeader(0x40, |s|, 0xc);
    Success(Node(Text(s), c, d, lib.encodeUtf8(s), |s|, []))
  }

  /** `String#__jksn_dump_blob`: the Python layout up to 0xff bytes; longer
      blobs keep one byte of their two-byte length, or raise. */
  function RubyDumpBlob(b: Bytes): (r: Result<Node, EncodeError>)
    ensures r.Success? <==> |b| <= 0xffff
    ensures r.Failure? ==> r.error == MissingArgument
    ensures |b| <= 0xff ==> r == Success(DumpBytes(b))
    ensures 0xff < |b| <= 0xffff ==>
      r.value.origin == Blob(b) && r.value.control == DumpBytes(b).control &&
      r.value.data == DumpBytes(b).data[..1] && r.value.buf == b && Measured(r.value)
  {
    var (c, d) :- RubyHeader(0x50, |b|, 0xb);
    Success(Leaf(Blob(b), c, d, b))
  }

  // ----- transposed arrays ----------------------------------------------------

  /** `Array#flatten`, applied to the rows' keys: a key that is itself an
      array is replaced, recursively, by its elements. */
  function Flatten(xs: seq<Value>): (r: seq<Value>)
    ensures forall x :: x in r ==> !x.Sequence? && Depth(x) <= MaxDepth(xs)
    ensures (forall i :: 0 <= i < |xs| ==> PyValue(xs[i])) ==> forall x :: x in r ==> PyValue(x)
    ensures forall i :: 0 <= i < |xs| && !xs[i].Sequence? ==> xs[i] in r
    ensures (forall i :: 0 <= i < |xs| ==> !xs[i].Sequence?) ==> r == xs
    decreases MaxDepth(xs), |xs|
  {
    if |xs| == 0 then []
    else
      assert MaxDepth(xs) == Max(Depth(xs[0]), MaxDepth(xs[1..]));
      var rest := Flatten(xs[1..]);
      var head := if xs[0].Sequence? then Flatten(xs[0].items) else [xs[0]];
      FlattenCons(xs, head, rest);
      head + rest
  }

  /** The facts `Flatten` states, for the flattened head and the flattened
      rest put together. */
  lemma FlattenCons(xs: seq<Value>, head: seq<Value>, rest: seq<Value>)
    requires |xs| > 0
    requires forall x :: x in head ==> !x.Sequence? && Depth(x) <= Depth(xs[0])
    requires PyValue(xs[0]) ==> forall x :: x in head ==> PyValue(x)
    requires !xs[0].Sequence? ==> head == [xs[0]]
    requires forall x :: x in rest ==> !x.Sequence? && Depth(x) <= MaxDepth(xs[1..])
    requires (forall i :: 0 <= i < |xs[1..]| ==> PyValue(xs[1..][i])) ==> forall x :: x in rest ==> PyValue(x)
    requires forall i :: 0 <= i < |xs[1..]| && !xs[1..][i].Sequence? ==> xs[1..][i] in rest
    requires (forall i :: 0 <= i < |xs[1..]| ==> !xs[1..][i].Sequence?) ==> rest == xs[1..]
    ensures forall x :: x in head + rest ==> !x.Sequence? && Depth(x) <= MaxDepth(xs)
    ensures (forall i :: 0 <= i < |xs| ==> PyValue(xs[i])) ==> forall x :: x in head + rest ==> PyValue(x)
    ensures forall i :: 0 <= i < |xs| && !xs[i].Sequence? ==> xs[i] in head + rest
    ensures (forall i :: 0 <= i < |xs| ==> !xs[i].Sequence?) ==> head + rest == xs
  {
    assert MaxDepth(xs) == Max(Depth(xs[0]), MaxDepth(xs[1..]));
    TailIndex(xs);
    FlattenConsKeeps(xs, head, rest);
    FlattenConsPlain(xs, head, rest);
  }

  /** The elements after the first are those of the tail. */
  lemma TailIndex(xs: seq<Value>)
    requires |xs| > 0
    ensures forall i :: 1 <= i < |xs| ==> xs[i] == xs[1..][i - 1]
  {
  }

  lemma FlattenConsKeeps(xs: seq<Value>, head: seq<Value>, rest: seq<Value>)
    requires |xs| > 0
    requires !xs[0].Sequence? ==> head == [xs[0]]
    requires forall i :: 0 <= i < |xs[1..]| && !xs[1..][i].Sequence? ==> xs[1..][i] in rest
    ensures forall i :: 0 <= i < |xs| && !xs[i].Sequence? ==> xs[i] in head + rest
  {
    TailIndex(xs);
  }

  lemma FlattenConsPlain(xs: seq<Value>, head: seq<Value>, rest: seq<Value>)
    requires |xs| > 0
    requires !xs[0].Sequence? ==> head == [xs[0]]
    requires (forall i :: 0 <= i < |xs[1..]| ==> !xs[1..][i].Sequence?) ==> rest == xs[1..]
    ensures (forall i :: 0 <= i < |xs| ==> !xs[i].Sequence?) ==> head + rest == xs
  {
    TailIndex(xs);
  }

  /** `Set.new(map(&:keys).flatten)`: the flattened keys of every row, once
      each, in the order first seen. */
  function RubyColumns(rows: seq<Value>): (r: seq<Value>)
    ensures Distinct(r)
    ensures forall x :: x in r <==> x in Flatten(RowKeys(rows))
  {
    Dedup(Flatten(RowKeys(rows)))
  }

  /** Every key of a row is shallower than the rows, and a host value. */
  lemma RowKeysBelow(rows: seq<Value>)
    requires forall i :: 0 <= i < |rows| ==> rows[i].Mapping?
    ensures forall i :: 0 <= i < |RowKeys(rows)| ==> Depth(RowKeys(rows)[i]) < MaxDepth(rows)
    ensures PyValue(Sequence(rows)) ==> forall i :: 0 <= i < |RowKeys(rows)| ==> PyValue(RowKeys(rows)[i])
  {
    var ks := RowKeys(rows);
    forall i | 0 <= i < |ks|
      ensures Depth(ks[i]) < MaxDepth(rows) && (PyValue(Sequence(rows)) ==> PyValue(ks[i]))
    {
      RowKeysAreColumns(rows, ks[i]);
      var j :| 0 <= j < |rows| && rows[j].Mapping? && ks[i] in KeysOf(rows[j].pairs);
      KeyFacts(rows[j], ks[i]);
      if PyValue(Sequence(rows)) {
        assert PyValue(rows[j]);
      }
    }
  }

  /** `row.fetch(column, UnspecifiedValue)`: the value under the column, or
      the unspecified marker.  A Ruby hash compares keys with `eql?`, so
      `true` and `1` are different keys here, unlike in a Python dict. */
  function RubyCell(row: Value, c: Value): (r: Value)
    ensures row.Mapping? && c in KeysOf(row.pairs) ==> Lookup(row.pairs, c) == Some(r)
    ensures !(row.Mapping? && c in KeysOf(row.pairs)) ==> r == Unspecified
  {
    if row.Mapping? then
      match Lookup(row.pairs, c)
      case Some(x) => x
      case None => Unspecified
    else Unspecified
  }

  /** The values of one column, one per row. */
  function RubyColumnValues(rows: seq<Value>, c: Value): (r: seq<Value>)
    ensures |r| == |rows| && forall i :: 0 <= i < |rows| ==> r[i] == RubyCell(rows[i], c)
  {
    seq(|rows|, i requires 0 <= i < |rows| => RubyCell(rows[i], c))
  }

  /** The cell a row holds for any column is shallower than the row, and a
      host value when the row is one. */
  lemma RubyCellFacts(row: Value, c: Value)
    requires row.Mapping?
    ensures Depth(RubyCell(row, c)) < Depth(row)
    ensures PyValue(row) ==> PyValue(RubyCell(row, c))
  {
    if c in KeysOf(row.pairs) {
      var m :| 0 <= m < |row.pairs| && row.pairs[m] == (c, RubyCell(row, c));
      PairDepthBelow(row.pairs, m);
    }
  }

  /** Ruby looks a column up by `eql?`: the row `{1 => a}` has nothing under
      the column `true`, where Python's `row.get(True)` finds `a`. */
  lemma RubyCellIsStructural(a: Value)
    ensures RubyCell(Mapping([(Int(1), a)]), Bool(true)) == Unspecified
    ensures Cell(Mapping([(Int(1), a)]), Bool(true)) == a
  {
    var pairs := [(Int(1), a)];
    assert Bool(true) !in KeysOf(pairs);
    assert PyKey(pairs[0].0) == PyKey(Bool(true));
    assert PyKey(Bool(true)) in PyKeysOf(pairs);
  }

  /** Every cell of a column is shallower than the rows, whatever the
      column; it is a host value when the rows are. */
  lemma CellsBelow(rows: seq<Value>, c: Value)
    requires forall i :: 0 <= i < |rows| ==> rows[i].Mapping?
    ensures forall k :: 0 <= k < |rows| ==> Depth(RubyColumnValues(rows, c)[k]) < MaxDepth(rows)
    ensures PyValue(Sequence(rows)) ==> PyValue(Sequence(RubyColumnValues(rows, c)))
  {
    var cv := RubyColumnValues(rows, c);
    forall k | 0 <= k < |cv| ensures Depth(cv[k]) < MaxDepth(rows) && (PyValue(Sequence(rows)) ==> PyValue(cv[k])) {
      RubyCellFacts(rows[k], c);
      if PyValue(Sequence(rows)) {
        assert PyValue(rows[k]);
      }
    }
  }

  /** A column is strictly shallower than the rows. */
  lemma ColumnBelow(rows: seq<Value>, c: Value)
    requires SwapAvailable(rows) && c in RubyColumns(rows)
    ensures Depth(c) < MaxDepth(rows)
    ensures PyValue(Sequence(rows)) ==> PyValue(c)
  {
    var ks := RowKeys(rows);
    var flat := Flatten(ks);
    RowKeysShallower(rows);
    assert c in flat;
    assert Depth(c) <= MaxDepth(ks);
    if PyValue(Sequence(rows)) {
      RowKeysBelow(rows);
      assert PyValue(c);
    }
  }

  /** The keys of transposable rows are strictly shallower than the rows. */
  lemma RowKeysShallower(rows: seq<Value>)
    requires SwapAvailable(rows)
    ensures MaxDepth(RowKeys(rows)) < MaxDepth(rows)
  {
    var i :| 0 <= i < |rows| && rows[i].Mapping? && |rows[i].pairs| > 0;
    assert Depth(rows[i]) >= 1;
    RowKeysBelow(rows);
    MaxDepthAtMost(RowKeys(rows), MaxDepth(rows) - 1);
  }

  /** A column and its values are strictly shallower than the rows. */
  lemma RubyColumnFacts(rows: seq<Value>, c: Value)
    requires SwapAvailable(rows) && c in RubyColumns(rows)
    ensures Depth(c) < MaxDepth(rows)
    ensures MaxDepth(RubyColumnValues(rows, c)) < MaxDepth(rows)
    ensures PyValue(Sequence(rows)) ==> PyValue(c) && PyValue(Sequence(RubyColumnValues(rows, c)))
  {
    ColumnBelow(rows, c);
    CellsBelow(rows, c);
    MaxDepthAtMost(RubyColumnValues(rows, c), MaxDepth(rows) - 1);
  }

  /** Without array-valued keys, and without a boolean key beside the equal
      integer key, Ruby's columns are Python's. */
  lemma RubyColumnsArePythons(rows: seq<Value>)
    requires forall i :: 0 <= i < |RowKeys(rows)| ==> !RowKeys(rows)[i].Sequence?
    requires Coherent(RowKeys(rows))
    ensures RubyColumns(rows) == Columns(rows)
  {
    assert Flatten(RowKeys(rows)) == RowKeys(rows);
    ColumnsCoherent(rows);
  }

  // ----- the value dispatcher -------------------------------------------------

  /** `__jksn_dump` by class; `JKSN::UnspecifiedValue` is the 0xa0 proxy. */
  function RubyDumpValue(lib: Library, v: Value): (r: Result<Node, EncodeError>)
    requires PyValue(v)
    ensures r.Success? ==> r.value.origin == v
    ensures r.Failure? ==> r.error == MissingArgument || r.error == ChildCountMismatch
    decreases Depth(v), 3, 0
  {
    match v
    case Null => Success(Leaf(v, 0x01, [], []))
    case Unspecified => Success(Leaf(v, 0xa0, [], []))
    case Bool(b) => Success(Leaf(v, if b then 0x03 else 0x02, [], []))
    case Int(n) => RubyDumpInt(n)
    case Float(f) => Success(RubyDumpFloat(f))
    case Text(s) => RubyDumpText(lib, s)
    case Blob(b) => RubyDumpBlob(b)
    case Sequence(items) => RubyDumpArray(lib, items)
    case Mapping(pairs) => RubyDumpHash(lib, pairs)
  }

  /** `__jksn_encode_straight`: the count header, then every element. */
  function RubyStraight(lib: Library, items: seq<Value>): (r: Result<Node, EncodeError>)
    requires PyValue(Sequence(items))
    ensures r.Success? ==>
      r.value.origin == Sequence(items) && r.value.control / 16 == 8 && r.value.buf == [] &&
      |r.value.children| == |items|
    ensures r.Failure? ==> r.error == MissingArgument || r.error == ChildCountMismatch
    decreases 1 + MaxDepth(items), 1, 0
  {
    var (c, d) :- RubyHeader(0x80, |items|, 0xc);
    var children :- RubyDumpItems(lib, items);
    Success(Branch(Sequence(items), c, d, children))
  }

  /** `__jksn_encode_swapped`: a header counting the ROWS, then for every
      column its name and the array of its values; it raises unless there
      are twice as many children as rows. */
  function RubySwapped(lib: Library, rows: seq<Value>): (r: Result<Node, EncodeError>)
    requires PyValue(Sequence(rows)) && SwapAvailable(rows)
    ensures r.Success? ==>
      r.value.origin == Sequence(rows) && r.value.control / 16 == 0xa && r.value.control != 0xa0 &&
      r.value.buf == [] && |RubyColumns(rows)| == |rows| && |r.value.children| == 2 * |rows|
    ensures r.Failure? ==> r.error == MissingArgument || r.error == ChildCountMismatch
    decreases 1 + MaxDepth(rows), 1, 0
  {
    var (c, d) :- RubyHeader(0xa0, |rows|, 0xc);
    var children :- RubySwappedChildren(lib, rows, 0);
    if |children| != 2 * |rows| then Failure(ChildCountMismatch)
    else Success(Branch(Sequence(rows), c, d, children))
  }

  /** `Array#__jksn_dump`: the straight layout first, then the transposed
      one when the rows allow it; the smaller at three levels is kept. */
  function RubyDumpArray(lib: Library, items: seq<Value>): (r: Result<Node, EncodeError>)
    requires PyValue(Sequence(items))
    ensures r.Success? ==>
      r.value.origin == Sequence(items) && r.value.buf == [] &&
      (r.value.control / 16 == 8 || r.value.control / 16 == 0xa)
    ensures r.Success? ==> RubyStraight(lib, items).Success?
    ensures r.Success? && SwapAvailable(items) ==> |RubyColumns(items)| == |items|
    ensures r.Success? && r.value.control / 16 == 8 ==> r == RubyStraight(lib, items)
    ensures r.Success? && r.value.control / 16 == 0xa ==>
      SwapAvailable(items) && r == RubySwapped(lib, items) &&
      Size(r.value, 3) < Size(RubyStraight(lib, items).value, 3)
    ensures r.Failure? ==> r.error == MissingArgument || r.error == ChildCountMismatch
    decreases 1 + MaxDepth(items), 2, 0
  {
    var straight :- RubyStraight(lib, items);
    if SwapAvailable(items) then
      var swapped :- RubySwapped(lib, items);
      if Size(swapped, 3) < Size(straight, 3) then Success(swapped) else Success(straight)
    else Success(straight)
  }

  /** `Hash#__jksn_dump`: the count header, then each key and its value. */
  function RubyDumpHash(lib: Library, pairs: seq<(Value, Value)>): (r: Result<Node, EncodeError>)
    requires PyValue(Mapping(pairs))
    ensures r.Success? ==>
      r.value.origin == Mapping(pairs) && r.value.control / 16 == 9 && r.value.buf == [] &&
      |r.value.children| == 2 * |pairs|
    ensures r.Failure? ==> r.error == MissingArgument || r.error == ChildCountMismatch
    decreases 1 + MaxPairDepth(pairs), 1, 0
  {
    var (c, d) :- RubyHeader(0x90, |pairs|, 0xc);
    var children :- RubyDumpPairs(lib, pairs);
    Success(Branch(Mapping(pairs), c, d, children))
  }

  function RubyDumpItems(lib: Library, items: seq<Value>): (r: Result<seq<Node>, EncodeError>)
    requires PyValue(Sequence(items))
    ensures r.Success? ==> |r.value| == |items|
    ensures r.Success? ==> forall i :: 0 <= i < |items| ==> r.value[i].origin == items[i]
    ensures r.Failure? ==> r.error == MissingArgument || r.error == ChildCountMismatch
    decreases 1 + MaxDepth(items), 0, |items|
  {
    if |items| == 0 then Success([])
    else
      assert PyValue(items[0]);
      var head :- RubyDumpValue(lib, items[0]);
      var tail :- RubyDumpItems(lib, items[1..]);
      Success([head] + tail)
  }

  function RubyDumpPairs(lib: Library, pairs: seq<(Value, Value)>): (r: Result<seq<Node>, EncodeError>)
    requires PyValue(Mapping(pairs))
    ensures r.Success? ==> |r.value| == 2 * |pairs|
    ensures r.Failure? ==> r.error == MissingArgument || r.error == ChildCountMismatch
    decreases 1 + MaxPairDepth(pairs), 0, |pairs|
  {
    if |pairs| == 0 then Success([])
    else
      PairDepthBelow(pairs, 0);
      assert PyValue(pairs[0].0) && PyValue(pairs[0].1);
      var key :- RubyDumpValue(lib, pairs[0].0);
      var value :- RubyDumpValue(lib, pairs[0].1);
      var rest :- RubyDumpPairs(lib, pairs[1..]);
      Success([key, value] + rest)
  }

  function RubySwappedChildren(lib: Library, rows: seq<Value>, k: nat): (r: Result<seq<Node>, EncodeError>)
    requires PyValue(Sequence(rows)) && SwapAvailable(rows)
    requires k <= |RubyColumns(rows)|
    ensures r.Success? ==> |r.value| == 2 * (|RubyColumns(rows)| - k)
    ensures r.Failure? ==> r.error == MissingArgument || r.error == ChildCountMismatch
    decreases 1 + MaxDepth(rows), 0, |RubyColumns(rows)| - k
  {
    if k == |RubyColumns(rows)| then Success([])
    else
      var head :- RubyDumpColumn(lib, rows, k);
      var rest :- RubySwappedChildren(lib, rows, k + 1);
      Success(head + rest)
  }

  /** Column `k`: its name, then the array of `row.fetch(column,
      UnspecifiedValue)` over the rows. */
  function RubyDumpColumn(lib: Library, rows: seq<Value>, k: nat): (r: Result<seq<Node>, EncodeError>)
    requires PyValue(Sequence(rows)) && SwapAvailable(rows)
    requires k < |RubyColumns(rows)|
    ensures r.Success? ==> |r.value| == 2
    ensures r.Failure? ==> r.error == MissingArgument || r.error == ChildCountMismatch
    decreases 1 + MaxDepth(rows), 0, 0
  {
    var c := RubyColumns(rows)[k];
    RubyColumnFacts(rows, c);
    var name :- RubyDumpValue(lib, c);
    var values :- RubyDumpArray(lib, RubyColumnValues(rows, c));
    Success([name, values])
  }

  // ----- layouts ------------------------------------------------------------

  lemma RubyItemStep(lib: Library, items: seq<Value>)
    requires PyValue(Sequence(items)) && |items| > 0 && RubyDumpItems(lib, items).Success?
    ensures PyValue(items[0]) && RubyDumpValue(lib, items[0]).Success?
    ensures PyValue(Sequence(items[1..])) && RubyDumpItems(lib, items[1..]).Success?
    ensures RubyDumpItems(lib, items).value == [RubyDumpValue(lib, items[0]).value] + RubyDumpItems(lib, items[1..]).value
  {
    assert forall i :: 0 <= i < |items[1..]| ==> items[1..][i] == items[i + 1];
  }

  /** Child `i` of the straight children is element `i` dumped. */
  lemma {:induction false} RubyItemAt(lib: Library, items: seq<Value>, i: nat)
    requires PyValue(Sequence(items)) && i < |items| && RubyDumpItems(lib, items).Success?
    ensures PyValue(items[i]) && RubyDumpValue(lib, items[i]).Success?
    ensures RubyDumpItems(lib, items).value[i] == RubyDumpValue(lib, items[i]).value
    decreases i
  {
    RubyItemStep(lib, items);
    if i > 0 {
      RubyItemAt(lib, items[1..], i - 1);
      assert items[1..][i - 1] == items[i];
    }
  }

  /** The straight layout is the count's header followed by every element
      dumped, in order. */
  lemma RubyStraightLayout(lib: Library, items: seq<Value>)
    requires PyValue(Sequence(items)) && RubyStraight(lib, items).Success?
    ensures RubyHeader(0x80, |items|, 0xc).Success?
    ensures (RubyStraight(lib, items).value.control, RubyStraight(lib, items).value.data) == RubyHeader(0x80, |items|, 0xc).value
    ensures forall i :: 0 <= i < |items| ==>
      PyValue(items[i]) && RubyDumpValue(lib, items[i]).Success? &&
      RubyStraight(lib, items).value.children[i] == RubyDumpValue(lib, items[i]).value
  {
    forall i | 0 <= i < |items|
      ensures PyValue(items[i]) && RubyDumpValue(lib, items[i]).Success?
      ensures RubyStraight(lib, items).value.children[i] == RubyDumpValue(lib, items[i]).value
    {
      RubyItemAt(lib, items, i);
    }
  }

  lemma RubyPairStep(lib: Library, pairs: seq<(Value, Value)>)
    requires PyValue(Mapping(pairs)) && |pairs| > 0 && RubyDumpPairs(lib, pairs).Success?
    ensures PyValue(pairs[0].0) && PyValue(pairs[0].1)
    ensures RubyDumpValue(lib, pairs[0].0).Success? && RubyDumpValue(lib, pairs[0].1).Success?
    ensures PyValue(Mapping(pairs[1..])) && RubyDumpPairs(lib, pairs[1..]).Success?
    ensures RubyDumpPairs(lib, pairs).value ==
      [RubyDumpValue(lib, pairs[0].0).value, RubyDumpValue(lib, pairs[0].1).value] + RubyDumpPairs(lib, pairs[1..]).value
  {
    PairDepthBelow(pairs, 0);
    assert forall i :: 0 <= i < |pairs[1..]| ==> pairs[1..][i] == pairs[i + 1];
  }

  /** Children `2i` and `2i+1` of a hash are key `i` and value `i` dumped. */
  lemma {:induction false} RubyPairAt(lib: Library, pairs: seq<(Value, Value)>, i: nat)
    requires PyValue(Mapping(pairs)) && i < |pairs| && RubyDumpPairs(lib, pairs).Success?
    ensures PyValue(pairs[i].0) && PyValue(pairs[i].1)
    ensures RubyDumpValue(lib, pairs[i].0).Success? && RubyDumpValue(lib, pairs[i].1).Success?
    ensures RubyDumpPairs(lib, pairs).value[2 * i] == RubyDumpValue(lib, pairs[i].0).value
    ensures RubyDumpPairs(lib, pairs).value[2 * i + 1] == RubyDumpValue(lib, pairs[i].1).value
    decreases i
  {
    if i == 0 {
      RubyPairStep(lib, pairs);
      HeadTwo(RubyDumpPairs(lib, pairs).value, RubyDumpValue(lib, pairs[0].0).value, RubyDumpValue(lib, pairs[0].1).value,
              RubyDumpPairs(lib, pairs[1..]).value);
    } else {
      RubyPairShift(lib, pairs, i);
      RubyPairAt(lib, pairs[1..], i - 1);
    }
  }

  /** Past the first pair, a hash's nodes are those of the rest shifted by two. */
  lemma RubyPairShift(lib: Library, pairs: seq<(Value, Value)>, i: nat)
    requires PyValue(Mapping(pairs)) && 0 < i < |pairs| && RubyDumpPairs(lib, pairs).Success?
    ensures PyValue(Mapping(pairs[1..])) && RubyDumpPairs(lib, pairs[1..]).Success?
    ensures pairs[1..][i - 1] == pairs[i]
    ensures RubyDumpPairs(lib, pairs).value[2 * i] == RubyDumpPairs(lib, pairs[1..]).value[2 * (i - 1)]
    ensures RubyDumpPairs(lib, pairs).value[2 * i + 1] == RubyDumpPairs(lib, pairs[1..]).value[2 * (i - 1) + 1]
  {
    RubyPairStep(lib, pairs);
    ShiftTwo(RubyDumpPairs(lib, pairs).value, RubyDumpValue(lib, pairs[0].0).value, RubyDumpValue(lib, pairs[0].1).value,
             RubyDumpPairs(lib, pairs[1..]).value, i);
    assert pairs[1..][i - 1] == pairs[i];
  }


  /** A hash is the count's header followed by each key and its value
      dumped, in the hash's order. */
  lemma RubyHashLayout(lib: Library, pairs: seq<(Value, Value)>)
    requires PyValue(Mapping(pairs)) && RubyDumpHash(lib, pairs).Success?
    ensures RubyHeader(0x90, |pairs|, 0xc).Success?
    ensures (RubyDumpHash(lib, pairs).value.control, RubyDumpHash(lib, pairs).value.data) == RubyHeader(0x90, |pairs|, 0xc).value
    ensures forall i :: 0 <= i < |pairs| ==>
      PyValue(pairs[i].0) && PyValue(pairs[i].1) &&
      RubyDumpValue(lib, pairs[i].0).Success? && RubyDumpValue(lib, pairs[i].1).Success? &&
      RubyDumpHash(lib, pairs).value.children[2 * i] == RubyDumpValue(lib, pairs[i].0).value &&
      RubyDumpHash(lib, pairs).value.children[2 * i + 1] == RubyDumpValue(lib, pairs[i].1).value
  {
    forall i | 0 <= i < |pairs|
      ensures PyValue(pairs[i].0) && PyValue(pairs[i].1)
      ensures RubyDumpValue(lib, pairs[i].0).Success? && RubyDumpValue(lib, pairs[i].1).Success?
      ensures RubyDumpHash(lib, pairs).value.children[2 * i] == RubyDumpValue(lib, pairs[i].0).value
      ensures RubyDumpHash(lib, pairs).value.children[2 * i + 1] == RubyDumpValue(lib, pairs[i].1).value
    {
      RubyPairAt(lib, pairs, i);
    }
  }

  /** `RubyDumpColumn`, total so that it can be passed around as a function. */
  function RubyColumnNodesAt(lib: Library, rows: seq<Value>, j: nat): seq<Node>
  {
    if PyValue(Sequence(rows)) && SwapAvailable(rows) && j < |RubyColumns(rows)| && RubyDumpColumn(lib, rows, j).Success?
    then RubyDumpColumn(lib, rows, j).value else []
  }

  /** `RubySwappedChildren`, total for the same reason. */
  function RubyChildrenAt(lib: Library, rows: seq<Value>, k: nat): seq<Node>
  {
    if PyValue(Sequence(rows)) && SwapAvailable(rows) && k <= |RubyColumns(rows)| && RubySwappedChildren(lib, rows, k).Success?
    then RubySwappedChildren(lib, rows, k).value else []
  }

  /** Every column's pair of nodes, by column index. */
  function RubyColumnNodes(lib: Library, rows: seq<Value>): (f: nat -> seq<Node>)
    ensures forall j: nat :: f(j) == RubyColumnNodesAt(lib, rows, j)
  {
    (j: nat) => RubyColumnNodesAt(lib, rows, j)
  }

  /** `RubyChildrenAt` as a function of the column. */
  function RubyChildrenFn(lib: Library, rows: seq<Value>): (g: nat -> seq<Node>)
    ensures forall k: nat :: g(k) == RubyChildrenAt(lib, rows, k)
  {
    (k: nat) => RubyChildrenAt(lib, rows, k)
  }

  /** Whether the transposed children from column `k` on succeed. */
  predicate RubyChildOkAt(lib: Library, rows: seq<Value>, k: nat) {
    PyValue(Sequence(rows)) && SwapAvailable(rows) && k <= |RubyColumns(rows)| && RubySwappedChildren(lib, rows, k).Success?
  }

  /** `RubyChildOkAt` as a function of the column. */
  function RubyChildOk(lib: Library, rows: seq<Value>): (ok: nat -> bool)
    ensures forall k: nat :: ok(k) == RubyChildOkAt(lib, rows, k)
  {
    (k: nat) => RubyChildOkAt(lib, rows, k)
  }

  lemma RubyChildStep(lib: Library, rows: seq<Value>, i: nat)
    requires PyValue(Sequence(rows)) && SwapAvailable(rows) && i < |RubyColumns(rows)|
    requires RubySwappedChildren(lib, rows, i).Success?
    ensures RubyDumpColumn(lib, rows, i).Success? && RubySwappedChildren(lib, rows, i + 1).Success?
    ensures |RubyColumnNodesAt(lib, rows, i)| == 2
    ensures RubyChildrenAt(lib, rows, i) == RubyColumnNodesAt(lib, rows, i) + RubyChildrenAt(lib, rows, i + 1)
  {
  }

  lemma RubyChildrenSucceedFrom(lib: Library, rows: seq<Value>, i: nat)
    requires PyValue(Sequence(rows)) && SwapAvailable(rows) && i <= |RubyColumns(rows)|
    requires RubySwappedChildren(lib, rows, 0).Success?
    ensures RubySwappedChildren(lib, rows, i).Success?
  {
    var ok := RubyChildOk(lib, rows);
    forall k: nat | k < |RubyColumns(rows)| && ok(k)
      ensures ok(k + 1)
    {
      RubyChildStep(lib, rows, k);
    }
    ChainHolds(ok, |RubyColumns(rows)|, i);
  }

  /** The transposed children are every column's pair of nodes in turn. */
  lemma RubyChildrenPairs(lib: Library, rows: seq<Value>)
    requires PyValue(Sequence(rows)) && SwapAvailable(rows) && RubySwappedChildren(lib, rows, 0).Success?
    ensures Unrolls(RubyChildrenFn(lib, rows), RubyColumnNodes(lib, rows), |RubyColumns(rows)|)
  {
    forall i: nat | i < |RubyColumns(rows)|
      ensures |RubyColumnNodesAt(lib, rows, i)| == 2
      ensures RubyChildrenAt(lib, rows, i) == RubyColumnNodesAt(lib, rows, i) + RubyChildrenAt(lib, rows, i + 1)
    {
      RubyChildrenSucceedFrom(lib, rows, i);
      RubyChildStep(lib, rows, i);
    }
    RubyChildrenSucceedFrom(lib, rows, |RubyColumns(rows)|);
  }

  /** The transposed layout is a header counting the rows followed, for every
      column in first-seen order, by its name dumped and the array of its
      cells (`row.fetch(column, UnspecifiedValue)` per row) dumped. */
  lemma RubySwappedLayout(lib: Library, rows: seq<Value>)
    requires PyValue(Sequence(rows)) && SwapAvailable(rows) && RubySwapped(lib, rows).Success?
    ensures RubyHeader(0xa0, |rows|, 0xc).Success?
    ensures (RubySwapped(lib, rows).value.control, RubySwapped(lib, rows).value.data) == RubyHeader(0xa0, |rows|, 0xc).value
    ensures forall j :: 0 <= j < |RubyColumns(rows)| ==>
      PyValue(RubyColumns(rows)[j]) && PyValue(Sequence(RubyColumnValues(rows, RubyColumns(rows)[j]))) &&
      RubyDumpValue(lib, RubyColumns(rows)[j]).Success? &&
      RubyDumpArray(lib, RubyColumnValues(rows, RubyColumns(rows)[j])).Success? &&
      RubySwapped(lib, rows).value.children[2 * j] == RubyDumpValue(lib, RubyColumns(rows)[j]).value &&
      RubySwapped(lib, rows).value.children[2 * j + 1] == RubyDumpArray(lib, RubyColumnValues(rows, RubyColumns(rows)[j])).value
  {
    RubySwappedHeader(lib, rows);
    forall j | 0 <= j < |RubyColumns(rows)|
      ensures PyValue(RubyColumns(rows)[j]) && PyValue(Sequence(RubyColumnValues(rows, RubyColumns(rows)[j])))
      ensures RubyDumpValue(lib, RubyColumns(rows)[j]).Success?
      ensures RubyDumpArray(lib, RubyColumnValues(rows, RubyColumns(rows)[j])).Success?
      ensures RubySwapped(lib, rows).value.children[2 * j] == RubyDumpValue(lib, RubyColumns(rows)[j]).value
      ensures RubySwapped(lib, rows).value.children[2 * j + 1] == RubyDumpArray(lib, RubyColumnValues(rows, RubyColumns(rows)[j])).value
    {
      RubySwappedChild(lib, rows, j);
    }
  }

  /** A transposed node's header counts the rows. */
  lemma RubySwappedHeader(lib: Library, rows: seq<Value>)
    requires PyValue(Sequence(rows)) && SwapAvailable(rows) && RubySwapped(lib, rows).Success?
    ensures RubyHeader(0xa0, |rows|, 0xc).Success?
    ensures (RubySwapped(lib, rows).value.control, RubySwapped(lib, rows).value.data) == RubyHeader(0xa0, |rows|, 0xc).value
  {
  }

  lemma RubySwappedChild(lib: Library, rows: seq<Value>, j: nat)
    requires PyValue(Sequence(rows)) && SwapAvailable(rows) && RubySwapped(lib, rows).Success?
    requires j < |RubyColumns(rows)|
    ensures PyValue(RubyColumns(rows)[j]) && PyValue(Sequence(RubyColumnValues(rows, RubyColumns(rows)[j])))
    ensures RubyDumpValue(lib, RubyColumns(rows)[j]).Success?
    ensures RubyDumpArray(lib, RubyColumnValues(rows, RubyColumns(rows)[j])).Success?
    ensures RubySwapped(lib, rows).value.children[2 * j] == RubyDumpValue(lib, RubyColumns(rows)[j]).value
    ensures RubySwapped(lib, rows).value.children[2 * j + 1] == RubyDumpArray(lib, RubyColumnValues(rows, RubyColumns(rows)[j])).value
  {
    RubySwappedChildrenAt(lib, rows);
    RubyChildrenSucceedFrom(lib, rows, j);
    RubyChildStep(lib, rows, j);
    RubyColumnParts(lib, rows, j);
    RubyColumnPairAt(lib, rows, j);
  }

  /** A transposed node's children are the column nodes from the first on. */
  lemma RubySwappedChildrenAt(lib: Library, rows: seq<Value>)
    requires PyValue(Sequence(rows)) && SwapAvailable(rows) && RubySwapped(lib, rows).Success?
    ensures RubySwappedChildren(lib, rows, 0).Success?
    ensures RubySwapped(lib, rows).value.children == RubyChildrenAt(lib, rows, 0)
  {
  }

  /** The column's two nodes sit at `2 * j` and `2 * j + 1`. */
  lemma RubyColumnPairAt(lib: Library, rows: seq<Value>, j: nat)
    requires PyValue(Sequence(rows)) && SwapAvailable(rows) && j < |RubyColumns(rows)|
    requires RubySwappedChildren(lib, rows, 0).Success?
    ensures 2 * j + 1 < |RubyChildrenAt(lib, rows, 0)| && |RubyColumnNodesAt(lib, rows, j)| == 2
    ensures RubyChildrenAt(lib, rows, 0)[2 * j] == RubyColumnNodesAt(lib, rows, j)[0]
    ensures RubyChildrenAt(lib, rows, 0)[2 * j + 1] == RubyColumnNodesAt(lib, rows, j)[1]
  {
    RubyChildrenPairs(lib, rows);
    PairsIndex(RubyChildrenFn(lib, rows), RubyColumnNodes(lib, rows), |RubyColumns(rows)|, j);
  }

  /** A column's two nodes are its name dumped and its cells dumped. */
  lemma RubyColumnParts(lib: Library, rows: seq<Value>, j: nat)
    requires PyValue(Sequence(rows)) && SwapAvailable(rows) && j < |RubyColumns(rows)|
    requires RubyDumpColumn(lib, rows, j).Success?
    ensures PyValue(RubyColumns(rows)[j]) && PyValue(Sequence(RubyColumnValues(rows, RubyColumns(rows)[j])))
    ensures RubyDumpValue(lib, RubyColumns(rows)[j]).Success?
    ensures RubyDumpArray(lib, RubyColumnValues(rows, RubyColumns(rows)[j])).Success?
    ensures RubyColumnNodesAt(lib, rows, j) ==
      [RubyDumpValue(lib, RubyColumns(rows)[j]).value, RubyDumpArray(lib, RubyColumnValues(rows, RubyColumns(rows)[j])).value]
  {
    RubyColumnFacts(rows, RubyColumns(rows)[j]);
  }

  // ----- the stream -------------------------------------------------------------

  /** Some byte of `b` lies outside ASCII. */
  predicate HighByte(b: Bytes) {
    exists i :: 0 <= i < |b| && b[i] >= 0x80
  }

  /** `JKSNProxy#to_s` joins the control character, the header data and the
      payload as Ruby strings before taking their bytes.  A header byte above
      0x7f is a binary string and a text payload is UTF-8, so a text node
      whose header and payload both leave ASCII raises
      Encoding::CompatibilityError. */
  predicate Clash(p: Node) {
    p.origin.Text? && HighByte(p.data) && HighByte(p.buf)
  }

  /** Some node of the tree clashes; every child is joined by its own `to_s`. */
  predicate JoinRaises(p: Node)
    decreases p
  {
    Clash(p) || exists i :: 0 <= i < |p.children| && JoinRaises(p.children[i])
  }

  /** `JKSNEncoder#dumps`: dump, optimise from a fresh encoder under the Ruby
      rules (no delta integers; payloads counted in characters), serialise
      through `to_s`, with `jk!` in front when `header` is set. */
  function RubyDumps(lib: Library, v: Value, header: bool): (r: Result<Bytes, EncodeError>)
    requires PyValue(v)
    ensures r.Success? && header ==> |r.value| >= 3 && r.value[..3] == Magic
    ensures RubyDumpValue(lib, v).Failure? ==> r == Failure(RubyDumpValue(lib, v).error)
    ensures RubyDumpValue(lib, v).Success? ==>
      var q := Optimize(RubyRules, RubyDumpValue(lib, v).value, FreshEncoder).0;
      && (r.Failure? <==> JoinRaises(q))
      && (r.Failure? ==> r.error == IncompatibleEncoding)
      && (r.Success? ==> r.value[if header then 3 else 0..] == Serialize(q))
  {
    var p :- RubyDumpValue(lib, v);
    var q := Optimize(RubyRules, p, FreshEncoder).0;
    if JoinRaises(q) then Failure(IncompatibleEncoding) else Success(Dumps(q, header))
  }

  /** The same stream with every part taken as bytes before it is joined
      (`[@control.chr, @data.b, @buf.b].join`), which never raises. */
  function RubyDumpsBinary(lib: Library, v: Value, header: bool): (r: Result<Bytes, EncodeError>)
    requires PyValue(v)
    ensures r.Success? <==> RubyDumpValue(lib, v).Success?
    ensures r.Failure? ==> r.error == RubyDumpValue(lib, v).error
    ensures r.Success? && header ==> |r.value| >= 3 && r.value[..3] == Magic
    ensures r.Success? ==>
      r.value[if header then 3 else 0..] == Serialize(Optimize(RubyRules, RubyDumpValue(lib, v).value, FreshEncoder).0)
    ensures !RubyDumps(lib, v, header).Failure? || RubyDumps(lib, v, header).error != IncompatibleEncoding ==>
      r == RubyDumps(lib, v, header)
  {
    var p :- RubyDumpValue(lib, v);
    Success(Dumps(Optimize(RubyRules, p, FreshEncoder).0, header))
  }

  /** A single byte leaves ASCII exactly when it is 0x80 or more. */
  lemma HighSingle(x: byte)
    ensures HighByte([x]) <==> x >= 0x80
  {
    assert [x][0] == x;
  }

  /** A text node's header leaves ASCII exactly for 0x80..0xff characters, and
      for 0x8000..0xffff, whose one kept length byte is 0x80 or more. */
  lemma TextHeaderHigh(lib: Library, s: string)
    requires |s| <= 0xffff
    ensures HighByte(RubyDumpText(lib, s).value.data) <==> 0x80 <= |s| <= 0xff || |s| >= 0x8000
  {
    TextHeaderKept(|s|);
    var d := RubyHeader(0x40, |s|, 0xc).value.1;
    assert RubyDumpText(lib, s).value.data == d;
    if |s| <= 0xc {
    } else if |s| <= 0xff {
      HighSingle(|s| as byte);
    } else {
      HighSingle((|s| / 0x100) as byte);
    }
  }

  /** The header bytes a text length keeps: none inline, else its one byte,
      else the high byte of two. */
  lemma TextHeaderKept(n: nat)
    requires n <= 0xffff
    ensures RubyHeader(0x40, n, 0xc).value.1 ==
      if n <= 0xc then [] else if n <= 0xff then [n as byte] else [(n / 0x100) as byte]
  {
    if n <= 0xc {
    } else if n <= 0xff {
      assert FirstByte(n, 1) == [n as byte];
    } else {
      assert FirstByte(n, 2) == [(n / 0x100) as byte];
    }
  }

  /** A text on its own is written unless its header and its UTF-8 payload
      both leave ASCII; the payload is kept in full only without a
      back-reference, which the first text of a stream never is. */
  lemma TextDumpRaisesIff(lib: Library, s: string, header: bool)
    requires |s| <= 0xffff
    ensures RubyDumps(lib, Text(s), header).Failure? <==>
      HighByte(lib.encodeUtf8(s)) && (0x80 <= |s| <= 0xff || |s| >= 0x8000)
    ensures RubyDumps(lib, Text(s), header).Failure? ==> RubyDumps(lib, Text(s), header).error == IncompatibleEncoding
  {
    var p := RubyDumpText(lib, s).value;
    assert RubyDumpValue(lib, Text(s)) == Success(p);
    assert Optimize(RubyRules, p, FreshEncoder).0 == p;
    TextHeaderHigh(lib, s);
    assert JoinRaises(p) <==> Clash(p);
  }

  // ----- when the dump raises -------------------------------------------------

  /** Something in `v` is beyond the last tier the Ruby encoder can write: an
      integer of magnitude 0x2000_0000 or more, or a text, blob, array or
      hash longer than 0xffff. */
  predicate Oversize(v: Value)
    decreases v
  {
    match v
    case Int(n) => n <= -0x2000_0000 || n >= 0x2000_0000
    case Text(s) => |s| > 0xffff
    case Blob(b) => |b| > 0xffff
    case Sequence(items) => |items| > 0xffff || exists i :: 0 <= i < |items| && Oversize(items[i])
    case Mapping(pairs) =>
      |pairs| > 0xffff || exists i :: 0 <= i < |pairs| && (Oversize(pairs[i].0) || Oversize(pairs[i].1))
    case _ => false
  }

  /** Some array in `v` passes `__jksn_can_swap?`. */
  predicate Transposable(v: Value)
    decreases v
  {
    match v
    case Sequence(items) => SwapAvailable(items) || exists i :: 0 <= i < |items| && Transposable(items[i])
    case Mapping(pairs) => exists i :: 0 <= i < |pairs| && (Transposable(pairs[i].0) || Transposable(pairs[i].1))
    case _ => false
  }

  /** An oversized member makes the whole dump raise: the straight layout of
      every array is built first, so nothing is skipped. */
  lemma {:induction false} OversizeFails(lib: Library, v: Value)
    requires PyValue(v) && Oversize(v)
    ensures RubyDumpValue(lib, v).Failure?
    decreases Depth(v), 3, 0
  {
    match v
    case Sequence(items) =>
      if |items| <= 0xffff {
        var i :| 0 <= i < |items| && Oversize(items[i]);
        ItemFails(lib, items, i);
      }
    case Mapping(pairs) =>
      if |pairs| <= 0xffff {
        var i :| 0 <= i < |pairs| && (Oversize(pairs[i].0) || Oversize(pairs[i].1));
        PairFails(lib, pairs, i);
      }
    case _ =>
  }

  lemma {:induction false} ItemFails(lib: Library, items: seq<Value>, i: nat)
    requires PyValue(Sequence(items)) && i < |items| && Oversize(items[i])
    ensures RubyDumpItems(lib, items).Failure?
    decreases 1 + MaxDepth(items), 0, |items|
  {
    assert PyValue(items[0]);
    if i == 0 {
      OversizeFails(lib, items[0]);
    } else if RubyDumpValue(lib, items[0]).Success? {
      assert items[1..][i - 1] == items[i];
      ItemFails(lib, items[1..], i - 1);
    }
  }

  lemma {:induction false} PairFails(lib: Library, pairs: seq<(Value, Value)>, i: nat)
    requires PyValue(Mapping(pairs)) && i < |pairs| && (Oversize(pairs[i].0) || Oversize(pairs[i].1))
    ensures RubyDumpPairs(lib, pairs).Failure?
    decreases 1 + MaxPairDepth(pairs), 0, |pairs|
  {
    PairDepthBelow(pairs, 0);
    assert PyValue(pairs[0].0) && PyValue(pairs[0].1);
    if i == 0 {
      if Oversize(pairs[0].0) {
        OversizeFails(lib, pairs[0].0);
      } else {
        OversizeFails(lib, pairs[0].1);
      }
    } else if RubyDumpValue(lib, pairs[0].0).Success? && RubyDumpValue(lib, pairs[0].1).Success? {
      assert pairs[1..][i - 1] == pairs[i];
      PairFails(lib, pairs[1..], i - 1);
    }
  }

  /** Without oversized members and without transposable arrays the dump
      succeeds: with OversizeFails, such a value raises exactly when it is
      oversized. */
  lemma {:induction false} PlainSucceeds(lib: Library, v: Value)
    requires PyValue(v) && !Oversize(v) && !Transposable(v)
    ensures RubyDumpValue(lib, v).Success?
    decreases Depth(v), 3, 0
  {
    match v
    case Sequence(items) =>
      ItemsSucceed(lib, items);
      StraightOnly(lib, items);
    case Mapping(pairs) => PairsSucceed(lib, pairs);
    case _ =>
  }

  /** Without a transposable layout the array is its straight layout. */
  lemma StraightOnly(lib: Library, items: seq<Value>)
    requires PyValue(Sequence(items)) && !SwapAvailable(items)
    requires |items| <= 0xffff && RubyDumpItems(lib, items).Success?
    ensures RubyDumpArray(lib, items) ==
      Success(Branch(Sequence(items), RubyHeader(0x80, |items|, 0xc).value.0, RubyHeader(0x80, |items|, 0xc).value.1,
                     RubyDumpItems(lib, items).value))
  {
  }

  lemma {:induction false} ItemsSucceed(lib: Library, items: seq<Value>)
    requires PyValue(Sequence(items))
    requires forall i :: 0 <= i < |items| ==> !Oversize(items[i]) && !Transposable(items[i])
    ensures RubyDumpItems(lib, items).Success?
    decreases 1 + MaxDepth(items), 0, |items|
  {
    if |items| > 0 {
      assert PyValue(items[0]);
      PlainSucceeds(lib, items[0]);
      assert forall i :: 0 <= i < |items[1..]| ==> items[1..][i] == items[i + 1];
      ItemsSucceed(lib, items[1..]);
    }
  }

  lemma {:induction false} PairsSucceed(lib: Library, pairs: seq<(Value, Value)>)
    requires PyValue(Mapping(pairs))
    requires forall i :: 0 <= i < |pairs| ==>
      !Oversize(pairs[i].0) && !Oversize(pairs[i].1) && !Transposable(pairs[i].0) && !Transposable(pairs[i].1)
    ensures RubyDumpPairs(lib, pairs).Success?
    decreases 1 + MaxPairDepth(pairs), 0, |pairs|
  {
    if |pairs| > 0 {
      PairDepthBelow(pairs, 0);
      assert PyValue(pairs[0].0) && PyValue(pairs[0].1);
      PlainSucceeds(lib, pairs[0].0);
      PlainSucceeds(lib, pairs[0].1);
      assert forall i :: 0 <= i < |pairs[1..]| ==> pairs[1..][i] == pairs[i + 1];
      PairsSucceed(lib, pairs[1..]);
    }
  }

  // ----- agreement with the Python encoder ------------------------------------

  /** The values on which the Ruby and Python encoders build the same tree:
      integers of one byte, NaN and the infinities, text whose UTF-8 form has
      one byte per character (and is not longer than its UTF-16 form), and
      blobs, arrays and hashes of at most 0xff elements, with no transposable
      array. */
  predicate Common(lib: Library, v: Value)
    decreases v
  {
    match v
    case Int(n) => -0x80 <= n <= 0x7f
    case Float(f) => !f.Double?
    case Text(s) => |lib.encodeUtf8(s)| == |s| <= 0xff && |lib.encodeUtf16Le(s)| >= |s|
    case Blob(b) => |b| <= 0xff
    case Sequence(items) =>
      |items| <= 0xff && !SwapAvailable(items) && forall i :: 0 <= i < |items| ==> Common(lib, items[i])
    case Mapping(pairs) =>
      |pairs| <= 0xff && forall i :: 0 <= i < |pairs| ==> Common(lib, pairs[i].0) && Common(lib, pairs[i].1)
    case _ => true
  }

  /** On that common ground the Ruby dump is the Python dump. */
  lemma {:induction false} AgreesWithPython(lib: Library, v: Value)
    requires PyValue(v) && Common(lib, v)
    ensures RubyDumpValue(lib, v) == Success(DumpValue(lib, v))
    decreases Depth(v), 3, 0
  {
    match v
    case Sequence(items) =>
      ItemsAgree(lib, items);
      StraightOnly(lib, items);
      assert DumpList(lib, items) == Straight(lib, items);
    case Mapping(pairs) =>
      PairsAgree(lib, pairs);
    case _ =>
  }

  lemma {:induction false} ItemsAgree(lib: Library, items: seq<Value>)
    requires PyValue(Sequence(items))
    requires forall i :: 0 <= i < |items| ==> Common(lib, items[i])
    ensures RubyDumpItems(lib, items) == Success(DumpItems(lib, items))
    decreases 1 + MaxDepth(items), 0, |items|
  {
    if |items| > 0 {
      CommonItemsRest(lib, items);
      AgreesWithPython(lib, items[0]);
      ItemsAgree(lib, items[1..]);
      ItemsConsAgree(lib, items);
    }
  }

  /** The first element and the rest of a common array are common. */
  lemma CommonItemsRest(lib: Library, items: seq<Value>)
    requires PyValue(Sequence(items)) && |items| > 0
    requires forall i :: 0 <= i < |items| ==> Common(lib, items[i])
    ensures PyValue(items[0]) && Common(lib, items[0]) && Depth(items[0]) <= MaxDepth(items)
    ensures PyValue(Sequence(items[1..])) && MaxDepth(items[1..]) <= MaxDepth(items)
    ensures forall i :: 0 <= i < |items[1..]| ==> Common(lib, items[1..][i])
  {
    assert forall i :: 0 <= i < |items[1..]| ==> items[1..][i] == items[i + 1];
  }

  /** One step of ItemsAgree: agreement on the first element and on the rest
      is agreement on the whole. */
  lemma ItemsConsAgree(lib: Library, items: seq<Value>)
    requires PyValue(Sequence(items)) && |items| > 0 && PyValue(items[0]) && PyValue(Sequence(items[1..]))
    requires RubyDumpValue(lib, items[0]) == Success(DumpValue(lib, items[0]))
    requires RubyDumpItems(lib, items[1..]) == Success(DumpItems(lib, items[1..]))
    ensures RubyDumpItems(lib, items) == Success(DumpItems(lib, items))
  {
  }

  lemma {:induction false} PairsAgree(lib: Library, pairs: seq<(Value, Value)>)
    requires PyValue(Mapping(pairs))
    requires forall i :: 0 <= i < |pairs| ==> Common(lib, pairs[i].0) && Common(lib, pairs[i].1)
    ensures RubyDumpPairs(lib, pairs) == Success(DumpPairs(lib, pairs))
    decreases 1 + MaxPairDepth(pairs), 0, |pairs|
  {
    if |pairs| > 0 {
      PairDepthBelow(pairs, 0);
      assert PyValue(pairs[0].0) && PyValue(pairs[0].1);
      AgreesWithPython(lib, pairs[0].0);
      AgreesWithPython(lib, pairs[0].1);
      assert forall i :: 0 <= i < |pairs[1..]| ==> pairs[1..][i] == pairs[i + 1];
      PairsAgree(lib, pairs[1..]);
    }
  }

  /** The Ruby proxy measures text in characters (`@buf.length`), so
      `length(0)` falls short of the bytes written by the UTF-8 bytes beyond
      one per character. */
  lemma TextSizeCountsCharacters(lib: Library, s: string)
    requires |s| <= 0xffff
    ensures Size(RubyDumpText(lib, s).value, 0) + |lib.encodeUtf8(s)| ==
      |Serialize(RubyDumpText(lib, s).value)| + |s|
  {
    var p := RubyDumpText(lib, s).value;
    assert SerializeAll([]) == [] && SizeAll([], -1) == 0;
  }
}

=== FILE: rubyfindings.dfy ===
/** What the Ruby decoder makes of what the encoders write.  Each divergence
    of the Ruby port is shown twice: on the bytes the code as written
    produces or refuses, and, for the corrected behaviour, as a read-back of
    what the reference encoder writes. */
module RubyFindings {
  import opened Wrappers
  import opened Values
  import opened IntCodec
  import opened Djb
  import opened Proxy
  import opened Encoder
  import opened Decoder
  import opened RoundTrip
  import opened JsRoundTrip
  import opened RubyEncoder
  import opened RubyDecoder
  import opened DecodeSteps
  import opened Optimizer

  /** The dispatcher hands a control byte to its family's reader, or skips it. */
  lemma RubyDispatch(lib: Library, corrected: bool, c: byte, t: Bytes, st: DecoderState)
    ensures Skipped(corrected, c) ==> RubyLoadValue(lib, corrected, [c] + t, st) == RubyLoadValue(lib, corrected, t, st)
    ensures !Skipped(corrected, c) && c / 16 == 0 ==>
      RubyLoadValue(lib, corrected, [c] + t, st) == RubyLoadSpecial(lib, corrected, c, t, st)
    ensures !Skipped(corrected, c) && c / 16 == 1 ==> RubyLoadValue(lib, corrected, [c] + t, st) == LoadInt(c, t, st)
    ensures !Skipped(corrected, c) && c / 16 == 2 ==> RubyLoadValue(lib, corrected, [c] + t, st) == LoadFloat(c, t, st)
    ensures !Skipped(corrected, c) && 3 <= c / 16 <= 5 ==>
      RubyLoadValue(lib, corrected, [c] + t, st) == RubyLoadString(lib, corrected, c, t, st)
  {
    assert ([c] + t)[0] == c && ([c] + t)[1..] == t;
  }

  // ----- integers -------------------------------------------------------------

  /** Every integer the reference tiers write reads back in Ruby, with or
      without the corrections, and becomes the last integer. */
  lemma DumpIntReadsInRuby(lib: Library, corrected: bool, n: int, st: DecoderState, tail: Bytes)
    ensures RubyLoadValue(lib, corrected, Serialize(DumpInt(n)) + tail, st) ==
      Success(Loaded(Int(n), tail, st.(lastint := Some(n))))
  {
    var p := DumpInt(n);
    SerializeLeaf(p);
    var t := p.data + tail;
    assert Serialize(p) + tail == [p.control] + t;
    PlainIntRoundTrip(lib, n, st, tail);
    DispatchInt(lib, true, p.control, t, st);
    RubyDispatch(lib, corrected, p.control, t, st);
  }

  /** 0x1c and 0x1b read a field of two or four bytes; after one byte the
      rest of the field comes out of what follows. */
  lemma FieldSwallows(c: byte, d: byte, tail: Bytes, st: DecoderState)
    requires c == 0x1b || c == 0x1c
    ensures var w := if c == 0x1b then 4 else 2;
      var r := LoadInt(c, [d] + tail, st);
      (r.Success? <==> |tail| >= w - 1) && (r.Success? ==> r.value.rest == tail[w - 1..])
  {
    var w := if c == 0x1b then 4 else 2;
    var t := [d] + tail;
    var nibble := c % 16;
    assert nibble == (if c == 0x1b then 0xb else 0xc);
    var field := DecodeInt(t, w);
    assert ReadWide(true, nibble, t).Success? == field.Success?;
    assert field.Success? ==> ReadWide(true, nibble, t).value.1 == field.value.rest == t[w..];
    assert |tail| >= w - 1 ==> t[w..] == tail[w - 1..];
  }

  /** Between 0x80 and 0x8000 in magnitude the Ruby encoder writes 0x1c and
      one byte where the field has two, so the reader takes the first byte
      of whatever follows: it fails at the end of the stream and otherwise
      leaves one byte less behind. */
  lemma ShortIntFieldMisread(lib: Library, corrected: bool, n: int, st: DecoderState, tail: Bytes)
    requires 0x80 <= n <= 0x8000 || -0x7fff <= n <= -0x81
    ensures RubyDumpInt(n).Success?
    ensures var r := RubyLoadValue(lib, corrected, Serialize(RubyDumpInt(n).value) + tail, st);
      (r.Success? <==> |tail| >= 1) && (r.Success? ==> r.value.rest == tail[1..])
  {
    var p := RubyDumpInt(n).value;
    var d := EncodeInt(n, 2)[0];
    SerializeLeaf(p);
    assert Serialize(p) + tail == [0x1c] + ([d] + tail);
    RubyDispatch(lib, corrected, 0x1c, [d] + tail, st);
    FieldSwallows(0x1c, d, tail, st);
  }

  /** Beyond that range it writes 0x1b and one byte where the field has four,
      and three bytes of what follows go with it. */
  lemma LongIntFieldMisread(lib: Library, corrected: bool, n: int, st: DecoderState, tail: Bytes)
    requires RubyDumpInt(n).Success? && !(-0x7fff <= n <= 0x8000)
    ensures var r := RubyLoadValue(lib, corrected, Serialize(RubyDumpInt(n).value) + tail, st);
      (r.Success? <==> |tail| >= 3) && (r.Success? ==> r.value.rest == tail[3..])
  {
    var p := RubyDumpInt(n).value;
    var d := EncodeInt(n, 4)[0];
    SerializeLeaf(p);
    assert Serialize(p) + tail == [0x1b] + ([d] + tail);
    RubyDispatch(lib, corrected, 0x1b, [d] + tail, st);
    FieldSwallows(0x1b, d, tail, st);
  }

  /** The Ruby encoder writes 200 as `1c 00`. */
  lemma TwoHundredBytes(lib: Library)
    ensures RubyDumps(lib, Int(200), false) == Success([0x1c, 0x00])
  {
    FirstOfTwo(200);
    var p := RubyDumpInt(200).value;
    SerializeLeaf(p);
    assert Serialize(p) == [0x1c, 0x00];
  }

  /** `1c 00` on its own is too short to read. */
  lemma TwoHundredTruncated(lib: Library, corrected: bool)
    ensures RubyLoads(lib, corrected, [0x1c, 0x00], false) == Failure(Truncated)
  {
    var t: Bytes := [0x00];
    var e: Bytes := [];
    assert [0x1c, 0x00] == [0x1c] + t && t == [0x00] + e;
    RubyDispatch(lib, corrected, 0x1c, t, FreshDecoder);
    FieldSwallows(0x1c, 0x00, e, FreshDecoder);
  }

  // ----- floats ---------------------------------------------------------------

  /** NaN, the infinities and binary64 numbers as the reference writes them
      read back in Ruby. */
  lemma DumpFloatReadsInRuby(lib: Library, corrected: bool, f: FloatBits, st: DecoderState, tail: Bytes)
    requires !f.Single? && (f.Double? ==> |f.bits| == 8)
    ensures RubyLoadValue(lib, corrected, Serialize(DumpFloat(f)) + tail, st) == Success(Loaded(Float(f), tail, st))
  {
    var p := DumpFloat(f);
    SerializeLeaf(p);
    var t := p.data + tail;
    assert Serialize(p) + tail == [p.control] + t;
    RubyDispatch(lib, corrected, p.control, t, st);
    if f.Double? {
      assert t[..8] == f.bits && t[8..] == tail;
    }
  }

  /** A finite float as the Ruby encoder writes it has one of its eight
      bytes, so the reader takes seven bytes of what follows. */
  lemma ShortDoubleMisread(lib: Library, corrected: bool, f: FloatBits, st: DecoderState, tail: Bytes)
    requires f.Double? && |f.bits| == 8
    ensures var r := RubyLoadValue(lib, corrected, Serialize(RubyDumpFloat(f)) + tail, st);
      (r.Success? <==> |tail| >= 7) && (r.Success? ==> r.value.rest == tail[7..])
  {
    var p := RubyDumpFloat(f);
    SerializeLeaf(p);
    var t := p.data + tail;
    assert Serialize(p) + tail == [0x2c] + t;
    RubyDispatch(lib, corrected, 0x2c, t, st);
    assert |tail| >= 7 ==> t[8..] == tail[7..];
  }

  // ----- text -----------------------------------------------------------------

  /** Every text the reference writes reads back with the corrections, and
      as written when it went out as non-empty UTF-16. */
  lemma DumpStrReadsInRuby(lib: Library, corrected: bool, s: string, st: DecoderState, tail: Bytes)
    requires Faithful(lib)
    requires corrected || 0 < |lib.encodeUtf16Le(s)| < |lib.encodeUtf8(s)|
    ensures var p := DumpStr(lib, s);
      RubyLoadValue(lib, corrected, Serialize(p) + tail, st) ==
        Success(Loaded(Text(s), tail, st.(text := st.text[Hash(p.buf) := s])))
  {
    var p := DumpStr(lib, s);
    SerializeLeaf(p);
    var t := p.data + p.buf + tail;
    assert Serialize(p) + tail == [p.control] + t;
    StoredTextReads(lib, s, st, tail);
    RubyDispatch(lib, corrected, p.control, t, st);
    if corrected {
      CorrectedStringsAgree(lib, p.control, t, st);
    } else {
      Utf16Counted(lib, s, st, tail);
    }
  }

  /** As written a UTF-16 text with a non-empty payload reads as in the
      reference decoder. */
  lemma Utf16Counted(lib: Library, s: string, st: DecoderState, tail: Bytes)
    requires Faithful(lib) && 0 < |lib.encodeUtf16Le(s)| < |lib.encodeUtf8(s)|
    ensures var p := DumpStr(lib, s);
      RubyLoadString(lib, false, p.control, p.data + p.buf + tail, st) == LoadString(lib, p.control, p.data + p.buf + tail, st)
  {
    var p := DumpStr(lib, s);
    var u16 := lib.encodeUtf16Le(s);
    assert p.buf == u16 && p.control / 16 == 3;
    HeaderNotReference(0x30, |u16| / 2, 0xb);
    ReadCountInverts(0x30, |u16| / 2, 0xb, u16 + tail);
    assert p.data + p.buf + tail == LengthHeader(0x30, |u16| / 2, 0xb).1 + (u16 + tail);
    AsWrittenStringsAgree(lib, p.control, p.data + p.buf + tail, st);
  }

  /** As written an inline UTF-8 length is doubled, as if it counted UTF-16
      units, and the bytes are then handed to "utf-8le", which raises: no
      UTF-8 text reads. */
  lemma Utf8LengthDoubled(lib: Library, c: byte, t: Bytes, st: DecoderState)
    requires 0x41 <= c <= 0x4b
    ensures RubyLoadValue(lib, false, [c] + t, st) == Failure(if |t| < 2 * (c % 16) then Truncated else HostException)
  {
    RubyDispatch(lib, false, c, t, st);
    assert ReadCount(c, t, 0xc) == Success(Parsed(c % 16, t));
    AsWrittenStringsAgree(lib, c, t, st);
    assert RubyLoadString(lib, false, c, t, st) == RubyLoadCounted(lib, false, c, t, st);
  }

  /** So `42 61 62`, the text "ab", runs off the end of the stream. */
  lemma ShortUtf8Truncated(lib: Library)
    ensures RubyLoads(lib, false, [0x42, 0x61, 0x62], false) == Failure(Truncated)
  {
    ShortUtf8Fails(lib, [0x61, 0x62]);
    ConsThree(0x42, 0x61, 0x62);
  }

  /** Two bytes after 0x42 are two short of the four it asks for. */
  lemma ShortUtf8Fails(lib: Library, t: Bytes)
    requires |t| == 2
    ensures RubyLoads(lib, false, [0x42] + t, false) == Failure(Truncated)
  {
    Utf8LengthDoubled(lib, 0x42, t, FreshDecoder);
    BodyFails(lib, false, [0x42] + t, Truncated);
  }

  lemma ConsThree(a: byte, b: byte, c: byte)
    ensures [a, b, c] == [a] + [b, c]
  {
  }

  /** A value that fails to read fails the whole stream read without a header. */
  lemma BodyFails(lib: Library, corrected: bool, s: Bytes, e: DecodeError)
    requires RubyLoadValue(lib, corrected, s, FreshDecoder) == Failure(e)
    ensures RubyLoads(lib, corrected, s, false) == Failure(e)
  {
  }

  /** The Ruby encoder counts a UTF-8 text in characters, so a text with a
      character of more than one byte is read short even by the corrected
      decoder, which takes the rest of its bytes for what follows. */
  lemma TextLengthInCharacters(lib: Library, s: string, st: DecoderState, tail: Bytes)
    requires |s| <= 0xc
    ensures var u8 := lib.encodeUtf8(s);
      RubyLoadValue(lib, true, Serialize(RubyDumpText(lib, s).value) + tail, st) == LoadStr(lib, u8 + tail, |s|, Some(Utf8), st)
    ensures var u8 := lib.encodeUtf8(s);
      var r := RubyLoadValue(lib, true, Serialize(RubyDumpText(lib, s).value) + tail, st);
      |u8| > |s| && r.Success? ==> r.value.rest == u8[|s|..] + tail && r.value.rest != tail
  {
    var u8 := lib.encodeUtf8(s);
    var p := RubyDumpText(lib, s).value;
    SerializeLeaf(p);
    var c: byte := 0x40 + |s|;
    var t := u8 + tail;
    assert Serialize(p) + tail == [c] + t;
    RubyDispatch(lib, true, c, t, st);
    CorrectedStringsAgree(lib, c, t, st);
    assert |u8| > |s| ==> t[|s|..] == u8[|s|..] + tail;
  }

  // ----- blobs ----------------------------------------------------------------

  /** Every blob the reference writes reads back with the corrections, and
      as written when it is not empty. */
  lemma DumpBytesReadsInRuby(lib: Library, corrected: bool, b: Bytes, st: DecoderState, tail: Bytes)
    requires corrected || |b| > 0
    ensures RubyLoadValue(lib, corrected, Serialize(DumpBytes(b)) + tail, st) ==
      Success(Loaded(Blob(b), tail, st.(blob := st.blob[Hash(b) := b])))
  {
    if corrected {
      BlobReadsCorrected(lib, b, st, tail);
    } else {
      BlobReadsAsWritten(lib, b, st, tail);
    }
  }

  /** The corrected reader reads every blob Python writes. */
  lemma BlobReadsCorrected(lib: Library, b: Bytes, st: DecoderState, tail: Bytes)
    ensures RubyLoadValue(lib, true, Serialize(DumpBytes(b)) + tail, st) ==
      Success(Loaded(Blob(b), tail, st.(blob := st.blob[Hash(b) := b])))
  {
    var p := DumpBytes(b);
    SerializeLeaf(p);
    var t := p.data + (b + tail);
    assert Serialize(p) + tail == [p.control] + t;
    StoredBlobReads(lib, b, st, tail);
    HeaderNotReference(0x50, |b|, 0xb);
    RubyDispatch(lib, true, p.control, t, st);
    CorrectedStringsAgree(lib, p.control, t, st);
  }

  /** The reader as written reads every non-empty blob Python writes. */
  lemma BlobReadsAsWritten(lib: Library, b: Bytes, st: DecoderState, tail: Bytes)
    requires |b| > 0
    ensures RubyLoadValue(lib, false, Serialize(DumpBytes(b)) + tail, st) ==
      Success(Loaded(Blob(b), tail, st.(blob := st.blob[Hash(b) := b])))
  {
    var p := DumpBytes(b);
    SerializeLeaf(p);
    var t := p.data + (b + tail);
    assert Serialize(p) + tail == [p.control] + t;
    StoredBlobReads(lib, b, st, tail);
    HeaderNotReference(0x50, |b|, 0xb);
    RubyDispatch(lib, false, p.control, t, st);
    ReadCountInverts(0x50, |b|, 0xb, b + tail);
    AsWrittenStringsAgree(lib, p.control, t, st);
  }

  /** As written a read of no bytes raises, so the empty text and the empty
      blob cannot be read back. */
  lemma EmptyPayloadRefused(lib: Library, c: byte, t: Bytes, st: DecoderState)
    requires c == 0x30 || c == 0x40 || c == 0x50
    ensures RubyLoadValue(lib, false, [c] + t, st) == Failure(Truncated)
  {
    RubyDispatch(lib, false, c, t, st);
    AsWrittenStringsAgree(lib, c, t, st);
  }

  /** The empty blob goes out as `50`; as written it cannot be read, and
      corrected it reads back. */
  lemma EmptyBlobTruncated(lib: Library)
    ensures RubyDumps(lib, Blob([]), false) == Success([0x50])
    ensures RubyLoads(lib, false, [0x50], false) == Failure(Truncated)
    ensures RubyLoads(lib, true, [0x50], false) == Success(Blob([]))
  {
    var e: Bytes := [];
    assert [0x50] == [0x50] + e;
    SerializeLeaf(DumpBytes([]));
    assert Serialize(DumpBytes([])) == [0x50];
    EmptyPayloadRefused(lib, 0x50, e, FreshDecoder);
    DumpBytesReadsInRuby(lib, true, [], FreshDecoder, e);
    assert Serialize(DumpBytes([])) + e == [0x50];
  }

  /** A blob of 0x100 to 0xffff bytes goes out as 0x5d and only the high
      byte of its length, so the first byte of the blob is taken for the low
      byte of the length. */
  lemma LongBlobMisread(lib: Library, corrected: bool, b: Bytes, st: DecoderState, tail: Bytes)
    requires 0x100 <= |b| <= 0xffff
    ensures RubyDumpBlob(b).Success?
    ensures RubyLoadValue(lib, corrected, Serialize(RubyDumpBlob(b).value) + tail, st) ==
      LoadStr(lib, b[1..] + tail, |b| / 256 * 256 + b[0], None, st)
  {
    var n := |b| / 256 * 256 + b[0];
    var body := b[1..] + tail;
    var t := LongBlobBytes(b, tail);
    LongBlobCount(|b| / 256, b[0], body);
    RubyDispatch(lib, corrected, 0x5d, t, st);
    if corrected {
      CorrectedStringsAgree(lib, 0x5d, t, st);
    } else {
      AsWrittenStringsAgree(lib, 0x5d, t, st);
    }
  }

  /** The bytes of such a blob after its control byte: the high length byte,
      then the blob. */
  lemma LongBlobBytes(b: Bytes, tail: Bytes) returns (t: Bytes)
    requires 0x100 <= |b| <= 0xffff
    ensures RubyDumpBlob(b).Success?
    ensures t == [|b| / 256] + ([b[0]] + (b[1..] + tail))
    ensures Serialize(RubyDumpBlob(b).value) + tail == [0x5d] + t
  {
    var p := RubyDumpBlob(b).value;
    TwoByteLength(|b|);
    SerializeLeaf(p);
    t := [|b| / 256] + ([b[0]] + (b[1..] + tail));
    assert p.data == [|b| / 256];
    assert b + tail == [b[0]] + (b[1..] + tail);
  }

  /** 0x5d reads two length bytes, whatever they are. */
  lemma LongBlobCount(hi: byte, lo: byte, body: Bytes)
    ensures ReadCount(0x5d, [hi] + ([lo] + body), 0xb) == Success(Parsed(hi * 256 + lo, body))
  {
    var n := hi * 256 + lo;
    TwoByteLength(n);
    assert [hi] + ([lo] + body) == EncodeInt(n, 2) + body;
    FixedRoundTrip(n, 2, body);
    assert Pow256(2) == 0x1_0000;
  }

  // ----- JSON literals --------------------------------------------------------

  /** A library whose UTF-8 decoder reads the bytes `31 32` as "12" and whose
      JSON parser reads "12" as the integer 12. */
  predicate ReadsTwelve(lib: Library) {
    lib.decode(Utf8, [0x31, 0x32]) == Some("12") && lib.parseJson("12") == Some(Int(12))
  }

  /** 0x0f followed by the blob `31 32`: the bytes both decoders meet. */
  function BlobLiteral(tail: Bytes): (r: Bytes)
    ensures |r| == |tail| + 4 && r[..4] == [0x0f, 0x52, 0x31, 0x32] && r[4..] == tail
  {
    [0x0f] + ([0x52] + ([0x31, 0x32] + tail))
  }

  /** The blob after 0x0f reads as a blob in both decoders. */
  lemma BlobTwelveReads(lib: Library, corrected: bool, tail: Bytes, st: DecoderState)
    ensures var b: Bytes := [0x31, 0x32];
      var x := Loaded(Blob(b), tail, st.(blob := st.blob[Hash(b) := b]));
      && LoadValue(lib, true, [0x52] + ([0x31, 0x32] + tail), st) == Success(x)
      && RubyLoadValue(lib, corrected, [0x52] + ([0x31, 0x32] + tail), st) == Success(x)
  {
    var t := [0x31, 0x32] + tail;
    assert t[..2] == [0x31, 0x32] && t[2..] == tail;
    DispatchString(lib, true, 0x52, t, st);
    RubyDispatch(lib, corrected, 0x52, t, st);
    assert ReadCount(0x52, t, 0xb) == Success(Parsed(2, t));
  }

  /** The reference decoder refuses a JSON literal held in a blob; the Ruby
      decoder hands the blob's bytes to the JSON parser as UTF-8 and reads
      the integer 12. */
  lemma BlobLiteralReadsInRubyOnly(lib: Library, corrected: bool, tail: Bytes, st: DecoderState)
    requires ReadsTwelve(lib)
    ensures LoadValue(lib, true, BlobLiteral(tail), st) == Failure(JsonNeedsText)
    ensures var b: Bytes := [0x31, 0x32];
      RubyLoadValue(lib, corrected, BlobLiteral(tail), st) ==
        Success(Loaded(Int(12), tail, st.(blob := st.blob[Hash(b) := b])))
  {
    var t := [0x52] + ([0x31, 0x32] + tail);
    assert BlobLiteral(tail) == [0x0f] + t;
    BlobTwelveReads(lib, corrected, tail, st);
    DispatchOther(lib, 0x0f, t, st);
    RubyDispatch(lib, corrected, 0x0f, t, st);
  }

  // ----- text beside a binary header ----------------------------------------

  /** 128 times "é": two UTF-8 bytes per character, one header byte 0x80. */
  const Accented: string := seq(128, _ => '\U{e9}')

  /** A library whose UTF-8 form of `Accented` starts outside ASCII, as UTF-8
      does for every character above U+007F. */
  predicate EncodesAccent(lib: Library) {
    |lib.encodeUtf8(Accented)| > 0 && lib.encodeUtf8(Accented)[0] >= 0x80
  }

  /** As written the dump raises on the text: its header byte 0x80 is a binary
      string and its payload is UTF-8; joined as bytes it is written `4e 80`
      and the payload. */
  lemma AccentedTextRaises(lib: Library, header: bool)
    requires EncodesAccent(lib)
    ensures RubyDumps(lib, Text(Accented), header) == Failure(IncompatibleEncoding)
    ensures RubyDumpsBinary(lib, Text(Accented), false) == Success([0x4e, 0x80] + lib.encodeUtf8(Accented))
  {
    TextDumpRaisesIff(lib, Accented, header);
    assert HighByte(lib.encodeUtf8(Accented));
    var p := RubyDumpText(lib, Accented).value;
    assert p.data == FirstByte(128, 1) == [0x80];
    assert p.control == 0x4e;
    assert Optimize(RubyRules, p, FreshEncoder).0 == p;
    SerializeLeaf(p);
    assert [p.control] + p.data + p.buf == [0x4e, 0x80] + lib.encodeUtf8(Accented);
    assert RubyDumpsBinary(lib, Text(Accented), false) == Success(Serialize(p));
  }

  // ----- the stream header ----------------------------------------------------

  /** As written the decoder refuses every stream the Ruby encoder writes
      with a header. */
  lemma EncoderStreamsRefused(lib: Library, v: Value)
    requires PyValue(v) && RubyDumps(lib, v, true).Success?
    ensures RubyLoads(lib, false, RubyDumps(lib, v, true).value, true) == Failure(BadControl(0x6a))
  {
    HeaderRefused(lib, RubyDumps(lib, v, true).value);
  }

  /** Corrected, an integer streamed after the header reads back. */
  lemma IntStreamReadsInRuby(lib: Library, n: int)
    ensures RubyLoads(lib, true, Magic + Serialize(DumpInt(n)), true) == Success(Int(n))
  {
    var body := Serialize(DumpInt(n));
    var s := Magic + body;
    assert s[..3] == Magic && s[3..] == body;
    HeaderStripped(lib, s);
    DumpIntReadsInRuby(lib, true, n, FreshDecoder, []);
    assert body + [] == body;
  }

  // ----- transposed arrays ----------------------------------------------------

  /** The rows of the example: each a dict holding the key `a`. */
  lemma ExampleKeys(rows: seq<Value>, a: Value)
    requires rows == [Mapping([(a, Int(1))]), Mapping([(a, Int(2))])]
    ensures SwapAvailable(rows) && RowKeys(rows) == [a, a]
  {
    assert rows[0].Mapping? && |rows[0].pairs| > 0;
    assert PairKeys(rows[0].pairs) == [a];
    assert PairKeys(rows[1].pairs) == [a];
    assert RowKeys(rows[1..][1..]) == [];
  }

  /** The example is a value the encoders take. */
  lemma ExampleIsValue(rows: seq<Value>, a: Value)
    requires rows == [Mapping([(a, Int(1))]), Mapping([(a, Int(2))])] && PyValue(a)
    ensures PyValue(Sequence(rows))
  {
    assert PyValue(rows[0]) && PyValue(rows[1]);
  }

  /** A key seen twice is one column. */
  lemma OneColumn(a: Value)
    requires !a.Sequence?
    ensures Dedup(Flatten([a, a])) == [a]
  {
    var aa := [a, a];
    assert Flatten(aa) == aa;
    assert aa[1..] == [a] && [a][1..] == [] && [] + [a] == [a];
    assert DedupInto([], aa) == DedupInto([a], [a]);
    assert DedupInto([a], [a]) == DedupInto([a], []);
  }

  /** So the example has one column and two rows. */
  lemma SharedColumn(rows: seq<Value>, a: Value)
    requires rows == [Mapping([(a, Int(1))]), Mapping([(a, Int(2))])] && !a.Sequence?
    ensures SwapAvailable(rows)
    ensures |RubyColumns(rows)| == 1
  {
    ExampleKeys(rows, a);
    OneColumn(a);
  }

  /** Whenever the rows do not have as many distinct columns as there are
      rows, the Ruby encoder refuses the array, whichever form is shorter. */
  lemma UnevenColumnsRefused(lib: Library, rows: seq<Value>)
    requires PyValue(Sequence(rows)) && SwapAvailable(rows) && |RubyColumns(rows)| != |rows|
    ensures RubyDumpArray(lib, rows).Failure?
  {
  }

  /** Two rows with the same single key have one column, and the transposed
      form checks its children against twice the row count, so the Ruby
      encoder refuses `[{"a": 1}, {"a": 2}]` altogether. */
  lemma SharedColumnRefused(lib: Library, rows: seq<Value>)
    requires rows == [Mapping([(Text("a"), Int(1))]), Mapping([(Text("a"), Int(2))])]
    ensures PyValue(Sequence(rows)) && RubyDumpArray(lib, rows).Failure?
  {
    SharedColumn(rows, Text("a"));
    ExampleIsValue(rows, Text("a"));
    UnevenColumnsRefused(lib, rows);
  }
}

=== FILE: runs.dfy ===
/** Runs of values read one after another, for any reader of one value and
    any decoder state.  Every container body of every decoder is such a run:
    kept as it is (arrays, and the values a refresher or a pragma skips),
    folded two values at a time (objects and transposed arrays), or cut at
    the unspecified marker (lengthless arrays).  The lemmas here are about
    the generic runs; each decoder shows once that its own readers step
    like them. */
module Runs {
  import opened Wrappers
  import opened Values

  datatype Got<S> = Got(v: Value, rest: Bytes, st: S)
  datatype GotMany<S> = GotMany(vs: seq<Value>, rest: Bytes, st: S)
  datatype Folded<S, A> = Folded(acc: A, rest: Bytes, st: S)

  /** Reads one value from the remaining input and the decoder state. */
  type Reader<!S, E> = (Bytes, S) -> Result<Got<S>, E>

  /** Enters a key (or column name) and its value into an accumulator, or
      refuses them. */
  type Putter<!A, E> = (A, Value, Value) -> Result<A, E>

  /** A run with one more value in front; a failure stays the failure. */
  function Cons<S, E>(v: Value, r: Result<GotMany<S>, E>): (p: Result<GotMany<S>, E>)
    ensures p.Success? <==> r.Success?
    ensures p.Success? ==> p.value == GotMany([v] + r.value.vs, r.value.rest, r.value.st)
    ensures p.Failure? ==> p == r
  {
    if r.Success? then Success(GotMany([v] + r.value.vs, r.value.rest, r.value.st)) else r
  }

  // ----- plain runs ---------------------------------------------------------

  /** `n` values, each read where the previous one stopped. */
  function Run<S, E>(read: Reader<S, E>, n: nat, s: Bytes, st: S): (r: Result<GotMany<S>, E>)
    ensures r.Success? ==> |r.value.vs| == n
    decreases n
  {
    if n == 0 then Success(GotMany([], s, st))
    else
      var first := read(s, st);
      if first.Failure? then Failure(first.error)
      else Cons(first.value.v, Run(read, n - 1, first.value.rest, first.value.st))
  }

  /** `n` more values after a run, glued on; a failure of either is the
      failure. */
  function RunThen<S, E>(read: Reader<S, E>, a: Result<GotMany<S>, E>, n: nat): (r: Result<GotMany<S>, E>)
    ensures r.Success? <==> a.Success? && Run(read, n, a.value.rest, a.value.st).Success?
    ensures r.Success? ==>
      r.value == GotMany(a.value.vs + Run(read, n, a.value.rest, a.value.st).value.vs,
                         Run(read, n, a.value.rest, a.value.st).value.rest,
                         Run(read, n, a.value.rest, a.value.st).value.st)
  {
    if a.Failure? then Failure(a.error)
    else
      var b := Run(read, n, a.value.rest, a.value.st);
      if b.Failure? then Failure(b.error)
      else Success(GotMany(a.value.vs + b.value.vs, b.value.rest, b.value.st))
  }

  /** Reading `k + n` values is reading `k` and then `n` more from where and
      with the state the first `k` left. */
  lemma {:induction false} RunSplit<S, E>(read: Reader<S, E>, k: nat, n: nat, s: Bytes, st: S)
    ensures Run(read, k + n, s, st) == RunThen(read, Run(read, k, s, st), n)
    decreases k
  {
    if k == 0 {
      var b := Run(read, n, s, st);
      if b.Success? {
        assert [] + b.value.vs == b.value.vs;
      }
    } else {
      var first := read(s, st);
      if first.Success? {
        RunSplit(read, k - 1, n, first.value.rest, first.value.st);
        var a := Run(read, k - 1, first.value.rest, first.value.st);
        if a.Success? {
          var b := Run(read, n, a.value.rest, a.value.st);
          if b.Success? {
            assert [first.value.v] + (a.value.vs + b.value.vs) == ([first.value.v] + a.value.vs) + b.value.vs;
          }
        }
      }
    }
  }

  /** One more value after `n`: the run of `n + 1` succeeds exactly when the
      run of `n` does and a value follows it, and it ends with that value. */
  lemma RunOneMore<S, E>(read: Reader<S, E>, n: nat, s: Bytes, st: S)
    ensures Run(read, n + 1, s, st).Success? <==>
      Run(read, n, s, st).Success? && read(Run(read, n, s, st).value.rest, Run(read, n, s, st).value.st).Success?
    ensures Run(read, n + 1, s, st).Success? ==>
      var a := Run(read, n, s, st).value;
      var x := read(a.rest, a.st).value;
      Run(read, n + 1, s, st).value == GotMany(a.vs + [x.v], x.rest, x.st)
  {
    RunSplit(read, n, 1, s, st);
    var a := Run(read, n, s, st);
    if a.Success? {
      var x := read(a.value.rest, a.value.st);
      if x.Success? {
        assert Run(read, 0, x.value.rest, x.value.st) == Success(GotMany([], x.value.rest, x.value.st));
        ListOne(x.value.v);
      }
    }
  }

  /** The value read after the first `i` values of a run, if both reads
      succeed. */
  function NthValue<S, E>(read: Reader<S, E>, i: nat, s: Bytes, st: S): (r: Option<Value>)
    ensures r.Some? <==> Run(read, i + 1, s, st).Success?
  {
    RunOneMore(read, i, s, st);
    var before := Run(read, i, s, st);
    if before.Failure? then None
    else
      var x := read(before.value.rest, before.value.st);
      if x.Failure? then None else Some(x.value.v)
  }

  /** The `i`-th value of a run is the value read where the first `i` values
      stopped, with the state they left. */
  lemma RunNth<S, E>(read: Reader<S, E>, n: nat, s: Bytes, st: S, i: nat)
    requires Run(read, n, s, st).Success? && i < n
    ensures NthValue(read, i, s, st) == Some(Run(read, n, s, st).value.vs[i])
  {
    RunSplit(read, i + 1, n - (i + 1), s, st);
    RunOneMore(read, i, s, st);
    var upto := Run(read, i + 1, s, st).value;
    assert Run(read, n, s, st).value.vs[..i + 1] == upto.vs;
    assert upto.vs[i] == Run(read, n, s, st).value.vs[i];
  }

  /** One step of a run whose remainder is read by `f`. */
  function RunStep<S, E>(read: Reader<S, E>, f: (nat, Bytes, S) -> Result<GotMany<S>, E>, n: nat, s: Bytes, st: S): Result<GotMany<S>, E> {
    if n == 0 then Success(GotMany([], s, st))
    else
      var first := read(s, st);
      if first.Failure? then Failure(first.error)
      else Cons(first.value.v, f(n - 1, first.value.rest, first.value.st))
  }

  /** `f` takes the same steps as a run of `read`. */
  ghost predicate StepsLike<S(!new), E>(read: Reader<S, E>, f: (nat, Bytes, S) -> Result<GotMany<S>, E>) {
    forall n: nat, s: Bytes, st: S {:trigger RunStep(read, f, n, s, st)} :: f(n, s, st) == RunStep(read, f, n, s, st)
  }

  /** Whatever steps like a run is that run. */
  lemma {:induction false} RunUnique<S(!new), E>(read: Reader<S, E>, f: (nat, Bytes, S) -> Result<GotMany<S>, E>, n: nat, s: Bytes, st: S)
    requires StepsLike(read, f)
    ensures f(n, s, st) == Run(read, n, s, st)
    decreases n
  {
    assert f(n, s, st) == RunStep(read, f, n, s, st);
    var first := read(s, st);
    if n > 0 && first.Success? {
      RunUnique(read, f, n - 1, first.value.rest, first.value.st);
    }
  }

  // ----- runs folded two values at a time -----------------------------------

  /** `n` pairs, each a key and then its value, entered by `put` as they are
      read; a refused pair stops the fold. */
  function FoldPairs<S, E, A>(read: Reader<S, E>, put: Putter<A, E>, n: nat, s: Bytes, st: S, acc: A): Result<Folded<S, A>, E>
    decreases n
  {
    if n == 0 then Success(Folded(acc, s, st))
    else
      var key := read(s, st);
      if key.Failure? then Failure(key.error)
      else
        var value := read(key.value.rest, key.value.st);
        if value.Failure? then Failure(value.error)
        else
          var next := put(acc, key.value.v, value.value.v);
          if next.Failure? then Failure(next.error)
          else FoldPairs(read, put, n - 1, value.value.rest, value.value.st, next.value)
  }

  /** The list `[k0, v0, k1, v1, ...]` as its pairs; a lone last value is
      dropped. */
  function Paired(vs: seq<Value>): (ps: seq<(Value, Value)>)
    ensures |ps| == |vs| / 2
    ensures forall i :: 0 <= i < |ps| ==> ps[i] == (vs[2 * i], vs[2 * i + 1])
  {
    seq(|vs| / 2, i requires 0 <= i < |vs| / 2 => (vs[2 * i], vs[2 * i + 1]))
  }

  /** A list taken two values at a time and entered by `put`. */
  function FoldList<A, E>(put: Putter<A, E>, vs: seq<Value>, acc: A): Result<A, E>
    decreases |vs|
  {
    if |vs| < 2 then Success(acc)
    else
      var next := put(acc, vs[0], vs[1]);
      if next.Failure? then Failure(next.error)
      else FoldList(put, vs[2..], next.value)
  }

  /** Folding `n` pairs as they are read succeeds exactly when `2·n` values
      can be read and their list folds, and then gives the same accumulator,
      stopping where the run stops with the state it leaves. */
  lemma {:induction false} FoldPairsIsRun<S, E, A>(read: Reader<S, E>, put: Putter<A, E>, n: nat, s: Bytes, st: S, acc: A)
    ensures var m := Run(read, 2 * n, s, st);
      FoldPairs(read, put, n, s, st, acc).Success? <==> m.Success? && FoldList(put, m.value.vs, acc).Success?
    ensures var m := Run(read, 2 * n, s, st);
      FoldPairs(read, put, n, s, st, acc).Success? ==>
        FoldPairs(read, put, n, s, st, acc).value == Folded(FoldList(put, m.value.vs, acc).value, m.value.rest, m.value.st)
    decreases n
  {
    if n > 0 {
      var key := read(s, st);
      if key.Success? {
        var value := read(key.value.rest, key.value.st);
        assert Run(read, 2 * n, s, st) == Cons(key.value.v, Run(read, 2 * n - 1, key.value.rest, key.value.st));
        if value.Success? {
          var tail := Run(read, 2 * (n - 1), value.value.rest, value.value.st);
          assert Run(read, 2 * n - 1, key.value.rest, key.value.st) == Cons(value.value.v, tail);
          var next := put(acc, key.value.v, value.value.v);
          if tail.Success? {
            var vs := [key.value.v] + ([value.value.v] + tail.value.vs);
            assert vs[0] == key.value.v && vs[1] == value.value.v && vs[2..] == tail.value.vs;
          }
          if next.Success? {
            FoldPairsIsRun(read, put, n - 1, value.value.rest, value.value.st, next.value);
          }
        }
      }
    }
  }

  /** One step of a pair fold whose remainder is folded by `f`. */
  function FoldStep<S, E, A>(read: Reader<S, E>, put: Putter<A, E>, f: (nat, Bytes, S, A) -> Result<Folded<S, A>, E>, n: nat, s: Bytes, st: S, acc: A): Result<Folded<S, A>, E> {
    if n == 0 then Success(Folded(acc, s, st))
    else
      var key := read(s, st);
      if key.Failure? then Failure(key.error)
      else
        var value := read(key.value.rest, key.value.st);
        if value.Failure? then Failure(value.error)
        else
          var next := put(acc, key.value.v, value.value.v);
          if next.Failure? then Failure(next.error)
          else f(n - 1, value.value.rest, value.value.st, next.value)
  }

  /** From every accumulator satisfying `inv`, `f` takes the same steps as a
      pair fold. */
  ghost predicate FoldsLike<S(!new), E, A(!new)>(read: Reader<S, E>, put: Putter<A, E>, inv: A -> bool, f: (nat, Bytes, S, A) -> Result<Folded<S, A>, E>) {
    forall n: nat, s: Bytes, st: S, acc: A {:trigger FoldStep(read, put, f, n, s, st, acc)} ::
      inv(acc) ==> f(n, s, st, acc) == FoldStep(read, put, f, n, s, st, acc)
  }

  /** `put` keeps `inv`. */
  ghost predicate Keeps<A(!new), E>(put: Putter<A, E>, inv: A -> bool) {
    forall acc: A, k: Value, v: Value {:trigger put(acc, k, v)} ::
      inv(acc) && put(acc, k, v).Success? ==> inv(put(acc, k, v).value)
  }

  /** Whatever folds like a pair fold from accumulators `put` keeps in `inv`
      is that fold. */
  lemma {:induction false} FoldUnique<S(!new), E, A(!new)>(read: Reader<S, E>, put: Putter<A, E>, inv: A -> bool, f: (nat, Bytes, S, A) -> Result<Folded<S, A>, E>, n: nat, s: Bytes, st: S, acc: A)
    requires FoldsLike(read, put, inv, f) && Keeps(put, inv) && inv(acc)
    ensures f(n, s, st, acc) == FoldPairs(read, put, n, s, st, acc)
    decreases n
  {
    assert f(n, s, st, acc) == FoldStep(read, put, f, n, s, st, acc);
    if n > 0 {
      var key := read(s, st);
      if key.Success? {
        var value := read(key.value.rest, key.value.st);
        if value.Success? {
          var next := put(acc, key.value.v, value.value.v);
          if next.Success? {
            FoldUnique(read, put, inv, f, n - 1, value.value.rest, value.value.st, next.value);
          }
        }
      }
    }
  }

  // ----- runs cut at the unspecified marker ---------------------------------

  /** Every value a reader returns is read from a strictly shorter suffix. */
  ghost predicate Progress<S(!new), E>(read: Reader<S, E>) {
    forall s: Bytes, st: S {:trigger read(s, st)} :: read(s, st).Success? ==> |read(s, st).value.rest| < |s|
  }

  /** None of `vs` is the unspecified marker. */
  predicate Unmarked(vs: seq<Value>) {
    forall i :: 0 <= i < |vs| ==> vs[i] != Unspecified
  }

  /** Values up to the first unspecified marker, appended to `acc`. */
  function Until<S(!new), E>(read: Reader<S, E>, s: Bytes, st: S, acc: seq<Value>): Result<Got<S>, E>
    requires Progress(read)
    decreases |s|
  {
    var item := read(s, st);
    if item.Failure? then Failure(item.error)
    else if item.value.v == Unspecified then Success(Got(Sequence(acc), item.value.rest, item.value.st))
    else Until(read, item.value.rest, item.value.st, acc + [item.value.v])
  }

  /** A cut run is the run of the values before the marker and the marker:
      it succeeds exactly when some run of `k + 1` values ends at the first
      marker, and then it holds the `k` values before it. */
  lemma {:induction false} UntilIsRun<S(!new), E>(read: Reader<S, E>, s: Bytes, st: S, acc: seq<Value>, k: nat)
    requires Progress(read)
    requires Run(read, k + 1, s, st).Success?
    requires Run(read, k + 1, s, st).value.vs[k] == Unspecified
    requires Unmarked(Run(read, k + 1, s, st).value.vs[..k])
    ensures Until(read, s, st, acc) ==
      Success(Got(Sequence(acc + Run(read, k + 1, s, st).value.vs[..k]),
                  Run(read, k + 1, s, st).value.rest, Run(read, k + 1, s, st).value.st))
    decreases k
  {
    var item := read(s, st);
    var more := Run(read, k, item.value.rest, item.value.st);
    assert Run(read, k + 1, s, st) == Cons(item.value.v, more);
    if k == 0 {
      assert acc + [] == acc;
    } else {
      assert more.value.vs[k - 1] == Unspecified;
      assert item.value.v != Unspecified by {
        assert Run(read, k + 1, s, st).value.vs[..k][0] == item.value.v;
      }
      assert more.value.vs[..k - 1] == Run(read, k + 1, s, st).value.vs[1..k];
      assert Unmarked(more.value.vs[..k - 1]) by {
        var pre := more.value.vs[..k - 1];
        var whole := Run(read, k + 1, s, st).value.vs[..k];
        forall i | 0 <= i < |pre|
          ensures pre[i] != Unspecified
        {
          assert pre[i] == whole[i + 1];
        }
      }
      UntilIsRun(read, item.value.rest, item.value.st, acc + [item.value.v], k - 1);
      assert (acc + [item.value.v]) + more.value.vs[..k - 1] == acc + Run(read, k + 1, s, st).value.vs[..k];
    }
  }

  /** Conversely, a successful cut run ends at the first marker of the run of
      the values it read. */
  lemma {:induction false} UntilEndsAtMarker<S(!new), E>(read: Reader<S, E>, s: Bytes, st: S, acc: seq<Value>)
    requires Progress(read)
    requires Until(read, s, st, acc).Success?
    ensures var r := Until(read, s, st, acc).value;
      r.v.Sequence? && |acc| <= |r.v.items| && r.v.items[..|acc|] == acc &&
      var k := |r.v.items| - |acc|;
      Run(read, k + 1, s, st).Success? &&
      Run(read, k + 1, s, st).value == GotMany(r.v.items[|acc|..] + [Unspecified], r.rest, r.st) &&
      Unmarked(r.v.items[|acc|..])
    decreases |s|
  {
    var item := read(s, st).value;
    var r := Until(read, s, st, acc).value;
    if item.v == Unspecified {
      assert r == Got(Sequence(acc), item.rest, item.st);
      assert Run(read, 0, item.rest, item.st) == Success(GotMany([], item.rest, item.st));
      assert r.v.items[|acc|..] == [];
    } else {
      var acc' := acc + [item.v];
      UntilEndsAtMarker(read, item.rest, item.st, acc');
      assert r == Until(read, item.rest, item.st, acc').value;
      var k := |r.v.items| - |acc|;
      assert r.v.items[..|acc|] == r.v.items[..|acc'|][..|acc|];
      var tail := r.v.items[|acc'|..];
      assert Run(read, k, item.rest, item.st).value == GotMany(tail + [Unspecified], r.rest, r.st);
      assert Run(read, k + 1, s, st) == Cons(item.v, Run(read, k, item.rest, item.st));
      assert r.v.items[|acc|..] == [item.v] + tail by {
        assert r.v.items[|acc|..][0] == r.v.items[..|acc'|][|acc|];
      }
      assert [item.v] + (tail + [Unspecified]) == ([item.v] + tail) + [Unspecified];
    }
  }

  /** The same from an empty accumulator: the values read are unmarked and,
      with the marker after them, form the run. */
  lemma UntilFromStart<S(!new), E>(read: Reader<S, E>, s: Bytes, st: S)
    requires Progress(read)
    requires Until(read, s, st, []).Success?
    ensures var r := Until(read, s, st, []).value;
      r.v.Sequence? && Unmarked(r.v.items) &&
      Run(read, |r.v.items| + 1, s, st) == Success(GotMany(r.v.items + [Unspecified], r.rest, r.st))
  {
    UntilEndsAtMarker(read, s, st, []);
    var r := Until(read, s, st, []).value;
    assert r.v.items[0..] == r.v.items;
  }

  /** One step of a cut run whose remainder is read by `f`. */
  function UntilStep<S, E>(read: Reader<S, E>, f: (Bytes, S, seq<Value>) -> Result<Got<S>, E>, s: Bytes, st: S, acc: seq<Value>): Result<Got<S>, E> {
    var item := read(s, st);
    if item.Failure? then Failure(item.error)
    else if item.value.v == Unspecified then Success(Got(Sequence(acc), item.value.rest, item.value.st))
    else f(item.value.rest, item.value.st, acc + [item.value.v])
  }

  /** `f` takes the same steps as a cut run. */
  ghost predicate CutsLike<S(!new), E>(read: Reader<S, E>, f: (Bytes, S, seq<Value>) -> Result<Got<S>, E>) {
    forall s: Bytes, st: S, acc: seq<Value> {:trigger UntilStep(read, f, s, st, acc)} :: f(s, st, acc) == UntilStep(read, f, s, st, acc)
  }

  /** Whatever steps like a cut run is that cut run. */
  lemma {:induction false} UntilUnique<S(!new), E>(read: Reader<S, E>, f: (Bytes, S, seq<Value>) -> Result<Got<S>, E>, s: Bytes, st: S, acc: seq<Value>)
    requires Progress(read) && CutsLike(read, f)
    ensures f(s, st, acc) == Until(read, s, st, acc)
    decreases |s|
  {
    assert f(s, st, acc) == UntilStep(read, f, s, st, acc);
    var item := read(s, st);
    if item.Success? && item.value.v != Unspecified {
      UntilUnique(read, f, item.value.rest, item.value.st, acc + [item.value.v]);
    }
  }
}

=== FILE: tracesteps.dfy ===
/** Single steps of the Python encoder and decoder for any rules and either
    reading of deltas, in the form the worked examples compose: a short
    array's node, one step of the optimisation walk over a list of nodes,
    the bytes of a list of nodes, and the reader the dispatcher picks. */
module TraceSteps {
  import opened Wrappers
  import opened Values
  import opened IntCodec
  import opened Djb
  import opened Proxy
  import opened Encoder
  import opened Optimizer
  import opened Decoder

  /** An array of at most twelve values that cannot be transposed has its
      count in the control byte and one child per value. */
  lemma ShortList(lib: Library, items: seq<Value>)
    requires PyValue(Sequence(items)) && |items| <= 0xc && !SwapAvailable(items)
    ensures DumpValue(lib, Sequence(items)) == Branch(Sequence(items), (0x80 + |items|) as byte, [], DumpItems(lib, items))
  {
  }

  lemma ItemsCons(lib: Library, x: Value, rest: seq<Value>)
    requires PyValue(x) && PyValue(Sequence(rest))
    ensures PyValue(Sequence([x] + rest))
    ensures DumpItems(lib, [x] + rest) == [DumpValue(lib, x)] + DumpItems(lib, rest)
  {
    var items := [x] + rest;
    assert items[0] == x && items[1..] == rest;
    assert forall i :: 0 <= i < |items| ==> PyValue(items[i]) by {
      forall i | 0 <= i < |items| ensures PyValue(items[i]) {
        if i > 0 {
          assert items[i] == rest[i - 1];
        }
      }
    }
  }

  /** Two values dump to their two nodes. */
  lemma TwoItems(lib: Library, x: Value, y: Value)
    requires PyValue(x) && PyValue(y)
    ensures PyValue(Sequence([x, y]))
    ensures DumpItems(lib, [x, y]) == [DumpValue(lib, x), DumpValue(lib, y)]
  {
    assert DumpItems(lib, []) == [];
    ItemsCons(lib, y, []);
    ItemsCons(lib, x, [y]);
    ListTwo(x, y);
    assert [DumpValue(lib, x)] + [DumpValue(lib, y)] == [DumpValue(lib, x), DumpValue(lib, y)];
  }

  /** Three values dump to their three nodes. */
  lemma ThreeItems(lib: Library, x: Value, y: Value, z: Value)
    requires PyValue(x) && PyValue(y) && PyValue(z)
    ensures PyValue(Sequence([x, y, z]))
    ensures DumpItems(lib, [x, y, z]) == [DumpValue(lib, x), DumpValue(lib, y), DumpValue(lib, z)]
  {
    TwoItems(lib, y, z);
    ItemsCons(lib, x, [y, z]);
    ListThree(x, y, z);
    assert [DumpValue(lib, x)] + [DumpValue(lib, y), DumpValue(lib, z)] ==
      [DumpValue(lib, x), DumpValue(lib, y), DumpValue(lib, z)];
  }

  /** A list whose first item is not a dict cannot be transposed. */
  lemma NotSwappable(items: seq<Value>)
    requires |items| > 0 && !items[0].Mapping?
    ensures !SwapAvailable(items)
  {
  }

  /** A container is optimised child by child. */
  lemma OptimizeContainer(rules: Rules, p: Node, e: EncoderState)
    requires p.control / 16 !in {1, 3, 4, 5}
    ensures Optimize(rules, p, e) ==
      (p.(children := OptimizeAll(rules, p.children, e).0), OptimizeAll(rules, p.children, e).1)
  {
  }

  lemma OptimizeAllCons(rules: Rules, p: Node, ps: seq<Node>, e: EncoderState)
    ensures OptimizeAll(rules, [p] + ps, e) ==
      ([Optimize(rules, p, e).0] + OptimizeAll(rules, ps, Optimize(rules, p, e).1).0,
       OptimizeAll(rules, ps, Optimize(rules, p, e).1).1)
  {
    assert ([p] + ps)[0] == p && ([p] + ps)[1..] == ps;
  }

  lemma SerializeCons(q: Node, qs: seq<Node>)
    ensures SerializeAll([q] + qs) == Serialize(q) + SerializeAll(qs)
  {
    assert ([q] + qs)[0] == q && ([q] + qs)[1..] == qs;
  }

  lemma SerializeChildless(p: Node)
    requires p.children == []
    ensures Serialize(p) == [p.control] + p.data + p.buf
  {
    assert SerializeAll([]) == [];
  }

  /** The dispatcher hands each family to its reader, whichever way deltas
      are read. */
  lemma Dispatch(lib: Library, signed: bool, c: byte, t: Bytes, st: DecoderState)
    ensures c / 16 == 1 ==> LoadValue(lib, signed, [c] + t, st) == LoadInt(c, t, st)
    ensures 3 <= c / 16 <= 5 ==> LoadValue(lib, signed, [c] + t, st) == LoadString(lib, c, t, st)
    ensures c / 16 == 8 ==> LoadValue(lib, signed, [c] + t, st) == LoadArray(lib, signed, c, t, st)
    ensures c / 16 == 0xb ==> LoadValue(lib, signed, [c] + t, st) == LoadDelta(signed, c, t, st)
  {
    assert ([c] + t)[0] == c && ([c] + t)[1..] == t;
  }

  /** One value, then the rest of a run of values. */
  lemma ManyStep(lib: Library, signed: bool, n: nat, s: Bytes, st: DecoderState, first: Loaded, more: LoadedMany)
    requires n > 0
    requires LoadValue(lib, signed, s, st) == Success(first)
    requires LoadMany(lib, signed, n - 1, first.rest, first.st) == Success(more)
    ensures LoadMany(lib, signed, n, s, st) == Success(LoadedMany([first.v] + more.vs, more.rest, more.st))
  {
  }

  /** An array header with an inline count, then that many values. */
  lemma ShortArrayReads(lib: Library, signed: bool, c: byte, t: Bytes, st: DecoderState, many: LoadedMany)
    requires c / 16 == 8 && c % 16 <= 0xc
    requires LoadMany(lib, signed, c % 16, t, st) == Success(many)
    ensures LoadValue(lib, signed, [c] + t, st) == Success(Loaded(Sequence(many.vs), many.rest, many.st))
  {
    Dispatch(lib, signed, c, t, st);
  }
  /** A blob with an inline length: its bytes, stored at their hash. */
  lemma ShortBlobReads(lib: Library, signed: bool, c: byte, t: Bytes, st: DecoderState)
    requires c / 16 == 5 && c % 16 <= 0xb && c % 16 <= |t|
    ensures LoadValue(lib, signed, [c] + t, st) ==
      Success(Loaded(Blob(t[..c % 16]), t[c % 16..], st.(blob := st.blob[Hash(t[..c % 16]) := t[..c % 16]])))
  {
    Dispatch(lib, signed, c, t, st);
  }

  /** UTF-8 text with an inline length, decoded by the library and stored at
      the hash of its bytes. */
  lemma ShortUtf8Reads(lib: Library, signed: bool, c: byte, t: Bytes, st: DecoderState, s: string)
    requires c / 16 == 4 && c % 16 <= 0xc && c % 16 <= |t|
    requires lib.decode(Utf8, t[..c % 16]) == Some(s)
    ensures LoadValue(lib, signed, [c] + t, st) ==
      Success(Loaded(Text(s), t[c % 16..], st.(text := st.text[Hash(t[..c % 16]) := s])))
  {
    Dispatch(lib, signed, c, t, st);
  }

  /** UTF-16LE text with an inline count of code units. */
  lemma ShortUtf16Reads(lib: Library, signed: bool, c: byte, t: Bytes, st: DecoderState, s: string)
    requires c / 16 == 3 && c % 16 <= 0xb && 2 * (c % 16) <= |t|
    requires lib.decode(Utf16Le, t[..2 * (c % 16)]) == Some(s)
    ensures LoadValue(lib, signed, [c] + t, st) ==
      Success(Loaded(Text(s), t[2 * (c % 16)..], st.(text := st.text[Hash(t[..2 * (c % 16)]) := s])))
  {
    Dispatch(lib, signed, c, t, st);
  }

  /** A back-reference reads its table slot. */
  lemma BackReferenceReads(lib: Library, signed: bool, c: byte, h: byte, t: Bytes, st: DecoderState)
    requires c == 0x3c || c == 0x5c
    ensures c == 0x3c ==>
      LoadValue(lib, signed, [c] + ([h] + t), st) ==
        (if h in st.text then Success(Loaded(Text(st.text[h]), t, st)) else Failure(MissingHash(h)))
    ensures c == 0x5c ==>
      LoadValue(lib, signed, [c] + ([h] + t), st) ==
        (if h in st.blob then Success(Loaded(Blob(st.blob[h]), t, st)) else Failure(MissingHash(h)))
  {
    Dispatch(lib, signed, c, [h] + t, st);
    assert ([h] + t)[0] == h && ([h] + t)[1..] == t;
  }
  /** The optimisation walk over two and three sibling nodes, step by step. */
  lemma OptimizeTwo(rules: Rules, a: Node, b: Node, e0: EncoderState, a': Node, b': Node, e1: EncoderState, e2: EncoderState)
    requires Optimize(rules, a, e0) == (a', e1) && Optimize(rules, b, e1) == (b', e2)
    ensures OptimizeAll(rules, [a, b], e0) == ([a', b'], e2)
  {
    assert OptimizeAll(rules, [], e2) == ([], e2);
    OptimizeAllCons(rules, b, [], e1);
    OptimizeAllCons(rules, a, [b], e0);
    assert [a] + [b] == [a, b] && [b'] + [] == [b'] && [a'] + [b'] == [a', b'];
  }

  lemma OptimizeThree(rules: Rules, a: Node, b: Node, c: Node, e0: EncoderState,
                      a': Node, b': Node, c': Node, e1: EncoderState, e2: EncoderState, e3: EncoderState)
    requires Optimize(rules, a, e0) == (a', e1) && Optimize(rules, b, e1) == (b', e2) && Optimize(rules, c, e2) == (c', e3)
    ensures OptimizeAll(rules, [a, b, c], e0) == ([a', b', c'], e3)
  {
    OptimizeTwo(rules, b, c, e1, b', c', e2, e3);
    OptimizeAllCons(rules, a, [b, c], e0);
    assert [a] + [b, c] == [a, b, c] && [a'] + [b', c'] == [a', b', c'];
  }

  lemma SerializeTwo(a: Node, b: Node)
    ensures SerializeAll([a, b]) == Serialize(a) + Serialize(b)
  {
    assert SerializeAll([]) == [];
    SerializeCons(b, []);
    SerializeCons(a, [b]);
    ListTwo(a, b);
  }

  lemma SerializeThree(a: Node, b: Node, c: Node)
    ensures SerializeAll([a, b, c]) == Serialize(a) + Serialize(b) + Serialize(c)
  {
    SerializeTwo(b, c);
    SerializeCons(a, [b, c]);
    ListThree(a, b, c);
  }

  /** Two and three values read one after the other. */
  lemma ReadTwo(lib: Library, signed: bool, s0: Bytes, st0: DecoderState, x: Loaded, y: Loaded)
    requires LoadValue(lib, signed, s0, st0) == Success(x)
    requires LoadValue(lib, signed, x.rest, x.st) == Success(y)
    ensures LoadMany(lib, signed, 2, s0, st0) == Success(LoadedMany([x.v, y.v], y.rest, y.st))
  {
    assert LoadMany(lib, signed, 0, y.rest, y.st) == Success(LoadedMany([], y.rest, y.st));
    ManyStep(lib, signed, 1, x.rest, x.st, y, LoadedMany([], y.rest, y.st));
    ListOne(y.v);
    ManyStep(lib, signed, 2, s0, st0, x, LoadedMany([y.v], y.rest, y.st));
    ListTwo(x.v, y.v);
  }

  lemma ReadThree(lib: Library, signed: bool, s0: Bytes, st0: DecoderState, x: Loaded, y: Loaded, z: Loaded)
    requires LoadValue(lib, signed, s0, st0) == Success(x)
    requires LoadValue(lib, signed, x.rest, x.st) == Success(y)
    requires LoadValue(lib, signed, y.rest, y.st) == Success(z)
    ensures LoadMany(lib, signed, 3, s0, st0) == Success(LoadedMany([x.v, y.v, z.v], z.rest, z.st))
  {
    ReadTwo(lib, signed, x.rest, x.st, y, z);
    ManyStep(lib, signed, 3, s0, st0, x, LoadedMany([y.v, z.v], z.rest, z.st));
    ListThree(x.v, y.v, z.v);
  }
}

=== FILE: valueroundtrip.dfy ===
/** The round trip for whole values: every value the Python encoder accepts
    whose dicts have distinct hashable keys and no unspecified-marker value
    decodes, after the first pass and the optimisation pass with the
    corrected rules, to an equivalent value, consuming exactly its own bytes
    and leaving the two sides' tables in agreement.  Containers are handled
    one child at a time, in the order both sides visit them. */
module ValueRoundTrip {
  import opened Wrappers
  import opened Values
  import opened IntCodec
  import opened Proxy
  import opened Encoder
  import opened Optimizer
  import opened Decoder
  import opened RoundTrip
  import opened DecodeSteps
  import opened EncodeSteps

  /** Every dict inside has hashable keys, no two of them the same dict key
      (`True` and `1` count as one), and no value that is the unspecified
      marker, which a transposed array would drop. */
  predicate Clean(v: Value)
    decreases v
  {
    match v
    case Sequence(items) => forall i :: 0 <= i < |items| ==> Clean(items[i])
    case Mapping(pairs) =>
      && PyDistinctKeys(pairs)
      && forall i :: 0 <= i < |pairs| ==>
           Hashable(pairs[i].0) && pairs[i].1 != Unspecified && Clean(pairs[i].0) && Clean(pairs[i].1)
    case _ => true
  }

  /** The values the round trip is stated for. */
  predicate RoundTrippable(v: Value) {
    PyValue(v) && Clean(v)
  }

  /** Decoding the serialised node `q` from state `d` yields a value
      equivalent to `v`, stops exactly before `tail`, and leaves the decoder's
      tables agreeing with the encoder's tables `e2`. */
  predicate Decodes(lib: Library, q: Node, e2: EncoderState, v: Value, d: DecoderState, tail: Bytes) {
    var r := LoadValue(lib, true, Serialize(q) + tail, d);
    r.Success? && Equiv(v, r.value.v) && r.value.rest == tail && Agree(lib, e2, r.value.st)
  }

  // ----- scalars --------------------------------------------------------------

  /** None, booleans, the unspecified marker and floats pass the optimiser
      untouched and decode to themselves without touching the tables. */
  lemma ScalarRoundTrip(lib: Library, v: Value, e: EncoderState, d: DecoderState, tail: Bytes)
    requires v.Null? || v.Bool? || v.Unspecified? || v.Float?
    requires RoundTrippable(v)
    ensures Optimize(CorrectedRules, DumpValue(lib, v), e) == (DumpValue(lib, v), e)
    ensures LoadValue(lib, true, Serialize(DumpValue(lib, v)) + tail, d) == Success(Loaded(v, tail, d))
  {
    ScalarUntouched(lib, v, e);
    ScalarReads(lib, v, d, tail);
  }

  /** A scalar's node has no children and no table entry, so the
      optimisation pass leaves it and the encoder's tables alone. */
  lemma ScalarUntouched(lib: Library, v: Value, e: EncoderState)
    requires v.Null? || v.Bool? || v.Unspecified? || v.Float?
    requires PyValue(v)
    ensures Optimize(CorrectedRules, DumpValue(lib, v), e) == (DumpValue(lib, v), e)
  {
    var p := DumpValue(lib, v);
    assert OptimizeAll(CorrectedRules, [], e) == ([], e);
    assert p.(children := []) == p;
  }

  /** A scalar's bytes read back as the scalar, stopping before `tail`,
      with the decoder's tables untouched. */
  lemma ScalarReads(lib: Library, v: Value, d: DecoderState, tail: Bytes)
    requires v.Null? || v.Bool? || v.Unspecified? || v.Float?
    requires RoundTrippable(v)
    ensures LoadValue(lib, true, Serialize(DumpValue(lib, v)) + tail, d) == Success(Loaded(v, tail, d))
  {
    var p := DumpValue(lib, v);
    assert Serialize(p) + tail == [p.control] + (p.data + tail) by {
      SerializeLeaf(p);
    }
    DispatchOther(lib, p.control, p.data + tail, d);
    if v.Float? && v.f.Double? {
      assert (p.data + tail)[..8] == p.data && (p.data + tail)[8..] == tail;
    }
  }

  // ----- dicts ----------------------------------------------------------------

  /** `out` extends `acc` by one pair per pair of `pairs`, with the same key
      and an equivalent value. */
  predicate PairsMatch(pairs: seq<(Value, Value)>, acc: seq<(Value, Value)>, out: seq<(Value, Value)>) {
    && |out| == |acc| + |pairs|
    && out[..|acc|] == acc
    && forall i :: 0 <= i < |pairs| ==> out[|acc| + i].0 == pairs[i].0 && Equiv(pairs[i].1, out[|acc| + i].1)
  }

  lemma PairsMatchCons(pairs: seq<(Value, Value)>, acc: seq<(Value, Value)>, v: Value, out: seq<(Value, Value)>)
    requires |pairs| > 0 && Equiv(pairs[0].1, v)
    requires PairsMatch(pairs[1..], acc + [(pairs[0].0, v)], out)
    ensures PairsMatch(pairs, acc, out)
  {
    var acc1 := acc + [(pairs[0].0, v)];
    assert out[..|acc|] == out[..|acc1|][..|acc|];
    assert out[|acc|] == out[..|acc1|][|acc|];
    forall i | 1 <= i < |pairs|
      ensures out[|acc| + i].0 == pairs[i].0 && Equiv(pairs[i].1, out[|acc| + i].1)
    {
      assert pairs[1..][i - 1] == pairs[i];
      assert |acc1| + (i - 1) == |acc| + i;
    }
  }

  /** Pairs decoded key for key with equivalent values make an equivalent dict. */
  lemma EquivOfPairs(pairs: seq<(Value, Value)>, out: seq<(Value, Value)>)
    requires PyDistinctKeys(pairs) && PairsMatch(pairs, [], out)
    ensures Equiv(Mapping(pairs), Mapping(out))
  {
    forall x ensures x in PyKeysOf(pairs) <==> x in PyKeysOf(out) {
      if x in PyKeysOf(pairs) {
        var i :| 0 <= i < |pairs| && PyKey(pairs[i].0) == x;
        assert out[0 + i].0 == pairs[i].0;
      }
      if x in PyKeysOf(out) {
        var i :| 0 <= i < |out| && PyKey(out[i].0) == x;
        assert pairs[i].0 == out[0 + i].0;
      }
    }
    forall i, j | 0 <= i < |pairs| && 0 <= j < |out| && PyKey(pairs[i].0) == PyKey(out[j].0)
      ensures Equiv(pairs[i].1, out[j].1)
    {
      assert out[0 + j].0 == pairs[j].0;
      assert out[0 + i] == out[i];
    }
  }

  /** The tail of a round-trippable dict is one too. */
  lemma CleanTail(pairs: seq<(Value, Value)>)
    requires |pairs| > 0 && RoundTrippable(Mapping(pairs))
    ensures RoundTrippable(Mapping(pairs[1..]))
    ensures RoundTrippable(pairs[0].0) && RoundTrippable(pairs[0].1) && Hashable(pairs[0].0)
    ensures forall i :: 0 <= i < |pairs[1..]| ==> PyKey(pairs[1..][i].0) != PyKey(pairs[0].0)
    ensures pairs[0].1 != Unspecified
  {
    PyKeysOfCons(pairs);
    assert forall i :: 0 <= i < |pairs[1..]| ==> pairs[1..][i] == pairs[i + 1];
  }

  // ----- transposed arrays ----------------------------------------------------

  /** The columns of `cols` whose cell in `row` holds a value, in column order. */
  function Present(row: Value, cols: seq<Value>): (r: seq<Value>)
    ensures forall x :: x in r <==> x in cols && Cell(row, x) != Unspecified
    decreases |cols|
  {
    if |cols| == 0 then []
    else
      var last := cols[|cols| - 1];
      assert forall x :: x in cols <==> x in cols[..|cols| - 1] || x == last by {
        assert cols == cols[..|cols| - 1] + [last];
      }
      Present(row, cols[..|cols| - 1]) + (if Cell(row, last) != Unspecified then [last] else [])
  }

  /** Columns that are distinct dict keys give present columns that are. */
  lemma {:induction false} PresentDistinct(row: Value, cols: seq<Value>)
    requires PyDistinct(cols)
    ensures PyDistinct(Present(row, cols))
    decreases |cols|
  {
    if |cols| > 0 {
      var init := cols[..|cols| - 1];
      var last := cols[|cols| - 1];
      assert PyDistinct(init) by {
        forall i, j | 0 <= i < j < |init| ensures PyKey(init[i]) != PyKey(init[j]) {
          assert init[i] == cols[i] && init[j] == cols[j];
        }
      }
      PresentDistinct(row, init);
      var before := Present(row, init);
      forall i | 0 <= i < |before| ensures PyKey(before[i]) != PyKey(last) {
        assert before[i] in init;
        var m :| 0 <= m < |init| && init[m] == before[i];
        assert init[m] == cols[m];
      }
    }
  }

  /** The pairs of one decoded row: keyed by the present columns, in order,
      each value equivalent to the original cell. */
  predicate Matches(entries: seq<(Value, Value)>, row: Value, cols: seq<Value>) {
    && PairKeys(entries) == Present(row, cols)
    && forall j :: 0 <= j < |entries| ==> Equiv(Cell(row, entries[j].0), entries[j].1)
  }

  /** The number of rows open after `k` columns: none before the first
      column, one per original row after it. */
  function Opened(rows: seq<Value>, k: nat): (n: nat)
    ensures n == 0 || n == |rows|
  {
    if k == 0 then 0 else |rows|
  }

  /** After the first `k` columns are read back, the open rows each match
      the original row on those columns. */
  predicate ColumnsInv(rows: seq<Value>, cols: seq<Value>, k: nat, acc: seq<seq<(Value, Value)>>)
    requires k <= |cols|
  {
    && |acc| == Opened(rows, k)
    && forall i {:trigger acc[i]} :: 0 <= i < |acc| ==> Matches(acc[i], rows[i], cols[..k])
  }

  /** A value equivalent to a hashable one is that value. */
  lemma EquivHashable(a: Value, b: Value)
    requires Hashable(a) && Equiv(a, b)
    ensures b == a
  {
  }

  /** Equivalence preserves the unspecified marker in both directions. */
  lemma EquivUnspecified(a: Value, b: Value)
    requires Equiv(a, b)
    ensures a == Unspecified <==> b == Unspecified
  {
  }

  /** One row of the pivot: the row so far gains the column when its value
      is not the unspecified marker. */
  lemma PivotRowStep(row: Value, cols: seq<Value>, k: nat, before: seq<(Value, Value)>, v: Value)
    requires k < |cols| && Matches(before, row, cols[..k]) && Equiv(Cell(row, cols[k]), v)
    ensures Matches(before + (if v != Unspecified then [(cols[k], v)] else []), row, cols[..k + 1])
  {
    EquivUnspecified(Cell(row, cols[k]), v);
    PivotRowKeys(row, cols, k, before, v);
    PivotRowValues(row, cols[k], before, v);
  }

  /** The keys of the grown row are the present columns one column further. */
  lemma PivotRowKeys(row: Value, cols: seq<Value>, k: nat, before: seq<(Value, Value)>, v: Value)
    requires k < |cols| && PairKeys(before) == Present(row, cols[..k])
    requires v != Unspecified <==> Cell(row, cols[k]) != Unspecified
    ensures PairKeys(before + (if v != Unspecified then [(cols[k], v)] else [])) == Present(row, cols[..k + 1])
  {
    var entry := if v != Unspecified then [(cols[k], v)] else [];
    PresentSnoc(row, cols, k);
    PairKeysConcat(before, entry);
    assert PairKeys(entry) == if v != Unspecified then [cols[k]] else [];
  }

  lemma PairKeysConcat(a: seq<(Value, Value)>, b: seq<(Value, Value)>)
    ensures PairKeys(a + b) == PairKeys(a) + PairKeys(b)
  {
  }

  /** One more column adds that column to the present ones exactly when its
      cell holds a value. */
  lemma PresentSnoc(row: Value, cols: seq<Value>, k: nat)
    requires k < |cols|
    ensures Present(row, cols[..k + 1]) ==
      Present(row, cols[..k]) + (if Cell(row, cols[k]) != Unspecified then [cols[k]] else [])
  {
    var grown := cols[..k + 1];
    assert grown[..|grown| - 1] == cols[..k];
    assert grown[|grown| - 1] == cols[k];
  }

  /** The grown row's values stay equivalent to the original cells. */
  lemma PivotRowValues(row: Value, c: Value, before: seq<(Value, Value)>, v: Value)
    requires forall j :: 0 <= j < |before| ==> Equiv(Cell(row, before[j].0), before[j].1)
    requires Equiv(Cell(row, c), v)
    ensures var grown := before + (if v != Unspecified then [(c, v)] else []);
      forall j :: 0 <= j < |grown| ==> Equiv(Cell(row, grown[j].0), grown[j].1)
  {
  }

  /** Pivoting in a column whose values are equivalent to the cells keeps the
      invariant one column further. */
  lemma PivotStep(rows: seq<Value>, cols: seq<Value>, k: nat, acc: seq<seq<(Value, Value)>>, vals: seq<Value>)
    requires k < |cols| && ColumnsInv(rows, cols, k, acc) && |vals| == |rows|
    requires forall i :: 0 <= i < |rows| ==> Equiv(Cell(rows[i], cols[k]), vals[i])
    ensures ColumnsInv(rows, cols, k + 1, Pivot(acc, cols[k], vals))
  {
    var next := Pivot(acc, cols[k], vals);
    forall i | 0 <= i < |rows| ensures Matches(next[i], rows[i], cols[..k + 1]) {
      var before := if i < |acc| then acc[i] else [];
      assert Matches(before, rows[i], cols[..k]) by {
        if k == 0 {
          assert cols[..k] == [];
        }
      }
      PivotRowStep(rows[i], cols, k, before, vals[i]);
    }
  }

  /** `dict(pairs)` on distinct hashable keys keeps the pairs as they are. */
  lemma {:induction false} BuildDictKeeps(pairs: seq<(Value, Value)>, acc: seq<(Value, Value)>)
    requires PyDistinctKeys(acc) && PyDistinctKeys(acc + pairs)
    requires forall i :: 0 <= i < |pairs| ==> Hashable(pairs[i].0)
    ensures BuildDict(pairs, acc) == Success(acc + pairs)
    decreases |pairs|
  {
    if |pairs| > 0 {
      var all := acc + pairs;
      assert PyKey(pairs[0].0) !in PyKeysOf(acc) by {
        forall j | 0 <= j < |acc| ensures PyKey(acc[j].0) != PyKey(pairs[0].0) {
          assert all[j] == acc[j] && all[|acc|] == pairs[0];
        }
      }
      PyPutDistinct(acc, pairs[0].0, pairs[0].1);
      assert (acc + [pairs[0]]) + pairs[1..] == all;
      BuildDictKeeps(pairs[1..], acc + [pairs[0]]);
    } else {
      assert acc + pairs == acc;
    }
  }

  /** A row `dict(pairs)` accepts as it is: distinct, hashable keys. */
  predicate RowBuildable(pairs: seq<(Value, Value)>) {
    PyDistinctKeys(pairs) && forall j :: 0 <= j < |pairs| ==> Hashable(pairs[j].0)
  }

  /** Each row of pairs as a dict. */
  function Dicts(rowPairs: seq<seq<(Value, Value)>>): (r: seq<Value>)
    ensures |r| == |rowPairs|
    ensures forall i :: 0 <= i < |r| ==> r[i] == Mapping(rowPairs[i])
  {
    seq(|rowPairs|, i requires 0 <= i < |rowPairs| => Mapping(rowPairs[i]))
  }

  lemma DictsCons(rowPairs: seq<seq<(Value, Value)>>)
    requires |rowPairs| > 0
    ensures Dicts(rowPairs) == [Mapping(rowPairs[0])] + Dicts(rowPairs[1..])
  {
    assert forall i :: 0 <= i < |rowPairs| - 1 ==> Dicts(rowPairs[1..])[i] == Mapping(rowPairs[i + 1]);
  }

  /** Rows of distinct hashable keys all become dicts of those pairs. */
  lemma {:induction false} BuildDictsKeeps(rowPairs: seq<seq<(Value, Value)>>)
    requires forall i :: 0 <= i < |rowPairs| ==> RowBuildable(rowPairs[i])
    ensures BuildDicts(rowPairs) == Success(Dicts(rowPairs))
    decreases |rowPairs|
  {
    if |rowPairs| > 0 {
      assert RowBuildable(rowPairs[0]);
      assert [] + rowPairs[0] == rowPairs[0];
      BuildDictKeeps(rowPairs[0], []);
      BuildDictsKeeps(rowPairs[1..]);
      DictsCons(rowPairs);
    }
  }

  /** Every cell of a clean row is clean. */
  lemma CellClean(row: Value, c: Value)
    requires Clean(row)
    ensures Clean(Cell(row, c))
  {
    if row.Mapping? && PyKey(c) in PyKeysOf(row.pairs) {
      var n :| 0 <= n < |row.pairs| && PyKey(row.pairs[n].0) == PyKey(c) && row.pairs[n].1 == Cell(row, c);
    }
  }

  /** A key of a clean dict is hashable and clean. */
  lemma KeyClean(row: Value, c: Value)
    requires row.Mapping? && Clean(row) && c in KeysOf(row.pairs)
    ensures Hashable(c) && Clean(c)
  {
    var j :| 0 <= j < |row.pairs| && row.pairs[j].0 == c;
  }

  /** The cells of one column of clean rows are clean. */
  lemma CellsClean(rows: seq<Value>, c: Value)
    requires Clean(Sequence(rows))
    ensures Clean(Sequence(ColumnValues(rows, c)))
  {
    var cv := ColumnValues(rows, c);
    forall m | 0 <= m < |cv| ensures Clean(cv[m]) {
      CellClean(rows[m], c);
    }
  }

  /** A column of a round-trippable array is a hashable round-trippable value,
      and so is the array of its cells. */
  lemma ColumnClean(rows: seq<Value>, c: Value)
    requires RoundTrippable(Sequence(rows)) && SwapAvailable(rows) && IsColumn(rows, c)
    ensures Hashable(c) && RoundTrippable(c)
    ensures RoundTrippable(Sequence(ColumnValues(rows, c)))
  {
    ColumnPy(rows, c);
    var i :| 0 <= i < |rows| && rows[i].Mapping? && c in KeysOf(rows[i].pairs);
    assert Clean(rows[i]);
    KeyClean(rows[i], c);
    CellsClean(rows, c);
  }

  /** A decoded row that matches the original on every column is an
      equivalent dict. */
  lemma RowEquiv(rows: seq<Value>, i: nat, entries: seq<(Value, Value)>)
    requires RoundTrippable(Sequence(rows)) && SwapAvailable(rows) && i < |rows|
    requires Matches(entries, rows[i], Columns(rows))
    ensures Equiv(rows[i], Mapping(entries))
  {
    assert Clean(rows[i]) && rows[i].Mapping?;
    RowKeysMatch(rows, i, entries);
    RowValuesMatch(rows[i], entries);
  }

  /** The dict keys of some pairs are those of their key sequence. */
  lemma PyKeysOfPairKeys(entries: seq<(Value, Value)>)
    ensures PyKeysOf(entries) == PyKeys(PairKeys(entries))
  {
    var ks := PairKeys(entries);
    forall x ensures x in PyKeysOf(entries) <==> x in PyKeys(ks) {
      if x in PyKeys(ks) {
        var j :| 0 <= j < |ks| && PyKey(ks[j]) == x;
        assert ks[j] == entries[j].0;
      }
      if x in PyKeysOf(entries) {
        var j :| 0 <= j < |entries| && PyKey(entries[j].0) == x;
        assert ks[j] == entries[j].0;
      }
    }
  }

  /** The decoded row has exactly the dict keys of the original row: every
      key of a clean row is the same dict key as some column, whose cell
      holds a value. */
  lemma RowKeysMatch(rows: seq<Value>, i: nat, entries: seq<(Value, Value)>)
    requires i < |rows| && rows[i].Mapping? && Clean(rows[i])
    requires PairKeys(entries) == Present(rows[i], Columns(rows))
    ensures PyKeysOf(rows[i].pairs) == PyKeysOf(entries)
  {
    PyKeysOfPairKeys(entries);
    var row := rows[i];
    var present := Present(row, Columns(rows));
    forall x | x in PyKeysOf(row.pairs) ensures x in PyKeys(present) {
      RowKeyPresent(rows, i, x);
    }
    forall x | x in PyKeys(present) ensures x in PyKeysOf(row.pairs) {
      var b :| 0 <= b < |present| && PyKey(present[b]) == x;
      assert present[b] in present;
    }
  }

  /** A key of a clean row names a column whose cell in that row is kept. */
  lemma RowKeyPresent(rows: seq<Value>, i: nat, x: Value)
    requires i < |rows| && rows[i].Mapping? && Clean(rows[i])
    requires x in PyKeysOf(rows[i].pairs)
    ensures x in PyKeys(Present(rows[i], Columns(rows)))
  {
    var cols := Columns(rows);
    var present := Present(rows[i], cols);
    var m := KeyColumn(rows, i, x);
    CellKept(rows[i], cols[m]);
    assert cols[m] in present;
    var b :| 0 <= b < |present| && present[b] == cols[m];
  }

  /** Every key of a row is, up to Python's key identity, some column. */
  lemma KeyColumn(rows: seq<Value>, i: nat, x: Value) returns (m: nat)
    requires i < |rows| && rows[i].Mapping?
    requires x in PyKeysOf(rows[i].pairs)
    ensures m < |Columns(rows)| && PyKey(Columns(rows)[m]) == x
  {
    ColumnsAreKeys(rows);
    var n :| 0 <= n < |rows[i].pairs| && PyKey(rows[i].pairs[n].0) == x;
    var k := rows[i].pairs[n].0;
    assert k in KeysOf(rows[i].pairs);
    assert IsColumn(rows, k);
    m :| 0 <= m < |Columns(rows)| && PyKey(Columns(rows)[m]) == x;
  }

  /** A clean row holds no `Unspecified`, so the cell under one of its keys
      is a value. */
  lemma CellKept(row: Value, c: Value)
    requires row.Mapping? && Clean(row) && PyKey(c) in PyKeysOf(row.pairs)
    ensures Cell(row, c) != Unspecified
  {
    CellClean(row, c);
    var a :| 0 <= a < |row.pairs| && PyKey(row.pairs[a].0) == PyKey(c) && row.pairs[a].1 == Cell(row, c);
  }

  /** Values under equal keys are equivalent when every decoded value is
      equivalent to the original cell. */
  lemma RowValuesMatch(row: Value, entries: seq<(Value, Value)>)
    requires row.Mapping? && PyDistinctKeys(row.pairs)
    requires forall j :: 0 <= j < |entries| ==> Equiv(Cell(row, entries[j].0), entries[j].1)
    ensures forall a, b :: 0 <= a < |row.pairs| && 0 <= b < |entries| && PyKey(row.pairs[a].0) == PyKey(entries[b].0) ==>
      Equiv(row.pairs[a].1, entries[b].1)
  {
    var ps := row.pairs;
    forall a, b | 0 <= a < |ps| && 0 <= b < |entries| && PyKey(ps[a].0) == PyKey(entries[b].0)
      ensures Equiv(ps[a].1, entries[b].1)
    {
      assert PyLookup(ps, entries[b].0) == Some(ps[a].1);
      assert PyKey(ps[a].0) in PyKeysOf(ps);
    }
  }

  /** Once every column is read back, the rows build into dicts equivalent to
      the original rows. */
  lemma PivotEquiv(rows: seq<Value>, rowPairs: seq<seq<(Value, Value)>>)
    requires RoundTrippable(Sequence(rows)) && SwapAvailable(rows) && |Columns(rows)| > 0
    requires ColumnsInv(rows, Columns(rows), |Columns(rows)|, rowPairs)
    ensures BuildDicts(rowPairs).Success?
    ensures Equiv(Sequence(rows), Sequence(BuildDicts(rowPairs).value))
  {
    var cols := Columns(rows);
    assert cols[..|cols|] == cols;
    ColumnsAreKeys(rows);
    forall i | 0 <= i < |rowPairs| ensures RowBuildable(rowPairs[i]) {
      PresentDistinct(rows[i], cols);
      var ks := PairKeys(rowPairs[i]);
      forall a, b | 0 <= a < b < |rowPairs[i]| ensures PyKey(rowPairs[i][a].0) != PyKey(rowPairs[i][b].0) {
        assert PyKey(ks[a]) != PyKey(ks[b]);
      }
      forall j | 0 <= j < |rowPairs[i]| ensures Hashable(rowPairs[i][j].0) {
        var x := rowPairs[i][j].0;
        assert ks[j] == x;
        assert x in cols;
        ColumnClean(rows, x);
      }
    }
    BuildDictsKeeps(rowPairs);
    forall i | 0 <= i < |rows| ensures Equiv(rows[i], BuildDicts(rowPairs).value[i]) {
      RowEquiv(rows, i, rowPairs[i]);
    }
  }

  // ----- the round trip -------------------------------------------------------

  /** Every round-trippable value, optimised from encoder tables that agree
      with the decoder's, decodes to an equivalent value, consumes exactly its
      own bytes, and leaves the tables in agreement. */
  lemma {:induction false} ValueRoundTrip(lib: Library, v: Value, e: EncoderState, d: DecoderState, tail: Bytes)
    requires Faithful(lib) && RoundTrippable(v) && Agree(lib, e, d)
    ensures Decodes(lib, Optimize(CorrectedRules, DumpValue(lib, v), e).0, Optimize(CorrectedRules, DumpValue(lib, v), e).1,
                    v, d, tail)
    decreases Depth(v), 3, 0
  {
    match v
    case Int(n) =>
      IntDecodes(lib, n, e, d, tail);
    case Text(s) =>
      TextDecodes(lib, s, e, d, tail);
    case Blob(b) =>
      BlobDecodes(lib, b, e, d, tail);
    case Sequence(items) =>
      if DumpList(lib, items).control / 16 == 8 {
        ListRoundTrip(lib, items, e, d, tail);
      } else {
        SwappedRoundTrip(lib, items, e, d, tail);
      }
    case Mapping(pairs) =>
      DictRoundTrip(lib, pairs, e, d, tail);
    case _ =>
      ScalarDecodes(lib, v, e, d, tail);
  }

  /** An integer decodes to itself; only the last integer changes, on both
      sides alike. */
  lemma IntDecodes(lib: Library, n: int, e: EncoderState, d: DecoderState, tail: Bytes)
    requires Agree(lib, e, d)
    ensures Decodes(lib, Optimize(CorrectedRules, DumpValue(lib, Int(n)), e).0,
                    Optimize(CorrectedRules, DumpValue(lib, Int(n)), e).1, Int(n), d, tail)
  {
    assert DumpValue(lib, Int(n)) == DumpInt(n);
    IntRoundTrip(lib, n, e, d, tail);
    assert Agree(lib, e.(lastint := Some(n)), d.(lastint := Some(n)));
  }

  lemma TextDecodes(lib: Library, s: string, e: EncoderState, d: DecoderState, tail: Bytes)
    requires Faithful(lib) && Agree(lib, e, d)
    ensures Decodes(lib, Optimize(CorrectedRules, DumpValue(lib, Text(s)), e).0,
                    Optimize(CorrectedRules, DumpValue(lib, Text(s)), e).1, Text(s), d, tail)
  {
    assert DumpValue(lib, Text(s)) == DumpStr(lib, s);
    TextRoundTrip(lib, s, e, d, tail);
  }

  lemma BlobDecodes(lib: Library, b: Bytes, e: EncoderState, d: DecoderState, tail: Bytes)
    requires Agree(lib, e, d)
    ensures Decodes(lib, Optimize(CorrectedRules, DumpValue(lib, Blob(b)), e).0,
                    Optimize(CorrectedRules, DumpValue(lib, Blob(b)), e).1, Blob(b), d, tail)
  {
    assert DumpValue(lib, Blob(b)) == DumpBytes(b);
    BlobRoundTrip(lib, b, e, d, tail);
  }

  lemma ScalarDecodes(lib: Library, v: Value, e: EncoderState, d: DecoderState, tail: Bytes)
    requires v.Null? || v.Bool? || v.Unspecified? || v.Float?
    requires RoundTrippable(v) && Agree(lib, e, d)
    ensures Decodes(lib, Optimize(CorrectedRules, DumpValue(lib, v), e).0,
                    Optimize(CorrectedRules, DumpValue(lib, v), e).1, v, d, tail)
  {
    ScalarRoundTrip(lib, v, e, d, tail);
  }

  /** A straight array: its count, then its elements one by one. */
  lemma {:induction false} ListRoundTrip(lib: Library, items: seq<Value>, e: EncoderState, d: DecoderState, tail: Bytes)
    requires Faithful(lib) && RoundTrippable(Sequence(items)) && Agree(lib, e, d)
    ensures Decodes(lib, Optimize(CorrectedRules, Straight(lib, items), e).0, Optimize(CorrectedRules, Straight(lib, items), e).1,
                    Sequence(items), d, tail)
    decreases 1 + MaxDepth(items), 2, 1
  {
    ContainerShape(Straight(lib, items), e, tail);
    var r := ListDecodes(lib, items, e, d, tail);
  }

  lemma {:induction false} ListDecodes(lib: Library, items: seq<Value>, e: EncoderState, d: DecoderState, tail: Bytes)
    returns (r: Loaded)
    requires Faithful(lib) && RoundTrippable(Sequence(items)) && Agree(lib, e, d)
    ensures var p := Straight(lib, items);
      LoadValue(lib, true, [p.control] + (p.data + (SerializeAll(OptimizeAll(CorrectedRules, p.children, e).0) + tail)), d) ==
      Success(r)
    ensures Equiv(Sequence(items), r.v) && r.rest == tail
    ensures Agree(lib, OptimizeAll(CorrectedRules, Straight(lib, items).children, e).1, r.st)
    decreases 1 + MaxDepth(items), 2, 0
  {
    var p := Straight(lib, items);
    assert p.children == DumpItems(lib, items) && (p.control, p.data) == LengthHeader(0x80, |items|, 0xc);
    var x := SerializeAll(OptimizeAll(CorrectedRules, p.children, e).0) + tail;
    var many := ItemsRoundTrip(lib, items, e, d, tail);
    ReadCountInverts(0x80, |items|, 0xc, x);
    ArrayReads(lib, p.control, p.data, |items|, x, d, many);
    r := Loaded(Sequence(many.vs), many.rest, many.st);
  }

  /** Reading the elements `items` back yields `out`: one equivalent value
      per element, the input stops before `tail`, and the tables agree with
      the encoder's after the last element. */
  predicate ItemsRead(lib: Library, items: seq<Value>, e: EncoderState, d: DecoderState, tail: Bytes, out: LoadedMany)
    requires PyValue(Sequence(items))
  {
    var all := OptimizeAll(CorrectedRules, DumpItems(lib, items), e);
    && LoadMany(lib, true, |items|, SerializeAll(all.0) + tail, d) == Success(out)
    && ItemsMatch(items, out.vs) && out.rest == tail
    && Agree(lib, all.1, out.st)
  }

  /** The elements of an array, each decoded from where the previous one
      stopped. */
  lemma {:induction false} ItemsRoundTrip(lib: Library, items: seq<Value>, e: EncoderState, d: DecoderState, tail: Bytes)
    returns (out: LoadedMany)
    requires Faithful(lib) && RoundTrippable(Sequence(items)) && Agree(lib, e, d)
    ensures ItemsRead(lib, items, e, d, tail, out)
    decreases 1 + MaxDepth(items), 1, 2 * |items| + 1
  {
    if |items| == 0 {
      out := NoItems(lib, items, e, d, tail);
    } else {
      out := MoreItems(lib, items, e, d, tail);
    }
  }

  /** `vs` holds one value equivalent to each of `items`, in order. */
  predicate ItemsMatch(items: seq<Value>, vs: seq<Value>) {
    |vs| == |items| && forall i :: 0 <= i < |items| ==> Equiv(items[i], vs[i])
  }

  lemma ItemsMatchCons(items: seq<Value>, v: Value, vs: seq<Value>)
    requires |items| > 0 && Equiv(items[0], v) && ItemsMatch(items[1..], vs)
    ensures ItemsMatch(items, [v] + vs)
  {
    assert forall i :: 1 <= i < |items| ==> items[i] == items[1..][i - 1] && ([v] + vs)[i] == vs[i - 1];
  }

  /** No elements left: nothing is written and nothing is read. */
  lemma NoItems(lib: Library, items: seq<Value>, e: EncoderState, d: DecoderState, tail: Bytes)
    returns (out: LoadedMany)
    requires |items| == 0
    ensures LoadMany(lib, true, |items|, SerializeAll(OptimizeAll(CorrectedRules, DumpItems(lib, items), e).0) + tail, d) ==
      Success(out)
    ensures ItemsMatch(items, out.vs) && out.rest == tail
    ensures OptimizeAll(CorrectedRules, DumpItems(lib, items), e).1 == e && out.st == d
  {
    assert DumpItems(lib, items) == [];
    assert OptimizeAll(CorrectedRules, [], e) == ([], e);
    assert SerializeAll([]) + tail == tail;
    out := LoadedMany([], tail, d);
  }

  /** At least one element left: the first element, then the rest. */
  lemma {:induction false} MoreItems(lib: Library, items: seq<Value>, e: EncoderState, d: DecoderState, tail: Bytes)
    returns (out: LoadedMany)
    requires Faithful(lib) && |items| > 0 && RoundTrippable(Sequence(items)) && Agree(lib, e, d)
    ensures ItemsRead(lib, items, e, d, tail, out)
    decreases 1 + MaxDepth(items), 1, 2 * |items|
  {
    var e1, v, st := ItemStep(lib, items, e, d, tail);
    assert MaxDepth(items[1..]) <= MaxDepth(items);
    var more := ItemsRoundTrip(lib, items[1..], e1, st, tail);
    var rest := OptimizeAll(CorrectedRules, DumpItems(lib, items[1..]), e1);
    assert LoadMany(lib, true, |items| - 1, SerializeAll(rest.0) + tail, st) == Success(more);
    out := LoadedMany([v] + more.vs, more.rest, more.st);
    ItemsMatchCons(items, v, more.vs);
  }

  /** The first element decodes to an equivalent value right before the
      remaining elements. */
  lemma {:induction false} ItemStep(lib: Library, items: seq<Value>, e: EncoderState, d: DecoderState, tail: Bytes)
    returns (e1: EncoderState, v: Value, st: DecoderState)
    requires Faithful(lib) && |items| > 0 && RoundTrippable(Sequence(items)) && Agree(lib, e, d)
    ensures RoundTrippable(Sequence(items[1..])) && Equiv(items[0], v) && Agree(lib, e1, st)
    ensures var all := OptimizeAll(CorrectedRules, DumpItems(lib, items), e);
      var more := OptimizeAll(CorrectedRules, DumpItems(lib, items[1..]), e1);
      && all.1 == more.1
      && LoadMany(lib, true, |items|, SerializeAll(all.0) + tail, d) ==
         Prepend(v, LoadMany(lib, true, |items| - 1, SerializeAll(more.0) + tail, st))
    decreases 1 + MaxDepth(items), 0, 1
  {
    var s, first;
    s, e1, first := ItemHead(lib, items, e, d, tail);
    v, st := first.v, first.st;
    LoadManyStep(lib, |items|, s, d, first);
  }

  /** The first element, decoded. */
  lemma {:induction false} ItemHead(lib: Library, items: seq<Value>, e: EncoderState, d: DecoderState, tail: Bytes)
    returns (s: Bytes, e1: EncoderState, first: Loaded)
    requires Faithful(lib) && |items| > 0 && RoundTrippable(Sequence(items)) && Agree(lib, e, d)
    ensures RoundTrippable(Sequence(items[1..]))
    ensures var all := OptimizeAll(CorrectedRules, DumpItems(lib, items), e);
      var more := OptimizeAll(CorrectedRules, DumpItems(lib, items[1..]), e1);
      all.1 == more.1 && SerializeAll(all.0) + tail == s && first.rest == SerializeAll(more.0) + tail
    ensures LoadValue(lib, true, s, d) == Success(first) && Equiv(items[0], first.v) && Agree(lib, e1, first.st)
    decreases 1 + MaxDepth(items), 0, 0
  {
    ItemNodes(lib, items);
    var q0, qs, e2;
    q0, e1, qs, e2 := SplitOne(DumpValue(lib, items[0]), DumpItems(lib, items[1..]), e, tail);
    var all := OptimizeAll(CorrectedRules, DumpItems(lib, items), e);
    assert all == OptimizeAll(CorrectedRules, [DumpValue(lib, items[0])] + DumpItems(lib, items[1..]), e);
    var x := SerializeAll(qs) + tail;
    assert RoundTrippable(items[0]) && RoundTrippable(Sequence(items[1..])) by {
      assert forall i :: 0 <= i < |items[1..]| ==> items[1..][i] == items[i + 1];
    }
    s := Serialize(q0) + x;
    ValueRoundTrip(lib, items[0], e, d, x);
    first := LoadValue(lib, true, s, d).value;
  }

  /** A dict: its count, then each key and value. */
  lemma {:induction false} DictRoundTrip(lib: Library, pairs: seq<(Value, Value)>, e: EncoderState, d: DecoderState, tail: Bytes)
    requires Faithful(lib) && RoundTrippable(Mapping(pairs)) && Agree(lib, e, d)
    ensures Decodes(lib, Optimize(CorrectedRules, DumpDict(lib, pairs), e).0, Optimize(CorrectedRules, DumpDict(lib, pairs), e).1,
                    Mapping(pairs), d, tail)
    decreases 1 + MaxPairDepth(pairs), 2, 1
  {
    ContainerShape(DumpDict(lib, pairs), e, tail);
    var r := DictDecodes(lib, pairs, e, d, tail);
  }

  lemma {:induction false} DictDecodes(lib: Library, pairs: seq<(Value, Value)>, e: EncoderState, d: DecoderState, tail: Bytes)
    returns (r: Loaded)
    requires Faithful(lib) && RoundTrippable(Mapping(pairs)) && Agree(lib, e, d)
    ensures var p := DumpDict(lib, pairs);
      LoadValue(lib, true, [p.control] + (p.data + (SerializeAll(OptimizeAll(CorrectedRules, p.children, e).0) + tail)), d) ==
      Success(r)
    ensures Equiv(Mapping(pairs), r.v) && r.rest == tail
    ensures Agree(lib, OptimizeAll(CorrectedRules, DumpDict(lib, pairs).children, e).1, r.st)
    decreases 1 + MaxPairDepth(pairs), 2, 0
  {
    var p := DumpDict(lib, pairs);
    assert p.children == DumpPairs(lib, pairs) && (p.control, p.data) == LengthHeader(0x90, |pairs|, 0xc);
    var x := SerializeAll(OptimizeAll(CorrectedRules, p.children, e).0) + tail;
    var loaded := PairsRoundTrip(lib, pairs, e, d, tail, []);
    ReadCountInverts(0x90, |pairs|, 0xc, x);
    ObjectReads(lib, p.control, p.data, |pairs|, x, d, loaded);
    EquivOfPairs(pairs, loaded.pairs);
    r := Loaded(Mapping(loaded.pairs), loaded.rest, loaded.st);
  }

  /** Reading the pairs back into the dict `acc` yields `out`: `acc` followed
      by each key with an equivalent value, the input stops before `tail`,
      and the tables agree with the encoder's after the last pair. */
  predicate PairsRead(lib: Library, pairs: seq<(Value, Value)>, e: EncoderState, d: DecoderState, tail: Bytes,
                      acc: seq<(Value, Value)>, out: LoadedPairs)
    requires PyValue(Mapping(pairs)) && PyDistinctKeys(acc)
  {
    var all := OptimizeAll(CorrectedRules, DumpPairs(lib, pairs), e);
    && LoadPairs(lib, true, |pairs|, SerializeAll(all.0) + tail, d, acc) == Success(out)
    && PairsMatch(pairs, acc, out.pairs) && out.rest == tail
    && Agree(lib, all.1, out.st)
  }

  /** The pairs of a dict, each entered as a fresh key. */
  lemma {:induction false} PairsRoundTrip(lib: Library, pairs: seq<(Value, Value)>, e: EncoderState, d: DecoderState, tail: Bytes,
                                          acc: seq<(Value, Value)>)
    returns (out: LoadedPairs)
    requires Faithful(lib) && RoundTrippable(Mapping(pairs)) && Agree(lib, e, d)
    requires PyDistinctKeys(acc) && forall i :: 0 <= i < |pairs| ==> PyKey(pairs[i].0) !in PyKeysOf(acc)
    ensures PairsRead(lib, pairs, e, d, tail, acc, out)
    decreases 1 + MaxPairDepth(pairs), 1, 2 * |pairs| + 1
  {
    if |pairs| == 0 {
      out := NoPairs(lib, pairs, e, d, tail, acc);
    } else {
      out := MorePairs(lib, pairs, e, d, tail, acc);
    }
  }

  /** No pairs left: nothing is written and nothing is read. */
  lemma NoPairs(lib: Library, pairs: seq<(Value, Value)>, e: EncoderState, d: DecoderState, tail: Bytes,
                acc: seq<(Value, Value)>)
    returns (out: LoadedPairs)
    requires |pairs| == 0 && PyDistinctKeys(acc)
    ensures LoadPairs(lib, true, |pairs|, SerializeAll(OptimizeAll(CorrectedRules, DumpPairs(lib, pairs), e).0) + tail, d, acc) ==
      Success(out)
    ensures PairsMatch(pairs, acc, out.pairs) && out.rest == tail
    ensures OptimizeAll(CorrectedRules, DumpPairs(lib, pairs), e).1 == e && out.st == d
  {
    assert DumpPairs(lib, pairs) == [];
    assert OptimizeAll(CorrectedRules, [], e) == ([], e);
    assert SerializeAll([]) + tail == tail;
    out := LoadedPairs(acc, tail, d);
  }

  /** At least one pair left: the first pair, then the rest. */
  lemma {:induction false} MorePairs(lib: Library, pairs: seq<(Value, Value)>, e: EncoderState, d: DecoderState, tail: Bytes,
                                     acc: seq<(Value, Value)>)
    returns (out: LoadedPairs)
    requires Faithful(lib) && |pairs| > 0 && RoundTrippable(Mapping(pairs)) && Agree(lib, e, d)
    requires PyDistinctKeys(acc) && forall i :: 0 <= i < |pairs| ==> PyKey(pairs[i].0) !in PyKeysOf(acc)
    ensures PairsRead(lib, pairs, e, d, tail, acc, out)
    decreases 1 + MaxPairDepth(pairs), 1, 2 * |pairs|
  {
    var e2, v, st := PairStep(lib, pairs, e, d, tail, acc);
    assert MaxPairDepth(pairs[1..]) <= MaxPairDepth(pairs);
    out := PairsRoundTrip(lib, pairs[1..], e2, st, tail, acc + [(pairs[0].0, v)]);
    var rest := OptimizeAll(CorrectedRules, DumpPairs(lib, pairs[1..]), e2);
    assert LoadPairs(lib, true, |pairs| - 1, SerializeAll(rest.0) + tail, st, acc + [(pairs[0].0, v)]) == Success(out);
    PairsMatchCons(pairs, acc, v, out.pairs);
  }

  /** The first pair of a dict: its key decodes to itself and its value to an
      equivalent value, right before the remaining pairs, and the key enters
      the dict fresh. */
  lemma {:induction false} PairStep(lib: Library, pairs: seq<(Value, Value)>, e: EncoderState, d: DecoderState, tail: Bytes,
                                    acc: seq<(Value, Value)>)
    returns (e2: EncoderState, v: Value, st: DecoderState)
    requires Faithful(lib) && |pairs| > 0 && RoundTrippable(Mapping(pairs)) && Agree(lib, e, d)
    requires PyDistinctKeys(acc) && forall i :: 0 <= i < |pairs| ==> PyKey(pairs[i].0) !in PyKeysOf(acc)
    ensures RoundTrippable(Mapping(pairs[1..])) && Equiv(pairs[0].1, v) && Agree(lib, e2, st)
    ensures var acc1 := acc + [(pairs[0].0, v)];
      PyDistinctKeys(acc1) && forall i :: 0 <= i < |pairs[1..]| ==> PyKey(pairs[1..][i].0) !in PyKeysOf(acc1)
    ensures var all := OptimizeAll(CorrectedRules, DumpPairs(lib, pairs), e);
      var more := OptimizeAll(CorrectedRules, DumpPairs(lib, pairs[1..]), e2);
      && all.1 == more.1
      && LoadPairs(lib, true, |pairs|, SerializeAll(all.0) + tail, d, acc) ==
         LoadPairs(lib, true, |pairs| - 1, SerializeAll(more.0) + tail, st, acc + [(pairs[0].0, v)])
    decreases 1 + MaxPairDepth(pairs), 0, 1
  {
    var x, s, key, value;
    x, s, e2, key, value := PairHead(lib, pairs, e, d, tail);
    v, st := value.v, value.st;
    LoadPairsStep(lib, |pairs|, s, d, acc, key, value);
    PairFresh(pairs, acc, v);
  }

  /** The first pair's key and value, decoded one after the other. */
  lemma {:induction false} PairHead(lib: Library, pairs: seq<(Value, Value)>, e: EncoderState, d: DecoderState, tail: Bytes)
    returns (x: Bytes, s: Bytes, e2: EncoderState, key: Loaded, value: Loaded)
    requires Faithful(lib) && |pairs| > 0 && RoundTrippable(Mapping(pairs)) && Agree(lib, e, d)
    ensures PyValue(Mapping(pairs[1..]))
    ensures x == SerializeAll(OptimizeAll(CorrectedRules, DumpPairs(lib, pairs[1..]), e2).0) + tail
    ensures var all := OptimizeAll(CorrectedRules, DumpPairs(lib, pairs), e);
      all.1 == OptimizeAll(CorrectedRules, DumpPairs(lib, pairs[1..]), e2).1 && SerializeAll(all.0) + tail == s
    ensures LoadValue(lib, true, s, d) == Success(key) && key.v == pairs[0].0 && Hashable(key.v)
    ensures LoadValue(lib, true, key.rest, key.st) == Success(value)
    ensures Equiv(pairs[0].1, value.v) && value.rest == x && Agree(lib, e2, value.st)
    decreases 1 + MaxPairDepth(pairs), 0, 0
  {
    var k := pairs[0].0;
    CleanTail(pairs);
    PairDepthBelow(pairs, 0);
    PairNodes(lib, pairs);
    var qk, e1, qv, qs, e3;
    qk, e1, qv, e2, qs, e3 := SplitTwo(DumpValue(lib, k), DumpValue(lib, pairs[0].1), DumpPairs(lib, pairs[1..]), e, tail);
    x := SerializeAll(qs) + tail;
    s := Serialize(qk) + (Serialize(qv) + x);
    ValueRoundTrip(lib, k, e, d, Serialize(qv) + x);
    key := LoadValue(lib, true, s, d).value;
    EquivHashable(k, key.v);
    ValueRoundTrip(lib, pairs[0].1, e1, key.st, x);
    value := LoadValue(lib, true, key.rest, key.st).value;
  }

  /** A key not yet in the dict keeps the keys distinct, and the later keys
      stay fresh. */
  lemma PairFresh(pairs: seq<(Value, Value)>, acc: seq<(Value, Value)>, v: Value)
    requires |pairs| > 0 && RoundTrippable(Mapping(pairs))
    requires PyDistinctKeys(acc) && forall i :: 0 <= i < |pairs| ==> PyKey(pairs[i].0) !in PyKeysOf(acc)
    ensures RoundTrippable(Mapping(pairs[1..]))
    ensures PyPut(acc, pairs[0].0, v) == acc + [(pairs[0].0, v)]
    ensures var acc1 := acc + [(pairs[0].0, v)];
      PyDistinctKeys(acc1) && forall i :: 0 <= i < |pairs[1..]| ==> PyKey(pairs[1..][i].0) !in PyKeysOf(acc1)
  {
    CleanTail(pairs);
    PyPutDistinct(acc, pairs[0].0, v);
    PyPutKeys(acc, pairs[0].0, v);
  }

  /** A transposed array: its column count, then each column's name and
      values; the rows rebuilt from the columns are equivalent to the
      original rows. */
  lemma {:induction false} SwappedRoundTrip(lib: Library, rows: seq<Value>, e: EncoderState, d: DecoderState, tail: Bytes)
    requires Faithful(lib) && RoundTrippable(Sequence(rows)) && SwapAvailable(rows) && Agree(lib, e, d)
    ensures Decodes(lib, Optimize(CorrectedRules, Swapped(lib, rows), e).0, Optimize(CorrectedRules, Swapped(lib, rows), e).1,
                    Sequence(rows), d, tail)
    decreases 1 + MaxDepth(rows), 2, 2
  {
    ContainerShape(Swapped(lib, rows), e, tail);
    var r := SwappedDecodes(lib, rows, e, d, tail);
  }

  lemma {:induction false} SwappedDecodes(lib: Library, rows: seq<Value>, e: EncoderState, d: DecoderState, tail: Bytes)
    returns (r: Loaded)
    requires Faithful(lib) && RoundTrippable(Sequence(rows)) && SwapAvailable(rows) && Agree(lib, e, d)
    ensures var p := Swapped(lib, rows);
      LoadValue(lib, true, [p.control] + (p.data + (SerializeAll(OptimizeAll(CorrectedRules, p.children, e).0) + tail)), d) ==
      Success(r)
    ensures Equiv(Sequence(rows), r.v) && r.rest == tail
    ensures Agree(lib, OptimizeAll(CorrectedRules, Swapped(lib, rows).children, e).1, r.st)
    decreases 1 + MaxDepth(rows), 2, 1
  {
    var p := Swapped(lib, rows);
    assert p.children == SwappedChildren(lib, rows, 0) && (p.control, p.data) == LengthHeader(0xa0, |Columns(rows)|, 0xc);
    var x := SerializeAll(OptimizeAll(CorrectedRules, p.children, e).0) + tail;
    var loaded, built := SwappedColumns(lib, rows, e, d, tail);
    ReadCountInverts(0xa0, |Columns(rows)|, 0xc, x);
    SwappedReads(lib, p.control, p.data, |Columns(rows)|, x, d, loaded, built);
    r := Loaded(Sequence(built), loaded.rest, loaded.st);
  }

  /** The columns of a transposed array, read back and built into rows. */
  lemma {:induction false} SwappedColumns(lib: Library, rows: seq<Value>, e: EncoderState, d: DecoderState, tail: Bytes)
    returns (loaded: LoadedRows, built: seq<Value>)
    requires Faithful(lib) && RoundTrippable(Sequence(rows)) && SwapAvailable(rows) && Agree(lib, e, d)
    ensures LoadColumns(lib, true, |Columns(rows)|,
                        SerializeAll(OptimizeAll(CorrectedRules, SwappedChildren(lib, rows, 0), e).0) + tail, d, []) ==
      Success(loaded)
    ensures BuildDicts(loaded.rows) == Success(built) && Equiv(Sequence(rows), Sequence(built))
    ensures loaded.rest == tail && Agree(lib, OptimizeAll(CorrectedRules, SwappedChildren(lib, rows, 0), e).1, loaded.st)
    decreases 1 + MaxDepth(rows), 2, 0
  {
    assert |Swapped(lib, rows).children| > 0;
    loaded := ColumnsRoundTrip(lib, rows, 0, e, d, tail, []);
    PivotEquiv(rows, loaded.rows);
    built := BuildDicts(loaded.rows).value;
  }

  /** Reading the columns from `k` on, starting from the rows `acc`, yields
      `out`: all rows match on every column, the input stops before `tail`,
      and the tables agree with the encoder's after the last column. */
  predicate ColumnsRead(lib: Library, rows: seq<Value>, k: nat, e: EncoderState, d: DecoderState, tail: Bytes,
                        acc: seq<seq<(Value, Value)>>, out: LoadedRows)
    requires PyValue(Sequence(rows)) && SwapAvailable(rows) && k <= |Columns(rows)|
  {
    var all := OptimizeAll(CorrectedRules, SwappedChildren(lib, rows, k), e);
    && LoadColumns(lib, true, |Columns(rows)| - k, SerializeAll(all.0) + tail, d, acc) == Success(out)
    && ColumnsInv(rows, Columns(rows), |Columns(rows)|, out.rows) && out.rest == tail
    && Agree(lib, all.1, out.st)
  }

  /** The columns from `k` on: each name decodes to itself, each array of
      values to equivalent cells, and the pivot keeps the invariant. */
  lemma {:induction false} ColumnsRoundTrip(lib: Library, rows: seq<Value>, k: nat, e: EncoderState, d: DecoderState, tail: Bytes,
                                            acc: seq<seq<(Value, Value)>>)
    returns (out: LoadedRows)
    requires Faithful(lib) && RoundTrippable(Sequence(rows)) && SwapAvailable(rows) && Agree(lib, e, d)
    requires k <= |Columns(rows)| && ColumnsInv(rows, Columns(rows), k, acc)
    ensures ColumnsRead(lib, rows, k, e, d, tail, acc, out)
    decreases 1 + MaxDepth(rows), 1, 2 * (|Columns(rows)| - k) + 1
  {
    if k == |Columns(rows)| {
      out := NoColumns(lib, rows, k, e, d, tail, acc);
    } else {
      out := MoreColumns(lib, rows, k, e, d, tail, acc);
    }
  }

  /** No columns left: nothing is written and nothing is read. */
  lemma NoColumns(lib: Library, rows: seq<Value>, k: nat, e: EncoderState, d: DecoderState, tail: Bytes,
                  acc: seq<seq<(Value, Value)>>)
    returns (out: LoadedRows)
    requires PyValue(Sequence(rows)) && SwapAvailable(rows) && k == |Columns(rows)|
    ensures LoadColumns(lib, true, |Columns(rows)| - k,
                        SerializeAll(OptimizeAll(CorrectedRules, SwappedChildren(lib, rows, k), e).0) + tail, d, acc) ==
      Success(out)
    ensures out.rows == acc && out.rest == tail
    ensures OptimizeAll(CorrectedRules, SwappedChildren(lib, rows, k), e).1 == e && out.st == d
  {
    assert SwappedChildren(lib, rows, k) == [];
    assert OptimizeAll(CorrectedRules, [], e) == ([], e);
    assert SerializeAll([]) + tail == tail;
    out := LoadedRows(acc, tail, d);
  }

  /** At least one column left: column `k`, then the rest. */
  lemma {:induction false} MoreColumns(lib: Library, rows: seq<Value>, k: nat, e: EncoderState, d: DecoderState, tail: Bytes,
                                       acc: seq<seq<(Value, Value)>>)
    returns (out: LoadedRows)
    requires Faithful(lib) && RoundTrippable(Sequence(rows)) && SwapAvailable(rows) && Agree(lib, e, d)
    requires k < |Columns(rows)| && ColumnsInv(rows, Columns(rows), k, acc)
    ensures ColumnsRead(lib, rows, k, e, d, tail, acc, out)
    decreases 1 + MaxDepth(rows), 1, 2 * (|Columns(rows)| - k)
  {
    var e2, st, next := ColumnStep(lib, rows, k, e, d, tail, acc);
    out := ColumnsRoundTrip(lib, rows, k + 1, e2, st, tail, next);
  }

  /** Column `k` is read back and pivoted into the rows, right before the
      remaining columns. */
  lemma {:induction false} ColumnStep(lib: Library, rows: seq<Value>, k: nat, e: EncoderState, d: DecoderState, tail: Bytes,
                                      acc: seq<seq<(Value, Value)>>)
    returns (e2: EncoderState, st: DecoderState, next: seq<seq<(Value, Value)>>)
    requires Faithful(lib) && RoundTrippable(Sequence(rows)) && SwapAvailable(rows) && Agree(lib, e, d)
    requires k < |Columns(rows)| && ColumnsInv(rows, Columns(rows), k, acc)
    ensures Agree(lib, e2, st) && ColumnsInv(rows, Columns(rows), k + 1, next)
    ensures OptimizeAll(CorrectedRules, SwappedChildren(lib, rows, k), e).1 ==
      OptimizeAll(CorrectedRules, SwappedChildren(lib, rows, k + 1), e2).1
    ensures LoadColumns(lib, true, |Columns(rows)| - k,
                        SerializeAll(OptimizeAll(CorrectedRules, SwappedChildren(lib, rows, k), e).0) + tail, d, acc) ==
      LoadColumns(lib, true, |Columns(rows)| - (k + 1),
                  SerializeAll(OptimizeAll(CorrectedRules, SwappedChildren(lib, rows, k + 1), e2).0) + tail, st, next)
    decreases 1 + MaxDepth(rows), 0, 1
  {
    var s, name, values;
    s, e2, name, values := ColumnHead(lib, rows, k, e, d, tail);
    st := values.st;
    var all := OptimizeAll(CorrectedRules, SwappedChildren(lib, rows, k), e);
    var more := OptimizeAll(CorrectedRules, SwappedChildren(lib, rows, k + 1), e2);
    assert SerializeAll(all.0) + tail == s && values.rest == SerializeAll(more.0) + tail;
    LoadColumnsStep(lib, |Columns(rows)| - k, s, d, acc, name, values);
    next := AddColumn(acc, name.v, values.v.items, 0);
    AddColumnIsPivot(acc, name.v, values.v.items);
    PivotStep(rows, Columns(rows), k, acc, values.v.items);
  }

  /** Column `k`'s name and array of values, decoded one after the other. */
  lemma {:induction false} ColumnHead(lib: Library, rows: seq<Value>, k: nat, e: EncoderState, d: DecoderState, tail: Bytes)
    returns (s: Bytes, e2: EncoderState, name: Loaded, values: Loaded)
    requires Faithful(lib) && RoundTrippable(Sequence(rows)) && SwapAvailable(rows) && Agree(lib, e, d)
    requires k < |Columns(rows)|
    ensures var all := OptimizeAll(CorrectedRules, SwappedChildren(lib, rows, k), e);
      var more := OptimizeAll(CorrectedRules, SwappedChildren(lib, rows, k + 1), e2);
      all.1 == more.1 && SerializeAll(all.0) + tail == s && values.rest == SerializeAll(more.0) + tail
    ensures LoadValue(lib, true, s, d) == Success(name) && name.v == Columns(rows)[k]
    ensures LoadValue(lib, true, name.rest, name.st) == Success(values) && Agree(lib, e2, values.st)
    ensures values.v.Sequence? && |values.v.items| == |rows|
    ensures forall i :: 0 <= i < |rows| ==> Equiv(Cell(rows[i], Columns(rows)[k]), values.v.items[i])
    decreases 1 + MaxDepth(rows), 0, 0
  {
    var c := Columns(rows)[k];
    ColumnNodes(lib, rows, k);
    ColumnFacts(rows, c);
    ColumnClean(rows, c);
    var cv := ColumnValues(rows, c);
    var qc, e1, qv, qs, e3;
    qc, e1, qv, e2, qs, e3 := SplitTwo(DumpValue(lib, c), DumpValue(lib, Sequence(cv)), SwappedChildren(lib, rows, k + 1), e, tail);
    var x := SerializeAll(qs) + tail;
    s := Serialize(qc) + (Serialize(qv) + x);
    ValueRoundTrip(lib, c, e, d, Serialize(qv) + x);
    name := LoadValue(lib, true, s, d).value;
    EquivHashable(c, name.v);
    ValueRoundTrip(lib, Sequence(cv), e1, name.st, x);
    values := LoadValue(lib, true, name.rest, name.st).value;
  }
  // ----- whole streams --------------------------------------------------------

  /** `loads(dumps(v))`: from fresh tables on both sides, with or without the
      `jk!` header, a round-trippable value comes back equivalent and the
      stream is consumed exactly. */
  lemma StreamRoundTrip(lib: Library, v: Value, header: bool)
    requires Faithful(lib) && RoundTrippable(v)
    ensures var r := Loads(lib, true, Dumps(Optimize(CorrectedRules, DumpValue(lib, v), FreshEncoder).0, header), header, FreshDecoder);
      r.Success? && Equiv(v, r.value.v) && r.value.rest == []
  {
    var q := Optimize(CorrectedRules, DumpValue(lib, v), FreshEncoder).0;
    assert Agree(lib, FreshEncoder, FreshDecoder);
    ValueRoundTrip(lib, v, FreshEncoder, FreshDecoder, []);
    assert Serialize(q) + [] == Serialize(q);
  }
}

=== FILE: values.dfy ===
/** The closed value model every JKSN port serialises, the host-library
    functions the codec calls but does not implement, and the error
    vocabulary of encoders and decoders. */
module Values {
  import opened Wrappers

  /** One octet of the wire format. */
  type byte = x: int | 0 <= x < 256
  type Bytes = seq<byte>

  /** Nothing appended leaves a stream as it is. */
  lemma AppendEmpty(s: Bytes)
    ensures s + [] == s
  {
  }

  /** A stream split in two stays split when more bytes follow. */
  lemma AppendTail(s: Bytes, a: Bytes, b: Bytes, tail: Bytes)
    requires s == a + b
    ensures s + tail == a + (b + tail)
  {
  }

  /** The two elements in front are the first two. */
  lemma HeadTwo<T>(whole: seq<T>, a: T, b: T, rest: seq<T>)
    requires whole == [a, b] + rest
    ensures |whole| >= 2 && whole[0] == a && whole[1] == b
  {
  }

  /** Two elements in front move every later index up by two. */
  lemma ShiftTwo<T>(whole: seq<T>, a: T, b: T, rest: seq<T>, i: nat)
    requires whole == [a, b] + rest && 0 < i && 2 * i + 1 < |whole|
    ensures whole[2 * i] == rest[2 * (i - 1)] && whole[2 * i + 1] == rest[2 * (i - 1) + 1]
  {
  }

  /** Small list identities, proved once away from any large context. */
  lemma ListOne<T>(a: T)
    ensures [a] + [] == [a]
  {
  }

  lemma ListTwo<T>(a: T, b: T)
    ensures [a] + [b] == [a, b]
  {
  }

  lemma ListThree<T>(a: T, b: T, c: T)
    ensures [a] + [b, c] == [a, b, c]
  {
  }

  /** A property that holds at 0 and passes from each `i` below `n` to
      `i + 1` holds up to `n`. */
  lemma {:induction false} ChainHolds(ok: nat -> bool, n: nat, k: nat)
    requires ok(0) && forall i: nat :: i < n && ok(i) ==> ok(i + 1)
    requires k <= n
    ensures ok(k)
    decreases k
  {
    if k > 0 {
      ChainHolds(ok, n, k - 1);
    }
  }

  /** Floating-point values are opaque: only their classification and, for
      finite numbers, their big-endian IEEE-754 bytes are kept. */
  datatype FloatBits =
    | NaN
    | PosInf
    | NegInf
    | Double(bits: Bytes)    // binary64, 8 bytes big-endian
    | Single(bits: Bytes)    // binary32, 4 bytes big-endian (decoded 0x2d)

  /** A host value.  `Absent` is JavaScript's `undefined`; `Unspecified` is the
      sentinel that marks a missing column entry of a transposed array.
      Mappings are ordered sequences of key/value pairs. */
  datatype Value =
    | Absent
    | Null
    | Bool(b: bool)
    | Int(i: int)
    | Float(f: FloatBits)
    | Text(s: string)
    | Blob(bytes: Bytes)
    | Sequence(items: seq<Value>)
    | Mapping(pairs: seq<(Value, Value)>)
    | Unspecified

  /** The character encodings the decoders ask the host library for.
      `Utf8Le` is the name the Ruby decoder passes, which names no encoding
      Ruby knows, so the host raises before decoding anything. */
  datatype Charset = Utf16Le | Utf8 | Utf8Le

  /** Host library calls the codec relies on without implementing them:
      UTF-8 (section 3 of RFC 3629) and UTF-16LE (section 2.1 of RFC 2781)
      transcoding, the JSON parser behind control 0x0f, the binary64
      image of an integer that JavaScript treats as a double, and the string
      JavaScript converts a non-string property key to (ToPropertyKey). */
  datatype Library = Library(
    encodeUtf8: string -> Bytes,
    encodeUtf16Le: string -> Bytes,
    decode: (Charset, Bytes) -> Option<string>,
    parseJson: string -> Option<Value>,
    integerAsDouble: int -> Bytes,
    propertyKey: Value -> string)

  /** The transcoders invert each other and UTF-16 output has whole code units. */
  ghost predicate Faithful(lib: Library) {
    && (forall s :: lib.decode(Utf8, lib.encodeUtf8(s)) == Some(s))
    && (forall s :: lib.decode(Utf16Le, lib.encodeUtf16Le(s)) == Some(s))
    && (forall s :: |lib.encodeUtf16Le(s)| % 2 == 0)
  }

  /** Errors a decoder reports.  The first seven follow the error table of the
      C port; the rest are host exceptions the other ports raise. */
  datatype DecodeError =
    | Truncated                 // short read (EOFError, RangeError)
    | JsonLiteral               // 0x0f payload rejected by the JSON parser
    | LongDouble                // 0x2b is not supported
    | MissingHash(h: int)       // back-reference to an empty table slot
    | DeltaWithoutBase          // delta integer before any integer
    | BadControl(c: byte)       // control byte with no case
    | SwappedNeedsArray         // transposed column is not an array
    | JsonNeedsText             // 0x0f followed by a non-text value
    | UndecodableText           // the library rejected the text bytes
    | UnhashableKey             // Python: a list or dict used as a dict key
    | ChecksumNotModelled       // Python verifies digests; not modelled
    | NotImplementedFamily(c: byte)  // Ruby: family without a decoder
    | HostException             // JavaScript: undefined variable, property of null
    | LengthNotModelled         // JavaScript: a `length` that ToNumber would coerce

  /** Errors an encoder raises. */
  datatype EncodeError =
    | NegativeVarint            // JavaScript encodeInt(n, 0) with n < 0
    | NotAnArray                // JavaScript `obj.map` on an object whose `length` is defined
    | ObjlenMismatch            // JavaScript's `result.children.length == objlen` assertion
    | MissingArgument           // Ruby __jksn_encode_bignum called without its argument
    | ChildCountMismatch        // Ruby's `raise unless children.length == ...`
    | IncompatibleEncoding      // Ruby's Encoding::CompatibilityError in `JKSNProxy#to_s`

  function Max(a: nat, b: nat): nat {
    if a >= b then a else b
  }

  /** Nesting depth: the measure every recursive encoder decreases. */
  function Depth(v: Value): nat
    decreases v
  {
    match v
    case Sequence(items) => 1 + MaxDepth(items)
    case Mapping(pairs) => 1 + MaxPairDepth(pairs)
    case _ => 0
  }

  function MaxDepth(items: seq<Value>): (r: nat)
    ensures forall i :: 0 <= i < |items| ==> Depth(items[i]) <= r
    decreases items
  {
    if |items| == 0 then 0 else Max(Depth(items[0]), MaxDepth(items[1..]))
  }

  function MaxPairDepth(pairs: seq<(Value, Value)>): nat
    decreases pairs
  {
    if |pairs| == 0 then 0
    else
      assert pairs[0] in pairs;
      assert pairs[0].0 < pairs[0] && pairs[0].1 < pairs[0];
      Max(Max(Depth(pairs[0].0), Depth(pairs[0].1)), MaxPairDepth(pairs[1..]))
  }

  lemma PairDepthBelow(pairs: seq<(Value, Value)>, i: int)
    requires 0 <= i < |pairs|
    ensures Depth(pairs[i].0) <= MaxPairDepth(pairs) && Depth(pairs[i].1) <= MaxPairDepth(pairs)
  {
    if i > 0 {
      PairDepthBelow(pairs[1..], i - 1);
    }
  }

  lemma MaxDepthAtMost(items: seq<Value>, bound: nat)
    requires forall i :: 0 <= i < |items| ==> Depth(items[i]) <= bound
    ensures MaxDepth(items) <= bound
  {
    if |items| > 0 {
      MaxDepthAtMost(items[1..], bound);
    }
  }

  /** Python's hashable values: lists and dicts may not be dict keys. */
  predicate Hashable(v: Value) {
    !v.Sequence? && !v.Mapping?
  }

  function KeysOf(pairs: seq<(Value, Value)>): set<Value> {
    set i | 0 <= i < |pairs| :: pairs[i].0
  }

  predicate DistinctKeys(pairs: seq<(Value, Value)>) {
    forall i, j :: 0 <= i < j < |pairs| ==> pairs[i].0 != pairs[j].0
  }

  lemma KeysOfCons(pairs: seq<(Value, Value)>)
    requires |pairs| > 0
    ensures KeysOf(pairs) == {pairs[0].0} + KeysOf(pairs[1..])
    ensures DistinctKeys(pairs) <==>
      pairs[0].0 !in KeysOf(pairs[1..]) && DistinctKeys(pairs[1..])
  {
    forall x | x in KeysOf(pairs) ensures x in {pairs[0].0} + KeysOf(pairs[1..]) {
      var i :| 0 <= i < |pairs| && pairs[i].0 == x;
      if i > 0 { assert pairs[1..][i - 1].0 == x; }
    }
    forall x | x in KeysOf(pairs[1..]) ensures x in KeysOf(pairs) {
      var i :| 0 <= i < |pairs[1..]| && pairs[1..][i].0 == x;
      assert pairs[i + 1].0 == x;
    }
    if pairs[0].0 !in KeysOf(pairs[1..]) && DistinctKeys(pairs[1..]) {
      forall i, j | 0 <= i < j < |pairs| ensures pairs[i].0 != pairs[j].0 {
        if i == 0 {
          assert pairs[1..][j - 1].0 in KeysOf(pairs[1..]);
        } else {
          assert pairs[1..][i - 1].0 != pairs[1..][j - 1].0;
        }
      }
    }
    if DistinctKeys(pairs) {
      forall m | 0 <= m < |pairs[1..]| ensures pairs[1..][m].0 != pairs[0].0 {
        assert pairs[1..][m] == pairs[m + 1];
      }
    }
  }

  /** The value stored under `k` (the first pair with that key). */
  function Lookup(pairs: seq<(Value, Value)>, k: Value): (r: Option<Value>)
    ensures r.None? <==> k !in KeysOf(pairs)
    ensures r.Some? ==> Depth(r.value) <= MaxPairDepth(pairs)
    ensures r.Some? ==> exists i :: 0 <= i < |pairs| && pairs[i] == (k, r.value)
    ensures DistinctKeys(pairs) ==>
      forall i :: 0 <= i < |pairs| && pairs[i].0 == k ==> r == Some(pairs[i].1)
  {
    if |pairs| == 0 then None
    else if pairs[0].0 == k then
      PairDepthBelow(pairs, 0);
      Some(pairs[0].1)
    else
      KeysOfCons(pairs);
      var r := Lookup(pairs[1..], k);
      assert r.Some? ==> exists i :: 0 <= i < |pairs| && pairs[i] == (k, r.value) by {
        if r.Some? {
          var i :| 0 <= i < |pairs[1..]| && pairs[1..][i] == (k, r.value);
          assert pairs[i + 1] == (k, r.value);
        }
      }
      assert DistinctKeys(pairs) ==>
        forall i :: 0 <= i < |pairs| && pairs[i].0 == k ==> r == Some(pairs[i].1) by {
        if DistinctKeys(pairs) {
          forall i | 0 <= i < |pairs| && pairs[i].0 == k ensures r == Some(pairs[i].1) {
            assert pairs[1..][i - 1] == pairs[i];
          }
        }
      }
      r
  }

  /** The one property name whose assignment does not follow the rule
      below: `__proto__`. */
  const ProtoName: Value := Text("__proto__")

  /** `obj[k] = v` on a JavaScript object, own properties only: an existing
      property keeps its position and takes the new value, a new name is
      appended, nothing else changes.  The exception is `__proto__` on an
      object without an own property of that name: the assignment reaches
      the accessor every object inherits from `Object.prototype`, which
      replaces the prototype (or ignores a value that is not an object) and
      creates no own property. */
  function Put(pairs: seq<(Value, Value)>, k: Value, v: Value): (r: seq<(Value, Value)>)
    ensures k in KeysOf(pairs) ==> |r| == |pairs|
    ensures k !in KeysOf(pairs) ==> r == if k == ProtoName then pairs else pairs + [(k, v)]
    ensures forall i :: 0 <= i < |pairs| ==> r[i].0 == pairs[i].0
    ensures forall i :: 0 <= i < |pairs| && pairs[i].0 != k ==> r[i] == pairs[i]
  {
    if k == ProtoName && k !in KeysOf(pairs) then pairs else Overwrite(pairs, k, v)
  }

  /** Ordinary assignment: overwrite in place or append. */
  function Overwrite(pairs: seq<(Value, Value)>, k: Value, v: Value): (r: seq<(Value, Value)>)
    ensures k in KeysOf(pairs) ==> |r| == |pairs|
    ensures k !in KeysOf(pairs) ==> r == pairs + [(k, v)]
    ensures forall i :: 0 <= i < |pairs| ==> r[i].0 == pairs[i].0
    ensures forall i :: 0 <= i < |pairs| && pairs[i].0 != k ==> r[i] == pairs[i]
  {
    if |pairs| == 0 then [(k, v)]
    else if pairs[0].0 == k then
      assert pairs[0].0 in KeysOf(pairs);
      [(k, v)] + pairs[1..]
    else
      KeysOfCons(pairs);
      var rest := Overwrite(pairs[1..], k, v);
      assert forall i :: 1 <= i < |pairs| ==> pairs[1..][i - 1] == pairs[i];
      assert k !in KeysOf(pairs) ==> [pairs[0]] + rest == pairs + [(k, v)] by {
        if k !in KeysOf(pairs) {
          assert pairs == [pairs[0]] + pairs[1..];
        }
      }
      [pairs[0]] + rest
  }

  lemma {:induction false} OverwriteKeys(pairs: seq<(Value, Value)>, k: Value, v: Value)
    ensures KeysOf(Overwrite(pairs, k, v)) == KeysOf(pairs) + {k}
  {
    var r := Overwrite(pairs, k, v);
    KeysOfCons(r);
    if |pairs| == 0 {
      assert r[1..] == [];
      assert KeysOf([]) == {};
    } else if pairs[0].0 == k {
      KeysOfCons(pairs);
      assert r[1..] == pairs[1..];
    } else {
      OverwriteKeys(pairs[1..], k, v);
      KeysOfCons(pairs);
      assert r[1..] == Overwrite(pairs[1..], k, v);
    }
  }

  lemma {:induction false} OverwriteDistinct(pairs: seq<(Value, Value)>, k: Value, v: Value)
    requires DistinctKeys(pairs)
    ensures DistinctKeys(Overwrite(pairs, k, v))
  {
    var r := Overwrite(pairs, k, v);
    KeysOfCons(r);
    if |pairs| == 0 {
    } else if pairs[0].0 == k {
      KeysOfCons(pairs);
      assert r[1..] == pairs[1..];
    } else {
      OverwriteDistinct(pairs[1..], k, v);
      OverwriteKeys(pairs[1..], k, v);
      KeysOfCons(pairs);
      assert r[1..] == Overwrite(pairs[1..], k, v);
    }
  }

  lemma {:induction false} OverwriteLookup(pairs: seq<(Value, Value)>, k: Value, v: Value)
    ensures Lookup(Overwrite(pairs, k, v), k) == Some(v)
  {
    var r := Overwrite(pairs, k, v);
    if |pairs| > 0 && pairs[0].0 != k {
      OverwriteLookup(pairs[1..], k, v);
      assert r[1..] == Overwrite(pairs[1..], k, v);
    }
  }

  /** After the assignment the names are the old names plus the key, unless
      it went to the inherited `__proto__` accessor, which adds none. */
  lemma PutKeys(pairs: seq<(Value, Value)>, k: Value, v: Value)
    ensures k != ProtoName || k in KeysOf(pairs) ==> KeysOf(Put(pairs, k, v)) == KeysOf(pairs) + {k}
    ensures k == ProtoName && k !in KeysOf(pairs) ==> KeysOf(Put(pairs, k, v)) == KeysOf(pairs)
  {
    OverwriteKeys(pairs, k, v);
  }

  /** Assignment never duplicates a name. */
  lemma PutDistinct(pairs: seq<(Value, Value)>, k: Value, v: Value)
    requires DistinctKeys(pairs)
    ensures DistinctKeys(Put(pairs, k, v))
  {
    OverwriteDistinct(pairs, k, v);
  }

  /** After the assignment the own property holds the value assigned, unless
      the assignment went to the inherited `__proto__` accessor, which leaves
      no own property of that name. */
  lemma PutLookup(pairs: seq<(Value, Value)>, k: Value, v: Value)
    ensures k != ProtoName || k in KeysOf(pairs) ==> Lookup(Put(pairs, k, v), k) == Some(v)
    ensures k == ProtoName && k !in KeysOf(pairs) ==> Lookup(Put(pairs, k, v), k) == None
  {
    OverwriteLookup(pairs, k, v);
  }

  // ----- Python dict keys ---------------------------------------------------

  /** Python's key identity: `True == 1` and `False == 0` with equal hashes,
      so a dict or `OrderedDict` holds a boolean key and the equal integer key
      as one key.  Every other hashable value here is its own key. */
  function PyKey(k: Value): (r: Value)
    ensures !r.Bool?
    ensures !k.Bool? ==> r == k
    ensures k.Bool? ==> r == Int(if k.b then 1 else 0)
  {
    match k
    case Bool(b) => Int(if b then 1 else 0)
    case _ => k
  }

  /** The keys of a run of values as Python's dict tells them apart. */
  function PyKeys(xs: seq<Value>): set<Value> {
    set i | 0 <= i < |xs| :: PyKey(xs[i])
  }

  /** No two of `xs` are the same Python dict key. */
  predicate PyDistinct(xs: seq<Value>) {
    forall i, j :: 0 <= i < j < |xs| ==> PyKey(xs[i]) != PyKey(xs[j])
  }

  function PyKeysOf(pairs: seq<(Value, Value)>): set<Value> {
    set i | 0 <= i < |pairs| :: PyKey(pairs[i].0)
  }

  predicate PyDistinctKeys(pairs: seq<(Value, Value)>) {
    forall i, j :: 0 <= i < j < |pairs| ==> PyKey(pairs[i].0) != PyKey(pairs[j].0)
  }

  lemma PyKeysOfCons(pairs: seq<(Value, Value)>)
    requires |pairs| > 0
    ensures PyKeysOf(pairs) == {PyKey(pairs[0].0)} + PyKeysOf(pairs[1..])
    ensures PyDistinctKeys(pairs) <==>
      PyKey(pairs[0].0) !in PyKeysOf(pairs[1..]) && PyDistinctKeys(pairs[1..])
  {
    forall x | x in PyKeysOf(pairs) ensures x in {PyKey(pairs[0].0)} + PyKeysOf(pairs[1..]) {
      var i :| 0 <= i < |pairs| && PyKey(pairs[i].0) == x;
      if i > 0 { assert PyKey(pairs[1..][i - 1].0) == x; }
    }
    forall x | x in PyKeysOf(pairs[1..]) ensures x in PyKeysOf(pairs) {
      var i :| 0 <= i < |pairs[1..]| && PyKey(pairs[1..][i].0) == x;
      assert PyKey(pairs[i + 1].0) == x;
    }
    if PyKey(pairs[0].0) !in PyKeysOf(pairs[1..]) && PyDistinctKeys(pairs[1..]) {
      forall i, j | 0 <= i < j < |pairs| ensures PyKey(pairs[i].0) != PyKey(pairs[j].0) {
        if i == 0 {
          assert PyKey(pairs[1..][j - 1].0) in PyKeysOf(pairs[1..]);
        } else {
          assert PyKey(pairs[1..][i - 1].0) != PyKey(pairs[1..][j - 1].0);
        }
      }
    }
    if PyDistinctKeys(pairs) {
      forall m | 0 <= m < |pairs[1..]| ensures PyKey(pairs[1..][m].0) != PyKey(pairs[0].0) {
        assert pairs[1..][m] == pairs[m + 1];
      }
    }
  }

  /** `d[k]` / `d.get(k)` in Python: the value stored under the key Python
      identifies with `k`, if any. */
  function PyLookup(pairs: seq<(Value, Value)>, k: Value): (r: Option<Value>)
    ensures r.None? <==> PyKey(k) !in PyKeysOf(pairs)
    ensures r.Some? ==> Depth(r.value) <= MaxPairDepth(pairs)
    ensures r.Some? ==> exists i :: 0 <= i < |pairs| && PyKey(pairs[i].0) == PyKey(k) && pairs[i].1 == r.value
    ensures PyDistinctKeys(pairs) ==>
      forall i :: 0 <= i < |pairs| && PyKey(pairs[i].0) == PyKey(k) ==> r == Some(pairs[i].1)
  {
    if |pairs| == 0 then None
    else if PyKey(pairs[0].0) == PyKey(k) then
      PairDepthBelow(pairs, 0);
      assert PyKey(pairs[0].0) in PyKeysOf(pairs);
      Some(pairs[0].1)
    else
      PyKeysOfCons(pairs);
      var r := PyLookup(pairs[1..], k);
      assert r.Some? ==> exists i :: 0 <= i < |pairs| && PyKey(pairs[i].0) == PyKey(k) && pairs[i].1 == r.value by {
        if r.Some? {
          var i :| 0 <= i < |pairs[1..]| && PyKey(pairs[1..][i].0) == PyKey(k) && pairs[1..][i].1 == r.value;
          assert pairs[i + 1] == pairs[1..][i];
        }
      }
      assert PyDistinctKeys(pairs) ==>
        forall i :: 0 <= i < |pairs| && PyKey(pairs[i].0) == PyKey(k) ==> r == Some(pairs[i].1) by {
        if PyDistinctKeys(pairs) {
          forall i | 0 <= i < |pairs| && PyKey(pairs[i].0) == PyKey(k) ensures r == Some(pairs[i].1) {
            assert pairs[1..][i - 1] == pairs[i];
          }
        }
      }
      r
  }

  /** `d[k] = v` in Python: when `d` already holds the key Python identifies
      with `k`, that entry keeps its key object and its position and takes
      the new value; otherwise the pair is appended.  Nothing else changes. */
  function PyPut(pairs: seq<(Value, Value)>, k: Value, v: Value): (r: seq<(Value, Value)>)
    ensures PyKey(k) in PyKeysOf(pairs) ==> |r| == |pairs|
    ensures PyKey(k) !in PyKeysOf(pairs) ==> r == pairs + [(k, v)]
    ensures forall i :: 0 <= i < |pairs| ==> r[i].0 == pairs[i].0
    ensures forall i :: 0 <= i < |pairs| && PyKey(pairs[i].0) != PyKey(k) ==> r[i] == pairs[i]
  {
    if |pairs| == 0 then [(k, v)]
    else if PyKey(pairs[0].0) == PyKey(k) then
      assert PyKey(pairs[0].0) in PyKeysOf(pairs);
      [(pairs[0].0, v)] + pairs[1..]
    else
      PyKeysOfCons(pairs);
      var rest := PyPut(pairs[1..], k, v);
      assert forall i :: 1 <= i < |pairs| ==> pairs[1..][i - 1] == pairs[i];
      assert PyKey(k) !in PyKeysOf(pairs) ==> [pairs[0]] + rest == pairs + [(k, v)] by {
        if PyKey(k) !in PyKeysOf(pairs) {
          assert pairs == [pairs[0]] + pairs[1..];
        }
      }
      [pairs[0]] + rest
  }

  lemma {:induction false} PyPutKeys(pairs: seq<(Value, Value)>, k: Value, v: Value)
    ensures PyKeysOf(PyPut(pairs, k, v)) == PyKeysOf(pairs) + {PyKey(k)}
  {
    var r := PyPut(pairs, k, v);
    PyKeysOfCons(r);
    if |pairs| == 0 {
      assert r[1..] == [];
      assert PyKeysOf([]) == {};
    } else if PyKey(pairs[0].0) == PyKey(k) {
      PyKeysOfCons(pairs);
      assert r[1..] == pairs[1..];
    } else {
      PyPutKeys(pairs[1..], k, v);
      PyKeysOfCons(pairs);
      assert r[1..] == PyPut(pairs[1..], k, v);
    }
  }

  lemma {:induction false} PyPutDistinct(pairs: seq<(Value, Value)>, k: Value, v: Value)
    requires PyDistinctKeys(pairs)
    ensures PyDistinctKeys(PyPut(pairs, k, v))
  {
    var r := PyPut(pairs, k, v);
    PyKeysOfCons(r);
    if |pairs| == 0 {
    } else if PyKey(pairs[0].0) == PyKey(k) {
      PyKeysOfCons(pairs);
      assert r[1..] == pairs[1..];
    } else {
      PyPutDistinct(pairs[1..], k, v);
      PyPutKeys(pairs[1..], k, v);
      PyKeysOfCons(pairs);
      assert r[1..] == PyPut(pairs[1..], k, v);
    }
  }

  lemma {:induction false} PyPutLookup(pairs: seq<(Value, Value)>, k: Value, v: Value)
    ensures PyLookup(PyPut(pairs, k, v), k) == Some(v)
  {
    var r := PyPut(pairs, k, v);
    if |pairs| > 0 && PyKey(pairs[0].0) != PyKey(k) {
      PyPutLookup(pairs[1..], k, v);
      assert r[1..] == PyPut(pairs[1..], k, v);
    }
  }

  /** Assigning `True` to a dict that holds `1` overwrites the value under
      `1` and keeps the key `1`. */
  lemma BoolUpdatesInt(a: Value, b: Value)
    ensures PyPut([(Int(1), a)], Bool(true), b) == [(Int(1), b)]
    ensures PyLookup([(Int(1), a)], Bool(true)) == Some(a)
    ensures PyPut([(Int(0), a)], Bool(false), b) == [(Int(0), b)]
  {
  }

  /** Equality of host values as Python compares them, except that scalars
      compare structurally (so `True` and `1` differ as values): sequences
      element-wise, mappings by their set of Python keys and the values under
      the same key (so neither the order of a mapping's entries nor the
      choice between `True` and `1` as a key object matters). */
  predicate Equiv(a: Value, b: Value)
    decreases a
  {
    match a
    case Sequence(xs) =>
      b.Sequence? && |xs| == |b.items| &&
      forall i :: 0 <= i < |xs| ==> Equiv(xs[i], b.items[i])
    case Mapping(ps) =>
      b.Mapping? && PyKeysOf(ps) == PyKeysOf(b.pairs) &&
      forall i, j :: 0 <= i < |ps| && 0 <= j < |b.pairs| && PyKey(ps[i].0) == PyKey(b.pairs[j].0) ==>
        Equiv(ps[i].1, b.pairs[j].1)
    case _ => a == b
  }
}

=== FILE: wrappers.dfy ===
/** Failure-compatible Option and Result datatypes used by every codec in this
    project, so that `:-` propagates a decoding or encoding error. */
module Wrappers {

  datatype Option<+T> = None | Some(value: T)

  datatype Result<+T, +E> = Success(value: T) | Failure(error: E) {

    predicate IsFailure() {
      Failure?
    }

    function PropagateFailure<U>(): Result<U, E>
      requires Failure?
    {
      Failure(error)
    }

    function Extract(): T
      requires Success?
    {
      value
    }
  }
}
